=== FILE: README.md ===
# SistersConnect matching core in Dafny

This project models the matching core of SistersConnect, a companionship app
for Muslim women, and proves properties of the model. The model covers these parts:

- **Scoring utilities** (`Scoring`): age compatibility, normalisation, weighted
  averages, Jaccard and cosine similarity, time decay, popularity penalty,
  percentile rank and diversity bonus.
- **Location utilities** (`Locations`): same city, same timezone and timezone
  offset. The Haversine distance is an abstract function.
- **Compatibility scorer** (`CompatibilityScorer`): the deal-breaker check, the
  six sub-scores, the weighting and clamping of the total, and the match
  reasons and special features.
- **Social graph** (`SocialGraph`):
  - mutual connections, friends of friends, community members and event attendees;
  - the four capped components of the social bonus;
  - community clustering;
  - the breadth-first trust path and its trust score;
  - recommendations by trust path, and influence.
- **Preference filter** (`PreferenceFilter`):
  - the hard, behaviour and privacy filter stages;
  - the four special-feature filters;
  - learning preferences from behaviour, and conversation starters.
- **Matching service** (`MatchingService`):
  - `findMatches`, with its explicit match cache (results plus expiry times);
  - the cache key and its 32-bit string hash;
  - `clearCache` and ranking;
  - special-feature matches and collaborative recommendations;
  - popularity, network density and network analysis.
- **Behaviour tracker** (`BehaviorTracker`):
  - recording interactions and analysing preferences;
  - collaborative-filtering prediction over behaviourally similar users;
  - the machine-learning score adjustment, and recommendation diversity.
- **Form validation** (`Validation`): email, password, password confirmation
  and name.
- **Video helpers** (`VideoUtils`):
  - duration formatting, with its inverse;
  - category lookup and content appropriateness;
  - Islamic content validation, hashtag suggestion and engagement score.
- **Authentication reducer** (`AuthReducer`): the initial state and the
  reducer of the authentication context.

Supporting modules hold the rest. `Seqs` and `Strings` hold sequence and string
helpers. `Types` holds the shared profile, preference, connection and score
records. `JsNumber` holds a JavaScript number as a real or NaN, with the
clamping operations the code uses. `JsObject` holds a plain object used as a
counter: the order `Object.entries` lists its keys in (array indexes first,
ascending), and the keys it inherits from `Object.prototype`.

The model follows the TypeScript code. It keeps the code's constants, branch
order and error messages, and keeps its quirks; several of the lemmas below
record them. Where the prose description of the system and the code disagree,
the code is modelled:

- the network-density bonus counts each internal link once from each end;
- `clearCache(userId)` drops every key that merely contains the id;
- the collaborative bonus stays within 8 points either way, not 10;
- a deal-breaker answers with an all-zero breakdown.
- the category icons of `ISLAMIC_CATEGORIES` (types.ts:135-189) are the
  characters the file holds, each emoji's UTF-8 bytes read as Mac Roman
  (`"\U{F8FF}\U{00FC}\U{00EC}\U{00F1}"` for the quran category), not the
  intended emoji.

Some inputs are parameters of the model:

- **`Env`** (and plain function parameters) supplies the Haversine distance, `Math.exp` decay, `Math.sqrt`,
  and the number-to-text and `toFixed(1)` conversions.
- **`Clock`** supplies the current time and the 30-day and six-month cut-offs.
- **A `serialize` function** stands in for `JSON.stringify` of the
  preferences in the cache key.

JavaScript numbers are exact reals, with NaN kept where the code can produce it.

## Model

| member | source | states |
|---|---|---|
| Scoring.AgeCompatibility | src/utils/scoring.ts:8-38 | zero exactly when the second age is outside the range; inside it, between 20 and 100, with 100 for the same age, 95 up to 2 years, 80 up to 5 and 60 up to 10 |
| Scoring.AgeCompatibilityMonotone | src/utils/scoring.ts:19-37 | within the stepped regime (gap up to 10) and within the linear regime (gap over 10), a smaller gap never scores lower |
| Scoring.AgeCompatibilityGapElevenInWideRange | src/utils/scoring.ts:31-37 | across the two regimes the score is not monotone: in the range 18-80 a gap of 10 scores 60 and a gap of 11 scores above 85 |
| Scoring.NormalizeScore | src/utils/scoring.ts:43-45 | the result lies in [min, max] for an ordered range, equals the score inside it, and is the nearer bound outside it |
| Scoring.NormalizeIdempotent | src/utils/scoring.ts:43-45 | normalising twice gives the same value as normalising once |
| Scoring.WeightedAverage | src/utils/scoring.ts:57-67 | zero for a zero total weight; otherwise the result times the total weight is the weighted sum |
| Scoring.WeightedAverageBounds | src/utils/scoring.ts:57-67 | with non-negative weights and a non-zero total, the average lies between the lowest and the highest score |
| Scoring.WeightedAverageConstant | src/utils/scoring.ts:57-67 | averaging scores that are all equal to c gives c |
| Scoring.Jaccard | src/utils/scoring.ts:72-82 | a percentage; zero exactly when the two sets share nothing; 100 exactly when they are the same non-empty set |
| Scoring.JaccardSymmetric | src/utils/scoring.ts:72-82 | the coefficient does not depend on the order of the two lists |
| Scoring.NormZeroIff | src/utils/scoring.ts:96-102 | a squared norm is non-negative and is zero exactly when every component is zero |
| Scoring.Cosine | src/utils/scoring.ts:87-105 | an error with the message "Vectors must have the same length" exactly when the lengths differ; zero when either vector is all zeros |
| Scoring.CosineSymmetric | src/utils/scoring.ts:87-105 | the similarity of two equally long vectors does not depend on their order |
| Scoring.TimeDecay | src/utils/scoring.ts:110-116 | with a positive factor, NaN stays NaN, the sign of the score is kept, and a factor at most 1 never raises a positive score |
| Scoring.PopularityPenalty | src/utils/scoring.ts:162-173 | NaN exactly for a NaN score; otherwise never negative, never above a non-negative score, and never more than maxPenalty below it |
| Scoring.SortAscending | src/utils/scoring.ts:122 | a permutation of the scores in ascending order |
| Scoring.FirstAtLeast | src/utils/scoring.ts:123 | -1 exactly when every entry is below the score; otherwise the first index whose entry reaches it |
| Scoring.PercentileRank | src/utils/scoring.ts:121-128 | 100 exactly when every score in the list is below the given one; always within [0, 100] |
| Scoring.CountBelowPermutation | src/utils/scoring.ts:122-127 | the number of entries below a score does not depend on their order, so the sort changes only where the first one is found |
| Scoring.PercentileRankCountsBelow | src/utils/scoring.ts:121-128 | when some entry reaches the score, the rank is the share of entries strictly below it, times 100 |
| Scoring.DiversityBonus | src/utils/scoring.ts:140-157 | zero without earlier recommendations; NaN for a candidate without features; otherwise within [0, maxBonus], and zero exactly when every feature of the candidate was recommended before |
| Locations.SameCityIsEquivalence | src/utils/location.ts:35-38 | the same-city test is reflexive, symmetric and transitive |
| Locations.SameCityIgnoresCase | src/utils/location.ts:35-38 | writing a city and country in capitals does not change the verdict against any other location |
| Locations.SameStringsSameCity | src/utils/location.ts:35-38 | identical city and country strings are always the same city |
| Locations.SameTimezoneIsExact | src/utils/location.ts:43-45 | the timezone test is plain equality of the identifiers: an equivalence that folds no case ("UTC" and "utc" differ) and knows no aliases (UTC and Europe/London differ, though 0 hours apart) |
| Locations.OffsetOf | src/utils/location.ts:53-71 | every offset, including the fallback of 0 for a zone outside the table, lies between -8 and +10 hours |
| Locations.TimezoneOffset | src/utils/location.ts:50-74 | a whole number of hours, at most 18, and 0 for the same zone |
| Locations.TimezoneOffsetSymmetric | src/utils/location.ts:73 | the difference does not depend on the order of the two locations |
| Locations.TimezoneOffsetTriangle | src/utils/location.ts:70-73 | going through a third zone is never shorter than the direct difference |
| Locations.UnknownZoneActsAsUtc | src/utils/location.ts:70-71 | a zone missing from the table is treated exactly like UTC |
| Locations.TimezoneOffsetExamples | src/utils/location.ts:53-73 | New York to London is 5 hours, Los Angeles to Sydney is 18, and an unknown zone to UTC is 0 |
| CompatibilityScorer.CheckDealBreakers | src/matching/algorithms/compatibility-scorer.ts:79-132 | the failures reported are exactly the checks whose condition holds, each once and as a subsequence of the six checks in the order they are made (age first), so at most six; the pair passes exactly when none is reported |
| CompatibilityScorer.PassesIffNoneFires | src/matching/algorithms/compatibility-scorer.ts:128-131 | passing is the same as no deal-breaker condition holding |
| CompatibilityScorer.DealBreakerReported | src/matching/algorithms/compatibility-scorer.ts:86-126 | each of the six failures (age, distance, practice level, hijab, family status, languages) is reported exactly when its condition holds |
| CompatibilityScorer.InterestScore | src/matching/algorithms/compatibility-scorer.ts:137-171 | 50 when neither profile lists an interest; otherwise within [0, 100] and zero exactly when the two interest lists share nothing |
| CompatibilityScorer.Proximity | src/matching/algorithms/compatibility-scorer.ts:181-192 | 0 beyond the maximum distance; 100 for the same city name within it; NaN exactly for a zero maximum with a different city; otherwise within [0, 100] |
| CompatibilityScorer.ProximityMonotone | src/matching/algorithms/compatibility-scorer.ts:183-191 | with a positive maximum, a shorter distance never scores lower |
| CompatibilityScorer.LocationScore | src/matching/algorithms/compatibility-scorer.ts:176-192 | the proximity score for the two profiles: 0 beyond the maximum, 100 for the same city string, NaN only for a zero maximum and different cities |
| CompatibilityScorer.CityCaseMatters | src/matching/algorithms/compatibility-scorer.ts:186 | the city comparison here is case-sensitive: two different spellings at a positive distance within the maximum score below 100 |
| CompatibilityScorer.LanguageScore | src/matching/algorithms/compatibility-scorer.ts:212-242 | within [0, 100]; zero exactly when the two language lists share nothing; at least 20 when the primary languages overlap |
| CompatibilityScorer.Nearness | src/matching/algorithms/compatibility-scorer.ts:253-256 | a per-factor score in [0, 100] that is 100 for equal positions on a scale |
| CompatibilityScorer.NearnessSymmetric | src/matching/algorithms/compatibility-scorer.ts:255 | the per-factor score does not depend on the order of the two positions |
| CompatibilityScorer.IslamicScore | src/matching/algorithms/compatibility-scorer.ts:247-289 | the four-factor average lies between 30 and 102.5; the new-Muslim bonus can lift it above 100 |
| CompatibilityScorer.IslamicScoreSymmetric | src/matching/algorithms/compatibility-scorer.ts:247-289 | the Islamic compatibility does not depend on which user comes first |
| CompatibilityScorer.IslamicScoreTop | src/matching/algorithms/compatibility-scorer.ts:252-288 | 102.5 is reached exactly when level, prayer and mosque habits match, both wear hijab, and one of the two is a new Muslim |
| CompatibilityScorer.IslamicScoreIdentical | src/matching/algorithms/compatibility-scorer.ts:247-289 | two identical Islamic profiles score at least 95 |
| CompatibilityScorer.WorkStatusCompatibility | src/matching/algorithms/compatibility-scorer.ts:349-359 | every entry of the matrix, and the fallback, lies between 50 and 100 |
| CompatibilityScorer.WorkStatusMatrixFacts | src/matching/algorithms/compatibility-scorer.ts:350-358 | the matrix is symmetric, its diagonal is 100, and a status outside it scores 50 against anything |
| CompatibilityScorer.AvailabilityCompatibility | src/matching/algorithms/compatibility-scorer.ts:361-368 | 100 less 20 per step between the two levels, so between 20 and 100, and 100 exactly for the same level |
| CompatibilityScorer.AvailabilitySymmetric | src/matching/algorithms/compatibility-scorer.ts:361-368 | the availability score does not depend on the order of the two levels |
| CompatibilityScorer.MeetingTimeScore | src/matching/algorithms/compatibility-scorer.ts:336-343 | NaN exactly when both lists are empty; otherwise within [0, 100] and zero exactly when they share no time |
| CompatibilityScorer.LifestyleScore | src/matching/algorithms/compatibility-scorer.ts:294-347 | NaN exactly when neither user lists a meeting time; otherwise between 40 and 100 |
| CompatibilityScorer.AllReasonsListed | src/matching/algorithms/compatibility-scorer.ts:380-408 | the seven reasons checked cover every reason the model can give |
| CompatibilityScorer.MatchReasons | src/matching/algorithms/compatibility-scorer.ts:373-411 | a reason is given exactly when its threshold is passed; the same-city and close-by reasons never both appear; at most seven |
| CompatibilityScorer.SpecialFeatureList | src/matching/algorithms/compatibility-scorer.ts:416-453 | at most three features; the mentor feature exactly for a new Muslim paired with an established one, the mentoring opportunity exactly the other way round, both only with mentorship on |
| CompatibilityScorer.OverlapFeatures | src/matching/algorithms/compatibility-scorer.ts:424-450 | the study-buddy and networking features appear exactly when their preference is on and the two lists overlap, and they name exactly the shared entries |
| CompatibilityScorer.MentorshipNeedsExactlyOneNewMuslim | src/matching/algorithms/compatibility-scorer.ts:434-440 | a mentorship feature implies exactly one of the two is a new Muslim, and never both mentorship features at once |
| CompatibilityScorer.CalculateCompatibility | src/matching/algorithms/compatibility-scorer.ts:14-74 | a failed pair scores 0 with an all-zero breakdown, no features, and one message per failed check; a passing pair gets the weighted breakdown, the clamped weighted total, its reasons and features; the total is never outside [0, 100] |
| CompatibilityScorer.SocialBonusMonotone | src/matching/algorithms/compatibility-scorer.ts:57-69 | for a passing pair and a positive total weight, a larger social-graph bonus never lowers the total |
| CompatibilityScorer.AgeDealBreakerExample | src/matching/algorithms/compatibility-scorer.ts:87-90 | a 27-year-old against the range 30-40 scores 0 with the message "Age 27 is outside preferred range 30-40" |
| SocialGraph.AdjacentSymmetric | src/matching/algorithms/social-graph.ts:340-349 | an accepted connection joins its two ends in both directions |
| SocialGraph.UserConnections | src/matching/algorithms/social-graph.ts:340-349 | an id is listed exactly when an accepted connection joins it to the user; no more entries than connections |
| SocialGraph.AdjacentInEndpoints | src/matching/algorithms/social-graph.ts:340-349 | every id reached through an accepted connection is an end of some connection |
| SocialGraph.MutualConnections | src/matching/algorithms/social-graph.ts:52-63 | an id is listed exactly when it is connected to both users |
| SocialGraph.FriendsOfFriends | src/matching/algorithms/social-graph.ts:68-86 | without repeats, exactly the ids two steps away that are neither the user nor a direct connection |
| SocialGraph.CommunityMembers | src/matching/algorithms/social-graph.ts:91-109 | without repeats, exactly the other members of the communities the user belongs to |
| SocialGraph.EventAttendees | src/matching/algorithms/social-graph.ts:114-132 | without repeats, exactly the other attendees of the events the user attended |
| SocialGraph.MutualBonusFor | src/matching/algorithms/social-graph.ts:235-236 | five points per mutual connection up to five, and 25 from then on |
| SocialGraph.MutualBonusMonotone | src/matching/algorithms/social-graph.ts:235-236 | more mutual connections never give a smaller bonus |
| SocialGraph.MutualConnectionsBonus | src/matching/algorithms/social-graph.ts:228-237 | within [0, 25] and zero exactly when the two users have no connection in common |
| SocialGraph.CommunitiesOf | src/matching/algorithms/social-graph.ts:244-250 | exactly the communities that list the user as a member |
| SocialGraph.SharedCommunities | src/matching/algorithms/social-graph.ts:252-254 | the first user's communities whose id also names a community of the second user |
| SocialGraph.CommunityBonus | src/matching/algorithms/social-graph.ts:239-278 | within [0, 20] and zero exactly when the two users share no community |
| SocialGraph.SameMosqueIsSharedAffiliation | src/matching/algorithms/social-graph.ts:269-272 | the same-mosque bonus applies exactly when some shared community has a non-empty mosque affiliation; the user's other communities play no part |
| SocialGraph.EventsOf | src/matching/algorithms/social-graph.ts:285-291 | exactly the events the user attended |
| SocialGraph.SharedEvents | src/matching/algorithms/social-graph.ts:293-295 | the first user's events whose id also names an event of the second user |
| SocialGraph.EventBonus | src/matching/algorithms/social-graph.ts:280-311 | within [0, 15] and zero exactly when the two users share no event |
| SocialGraph.CombinedNetwork | src/matching/algorithms/social-graph.ts:318-322 | without repeats, exactly the ids connected to either user |
| SocialGraph.Interconnections | src/matching/algorithms/social-graph.ts:323-329 | zero exactly when no member of the network is connected to another member of it |
| SocialGraph.NetworkDensityBonus | src/matching/algorithms/social-graph.ts:313-338 | within [0, 10]; zero exactly when the combined network has fewer than two people or no internal link |
| SocialGraph.Density | src/matching/algorithms/social-graph.ts:334-337 | the capped density of at least two people lies in [0, 10] and is zero exactly when there is no link |
| SocialGraph.SocialGraphBonus | src/matching/algorithms/social-graph.ts:13-47 | the sum of the four bonuses, capped at 50, is never negative |
| SocialGraph.SocialGraphBonusZeroIff | src/matching/algorithms/social-graph.ts:13-47 | no bonus at all exactly when there is no mutual connection, shared community or shared event, and the combined network has no internal link |
| SocialGraph.ClusteringScore | src/matching/algorithms/social-graph.ts:144-155 | a percentage, and 0 for a community of fewer than two members |
| SocialGraph.ClusteringScoreValues | src/matching/algorithms/social-graph.ts:152-155 | up to seven members the score is 100; from seven on it is 600 / (n - 1) |
| SocialGraph.CommunityClustering | src/matching/algorithms/social-graph.ts:137-159 | one percentage per community id, and no other keys |
| SocialGraph.ClusteringLastWins | src/matching/algorithms/social-graph.ts:142-156 | when two communities share an id, the later one's score is the one kept |
| SocialGraph.FindTrustPath | src/matching/algorithms/social-graph.ts:351-384 | a path is found exactly when some walk of at most maxDistance ids along accepted connections leads from the start to the target, and a found path is such a walk; the start alone is the path to itself |
| SocialGraph.NotReachable | src/matching/algorithms/social-graph.ts:358-383 | once the queue runs dry without meeting the target, no walk within the bound reaches it |
| SocialGraph.ExtendWalk | src/matching/algorithms/social-graph.ts:372-378 | appending a neighbour of its last id to a path along connections gives a path along connections from the same start |
| SocialGraph.TrustScore | src/matching/algorithms/social-graph.ts:386-413 | at most 100, and 0 for a path of at most one id |
| SocialGraph.StabilityRange | src/matching/algorithms/social-graph.ts:406-407 | a connection not dated in the future multiplies trust by a factor between 1 and 1.2 |
| SocialGraph.EdgeFactorRange | src/matching/algorithms/social-graph.ts:398-409 | each step's connection factor lies between 1 and 1.2 when no connection is dated in the future |
| SocialGraph.ProductBounds | src/matching/algorithms/social-graph.ts:389-410 | after k steps the running trust factor is positive and at most 0.84 to the k |
| SocialGraph.TrustScoreSettled | src/matching/algorithms/social-graph.ts:386-413 | for a path of two or more ids and no connection dated in the future, the trust score is positive and at most 84 |
| SocialGraph.RecommendationsByTrustPath | src/matching/algorithms/social-graph.ts:164-190 | strongest trust first; one entry per person, and a person has an entry exactly when they are a friend of a friend reachable by a walk of at most maxDistance ids; each entry carries such a walk, three to maxDistance ids long, and that walk's trust score |
| SocialGraph.CollectTrusted | src/matching/algorithms/social-graph.ts:175-186 | one recommendation per candidate the trust-path search reaches, none for the others, each backed by its walk and trust score |
| SocialGraph.FriendOfFriendPathLength | src/matching/algorithms/social-graph.ts:172-178 | a walk from the user to a friend of a friend has at least three ids |
| SocialGraph.InfluenceScore | src/matching/algorithms/social-graph.ts:195-224 | within [0, 100]; zero exactly when the user has no connection, belongs to no community and organises no event |
| PreferenceFilter.FilterCandidates | src/matching/filters/preference-filter.ts:13-150 | a candidate survives exactly when it passes the hard rules, the behaviour rules when a record is given, and the privacy rules (not the requester, verified, active within 30 days) |
| PreferenceFilter.FilterCandidatesSubsequence | src/matching/filters/preference-filter.ts:13-33 | filtering only deletes: the survivors keep their relative order |
| PreferenceFilter.FilterCandidatesIdempotent | src/matching/filters/preference-filter.ts:13-33 | filtering the survivors again removes nothing |
| PreferenceFilter.SpecialFeatureFilter | src/matching/filters/preference-filter.ts:256-345 | for each feature type, a candidate is kept exactly when it meets that type's test: a shared study or Islamic interest; exactly one new Muslim or an age gap of five; the same city and a shared meeting time; a shared professional interest with both working or studying |
| PreferenceFilter.SpecialMatchSymmetric | src/matching/filters/preference-filter.ts:275-345 | every feature test gives the same verdict with requester and candidate swapped |
| PreferenceFilter.LikedAges | src/matching/filters/preference-filter.ts:348-353 | one age per liked id that resolves to a user, in id order: the i-th age is that of the user the i-th resolving id finds, and every liked user found contributes its age |
| PreferenceFilter.SumSquaredDeviation | src/matching/filters/preference-filter.ts:166-168 | the sum of squared deviations is never negative |
| PreferenceFilter.LearnedAgeRange | src/matching/filters/preference-filter.ts:164-175 | the learned range stays within 18-80 and contains the mean age whenever the mean lies in 18-80 |
| PreferenceFilter.UpdatePreferencesFromBehavior | src/matching/filters/preference-filter.ts:155-197 | only the age range can change; it is kept with fewer than three resolvable liked ages and otherwise is the range learned from the liked ages (`LearnedAgeRange`), within 18-80 and containing their mean when that mean is within 18-80; the distance never shrinks and the soft preferences are unchanged |
| PreferenceFilter.DistanceRule | src/matching/filters/preference-filter.ts:178-185 | only the maximum distance can change and it never shrinks; with three or more distances it covers 1.2 times their mean; with fewer nothing changes |
| PreferenceFilter.UpdateWithoutLikesIsIdentity | src/matching/filters/preference-filter.ts:163-196 | with fewer than three liked ids the preferences come back unchanged |
| PreferenceFilter.StarterList | src/matching/filters/preference-filter.ts:202-251 | the greeting alone exactly when no other starter applies; otherwise exactly the first min(3, applicable) applicable starters in the fixed order of the checks, so every applicable one is given when fewer than three are; a shared interest in Quran study always comes first |
| PreferenceFilter.TriggeredFire | src/matching/filters/preference-filter.ts:202-247 | the starters kept from the fixed list are exactly those whose condition holds |
| PreferenceFilter.TriggeredIsCandidate | src/matching/filters/preference-filter.ts:208-243 | every starter whose condition holds is among those considered |
| PreferenceFilter.ConversationStarters | src/matching/filters/preference-filter.ts:202-251 | the rendered starters number between one and three |
| MatchingService.Signed | src/services/matching-service.ts:498-499 | the 32-bit pattern read as a two's complement integer: in range, non-negative exactly below 2^31, and congruent to the pattern modulo 2^32 |
| MatchingService.HashString | src/services/matching-service.ts:494-502 | one to eight hexadecimal digits, never an underscore |
| MatchingService.CacheKey | src/services/matching-service.ts:461-464 | the user id, an underscore and the hash of the serialised preferences, which never needs cutting at twenty characters |
| MatchingService.OwnerOfSeparated | src/services/matching-service.ts:463 | the text before the last underscore of an id, an underscore and an underscore-free suffix is the id |
| MatchingService.OwnerOfKey | src/services/matching-service.ts:461-464 | every cache key names the user it was made for |
| MatchingService.KeyDeterminesUser | src/services/matching-service.ts:461-464 | two users never share a cache key, whatever their preferences |
| MatchingService.KeyContainsUser | src/services/matching-service.ts:319-327 | a user's key contains the user's id, so clearing the user can find it |
| MatchingService.CacheResults | src/services/matching-service.ts:473-477 | adds or replaces only the given key, keeps both maps on the same keys, and leaves every other entry as it was |
| MatchingService.CacheValidWindow | src/services/matching-service.ts:466-477 | a stored entry reads back as the stored list and is valid exactly until thirty minutes after it was written (an expiry of 0 counts as missing) |
| MatchingService.CacheResultsSound | src/services/matching-service.ts:113-126 | storing a list of positive matches that never names the user keeps every cached list that way |
| MatchingService.ClearCache | src/services/matching-service.ts:319-332 | with no id or an empty one everything is dropped; otherwise exactly the results whose key contains the id go, with their expiries, and nothing else changes |
| MatchingService.ClearCacheForgetsUser | src/services/matching-service.ts:319-332 | after clearing a user, none of that user's keys is stored or valid |
| MatchingService.ClearCacheSound | src/services/matching-service.ts:319-332 | clearing only deletes, so cached lists stay positive and free of their own user |
| MatchingService.ClearCacheOverreaches | src/services/matching-service.ts:321-323 | the substring test also drops other users' entries: clearing "a" removes the key of user "ab" |
| MatchingService.Popularity | src/services/matching-service.ts:412-424 | never more than the user's accepted connections, and zero exactly when none was accepted within the window |
| MatchingService.PopularityWindowMonotone | src/services/matching-service.ts:413-421 | a window that starts earlier never counts fewer connections |
| MatchingService.NetworkDensity | src/services/matching-service.ts:479-492 | a percentage that is zero exactly when the user has fewer than two accepted connections |
| MatchingService.DensityRatio | src/services/matching-service.ts:488-491 | n over n(n-1)/2, as a percentage, equals 200 / (n - 1) |
| MatchingService.NetworkDensityValues | src/services/matching-service.ts:479-492 | the density is 100 for two or three connections and 200 / (n - 1) from three on |
| MatchingService.NetworkAnalysis | src/services/matching-service.ts:274-314 | the counts are bounded by their lists and zero exactly when the user has no connection or no community; the mutual-connection map is empty; influence and density are percentages; density is zero exactly below two connections |
| MatchingService.DecayThenPenalize | src/services/matching-service.ts:103-111 | the decayed and penalised total is never negative, and positive only when the original total was |
| MatchingService.ScoreCandidate | src/services/matching-service.ts:85-111 | the score names the candidate, is never negative, and is positive only when the compatibility score with its social bonus was |
| MatchingService.KeepPositive | src/services/matching-service.ts:83-116 | exactly the positive scores of the candidates are kept |
| MatchingService.SumNums | src/services/matching-service.ts:361 | the sum is NaN exactly when one of the entries is |
| MatchingService.SquaredDeviation | src/services/matching-service.ts:362 | the summed squared deviation is never negative |
| MatchingService.Variety | src/services/matching-service.ts:359-366 | NaN exactly when a breakdown entry is NaN; otherwise at most 100 |
| MatchingService.BalancedVariety | src/services/matching-service.ts:359-366 | seven equal entries have variety 100 less the square root of zero |
| MatchingService.Difference | src/services/matching-service.ts:348 | a difference is NaN exactly when either side is |
| MatchingService.RankCompareAntisymmetric | src/services/matching-service.ts:345-356 | swapping the two matches negates the comparator, so neither sorts after the other both ways |
| MatchingService.RankCompareByScore | src/services/matching-service.ts:347-349 | totals more than five points apart order by total alone, higher first |
| MatchingService.DecorateAll | src/services/matching-service.ts:338-344 | each match gets its percentile among all the totals, in place |
| MatchingService.RankMatches | src/services/matching-service.ts:336-357 | a permutation of the decorated matches: each entry is a match of the input with its percentile added |
| MatchingService.RankMatchesDecorates | src/services/matching-service.ts:338-344 | every ranked entry carries a percentile within [0, 100] and is otherwise unchanged from an input match |
| MatchingService.SeparatedPair | src/services/matching-service.ts:345-356 | for totals equal with equal breakdowns, or more than five points apart, the comparator orders by total |
| MatchingService.DecoratedFrom | src/services/matching-service.ts:341-344 | a decorated entry differs from its match only in its percentile |
| MatchingService.DecoratedAgree | src/services/matching-service.ts:345-356 | when all distinct totals are more than five points apart, the comparator orders the decorated list by total |
| MatchingService.RankMatchesSeparated | src/services/matching-service.ts:336-357 | under the same separation the ranked list is sorted by total, highest first |
| MatchingService.Candidates | src/services/matching-service.ts:70-80 | exactly the users other than the requester that pass every filter |
| MatchingService.FreshMatches | src/services/matching-service.ts:69-119 | every fresh match is positive, carries a percentile, and is not the requester |
| MatchingService.FreshMatchesAreCandidates | src/services/matching-service.ts:70-116 | every fresh match names a candidate that passed every filter |
| MatchingService.StoreAndSlice | src/services/matching-service.ts:121-126 | returns a prefix of the ranking of at most limit entries; with caching on, stores the whole ranking under the key for thirty minutes; with caching off, leaves the cache alone |
| MatchingService.ServeCached | src/services/matching-service.ts:62-66 | returns a prefix of at most limit entries of the cached list, which in a sound cache are positive and never the requester |
| MatchingService.FindFresh | src/services/matching-service.ts:69-126 | the miss path returns a prefix of the ranking of at most limit entries and, with caching on, stores the whole ranking for thirty minutes |
| MatchingService.FindMatches | src/services/matching-service.ts:37-127 | at most limit matches, positive and never the requester; a valid cached list answers without touching the cache; otherwise a prefix of the fresh ranking, cached under the key when caching is on; caching off never changes the cache |
| MatchingService.FeatureBonus | src/services/matching-service.ts:426-459 | exactly 5 per study interest of the user also listed by the candidate, and 3 per shared professional interest, so zero exactly without a shared interest; 15 exactly for one new Muslim and 0 otherwise; 10 exactly for the same city and 0 otherwise |
| MatchingService.FeatureBonusSymmetric | src/services/matching-service.ts:438-448 | the mentorship and event bonuses do not depend on who asks |
| MatchingService.ScoreSpecial | src/services/matching-service.ts:160-181 | the score names the candidate and lies between 0 and 100 plus the feature bonus, since it is not clamped again |
| MatchingService.SpecialScored | src/services/matching-service.ts:147-186 | every scored match is positive, not the requester, and names a user who passes the feature test, with a total within 100 plus that user's bonus; conversely every other user who passes the test and scores positive is among them |
| MatchingService.RankTop | src/services/matching-service.ts:188-190 | exactly min(limit, count) entries, highest total first, drawn from the input as a sub-multiset, with every left-out match totalling no more than any kept one; all of them when they fit |
| MatchingService.FindSpecialFeatureMatches | src/services/matching-service.ts:132-191 | the top min(limit, count) of all positive scored matches of users passing the feature test, highest first: every scored match left out totals no more than every one returned; each returned one is positive, not the requester, and names a user who passes the test |
| MatchingService.Similarity | src/services/matching-service.ts:379-399 | between 0 and 45 plus two per hobby; at least 45 for the same age, city and practice level |
| MatchingService.SimilarityHobbyAsymmetry | src/services/matching-service.ts:379-399 | the similarity is symmetric except for the hobby term, which counts the first user's hobbies found among the second's, duplicates included; with duplicate-free hobby lists the similarity is symmetric |
| MatchingService.CollectSimilar | src/services/matching-service.ts:376-407 | exactly one entry per other user whose similarity exceeds 20, carrying that similarity |
| MatchingService.SimilarUsers | src/services/matching-service.ts:368-410 | the same entries, most similar first |
| MatchingService.Credit | src/services/matching-service.ts:228-237 | afterwards the id has an entry, entries for other ids are kept, and nothing else is added |
| MatchingService.CreditAddsAmount | src/services/matching-service.ts:228-237 | crediting adds exactly the amount to the total of all scores |
| MatchingService.TailWellFormed | src/services/matching-service.ts:228-237 | dropping the first entry keeps one positive entry per id, and the first id appears nowhere else |
| MatchingService.ConsWellFormed | src/services/matching-service.ts:232-236 | a positive entry with the fixed reason in front of entries for other ids keeps one positive entry per id |
| MatchingService.CreditWellFormed | src/services/matching-service.ts:228-237 | a positive credit keeps one positive entry per id |
| MatchingService.CreditConnections | src/services/matching-service.ts:210-238 | the only new entries are people the similar user is connected to and the requester has not interacted with; the list stays well formed |
| MatchingService.CreditAll | src/services/matching-service.ts:208-239 | the only new entries are people some similar user is connected to and the requester has not interacted with; the list stays well formed |
| MatchingService.CreditConnectionsScore | src/services/matching-service.ts:210-237 | after one similar user's connections, every id's score has grown by exactly 0.3 times the similarity per accepted connection of theirs to that id, unless the requester interacted with it |
| MatchingService.CreditAllScore | src/services/matching-service.ts:208-239 | after all similar users, every id's score has grown by exactly its endorsement: the sum of the per-user contributions |
| MatchingService.ContributionPositive | src/services/matching-service.ts:210-237 | a similar user with positive similarity contributes to an id exactly when connected to it by an accepted connection and the requester has not interacted with it |
| MatchingService.EndorsementPositive | src/services/matching-service.ts:208-239 | the endorsement of an id is never negative, and positive exactly when some similar user endorses it and the requester has not interacted with it |
| MatchingService.TopSimilar | src/services/matching-service.ts:206-208 | the five most similar users, or all when fewer qualify, most similar first: each is another user with similarity above 20, and every qualifying user left out is no more similar than every one kept |
| MatchingService.SimilarSelection | src/services/matching-service.ts:206-208 | a selection keeping the top of the similar users leaves out only users no more similar than every one kept |
| MatchingService.RankRecommendations | src/services/matching-service.ts:241-243 | exactly min(limit, count) entries, best first, one per id, drawn from the input, with every left-out entry scoring no more than any kept one |
| MatchingService.RecommendationPool | src/services/matching-service.ts:203-239 | the accumulated list holds exactly one entry for each person some similar user endorses and the requester has not interacted with, scored with that person's endorsement |
| MatchingService.CollaborativeRecommendations | src/services/matching-service.ts:196-244 | the top min(limit, pool) endorsed people, best first, one entry each; each score is the sum over the five most similar users of 0.3 times their similarity per accepted connection to the person; every endorsed person the requester has not interacted with is either returned or endorsed no more strongly than each returned one; never someone the requester has interacted with |
| BehaviorTracker.AppendIfAbsent | src/matching/algorithms/ml-behavior-tracker.ts:24-26 | the value is in the result, the old list is a prefix of it, at most one entry is added, nothing else joins, and a list without repeats keeps none |
| BehaviorTracker.TrackInteraction | src/matching/algorithms/ml-behavior-tracker.ts:13-58 | the target joins the list of the interaction's kind, every other list and the rest of the record stay as they were, and a target already listed changes nothing |
| BehaviorTracker.TrackInteractionIdempotent | src/matching/algorithms/ml-behavior-tracker.ts:22-52 | recording the same interaction twice is the same as recording it once |
| BehaviorTracker.TrackDifferentKindsCommute | src/matching/algorithms/ml-behavior-tracker.ts:22-52 | interactions of different kinds can be recorded in either order |
| BehaviorTracker.TrackInteractionKeepsDistinct | src/matching/algorithms/ml-behavior-tracker.ts:22-52 | a list without repeated ids stays without repeats |
| BehaviorTracker.FullShare | src/matching/algorithms/ml-behavior-tracker.ts:321-322 | a part of a positive whole is a percentage that is 100 exactly for the whole and 0 exactly for nothing |
| BehaviorTracker.Consistency | src/matching/algorithms/ml-behavior-tracker.ts:309-323 | a percentage that is 0 exactly without likes or accepts, and 100 exactly when there are interactions and none was a dislike or a decline |
| BehaviorTracker.PositiveUsers | src/matching/algorithms/ml-behavior-tracker.ts:73-75 | a user is listed exactly when a liked or accepted id finds that user; one entry per resolving liked id plus one per resolving accepted id |
| BehaviorTracker.YoungestAge | src/matching/algorithms/ml-behavior-tracker.ts:90 | the least age of a non-empty list, attained by one of its users |
| BehaviorTracker.OldestAge | src/matching/algorithms/ml-behavior-tracker.ts:91 | the greatest age of a non-empty list, attained by one of its users |
| BehaviorTracker.InterestPool | src/matching/algorithms/ml-behavior-tracker.ts:95-99 | exactly the hobbies, activities and Islamic interests of the users |
| BehaviorTracker.LevelNames | src/matching/algorithms/ml-behavior-tracker.ts:106 | exactly the practice levels of the users |
| BehaviorTracker.LevelsOnce | src/matching/algorithms/ml-behavior-tracker.ts:106-110 | each practice level met once, in first-seen order, since level names are neither array indexes nor inherited keys |
| JsObject.KeyOrder | src/matching/algorithms/ml-behavior-tracker.ts:101-103 | the keys of the counting object in the engine's order: array indexes first in ascending numeric order, then the other keys in creation order, without losing or repeating one |
| JsObject.CountedAtLeast | src/matching/algorithms/ml-behavior-tracker.ts:100-110 | each value counted at least n times exactly once, except names inherited from Object.prototype (whose count becomes a string); array-index names first and ascending, the rest in first-occurrence order |
| JsObject.CountedNamedOnly | src/matching/algorithms/ml-behavior-tracker.ts:301-307 | with no array-index or inherited names, the reported keys are the values counted n times in first-occurrence order |
| BehaviorTracker.LowerAge | src/matching/algorithms/ml-behavior-tracker.ts:90 | the least of max(18, age - 2) over the users: no more than it for any user and equal to it for some |
| BehaviorTracker.UpperAge | src/matching/algorithms/ml-behavior-tracker.ts:91 | the greatest of min(65, age + 2) over the users: no less than it for any user and equal to it for some |
| BehaviorTracker.AnalyzePreferences | src/matching/algorithms/ml-behavior-tracker.ts:63-122 | without liked or accepted users that resolve, the neutral summary; otherwise distance 0 to 50, the consistency score, the age range from the least max(18, age - 2) to the greatest min(65, age + 2) over those users, the interests seen at least twice except inherited object keys (array-index names first in ascending order, the rest in first-seen order) and every practice level seen in first-seen order, each once |
| BehaviorTracker.Summarize | src/matching/algorithms/ml-behavior-tracker.ts:87-121 | the same summary of a non-empty list of users (`Summarizes`: fixed distances, the exact age bounds of `AgesAround`, the interests of `InterestsShared` in key order, the levels of `LevelsSeen` in first-seen order) |
| BehaviorTracker.AnalyzedAgeRangeCanInvert | src/matching/algorithms/ml-behavior-tracker.ts:89-92 | when every liked or accepted user is 68 or older, the lower bound exceeds the upper |
| BehaviorTracker.BehaviorSimilarity | src/matching/algorithms/ml-behavior-tracker.ts:346-361 | between 0 and 1; 0 exactly when neither the likes nor the accepts overlap; 1 exactly when both are the same non-empty sets |
| BehaviorTracker.BehaviorSimilaritySymmetric | src/matching/algorithms/ml-behavior-tracker.ts:346-361 | the similarity does not depend on the order of the two records |
| BehaviorTracker.Get | src/matching/algorithms/ml-behavior-tracker.ts:132-133 | none exactly when no entry has the id; otherwise a record stored under it |
| BehaviorTracker.CollectNeighbors | src/matching/algorithms/ml-behavior-tracker.ts:334-341 | exactly one neighbour per other entry whose similarity exceeds 0.3, carrying that similarity |
| BehaviorTracker.FindSimilarUsers | src/matching/algorithms/ml-behavior-tracker.ts:325-344 | empty for an unknown user; otherwise exactly the other entries more similar than 0.3, most similar first |
| BehaviorTracker.Vote | src/matching/algorithms/ml-behavior-tracker.ts:146-156 | between 10 and 90, and the neutral 50 exactly when the target appears in none of the four lists |
| BehaviorTracker.NeighborVotes | src/matching/algorithms/ml-behavior-tracker.ts:141-160 | one vote per neighbour with a record, weighted by its similarity and between 10 and 90; as many votes as neighbours when all have records |
| BehaviorTracker.VotesPairUp | src/matching/algorithms/ml-behavior-tracker.ts:141-160 | the i-th vote is the vote of the i-th neighbour that has a record, read from that record and weighted by that neighbour's similarity |
| BehaviorTracker.VotesPairUpAll | src/matching/algorithms/ml-behavior-tracker.ts:141-160 | when every neighbour has a record, vote i belongs to neighbour i |
| BehaviorTracker.NearestNeighbors | src/matching/algorithms/ml-behavior-tracker.ts:136-141 | min(5, number of similar users) neighbours, most similar first, each more similar than 0.3 and with a record; empty exactly when there is no similar user |
| BehaviorTracker.NearestAreTop | src/matching/algorithms/ml-behavior-tracker.ts:136-141 | the neighbours kept are drawn from the similar users and no similar user left out is more similar than one kept |
| BehaviorTracker.TopVotes | src/matching/algorithms/ml-behavior-tracker.ts:141-160 | each vote weighs more than 0.3 and lies between 10 and 90; there are none exactly when there is no similar user |
| BehaviorTracker.TopVotesPairing | src/matching/algorithms/ml-behavior-tracker.ts:141-160 | one vote per nearest neighbour, the i-th from the i-th most similar, at its similarity |
| BehaviorTracker.PredictCompatibility | src/matching/algorithms/ml-behavior-tracker.ts:127-163 | 50 for an unknown user or one without similar users; always between 10 and 90 |
| BehaviorTracker.PredictIsWeightedMean | src/matching/algorithms/ml-behavior-tracker.ts:127-163 | for a known user with similar users, the weights of the nearest neighbours' votes add up to something positive and the estimate times that total is the sum of each vote times its weight |
| BehaviorTracker.EstimateFrom | src/matching/algorithms/ml-behavior-tracker.ts:158-162 | 50 without votes; otherwise the weighted mean of the votes (positive total weight, estimate times total equals the weighted sum); always between 10 and 90 |
| BehaviorTracker.PredictUnanimous | src/matching/algorithms/ml-behavior-tracker.ts:158-162 | when every record votes the same, the estimate is that vote |
| BehaviorTracker.PredictUnratedTarget | src/matching/algorithms/ml-behavior-tracker.ts:146-162 | a target nobody has rated gets the neutral 50 |
| BehaviorTracker.PatternBonus | src/matching/algorithms/ml-behavior-tracker.ts:380-388 | 0 or 5, and above 2 exactly with more than three likes |
| BehaviorTracker.FilteringBonus | src/matching/algorithms/ml-behavior-tracker.ts:260 | within 8 points either way for an estimate from 10 to 90; above 2 exactly for an estimate above 60; zero exactly for 50 |
| BehaviorTracker.AdjustTotal | src/matching/algorithms/ml-behavior-tracker.ts:265-267 | NaN stays NaN; otherwise clamped to 0-100 and moved by no more than the bonus, in its direction |
| BehaviorTracker.AdjustMatch | src/matching/algorithms/ml-behavior-tracker.ts:252-277 | only the total and the reasons change; the total stays in range and moves between -8 and +13 points; the two reasons are added exactly when their bonuses exceed 2 |
| BehaviorTracker.AdjustMatchNeutral | src/matching/algorithms/ml-behavior-tracker.ts:252-277 | a neutral estimate and a short like history leave an in-range entry unchanged |
| BehaviorTracker.AdjustScores | src/matching/algorithms/ml-behavior-tracker.ts:246-279 | one entry per match, in order, with the same user and breakdown, the old reasons kept and at most two added, and the total NaN only where it was, otherwise in 0-100 |
| BehaviorTracker.DimensionDiversity | src/matching/algorithms/ml-behavior-tracker.ts:375-378 | NaN exactly for no values; otherwise a positive percentage that is 100 exactly when no value repeats |
| BehaviorTracker.RecommendationDiversity | src/matching/algorithms/ml-behavior-tracker.ts:217-241 | 100 for fewer than two recommendations; otherwise NaN exactly when none of them resolves, and 100 exactly when ages, cities and practice levels all differ |
| BehaviorTracker.DiversityCappedByPracticeLevels | src/matching/algorithms/ml-behavior-tracker.ts:236-240 | with more than four resolved recommendations the diversity is below 100 |
| BehaviorTracker.LevelsRepeat | src/matching/algorithms/ml-behavior-tracker.ts:237 | more than four practice levels always repeat one |
| Types.UsersFromIds | src/matching/algorithms/ml-behavior-tracker.ts:295-299 | one profile per id that finds a user, in id order: the i-th profile is what the i-th resolving id finds; a user is listed exactly when its own id is asked for and finds it |
| Validation.IndexOf | src/utils/validation.ts:6 | the first position of the character, or -1 exactly when it does not occur |
| Validation.EmailShapeIff | src/utils/validation.ts:6 | the executable shape test accepts exactly the strings the pattern describes: plain text, one '@', plain text, a '.', plain text |
| Validation.ShapeGivesPattern | src/utils/validation.ts:6 | a string passing the shape test matches the pattern |
| Validation.PatternGivesShape | src/utils/validation.ts:6 | a string matching the pattern passes the shape test |
| Validation.IndexOfFirst | src/utils/validation.ts:6 | the first occurrence is the one found |
| Validation.ValidateEmail | src/utils/validation.ts:1-12 | the required message exactly for the empty string, the invalid message exactly for a non-empty string outside the pattern, and no error exactly for a match |
| Validation.ValidateEmailAcceptsExample | __tests__/validation.test.ts:10 | the example address is accepted |
| Validation.ValidateEmailRejectsExamples | __tests__/validation.test.ts:16-19 | an address without '@' and one without a domain are invalid |
| Validation.TwoAtSignsInvalid | src/utils/validation.ts:6-8 | an address with two '@' signs is invalid |
| Validation.ValidatePassword | src/utils/validation.ts:14-33 | required exactly for the empty string, too short exactly below six characters, too weak exactly when long enough but lacking an upper-case letter, a lower-case letter or a digit, and accepted exactly otherwise |
| Validation.ValidatePasswordExamples | __tests__/validation.test.ts:25-39 | the two example passwords pass, "123" is too short, and the all-lower and all-upper examples are too weak |
| Validation.ValidateConfirmPassword | src/utils/validation.ts:35-48 | asks for confirmation exactly when it is empty, reports a mismatch exactly when it differs, and accepts exactly an equal non-empty confirmation |
| Validation.ConfirmOwnPassword | src/utils/validation.ts:35-48 | a valid password confirms itself, and an empty confirmation is never accepted |
| Validation.ValidateName | src/utils/validation.ts:50-60 | required exactly for the empty string, too short exactly when the trimmed name has fewer than two characters, accepted exactly otherwise |
| Validation.BlankNameTooShort | src/utils/validation.ts:55-57 | a non-empty name of white space only is too short |
| Validation.NamePaddingIgnored | src/utils/validation.ts:55 | surrounding a non-empty name with spaces does not change the verdict |
| Validation.TrimPadding | src/utils/validation.ts:55 | trimming ignores one space on each side |
| Validation.TrimStartAppend | src/utils/validation.ts:55 | trimming the front of a concatenation trims into the second part only when the first is all white space |
| Validation.TrimEndSpace | src/utils/validation.ts:55 | a trailing space disappears when the end is trimmed |
| Validation.UnpaddedNameAccepted | src/utils/validation.ts:50-60 | a name of two or more characters that neither starts nor ends with white space is accepted |
| Validation.ValidateNameAcceptsExamples | __tests__/validation.test.ts:45-46 | the two example names are accepted |
| Validation.ValidateNameRejectsExamples | __tests__/validation.test.ts:51-52 | a single letter and two spaces are too short |
| Validation.TrimUnpadded | src/utils/validation.ts:55 | a string that neither starts nor ends with white space is its own trim |
| VideoUtils.PadStart | utils.ts:20 | a string at least as long as the width is returned as is; a shorter one ends in the original and is filled in front with the pad character up to the width |
| VideoUtils.FormatDuration | utils.ts:17-21 | the whole minutes, a colon, and two digits |
| VideoUtils.ParseDuration | utils.ts:17-21 | reading back a minutes-and-seconds text needs at least four characters |
| VideoUtils.PadTwoDigits | utils.ts:19-20 | padding one or two digits to two keeps their value |
| VideoUtils.PaddedSeconds | utils.ts:19-20 | the seconds field is always exactly two digits holding the seconds |
| VideoUtils.ParseJoined | utils.ts:20 | a minutes field, a colon and a two-digit field read back as minutes times 60 plus seconds |
| VideoUtils.FieldsRoundTrip | utils.ts:18-20 | the formatted fields of a quotient and a remainder below 60 read back as the total |
| VideoUtils.FormatDurationRoundTrip | utils.ts:17-21 | reading back a formatted duration gives the seconds that were formatted |
| VideoUtils.CategoryData | utils.ts:26-33 | the table's entry for a known category, with the icon strings as types.ts holds them, and the default record (icon U+2728) exactly for an unknown one |
| VideoUtils.FirstFound | utils.ts:69-73 | none exactly when no keyword occurs; otherwise a keyword that occurs |
| VideoUtils.IsContentAppropriate | utils.ts:61-76 | appropriate exactly when no listed keyword occurs in the lower-cased title, space and description |
| VideoUtils.KeywordInTitleRejects | utils.ts:67-72 | a keyword in the title is enough to reject the video |
| VideoUtils.ContentCheckIgnoresCase | utils.ts:67 | writing title and description in capitals does not change the verdict |
| VideoUtils.UpdatingIsRejected | utils.ts:63-72 | substring matching rejects a title containing "updating", because it contains "dating" |
| VideoUtils.TermIssue | utils.ts:141 | the fixed prefix followed by the term, never the themes message |
| VideoUtils.TermIssues | utils.ts:139-143 | exactly one message per listed term that occurs |
| VideoUtils.TermFindings | utils.ts:138-143 | a term's message is present exactly when the term occurs; the themes message never is; empty exactly when no term occurs |
| VideoUtils.ValidateIslamicContent | utils.ts:130-157 | valid exactly without issues; a message per inappropriate term that occurs; the themes message exactly for a text over 50 characters mentioning no Islamic term |
| VideoUtils.ShortTextNeedsNoThemes | utils.ts:149-151 | a text of at most 50 characters never gets the themes message |
| VideoUtils.IndividualCountsAsIslamic | utils.ts:146-147 | a text containing "individual" counts as Islamic, because it contains "dua" |
| VideoUtils.CategoryTags | utils.ts:168-186 | two or three distinct tags per category |
| VideoUtils.ContentTags | utils.ts:189-194 | exactly the tags whose keywords occur in the content, in the order of the keyword table |
| VideoUtils.ContentTagsDistinct | utils.ts:189-194 | with distinct tags in the table, no tag is suggested twice from the content |
| VideoUtils.SuggestHashtags | utils.ts:162-197 | the category's tags followed by the content tags not among them, in table order, cut to five; hence at most five distinct tags, beginning with the category's, with every content tag present when fewer than five are returned |
| VideoUtils.SeasonalTags | utils.ts:189-194 | content mentioning Ramadan, Eid and prayer earns those three tags |
| VideoUtils.SuggestionsCanBeCut | utils.ts:196 | a Quran video mentioning Ramadan, Eid and prayer has six candidate tags, so exactly five are returned and one is cut |
| VideoUtils.EngagementScore | utils.ts:202-215 | 0 without views; never above 100; never negative for non-negative counts |
| VideoUtils.EngagementQuotient | utils.ts:207-214 | with views, the score is the weighted interactions per view as a percentage, capped at 100 |
| VideoUtils.EngagementCapIff | utils.ts:212-214 | the score reaches the cap exactly when the weighted interactions reach the views |
| VideoUtils.EngagementMonotoneInLikes | utils.ts:202-215 | more likes never lower the score |
| AuthReducer.Reduce | src/contexts/AuthContext.tsx:19-40 | the token is never touched; SET_LOADING sets only the flag; SET_USER stores the payload, ends loading and authenticates exactly a truthy payload; LOGOUT clears the user and both flags; any other action changes nothing; a consistent state stays consistent |
| AuthReducer.InitialConsistent | src/contexts/AuthContext.tsx:6-10 | the initial state is loading, not authenticated and consistent |
| AuthReducer.RunKeepsConsistent | src/contexts/AuthContext.tsx:19-40 | any sequence of actions keeps the flag and the user in agreement and keeps the token |
| AuthReducer.ReachableConsistent | src/contexts/AuthContext.tsx:6-40 | every state reachable from the initial one is consistent |
| AuthReducer.LogoutForgets | src/contexts/AuthContext.tsx:30-36 | logging out after any action ends in the same state as logging out at once |
| AuthReducer.SetUserOverwrites | src/contexts/AuthContext.tsx:23-29 | a second SET_USER overwrites the first entirely |
| AuthReducer.FalsyUserIsSignedOut | src/contexts/AuthContext.tsx:23-36 | a falsy payload leaves the session unauthenticated, as a logout would, except that the payload is stored |

## Left out

- `calculateDistance` (Haversine), `applyTimeDecay`'s `Math.exp`, the square roots of `calculateScoreVariety`, `calculateCosineSimilarity` and the learned age range, and `toFixed(1)`: transcendental or formatting floating point, supplied as function parameters (several bundled in `Env`), about which nothing beyond a range is assumed.
- `applySigmoid` and `applyLogScaling`: exponentials and logarithms that no modelled operation calls.
- Floating point in general: numbers are exact reals. Rounding, overflow to infinity (apart from the clamped quotient of a zero total weight) and `-0` are not modelled.
- `Date.now()` and `new Date()`: replaced by the `Clock` parameter. Timestamps are integers in milliseconds.
- `JSON.stringify` in the cache key: an abstract `serialize` function. The key's owner is recovered without assuming it is injective.
- The `async` wrappers of `MatchingService`: modelled as plain functions, since they never await.
- The delegating `MatchingService.generateConversationStarters` and `MatchingService.updatePreferencesFromBehavior`: they only call the preference filter's versions, which are modelled.
- `getNetworkAnalysis`: the `mutualConnections` field is the empty map the code returns; the analysis is otherwise modelled.
- `generatePersonalizedStarters`, `getMostFrequent` and `userTendsToUseIslamicGreetings` of the behaviour tracker: they produce message text and feed no modelled result.
- `updatePreferencePatterns`: its body does nothing, so `trackInteraction` is modelled without it.
- `trackInteraction`'s aliasing: the code copies the record shallowly and then pushes into the caller's arrays. The model returns a new record and leaves the old one intact.
- `formatNumber`, `formatRelativeTime`, `extractHashtags`, the greeting, prayer-time, reminder and Ramadan helpers, and `getRecommendationReason` in utils.ts: formatting, clock or randomness wrappers outside the matching core.
- The authentication provider's asynchronous actions (sign in, sign up, sign out, token storage): I/O around the reducer.
- The screens, navigation and components: presentation only.
- Strings are sequences of Unicode scalar values rather than UTF-16 units, and `toLowerCase`/`toUpperCase` map ASCII letters only.
- Object-prototype keys such as `"toString"` or `"constructor"`: looking them up in the timezone or category tables is modelled as a missing key. In the counting objects of `analyzeUserPreferences` they are modelled (see `JsObject`).
- `BehaviorTracker.AnalyzePreferences`: no longer promises that every interest seen twice is reported. Names inherited from `Object.prototype` are not, as in the engine.
- `SocialGraph.FindTrustPath`: a path is found exactly when some walk within the hop bound reaches the target, and the path found is such a walk, but it is not proved to be a shortest one.
- `Scoring.Cosine`: `sqrt` is an arbitrary parameter, so the product of the two roots may be 0 for non-zero vectors. There the source divides by zero and yields Infinity or NaN, while the model answers 0. A true square root never takes this branch.
- `MatchingService.RankMatches`: the comparator is not a consistent order when totals lie within five points of each other. The model sorts with a stable insertion sort, and ordering by total is proved only when all totals are more than five points apart.
- `VideoUtils.FormatDuration`: modelled for whole, non-negative seconds only.
- `AuthReducer.Reduce`: the `SET_LOADING` payload is modelled as a boolean, as its type declares.
- `PreferenceFilter.ConversationStarters`: states the number of rendered starters, not their text.

=== FILE: auth_reducer.dfy ===
/** The authentication state machine of AuthContext.tsx: the reducer the
    provider feeds with `SET_LOADING`, `SET_USER` and `LOGOUT`. */
module AuthReducer {
  import opened JsNumber

  /** The signed-in user record of types/auth.ts. */
  datatype User = User(id: string, email: string, firstName: string, lastName: string, createdAt: string)

  /** A `SET_USER` payload is typed `any`; these are the values it can carry
      at run time, as far as the reducer can tell them apart. */
  datatype JsValue =
    | Null
    | Undefined
    | Bool(b: bool)
    | Number(n: Num)
    | Text(s: string)
    | UserValue(user: User)

  /** `!!v` */
  predicate Truthy(v: JsValue) {
    match v
    case Null => false
    case Undefined => false
    case Bool(b) => b
    case Number(n) => n.Fin? && n.v != 0.0
    case Text(s) => s != ""
    case UserValue(_) => true
  }

  /** `AuthState`; the initial state leaves `token` out, so it starts as
      `undefined`. */
  datatype AuthState = AuthState(user: JsValue, token: JsValue, isLoading: bool, isAuthenticated: bool)

  datatype AuthAction =
    | SetLoading(loading: bool)
    | SetUser(payload: JsValue)
    | Logout
      /** Any other `type`, which only untyped callers can send. */
    | Unknown(actionType: string)

  const InitialState: AuthState := AuthState(Null, Undefined, true, false)

  /** The state is consistent when the authenticated flag says whether a
      (truthy) user is stored. */
  predicate Consistent(s: AuthState) {
    s.isAuthenticated <==> Truthy(s.user)
  }

  /** `authReducer(state, action)` */
  function Reduce(s: AuthState, a: AuthAction): (r: AuthState)
    ensures r.token == s.token
    ensures a.SetLoading? ==> r == s.(isLoading := a.loading)
    ensures a.SetUser? ==> r.user == a.payload && !r.isLoading && (r.isAuthenticated <==> Truthy(a.payload))
    ensures a.Logout? ==> r.user == Null && !r.isAuthenticated && !r.isLoading
    ensures a.Unknown? ==> r == s
    ensures Consistent(s) ==> Consistent(r)
  {
    match a
    case SetLoading(loading) => s.(isLoading := loading)
    case SetUser(payload) => s.(user := payload, isAuthenticated := Truthy(payload), isLoading := false)
    case Logout => s.(user := Null, isAuthenticated := false, isLoading := false)
    case Unknown(_) => s
  }

  /** The state after dispatching `actions` in order. */
  function Run(s: AuthState, actions: seq<AuthAction>): AuthState
    decreases |actions|
  {
    if actions == [] then s else Run(Reduce(s, actions[0]), actions[1..])
  }

  lemma InitialConsistent()
    ensures Consistent(InitialState)
    ensures !InitialState.isAuthenticated && InitialState.isLoading
  {
  }

  /** Whatever the provider dispatches, the flag and the user never
      disagree, starting from a consistent state. */
  lemma {:induction false} RunKeepsConsistent(s: AuthState, actions: seq<AuthAction>)
    requires Consistent(s)
    ensures Consistent(Run(s, actions))
    ensures Run(s, actions).token == s.token
    decreases |actions|
  {
    if actions != [] {
      RunKeepsConsistent(Reduce(s, actions[0]), actions[1..]);
    }
  }

  /** Every reachable state is consistent. */
  lemma ReachableConsistent(actions: seq<AuthAction>)
    ensures Consistent(Run(InitialState, actions))
  {
    InitialConsistent();
    RunKeepsConsistent(InitialState, actions);
  }

  /** Logging out forgets whatever the previous action did. */
  lemma LogoutForgets(s: AuthState, a: AuthAction)
    ensures Reduce(Reduce(s, a), Logout) == Reduce(s, Logout)
  {
  }

  /** A second `SET_USER` overwrites the first entirely. */
  lemma SetUserOverwrites(s: AuthState, u: JsValue, v: JsValue)
    ensures Reduce(Reduce(s, SetUser(u)), SetUser(v)) == Reduce(s, SetUser(v))
  {
  }

  /** Storing a falsy payload is a logout that keeps the payload: the
      session is not authenticated. */
  lemma FalsyUserIsSignedOut(s: AuthState, u: JsValue)
    requires !Truthy(u)
    ensures !Reduce(s, SetUser(u)).isAuthenticated
    ensures Reduce(s, SetUser(u)).(user := Null) == Reduce(s, Logout)
  {
  }
}

=== FILE: behavior_tracker.dfy ===
/** The behaviour learning of src/matching/algorithms/ml-behavior-tracker.ts:
    recording interactions, reading preferences back out of them, the
    collaborative-filtering estimate built from similar users, and the score
    adjustment and diversity figure it feeds. The `Map<string, UserBehavior>`
    of all behaviour records is its entry list in insertion order. */
module BehaviorTracker {
  import opened Seqs
  import opened JsNumber
  import opened Types
  import opened Scoring
  import opened Strings
  import opened JsObject

  // ---- Recording interactions -------------------------------------------------------

  datatype Interaction = Like | Dislike | Accept | Decline | Report

  /** The list an interaction of this kind is recorded in. */
  function ListOf(b: UserBehavior, kind: Interaction): seq<string> {
    match kind
    case Like => b.likedProfiles
    case Dislike => b.dislikedProfiles
    case Accept => b.acceptedConnections
    case Decline => b.declinedConnections
    case Report => b.reportedUsers
  }

  /** The parts of a record that no interaction touches. */
  predicate SameProfile(b1: UserBehavior, b2: UserBehavior) {
    b1.userId == b2.userId && b1.preferredAgeRanges == b2.preferredAgeRanges
    && b1.preferredDistances == b2.preferredDistances
    && b1.interactionPatterns == b2.interactionPatterns
  }

  /** `if (!list.includes(x)) list.push(x)` */
  function AppendIfAbsent(xs: seq<string>, x: string): (r: seq<string>)
    ensures x in r
    ensures xs <= r && |r| <= |xs| + 1
    ensures forall y :: y in r <==> y in xs || y == x
    ensures NoDuplicates(xs) ==> NoDuplicates(r)
  {
    if x in xs then xs else xs + [x]
  }

  /** `trackInteraction`: the target joins the list of its kind once; the
      other lists and fields stay as they were. */
  function TrackInteraction(target: string, kind: Interaction, b: UserBehavior): (r: UserBehavior)
    ensures target in ListOf(r, kind)
    ensures ListOf(b, kind) <= ListOf(r, kind)
    ensures forall y :: y in ListOf(r, kind) <==> y in ListOf(b, kind) || y == target
    ensures forall k :: k != kind ==> ListOf(r, k) == ListOf(b, k)
    ensures SameProfile(r, b)
    ensures target in ListOf(b, kind) ==> r == b
  {
    match kind
    case Like => b.(likedProfiles := AppendIfAbsent(b.likedProfiles, target))
    case Dislike => b.(dislikedProfiles := AppendIfAbsent(b.dislikedProfiles, target))
    case Accept => b.(acceptedConnections := AppendIfAbsent(b.acceptedConnections, target))
    case Decline => b.(declinedConnections := AppendIfAbsent(b.declinedConnections, target))
    case Report => b.(reportedUsers := AppendIfAbsent(b.reportedUsers, target))
  }

  lemma TrackInteractionIdempotent(target: string, kind: Interaction, b: UserBehavior)
    ensures TrackInteraction(target, kind, TrackInteraction(target, kind, b))
         == TrackInteraction(target, kind, b)
  {
  }

  /** Interactions of different kinds can be recorded in either order. */
  lemma TrackDifferentKindsCommute(t1: string, k1: Interaction, t2: string, k2: Interaction, b: UserBehavior)
    requires k1 != k2
    ensures TrackInteraction(t1, k1, TrackInteraction(t2, k2, b))
         == TrackInteraction(t2, k2, TrackInteraction(t1, k1, b))
  {
  }

  /** A list without repeats stays without repeats. */
  lemma TrackInteractionKeepsDistinct(target: string, kind: Interaction, b: UserBehavior)
    requires NoDuplicates(ListOf(b, kind))
    ensures NoDuplicates(ListOf(TrackInteraction(target, kind, b), kind))
  {
  }

  // ---- Consistency --------------------------------------------------------------------

  function InteractionCount(b: UserBehavior): nat {
    |b.likedProfiles| + |b.dislikedProfiles| + |b.acceptedConnections| + |b.declinedConnections|
  }

  function PositiveCount(b: UserBehavior): nat {
    |b.likedProfiles| + |b.acceptedConnections|
  }

  /** A share of a whole is the whole exactly when the part is all of it. */
  lemma FullShare(k: nat, n: nat)
    requires k <= n && n > 0
    ensures 0.0 <= k as real / n as real * 100.0 <= 100.0
    ensures k as real / n as real * 100.0 == 100.0 <==> k == n
    ensures k as real / n as real * 100.0 == 0.0 <==> k == 0
  {
    RatioPercentBounds(k as real, n as real);
    ScaledShare(k, n, 100.0);
    if k as real / n as real * 100.0 == 100.0 {
      assert k as real / n as real == 1.0;
      MulDivCancel(k as real, n as real);
    }
  }

  /** `calculateBehaviorConsistency`: the percentage of likes and accepts
      among likes, dislikes, accepts and declines; reports do not count. */
  function Consistency(b: UserBehavior): (r: real)
    ensures 0.0 <= r <= 100.0
    ensures r == 0.0 <==> PositiveCount(b) == 0
    ensures r == 100.0 <==> (InteractionCount(b) > 0
      && |b.dislikedProfiles| == 0 && |b.declinedConnections| == 0)
  {
    var total := InteractionCount(b);
    if total == 0 then 0.0
    else
      var positive := PositiveCount(b);
      FullShare(positive, total);
      positive as real / total as real * 100.0
  }

  // ---- Preference analysis --------------------------------------------------------------

  datatype PreferenceSummary = PreferenceSummary(
    ageMin: int,
    ageMax: int,
    distanceMin: int,
    distanceMax: int,
    interests: seq<string>,
    practiceLevels: seq<string>,
    behaviorScore: real)

  /** The result for a user with no resolvable likes or accepts. */
  const NeutralSummary: PreferenceSummary := PreferenceSummary(18, 65, 0, 100, [], [], 0.0)

  /** Liked profiles, then accepted ones, as far as they resolve. */
  function PositiveUsers(b: UserBehavior, users: seq<UserProfile>): (r: seq<UserProfile>)
    ensures forall u :: u in r ==> u in users
    ensures forall u :: u in r ==> Id(u) in b.likedProfiles || Id(u) in b.acceptedConnections
    ensures forall u :: u in r <==>
      (Id(u) in b.likedProfiles || Id(u) in b.acceptedConnections) && FindUser(Id(u), users) == Some(u)
    ensures |r| == |Filter(b.likedProfiles, Resolves(users))| + |Filter(b.acceptedConnections, Resolves(users))|
  {
    UsersFromIds(b.likedProfiles, users) + UsersFromIds(b.acceptedConnections, users)
  }

  function YoungestAge(us: seq<UserProfile>): (r: int)
    requires us != []
    ensures forall u :: u in us ==> r <= Age(u)
    ensures exists u :: u in us && Age(u) == r
  {
    if |us| == 1 then Age(us[0])
    else
      var rest := YoungestAge(us[1..]);
      assert us == [us[0]] + us[1..];
      if Age(us[0]) <= rest then Age(us[0]) else rest
  }

  function OldestAge(us: seq<UserProfile>): (r: int)
    requires us != []
    ensures forall u :: u in us ==> r >= Age(u)
    ensures exists u :: u in us && Age(u) == r
  {
    if |us| == 1 then Age(us[0])
    else
      var rest := OldestAge(us[1..]);
      assert us == [us[0]] + us[1..];
      if Age(us[0]) >= rest then Age(us[0]) else rest
  }

  /** Hobbies, activities and Islamic interests of each user in turn. */
  function InterestPool(us: seq<UserProfile>): (r: seq<string>)
    ensures forall x :: x in r <==> exists u :: (u in us
      && (x in u.interests.hobbies || x in u.interests.activities || x in u.interests.islamicInterests))
  {
    if us == [] then []
    else
      assert us == [us[0]] + us[1..];
      var i := us[0].interests;
      i.hobbies + i.activities + i.islamicInterests + InterestPool(us[1..])
  }

  function LevelName(u: UserProfile): (r: string)
    ensures r in LevelWords
  {
    PracticeLevelName(u.islamicProfile.practiceLevel)
  }

  /** The four names a practice level is counted under. */
  const LevelWords: set<string> := {"beginner", "intermediate", "advanced", "scholar"}

  /** The practice-level names of the users, one per user. */
  function LevelNames(us: seq<UserProfile>): (r: seq<string>)
    ensures forall x :: x in r <==> exists u :: u in us && LevelName(u) == x
  {
    var names := Map(us, LevelName);
    forall x | x in names
      ensures exists u :: u in us && LevelName(u) == x
    {
      var i :| 0 <= i < |names| && names[i] == x;
      assert LevelName(us[i]) == x;
    }
    forall u | u in us
      ensures LevelName(u) in names
    {
      var i :| 0 <= i < |us| && us[i] == u;
      assert names[i] == LevelName(u);
    }
    names
  }

  /** The lower end of the preferred ages: two below the youngest, not
      below 18. */
  function LowerAge(us: seq<UserProfile>): (r: int)
    requires us != []
    ensures r >= 18
    ensures forall u :: u in us && Age(u) >= 18 ==> r <= Age(u)
    ensures r > 18 ==> exists u :: u in us && Age(u) == r + 2
    ensures forall u :: u in us ==> r <= Max(18, Age(u) - 2)
    ensures exists u :: u in us && r == Max(18, Age(u) - 2)
  {
    Max(18, YoungestAge(us) - 2)
  }

  /** The upper end of the preferred ages: two above the oldest, not
      above 65. */
  function UpperAge(us: seq<UserProfile>): (r: int)
    requires us != []
    ensures r <= 65
    ensures forall u :: u in us && Age(u) <= 65 ==> r >= Age(u)
    ensures r < 65 ==> exists u :: u in us && Age(u) == r - 2
    ensures forall u :: u in us ==> r >= Min(65, Age(u) + 2)
    ensures exists u :: u in us && r == Min(65, Age(u) + 2)
  {
    Min(65, OldestAge(us) + 2)
  }

  /** What the summary of a non-empty list of liked and accepted users says:
      fixed distances and the given score, and the ages, interests and
      practice levels below. */
  ghost predicate Summarizes(r: PreferenceSummary, positive: seq<UserProfile>, score: real) {
    && r.distanceMin == 0 && r.distanceMax == 50 && r.behaviorScore == score
    && AgesAround(r.ageMin, r.ageMax, positive)
    && InterestsShared(r.interests, positive)
    && LevelsSeen(r.practiceLevels, positive)
  }

  /** The age range widened by two years around the youngest and the
      oldest, clamped to 18..65. */
  ghost predicate AgesAround(lo: int, hi: int, positive: seq<UserProfile>) {
    && 18 <= lo && hi <= 65
    && (forall u :: u in positive && 18 <= Age(u) <= 65 ==> lo <= Age(u) <= hi)
    && (lo > 18 ==> exists u :: u in positive && Age(u) == lo + 2)
    && (hi < 65 ==> exists u :: u in positive && Age(u) == hi - 2)
    && (forall u :: u in positive ==> lo <= Max(18, Age(u) - 2) && hi >= Min(65, Age(u) + 2))
    && (exists u :: u in positive && lo == Max(18, Age(u) - 2))
    && (exists u :: u in positive && hi == Min(65, Age(u) + 2))
  }

  /** Each interest met at least twice, once, in object-key order. */
  ghost predicate InterestsShared(xs: seq<string>, positive: seq<UserProfile>) {
    && (forall x :: x in xs <==> multiset(InterestPool(positive))[x] >= 2 && x !in PrototypeKeys)
    && (forall i, j :: 0 <= i < j < |xs| && IsArrayIndex(xs[j]) ==>
          IsArrayIndex(xs[i]) && ParseDigits(xs[i]) <= ParseDigits(xs[j]))
    && IsSubsequence(Filter(xs, IsNamedKey), Dedup(InterestPool(positive)))
    && NoDuplicates(xs)
  }

  /** Each practice level met, once, in first-seen order. */
  ghost predicate LevelsSeen(ls: seq<string>, positive: seq<UserProfile>) {
    && (forall x :: x in ls <==> exists u :: u in positive && LevelName(u) == x)
    && IsSubsequence(ls, Dedup(LevelNames(positive)))
    && NoDuplicates(ls)
  }

  /** `analyzeUserPreferences`: the neutral summary when no liked or
      accepted profile resolves, otherwise their summary. */
  function AnalyzePreferences(b: UserBehavior, users: seq<UserProfile>): (r: PreferenceSummary)
    ensures PositiveUsers(b, users) == [] ==> r == NeutralSummary
    ensures PositiveUsers(b, users) != [] ==> Summarizes(r, PositiveUsers(b, users), Consistency(b))
    ensures 18 <= r.ageMin && r.ageMax <= 65
  {
    var positive := PositiveUsers(b, users);
    if positive == [] then NeutralSummary else Summarize(positive, Consistency(b))
  }

  /** The summary of a non-empty list of liked and accepted users. */
  function Summarize(positive: seq<UserProfile>, score: real): (r: PreferenceSummary)
    requires positive != []
    ensures Summarizes(r, positive, score)
  {
    var lo, hi := LowerAge(positive), UpperAge(positive);
    var interests := CountedAtLeast(InterestPool(positive), 2);
    var levels := LevelsOnce(LevelNames(positive));
    AgesFromBounds(positive, lo, hi);
    InterestsFromCount(positive, interests);
    LevelsFromNames(positive, levels);
    PreferenceSummary(lo, hi, 0, 50, interests, levels, score)
  }

  lemma AgesFromBounds(positive: seq<UserProfile>, lo: int, hi: int)
    requires positive != [] && lo == LowerAge(positive) && hi == UpperAge(positive)
    ensures AgesAround(lo, hi, positive)
  {
  }

  lemma InterestsFromCount(positive: seq<UserProfile>, xs: seq<string>)
    requires xs == CountedAtLeast(InterestPool(positive), 2)
    ensures InterestsShared(xs, positive)
  {
  }

  lemma LevelsFromNames(positive: seq<UserProfile>, ls: seq<string>)
    requires ls == LevelsOnce(LevelNames(positive))
    ensures LevelsSeen(ls, positive)
  {
  }

  /** The practice levels met at least once, in first-seen order: the level
      names are plain words, so the key order is their creation order. */
  function LevelsOnce(names: seq<string>): (r: seq<string>)
    requires forall x :: x in names ==> x in LevelWords
    ensures forall x :: x in r <==> x in names
    ensures IsSubsequence(r, Dedup(names))
    ensures NoDuplicates(r)
  {
    var r := CountedAtLeast(names, 1);
    LevelWordsPlain();
    forall x | x in names
      ensures multiset(names)[x] >= 1
    {
      assert x in multiset(names);
    }
    FilterKeepsAll(r, IsNamedKey);
    r
  }

  /** No level name is an array index or an inherited key. */
  lemma LevelWordsPlain()
    ensures forall x :: x in LevelWords ==> IsNamedKey(x) && x !in PrototypeKeys
  {
    forall x | x in LevelWords
      ensures IsNamedKey(x) && x !in PrototypeKeys
    {
      assert !IsDigit(x[0]);
    }
  }

  /** When every liked or accepted user is 68 or older, the age range comes
      out empty: its lower end passes its upper end. */
  lemma AnalyzedAgeRangeCanInvert(b: UserBehavior, users: seq<UserProfile>)
    requires PositiveUsers(b, users) != []
    requires forall u :: u in PositiveUsers(b, users) ==> Age(u) >= 68
    ensures AnalyzePreferences(b, users).ageMin > AnalyzePreferences(b, users).ageMax
  {
    var r := AnalyzePreferences(b, users);
    var u :| u in PositiveUsers(b, users) && Age(u) == r.ageMin + 2;
  }

  // ---- Behaviour similarity -------------------------------------------------------------

  /** `calculateBehaviorSimilarity`: the mean of the Jaccard indices of the
      liked and the accepted lists, as a fraction. */
  function BehaviorSimilarity(b1: UserBehavior, b2: UserBehavior): (r: real)
    ensures 0.0 <= r <= 1.0
    ensures r == 0.0 <==> (ToSet(b1.likedProfiles) * ToSet(b2.likedProfiles) == {}
      && ToSet(b1.acceptedConnections) * ToSet(b2.acceptedConnections) == {})
    ensures r == 1.0 <==> (ToSet(b1.likedProfiles) == ToSet(b2.likedProfiles) != {}
      && ToSet(b1.acceptedConnections) == ToSet(b2.acceptedConnections) != {})
  {
    var liked := Jaccard(b1.likedProfiles, b2.likedProfiles) / 100.0;
    var accepted := Jaccard(b1.acceptedConnections, b2.acceptedConnections) / 100.0;
    (liked + accepted) / 2.0
  }

  lemma BehaviorSimilaritySymmetric(b1: UserBehavior, b2: UserBehavior)
    ensures BehaviorSimilarity(b1, b2) == BehaviorSimilarity(b2, b1)
  {
    JaccardSymmetric(b1.likedProfiles, b2.likedProfiles);
    JaccardSymmetric(b1.acceptedConnections, b2.acceptedConnections);
  }

  // ---- Similar users ----------------------------------------------------------------------

  type Store = seq<(string, UserBehavior)>

  /** `allUserBehaviors.get(id)` */
  function Get(store: Store, id: string): (r: Option<UserBehavior>)
    ensures r.None? <==> forall e :: e in store ==> e.0 != id
    ensures r.Some? ==> (id, r.value) in store
  {
    match Find(store, (e: (string, UserBehavior)) => e.0 == id)
    case Some(e) => Some(e.1)
    case None => None
  }

  datatype Neighbor = Neighbor(userId: string, similarity: real)

  function SimilarityOf(n: Neighbor): real { n.similarity }

  /** The similarity threshold a neighbour must exceed. */
  const SimilarityThreshold: real := 0.3

  /** A store entry that counts as a neighbour of the record `b` of `id`. */
  predicate NeighborEntry(id: string, b: UserBehavior, e: (string, UserBehavior)) {
    e.0 != id && BehaviorSimilarity(b, e.1) > SimilarityThreshold
  }

  function CollectNeighbors(id: string, b: UserBehavior, entries: Store): (r: seq<Neighbor>)
    ensures |r| <= |entries|
    ensures forall n :: n in r <==> exists e :: (e in entries && NeighborEntry(id, b, e)
      && n == Neighbor(e.0, BehaviorSimilarity(b, e.1)))
  {
    if entries == [] then []
    else
      var e := entries[0];
      var rest := CollectNeighbors(id, b, entries[1..]);
      assert entries == [e] + entries[1..];
      if NeighborEntry(id, b, e) then [Neighbor(e.0, BehaviorSimilarity(b, e.1))] + rest else rest
  }

  /** `findSimilarUsers`: every other user whose similarity exceeds the
      threshold, most similar first; nothing for a user without a record. */
  function FindSimilarUsers(id: string, store: Store): (r: seq<Neighbor>)
    ensures Get(store, id).None? ==> r == []
    ensures SortedDesc(r, SimilarityOf)
    ensures forall n :: n in r ==> (n.userId != id && SimilarityThreshold < n.similarity <= 1.0
      && exists e :: e in store && e.0 == n.userId)
    ensures Get(store, id).Some? ==> forall n :: n in r <==> exists e :: (e in store
      && NeighborEntry(id, Get(store, id).value, e)
      && n == Neighbor(e.0, BehaviorSimilarity(Get(store, id).value, e.1)))
  {
    match Get(store, id)
    case None => []
    case Some(b) =>
      var found := CollectNeighbors(id, b, store);
      var r := SortDesc(found, SimilarityOf);
      assert forall n :: n in r <==> n in found by {
        forall n
          ensures n in r <==> n in found
        {
          assert n in r <==> n in multiset(r);
          assert n in found <==> n in multiset(found);
        }
      }
      r
  }

  // ---- Collaborative-filtering estimate -----------------------------------------------

  /** What one similar user's record says about the target: a like reads
      80, an accept 90, a dislike 20, a decline 10, nothing 50; the first
      list that holds the target decides. */
  function Vote(b: UserBehavior, target: string): (r: real)
    ensures 10.0 <= r <= 90.0
    ensures r == 50.0 <==> (target !in b.likedProfiles && target !in b.acceptedConnections
      && target !in b.dislikedProfiles && target !in b.declinedConnections)
  {
    if target in b.likedProfiles then 80.0
    else if target in b.acceptedConnections then 90.0
    else if target in b.dislikedProfiles then 20.0
    else if target in b.declinedConnections then 10.0
    else 50.0
  }

  /** How many of the most similar users are consulted. */
  const NeighborLimit: int := 5

  /** Whether a neighbour has a behaviour record. */
  function HasRecord(store: Store): Neighbor -> bool {
    (n: Neighbor) => Get(store, n.userId).Some?
  }

  /** `w` is the vote of neighbour `n`'s record, weighted by `n`'s similarity. */
  predicate VoteFrom(store: Store, target: string, n: Neighbor, w: Weighted) {
    Get(store, n.userId).Some? && w == Weighted(Vote(Get(store, n.userId).value, target), n.similarity)
  }

  /** Each neighbour's vote weighted by its similarity; a neighbour
      without a record is skipped. */
  function NeighborVotes(ns: seq<Neighbor>, store: Store, target: string): (r: seq<Weighted>)
    ensures |r| <= |ns|
    ensures forall w :: w in r ==> 10.0 <= w.score <= 90.0
    ensures forall w :: w in r ==> exists n :: n in ns && w.weight == n.similarity
    ensures forall w :: w in r ==> exists e :: e in store && w.score == Vote(e.1, target)
    ensures (forall n :: n in ns ==> Get(store, n.userId).Some?) ==> |r| == |ns|
  {
    if ns == [] then []
    else
      var rest := NeighborVotes(ns[1..], store, target);
      assert forall n :: n in ns[1..] ==> n in ns;
      match Get(store, ns[0].userId)
      case None => rest
      case Some(b) =>
        assert (ns[0].userId, b) in store;
        [Weighted(Vote(b, target), ns[0].similarity)] + rest
  }

  /** The votes pair up, in order, with the neighbours that have a record:
      the i-th vote is the i-th such neighbour's, at its similarity. */
  lemma {:induction false} VotesPairUp(ns: seq<Neighbor>, store: Store, target: string)
    ensures |NeighborVotes(ns, store, target)| == |Filter(ns, HasRecord(store))|
    ensures forall i :: 0 <= i < |Filter(ns, HasRecord(store))| ==>
      VoteFrom(store, target, Filter(ns, HasRecord(store))[i], NeighborVotes(ns, store, target)[i])
  {
    if ns != [] {
      VotesPairUp(ns[1..], store, target);
      var f, fr := Filter(ns, HasRecord(store)), Filter(ns[1..], HasRecord(store));
      var v, vr := NeighborVotes(ns, store, target), NeighborVotes(ns[1..], store, target);
      match Get(store, ns[0].userId)
      case None =>
        assert f == fr && v == vr;
      case Some(b) =>
        assert f == [ns[0]] + fr && v == [Weighted(Vote(b, target), ns[0].similarity)] + vr;
        PairStep(store, target, fr, vr);
    }
  }

  /** Pairing survives putting one more neighbour and its vote in front. */
  lemma PairStep(store: Store, target: string, fr: seq<Neighbor>, vr: seq<Weighted>)
    requires |vr| == |fr|
    requires forall i :: 0 <= i < |fr| ==> VoteFrom(store, target, fr[i], vr[i])
    ensures forall n, w :: VoteFrom(store, target, n, w) ==>
      forall i :: 0 <= i < |fr| + 1 ==> VoteFrom(store, target, ([n] + fr)[i], ([w] + vr)[i])
  {
    forall n, w, i | VoteFrom(store, target, n, w) && 0 <= i < |fr| + 1
      ensures VoteFrom(store, target, ([n] + fr)[i], ([w] + vr)[i])
    {
      if i > 0 {
        assert ([n] + fr)[i] == fr[i - 1] && ([w] + vr)[i] == vr[i - 1];
      }
    }
  }

  /** With a record for every neighbour, the votes pair up with the
      neighbours one for one. */
  lemma VotesPairUpAll(ns: seq<Neighbor>, store: Store, target: string)
    requires forall n :: n in ns ==> Get(store, n.userId).Some?
    ensures |NeighborVotes(ns, store, target)| == |ns|
    ensures forall i :: 0 <= i < |ns| ==> VoteFrom(store, target, ns[i], NeighborVotes(ns, store, target)[i])
  {
    FilterKeepsAll(ns, HasRecord(store));
    VotesPairUp(ns, store, target);
  }

  /** `similarUsers.slice(0, 5)`: the five most similar users, most
      similar first, each with a record in the store; anyone similar enough
      who is left out is no more similar than each one kept. */
  function NearestNeighbors(id: string, store: Store): (top: seq<Neighbor>)
    ensures |top| == 0 <==> FindSimilarUsers(id, store) == []
    ensures forall n :: n in top ==> n.similarity > SimilarityThreshold && Get(store, n.userId).Some?
    ensures |top| == Min(NeighborLimit, |FindSimilarUsers(id, store)|)
    ensures SortedDesc(top, SimilarityOf)
  {
    var similar := FindSimilarUsers(id, store);
    var top := SliceTo(similar, NeighborLimit);
    assert forall n :: n in top ==> n in similar;
    assert forall n :: n in top ==> Get(store, n.userId).Some?;
    TopOfSortedList(similar, SimilarityOf, NeighborLimit);
    top
  }

  /** The neighbours kept are the most similar ones: anyone similar enough
      who is left out is no more similar than each one kept. */
  lemma NearestAreTop(id: string, store: Store)
    ensures KeepsTop(NearestNeighbors(id, store), FindSimilarUsers(id, store), SimilarityOf)
    ensures forall n, m ::
      (n in FindSimilarUsers(id, store) && n !in NearestNeighbors(id, store) && m in NearestNeighbors(id, store))
      ==> n.similarity <= m.similarity
  {
    var similar := FindSimilarUsers(id, store);
    TopOfSortedList(similar, SimilarityOf, NeighborLimit);
    OutrankedIfDropped(NearestNeighbors(id, store), similar, SimilarityOf);
  }

  /** The votes the estimate averages: those of the five most similar users. */
  function TopVotes(id: string, target: string, store: Store): (r: seq<Weighted>)
    ensures forall i :: 0 <= i < |r| ==> r[i].weight > SimilarityThreshold && 10.0 <= r[i].score <= 90.0
    ensures |r| == 0 <==> FindSimilarUsers(id, store) == []
  {
    var top := NearestNeighbors(id, store);
    var r := NeighborVotes(top, store, target);
    assert forall i :: 0 <= i < |r| ==> r[i] in r;
    r
  }

  /** `predictCompatibilityUsingCollaborativeFiltering`: the similarity-weighted
      mean of the neighbours' votes; 50 without a record or without
      neighbours. */
  function PredictCompatibility(id: string, target: string, store: Store): (r: real)
    ensures Get(store, id).None? ==> r == 50.0
    ensures FindSimilarUsers(id, store) == [] ==> r == 50.0
    ensures 10.0 <= r <= 90.0
  {
    if Get(store, id).None? then 50.0 else EstimateFrom(TopVotes(id, target, store))
  }

  /** The estimate from the neighbours' votes: their weighted mean, or 50
      when the weights add up to nothing. */
  function EstimateFrom(votes: seq<Weighted>): (r: real)
    requires forall i :: 0 <= i < |votes| ==> votes[i].weight > SimilarityThreshold && 10.0 <= votes[i].score <= 90.0
    ensures votes == [] ==> r == 50.0
    ensures 10.0 <= r <= 90.0
    ensures votes != [] ==> IsWeightedMean(r, votes)
  {
    SumWeightsNonNeg(votes);
    VotesWeighSomething(votes);
    if SumWeights(votes) > 0.0 then
      WeightedAverageBounds(votes, 10.0, 90.0);
      MeanOfVotes(votes);
      WeightedAverage(votes)
    else 50.0
  }

  /** `r` is the weighted mean of the votes: the weights add up to
      something positive, and `r` times that total is the sum of each
      score times its weight. */
  ghost predicate IsWeightedMean(r: real, votes: seq<Weighted>) {
    SumWeights(votes) > 0.0 && r * SumWeights(votes) == SumProducts(votes)
  }

  /** With a record and similar users, the estimate is the similarity-
      weighted mean of the five nearest neighbours' votes. */
  lemma PredictIsWeightedMean(id: string, target: string, store: Store)
    requires Get(store, id).Some? && FindSimilarUsers(id, store) != []
    ensures IsWeightedMean(PredictCompatibility(id, target, store), TopVotes(id, target, store))
  {
  }

  lemma MeanOfVotes(votes: seq<Weighted>)
    requires SumWeights(votes) > 0.0
    ensures IsWeightedMean(WeightedAverage(votes), votes)
  {
  }

  /** Votes whose weights all pass the similarity threshold have a positive
      total weight as soon as there is one. */
  lemma VotesWeighSomething(votes: seq<Weighted>)
    requires forall i :: 0 <= i < |votes| ==> votes[i].weight > SimilarityThreshold
    ensures votes != [] ==> SumWeights(votes) > 0.0
  {
    if votes != [] {
      SumWeightsNonNeg(votes[1..]);
    }
  }

  /** The averaged votes are the five nearest neighbours' own, one each,
      in order of similarity. */
  lemma TopVotesPairing(id: string, target: string, store: Store)
    ensures |TopVotes(id, target, store)| == |NearestNeighbors(id, store)|
    ensures forall i :: 0 <= i < |TopVotes(id, target, store)| ==>
      VoteFrom(store, target, NearestNeighbors(id, store)[i], TopVotes(id, target, store)[i])
  {
    VotesPairUpAll(NearestNeighbors(id, store), store, target);
  }

  /** When the neighbours agree on one vote, the estimate is that vote. */
  lemma PredictUnanimous(id: string, target: string, store: Store, c: real)
    requires FindSimilarUsers(id, store) != []
    requires forall e :: e in store ==> Vote(e.1, target) == c
    ensures PredictCompatibility(id, target, store) == c
  {
    var votes := TopVotes(id, target, store);
    assert |votes| > 0;
    assert votes[0].weight > 0.0;
    SumWeightsNonNeg(votes[1..]);
    assert SumWeights(votes) > 0.0;
    assert forall i :: 0 <= i < |votes| ==> votes[i] in votes;
    WeightedAverageConstant(votes, c);
  }

  /** A target nobody in the store has rated gets the neutral 50. */
  lemma PredictUnratedTarget(id: string, target: string, store: Store)
    requires forall e :: e in store ==> (target !in e.1.likedProfiles && target !in e.1.acceptedConnections
      && target !in e.1.dislikedProfiles && target !in e.1.declinedConnections)
    ensures PredictCompatibility(id, target, store) == 50.0
  {
    if FindSimilarUsers(id, store) != [] {
      PredictUnanimous(id, target, store, 50.0);
    }
  }

  // ---- Score adjustment -----------------------------------------------------------------

  const FilteringReason: string := "Sisters with similar preferences also connected with this person"
  const PatternReason: string := "Matches your interaction patterns"

  /** `calculateBehaviorPatternBonus`: 5 points once the user has liked
      more than three profiles. */
  function PatternBonus(b: UserBehavior): (r: real)
    ensures r == 0.0 || r == 5.0
    ensures r > 2.0 <==> |b.likedProfiles| > 3
  {
    if |b.likedProfiles| > 3 then 5.0 else 0.0
  }

  /** The collaborative bonus: a fifth of the estimate's distance from 50. */
  function FilteringBonus(cf: real): (r: real)
    ensures 10.0 <= cf <= 90.0 ==> -8.0 <= r <= 8.0
    ensures r > 2.0 <==> cf > 60.0
    ensures r == 0.0 <==> cf == 50.0
  {
    (cf - 50.0) * 0.2
  }

  /** A score moved by `bonus` and clamped to 0-100: an in-range score
      moves towards the bonus's sign by at most its size. */
  function AdjustTotal(t: Num, bonus: real): (r: Num)
    ensures r.NaN? <==> t.NaN?
    ensures r.Fin? ==> 0.0 <= r.v <= 100.0
    ensures t.Fin? && 0.0 <= t.v <= 100.0 && bonus >= 0.0 ==> 0.0 <= r.v - t.v <= bonus
    ensures t.Fin? && 0.0 <= t.v <= 100.0 && bonus <= 0.0 ==> bonus <= r.v - t.v <= 0.0
  {
    Clamp100(Add(t, Fin(bonus)))
  }

  /** One entry of `adjustScoresWithML`. */
  function AdjustMatch(m: MatchScore, id: string, b: UserBehavior, store: Store): (r: MatchScore)
    ensures r == m.(totalScore := r.totalScore, reasons := r.reasons)
    ensures r.totalScore.NaN? <==> m.totalScore.NaN?
    ensures r.totalScore.Fin? ==> 0.0 <= r.totalScore.v <= 100.0
    ensures m.totalScore.Fin? && 0.0 <= m.totalScore.v <= 100.0 ==>
      -8.0 <= r.totalScore.v - m.totalScore.v <= 13.0
    ensures r.reasons == m.reasons
      + (if PredictCompatibility(id, m.userId, store) > 60.0 then [FilteringReason] else [])
      + (if |b.likedProfiles| > 3 then [PatternReason] else [])
  {
    var cfBonus := FilteringBonus(PredictCompatibility(id, m.userId, store));
    var patternBonus := PatternBonus(b);
    assert -8.0 <= cfBonus + patternBonus <= 13.0;
    m.(totalScore := AdjustTotal(m.totalScore, cfBonus + patternBonus),
       reasons := m.reasons
         + (if cfBonus > 2.0 then [FilteringReason] else [])
         + (if patternBonus > 2.0 then [PatternReason] else []))
  }

  /** A neutral estimate and no like history leave an in-range entry as it
      was. */
  lemma AdjustMatchNeutral(m: MatchScore, id: string, b: UserBehavior, store: Store)
    requires PredictCompatibility(id, m.userId, store) == 50.0 && |b.likedProfiles| <= 3
    requires m.totalScore.Fin? && 0.0 <= m.totalScore.v <= 100.0
    ensures AdjustMatch(m, id, b, store) == m
  {
    assert m.totalScore == Add(m.totalScore, Fin(0.0));
  }

  /** `adjustScoresWithML`: each entry adjusted in place. */
  function AdjustScores(ms: seq<MatchScore>, id: string, b: UserBehavior, store: Store): (r: seq<MatchScore>)
    ensures |r| == |ms|
    ensures forall i :: 0 <= i < |ms| ==> r[i].userId == ms[i].userId && r[i].breakdown == ms[i].breakdown
    ensures forall i :: 0 <= i < |ms| ==> ms[i].reasons <= r[i].reasons && |r[i].reasons| <= |ms[i].reasons| + 2
    ensures forall i :: 0 <= i < |ms| ==> (r[i].totalScore.NaN? <==> ms[i].totalScore.NaN?)
    ensures forall i :: 0 <= i < |ms| && r[i].totalScore.Fin? ==> 0.0 <= r[i].totalScore.v <= 100.0
  {
    Map(ms, (m: MatchScore) => AdjustMatch(m, id, b, store))
  }

  // ---- Diversity --------------------------------------------------------------------------

  /** `calculateDimensionDiversity`: the share of distinct values, which is
      0/0 (NaN) for no values. */
  function DimensionDiversity<T(==)>(values: seq<T>): (r: Num)
    ensures r.NaN? <==> values == []
    ensures r.Fin? ==> 0.0 < r.v <= 100.0
    ensures r.Fin? ==> (r.v == 100.0 <==> NoDuplicates(values))
  {
    if values == [] then NaN
    else
      DistinctCount(values);
      assert values[0] in ToSet(values);
      FullShare(|ToSet(values)|, |values|);
      Fin(MinR(100.0, |ToSet(values)| as real / |values| as real * 100.0))
  }

  function RecommendedUsers(recs: seq<MatchScore>, users: seq<UserProfile>): seq<UserProfile> {
    UsersFromIds(Map(recs, (m: MatchScore) => m.userId), users)
  }

  function PracticeLevelOf(u: UserProfile): PracticeLevel { u.islamicProfile.practiceLevel }

  /** `calculateRecommendationDiversity`: 100 for fewer than two
      recommendations; otherwise the mean of the age, city and practice-level
      diversities of the recommended users that resolve, NaN when none do. */
  function RecommendationDiversity(recs: seq<MatchScore>, users: seq<UserProfile>): (r: Num)
    ensures |recs| < 2 ==> r == Fin(100.0)
    ensures |recs| >= 2 ==> (r.NaN? <==> RecommendedUsers(recs, users) == [])
    ensures r.Fin? ==> 0.0 < r.v <= 100.0
    ensures |recs| >= 2 && r.Fin? ==> (r.v == 100.0 <==>
      (NoDuplicates(Map(RecommendedUsers(recs, users), Age))
       && NoDuplicates(Map(RecommendedUsers(recs, users), City))
       && NoDuplicates(Map(RecommendedUsers(recs, users), PracticeLevelOf))))
  {
    if |recs| < 2 then Fin(100.0)
    else
      var found := RecommendedUsers(recs, users);
      var age := DimensionDiversity(Map(found, Age));
      var city := DimensionDiversity(Map(found, City));
      var level := DimensionDiversity(Map(found, PracticeLevelOf));
      Scale(Add(Add(age, city), level), 1.0 / 3.0)
  }

  /** There are four practice levels, so among five or more recommended
      users two share one and the diversity never reaches 100. */
  lemma DiversityCappedByPracticeLevels(recs: seq<MatchScore>, users: seq<UserProfile>)
    requires |recs| >= 2 && |RecommendedUsers(recs, users)| > 4
    ensures RecommendationDiversity(recs, users).Fin?
    ensures RecommendationDiversity(recs, users).v < 100.0
  {
    LevelsRepeat(Map(RecommendedUsers(recs, users), PracticeLevelOf));
  }

  /** Pigeonhole over the four practice levels. */
  lemma LevelsRepeat(levels: seq<PracticeLevel>)
    requires |levels| > 4
    ensures !NoDuplicates(levels)
  {
    var all := {Beginner, Intermediate, Advanced, Scholar};
    assert ToSet(levels) <= all by {
      forall x | x in ToSet(levels)
        ensures x in all
      {
        match x
        case Beginner =>
        case Intermediate =>
        case Advanced =>
        case Scholar =>
      }
    }
    SubsetCard(ToSet(levels), all);
    DistinctCount(levels);
  }
}

=== FILE: compatibility_scorer.dfy ===
/** `CompatibilityScorer` (src/matching/algorithms/compatibility-scorer.ts):
    deal-breakers, six sub-scores, the weighted total, and the reason and
    special-feature strings of one match. */
module CompatibilityScorer {
  import opened Seqs
  import opened Strings
  import opened JsNumber
  import opened Types
  import Scoring

  // ---- Deal-breakers --------------------------------------------------------------

  /** One violated deal-breaker, with what its message mentions. */
  datatype DealBreaker =
    | AgeOutside(age: int, min: int, max: int)
    | TooFar(distance: real, maxDistance: real)
    | PracticeLevelDiffers
    | NoHijab
    | FamilyStatusDiffers
    | MissingLanguages(required: seq<string>)

  function DealBreakerMessage(env: Env, d: DealBreaker): string {
    match d
    case AgeOutside(a, lo, hi) =>
      "Age " + IntToString(a) + " is outside preferred range " + IntToString(lo) + "-" + IntToString(hi)
    case TooFar(dist, max) =>
      "Distance " + env.toFixed1(dist) + "km exceeds maximum " + env.numberText(max) + "km"
    case PracticeLevelDiffers => "Different Islamic practice levels"
    case NoHijab => "Does not wear hijab"
    case FamilyStatusDiffers => "Different family status"
    case MissingLanguages(req) => "Does not speak required languages: " + Join(req, ", ")
  }

  /** `requiredLanguages.some(lang => languages.includes(lang) || secondary?.includes(lang))` */
  predicate SpeaksSomeOf(u: UserProfile, required: seq<string>) {
    exists lang :: lang in required && lang in AllLanguages(u)
  }

  function Distance(env: Env, u1: UserProfile, u2: UserProfile): NonNeg {
    env.distance(u1.personalInfo.location, u2.personalInfo.location)
  }

  predicate AgeOutOfRange(u2: UserProfile, p: MatchingPreferences) {
    Age(u2) < p.ageRange.min || Age(u2) > p.ageRange.max
  }

  /** All six deal-breaker conditions are clear. The distance limit applies
      whatever `dealBreakers.tooFarDistance` says. */
  predicate PassesDealBreakers(env: Env, u1: UserProfile, u2: UserProfile, p: MatchingPreferences) {
    && !AgeOutOfRange(u2, p)
    && Distance(env, u1, u2) <= p.maxDistance
    && !(p.dealBreakers.differentPracticeLevel && u1.islamicProfile.practiceLevel != u2.islamicProfile.practiceLevel)
    && !(p.dealBreakers.noHijab && !u2.islamicProfile.hijabWearing)
    && !(p.dealBreakers.differentFamilyStatus && u1.lifestyle.familyStatus != u2.lifestyle.familyStatus)
    && !(|p.requiredLanguages| > 0 && !SpeaksSomeOf(u2, p.requiredLanguages))
  }

  /** Whether a deal-breaker fires for this pair. */
  predicate Fires(env: Env, u1: UserProfile, u2: UserProfile, p: MatchingPreferences, d: DealBreaker) {
    match d
    case AgeOutside(_, _, _) => AgeOutOfRange(u2, p)
    case TooFar(_, _) => Distance(env, u1, u2) > p.maxDistance
    case PracticeLevelDiffers =>
      p.dealBreakers.differentPracticeLevel && u1.islamicProfile.practiceLevel != u2.islamicProfile.practiceLevel
    case NoHijab => p.dealBreakers.noHijab && !u2.islamicProfile.hijabWearing
    case FamilyStatusDiffers =>
      p.dealBreakers.differentFamilyStatus && u1.lifestyle.familyStatus != u2.lifestyle.familyStatus
    case MissingLanguages(_) => |p.requiredLanguages| > 0 && !SpeaksSomeOf(u2, p.requiredLanguages)
  }

  /** The six checks in the order the code makes them. */
  function Checks(env: Env, u1: UserProfile, u2: UserProfile, p: MatchingPreferences): seq<DealBreaker> {
    [AgeOutside(Age(u2), p.ageRange.min, p.ageRange.max), TooFar(Distance(env, u1, u2), p.maxDistance),
     PracticeLevelDiffers, NoHijab, FamilyStatusDiffers, MissingLanguages(p.requiredLanguages)]
  }

  /** `checkDealBreakers`: the violated conditions in the order they are
      checked; the match passes iff there are none. */
  function CheckDealBreakers(env: Env, u1: UserProfile, u2: UserProfile, p: MatchingPreferences): (r: seq<DealBreaker>)
    ensures forall d :: d in r <==> d in Checks(env, u1, u2, p) && Fires(env, u1, u2, p, d)
    ensures r == [] <==> PassesDealBreakers(env, u1, u2, p)
    ensures AgeOutOfRange(u2, p) ==> r[0] == AgeOutside(Age(u2), p.ageRange.min, p.ageRange.max)
    ensures |r| <= 6
    ensures IsSubsequence(r, Checks(env, u1, u2, p))
    ensures NoDuplicates(r)
  {
    var all := Checks(env, u1, u2, p);
    var fires := d => Fires(env, u1, u2, p, d);
    var r := Filter(all, fires);
    PassesIffNoneFires(env, u1, u2, p);
    FilterSubsequence(all, fires);
    ChecksDistinct(env, u1, u2, p);
    FilterKeepsDistinct(all, fires);
    assert r == [] <==> forall d :: d in all ==> !Fires(env, u1, u2, p, d) by {
      if r != [] {
        assert r[0] in r;
      }
    }
    r
  }

  /** The six checks are six different conditions. */
  lemma ChecksDistinct(env: Env, u1: UserProfile, u2: UserProfile, p: MatchingPreferences)
    ensures NoDuplicates(Checks(env, u1, u2, p))
  {
  }

  lemma PassesIffNoneFires(env: Env, u1: UserProfile, u2: UserProfile, p: MatchingPreferences)
    ensures PassesDealBreakers(env, u1, u2, p) <==>
      forall d :: d in Checks(env, u1, u2, p) ==> !Fires(env, u1, u2, p, d)
  {
    var all := Checks(env, u1, u2, p);
    if PassesDealBreakers(env, u1, u2, p) {
      forall d | d in all
        ensures !Fires(env, u1, u2, p, d)
      {
        var i :| 0 <= i < |all| && all[i] == d;
      }
    } else {
      var i := if Fires(env, u1, u2, p, all[0]) then 0
               else if Fires(env, u1, u2, p, all[1]) then 1
               else if Fires(env, u1, u2, p, all[2]) then 2
               else if Fires(env, u1, u2, p, all[3]) then 3
               else if Fires(env, u1, u2, p, all[4]) then 4
               else 5;
      assert all[i] in all;
    }
  }

  /** Each deal-breaker is reported exactly when its condition holds. */
  lemma DealBreakerReported(env: Env, u1: UserProfile, u2: UserProfile, p: MatchingPreferences)
    ensures AgeOutside(Age(u2), p.ageRange.min, p.ageRange.max) in CheckDealBreakers(env, u1, u2, p)
      <==> AgeOutOfRange(u2, p)
    ensures TooFar(Distance(env, u1, u2), p.maxDistance) in CheckDealBreakers(env, u1, u2, p)
      <==> Distance(env, u1, u2) > p.maxDistance
    ensures PracticeLevelDiffers in CheckDealBreakers(env, u1, u2, p) <==>
      p.dealBreakers.differentPracticeLevel && u1.islamicProfile.practiceLevel != u2.islamicProfile.practiceLevel
    ensures NoHijab in CheckDealBreakers(env, u1, u2, p) <==> p.dealBreakers.noHijab && !u2.islamicProfile.hijabWearing
    ensures FamilyStatusDiffers in CheckDealBreakers(env, u1, u2, p) <==>
      p.dealBreakers.differentFamilyStatus && u1.lifestyle.familyStatus != u2.lifestyle.familyStatus
    ensures MissingLanguages(p.requiredLanguages) in CheckDealBreakers(env, u1, u2, p) <==>
      |p.requiredLanguages| > 0 && !SpeaksSomeOf(u2, p.requiredLanguages)
  {
    var all := Checks(env, u1, u2, p);
    assert all[0] in all && all[1] in all && all[2] in all && all[3] in all && all[4] in all && all[5] in all;
  }

  // ---- Interests ------------------------------------------------------------------

  /** `calculateInterestCompatibility`: 50 when neither profile lists an
      interest; otherwise the share of the first profile's interests the
      second also lists, over the longer list, plus 10 per shared Islamic
      interest, capped at 100. */
  function InterestScore(u1: UserProfile, u2: UserProfile): (r: real)
    ensures 0.0 <= r <= 100.0
    ensures AllInterests(u1) == [] && AllInterests(u2) == [] ==> r == 50.0
    ensures AllInterests(u1) + AllInterests(u2) != [] ==>
      (r == 0.0 <==> !Overlaps(AllInterests(u1), AllInterests(u2)))
  {
    var all1, all2 := AllInterests(u1), AllInterests(u2);
    var total := Dedup(all1 + all2);
    if |total| == 0 then
      assert forall x :: x in all1 ==> x in all1 + all2;
      assert forall x :: x in all2 ==> x in all1 + all2;
      50.0
    else
      var common := FilterIn(all1, all2);
      var isl1, isl2 := u1.interests.islamicInterests, u2.interests.islamicInterests;
      var islamicCommon := |FilterIn(isl1, isl2)|;
      var longest := Max(|all1|, |all2|);
      assert |all1 + all2| > 0;
      RatioPercentBounds(|common| as real, longest as real);
      var base := |common| as real / longest as real * 100.0;
      FilterInEmptyIffDisjoint(all1, all2);
      FilterInEmptyIffDisjoint(isl1, isl2);
      assert Overlaps(isl1, isl2) ==> Overlaps(all1, all2) by {
        if Overlaps(isl1, isl2) {
          var x :| x in isl1 && x in isl2;
          assert x in all1 && x in all2;
        }
      }
      PositiveShare(|common|, longest);
      MinR(100.0, base + islamicCommon as real * 10.0)
  }

  lemma PositiveShare(k: nat, n: nat)
    requires k <= n && n > 0
    ensures k > 0 <==> k as real / n as real * 100.0 > 0.0
  {
    if k > 0 {
      Scoring.ScaleFacts(k as real / n as real, 100.0);
    }
  }

  // ---- Location -------------------------------------------------------------------

  /** The proximity score of a distance: 0 beyond the limit, 100 for the
      same city string, else the linear decay `100 - d / max * 100`, which is
      0/0 (NaN) when both the limit and the distance are 0. */
  function Proximity(d: NonNeg, sameCityName: bool, maxDistance: real): (r: Num)
    ensures d > maxDistance ==> r == Fin(0.0)
    ensures d <= maxDistance && sameCityName ==> r == Fin(100.0)
    ensures r.NaN? <==> d <= maxDistance && !sameCityName && maxDistance == 0.0
    ensures r.Fin? ==> 0.0 <= r.v <= 100.0
  {
    if d > maxDistance then Fin(0.0)
    else if sameCityName then Fin(100.0)
    else if maxDistance == 0.0 then NaN
    else
      assert 0.0 <= d / maxDistance <= 1.0 by { Scoring.DivMono(d, maxDistance, maxDistance); Scoring.DivMono(0.0, d, maxDistance); }
      Fin(MaxR(0.0, 100.0 - d / maxDistance * 100.0))
  }

  /** Moving further away never raises the proximity score. */
  lemma ProximityMonotone(d1: NonNeg, d2: NonNeg, same: bool, maxDistance: real)
    requires d1 <= d2 && maxDistance > 0.0
    ensures Proximity(d1, same, maxDistance).v >= Proximity(d2, same, maxDistance).v
  {
    if d2 <= maxDistance && !same {
      Scoring.DivMono(d1, d2, maxDistance);
      Scoring.MulMono(d1 / maxDistance, d2 / maxDistance, 100.0);
    }
  }

  /** `calculateLocationCompatibility`: the city test is exact string
      equality of the city alone (case-sensitive, country ignored). */
  function LocationScore(env: Env, u1: UserProfile, u2: UserProfile, maxDistance: real): (r: Num)
    ensures Distance(env, u1, u2) > maxDistance ==> r == Fin(0.0)
    ensures Distance(env, u1, u2) <= maxDistance && City(u1) == City(u2) ==> r == Fin(100.0)
    ensures r.NaN? <==> Distance(env, u1, u2) <= maxDistance && City(u1) != City(u2) && maxDistance == 0.0
    ensures r.Fin? ==> 0.0 <= r.v <= 100.0
  {
    Proximity(Distance(env, u1, u2), City(u1) == City(u2), maxDistance)
  }

  /** Two spellings of one city that differ in case miss the same-city score
      unless the users stand on the same spot. */
  lemma CityCaseMatters(env: Env, u1: UserProfile, u2: UserProfile, maxDistance: real)
    requires City(u1) != City(u2)
    requires 0.0 < Distance(env, u1, u2) <= maxDistance
    ensures LocationScore(env, u1, u2, maxDistance).Fin?
    ensures LocationScore(env, u1, u2, maxDistance).v < 100.0
  {
    var d := Distance(env, u1, u2);
    assert d / maxDistance > 0.0;
    Scoring.ScaleFacts(d / maxDistance, 100.0);
  }

  // ---- Language -------------------------------------------------------------------

  /** `calculateLanguageCompatibility`: 0 with no common language; else the
      share of the first user's languages the second speaks, over the
      longer list, plus 20 when the primary lists meet, capped at 100. The
      required languages play no part. */
  function LanguageScore(u1: UserProfile, u2: UserProfile): (r: real)
    ensures 0.0 <= r <= 100.0
    ensures r == 0.0 <==> !Overlaps(AllLanguages(u1), AllLanguages(u2))
    ensures Overlaps(u1.personalInfo.languages, u2.personalInfo.languages) ==> r >= 20.0
  {
    var l1, l2 := AllLanguages(u1), AllLanguages(u2);
    var common := FilterIn(l1, l2);
    FilterInEmptyIffDisjoint(l1, l2);
    var p1, p2 := u1.personalInfo.languages, u2.personalInfo.languages;
    assert Overlaps(p1, p2) ==> Overlaps(l1, l2) by {
      if Overlaps(p1, p2) {
        var x :| x in p1 && x in p2;
        assert x in l1 && x in l2;
      }
    }
    if |common| == 0 then 0.0
    else
      var primaryMatch := Overlaps(p1, p2);
      var longest := Max(|l1|, |l2|);
      RatioPercentBounds(|common| as real, longest as real);
      PositiveShare(|common|, longest);
      var base := |common| as real / longest as real * 100.0;
      MinR(100.0, base + if primaryMatch then 20.0 else 0.0)
  }

  // ---- Islamic practice -----------------------------------------------------------

  function LevelIndex(l: PracticeLevel): int {
    match l case Beginner => 0 case Intermediate => 1 case Advanced => 2 case Scholar => 3
  }

  function PrayerIndex(f: PrayerFrequency): int {
    match f case Rarely => 0 case Sometimes => 1 case Regularly => 2 case Always => 3
  }

  function MosqueIndex(m: MosqueAttendance): int {
    match m case Never => 0 case Occasionally => 1 case Weekly => 2 case Daily => 3
  }

  function HijabScore(h1: bool, h2: bool): real {
    if h1 == h2 then (if h1 then 100.0 else 80.0) else 60.0
  }

  /** `Math.max(0, 100 - |a - b| * step)`: how close two positions on a
      scale are. */
  function Nearness(a: int, b: int, step: nat): (r: real)
    ensures 0.0 <= r <= 100.0
    ensures a == b ==> r == 100.0
  {
    MaxR(0.0, 100.0 - (AbsI(a - b) * step) as real)
  }

  lemma NearnessSymmetric(a: int, b: int, step: nat)
    ensures Nearness(a, b, step) == Nearness(b, a, step)
  {
    assert AbsI(a - b) == AbsI(b - a);
  }

  /** `calculateIslamicCompatibility`: four factors (level at 25 points a
      step, prayer at 30, hijab 100/80/60, mosque at 25) plus a 10-point
      bonus when either is a new Muslim, divided by 4, so the score can
      exceed 100. */
  function IslamicScore(u1: UserProfile, u2: UserProfile): (r: real)
    ensures 30.0 <= r <= 102.5
  {
    var i1, i2 := u1.islamicProfile, u2.islamicProfile;
    var level := Nearness(LevelIndex(i1.practiceLevel), LevelIndex(i2.practiceLevel), 25);
    var prayer := Nearness(PrayerIndex(i1.prayerFrequency), PrayerIndex(i2.prayerFrequency), 30);
    var hijab := HijabScore(i1.hijabWearing, i2.hijabWearing);
    var mosque := Nearness(MosqueIndex(i1.mosqueAttendance), MosqueIndex(i2.mosqueAttendance), 25);
    var bonus := if i1.isNewMuslim || i2.isNewMuslim then 10.0 else 0.0;
    (level + prayer + hijab + mosque + bonus) / 4.0
  }

  lemma IslamicScoreSymmetric(u1: UserProfile, u2: UserProfile)
    ensures IslamicScore(u1, u2) == IslamicScore(u2, u1)
  {
    var i1, i2 := u1.islamicProfile, u2.islamicProfile;
    NearnessSymmetric(LevelIndex(i1.practiceLevel), LevelIndex(i2.practiceLevel), 25);
    NearnessSymmetric(PrayerIndex(i1.prayerFrequency), PrayerIndex(i2.prayerFrequency), 30);
    NearnessSymmetric(MosqueIndex(i1.mosqueAttendance), MosqueIndex(i2.mosqueAttendance), 25);
    assert HijabScore(i1.hijabWearing, i2.hijabWearing) == HijabScore(i2.hijabWearing, i1.hijabWearing);
  }

  /** The top score 102.5 is reached exactly by matching level, prayer and
      mosque habits, both wearing hijab, and a new Muslim among the two. */
  lemma IslamicScoreTop(u1: UserProfile, u2: UserProfile)
    ensures IslamicScore(u1, u2) == 102.5 <==>
      var i1, i2 := u1.islamicProfile, u2.islamicProfile;
      && i1.practiceLevel == i2.practiceLevel
      && i1.prayerFrequency == i2.prayerFrequency
      && i1.mosqueAttendance == i2.mosqueAttendance
      && i1.hijabWearing && i2.hijabWearing
      && (i1.isNewMuslim || i2.isNewMuslim)
  {
  }

  /** Identical practice always scores at least 95. */
  lemma IslamicScoreIdentical(u1: UserProfile, u2: UserProfile)
    requires u1.islamicProfile == u2.islamicProfile
    ensures IslamicScore(u1, u2) >= 95.0
  {
  }

  // ---- Lifestyle ------------------------------------------------------------------

  /** `getWorkStatusCompatibility`: the fixed matrix over the status names,
      50 for any name outside it. */
  function WorkStatusCompatibility(s1: string, s2: string): (r: real)
    ensures 50.0 <= r <= 100.0
  {
    var row := if s1 == "student" then 0 else if s1 == "working" then 1 else if s1 == "homemaker" then 2
               else if s1 == "retired" then 3 else if s1 == "unemployed" then 4 else -1;
    var col := if s2 == "student" then 0 else if s2 == "working" then 1 else if s2 == "homemaker" then 2
               else if s2 == "retired" then 3 else if s2 == "unemployed" then 4 else -1;
    if row < 0 || col < 0 then 50.0 else WorkMatrix[row][col]
  }

  const WorkMatrix: seq<seq<real>> := [
    [100.0, 70.0, 60.0, 50.0, 80.0],
    [70.0, 100.0, 60.0, 50.0, 50.0],
    [60.0, 60.0, 100.0, 80.0, 70.0],
    [50.0, 50.0, 80.0, 100.0, 60.0],
    [80.0, 50.0, 70.0, 60.0, 100.0]]

  lemma WorkStatusMatrixFacts(s1: string, s2: string, w: WorkStatus)
    ensures WorkStatusCompatibility(s1, s2) == WorkStatusCompatibility(s2, s1)
    ensures WorkStatusCompatibility(WorkStatusName(w), WorkStatusName(w)) == 100.0
    ensures s1 !in ["student", "working", "homemaker", "retired", "unemployed"] ==>
      WorkStatusCompatibility(s1, s2) == 50.0
  {
  }

  function AvailabilityIndex(a: Availability): int {
    match a case VeryLimited => 0 case Limited => 1 case Moderate => 2 case Flexible => 3 case VeryFlexible => 4
  }

  /** `getAvailabilityCompatibility`: 20 points off per step apart. */
  function AvailabilityCompatibility(a1: Availability, a2: Availability): (r: real)
    ensures r == 100.0 - 20.0 * AbsI(AvailabilityIndex(a1) - AvailabilityIndex(a2)) as real
    ensures 20.0 <= r <= 100.0
    ensures r == 100.0 <==> a1 == a2
  {
    MaxR(0.0, 100.0 - (AbsI(AvailabilityIndex(a1) - AvailabilityIndex(a2)) * 20) as real)
  }

  lemma AvailabilitySymmetric(a1: Availability, a2: Availability)
    ensures AvailabilityCompatibility(a1, a2) == AvailabilityCompatibility(a2, a1)
  {
  }

  /** The meeting-time overlap: the first list's times the second shares,
      over the longer list; two empty lists give 0/0. */
  function MeetingTimeScore(t1: seq<MeetingTime>, t2: seq<MeetingTime>): (r: Num)
    ensures r.NaN? <==> t1 == [] && t2 == []
    ensures r.Fin? ==> 0.0 <= r.v <= 100.0
    ensures r.Fin? ==> (r.v == 0.0 <==> !Overlaps(t1, t2))
  {
    var overlap := |FilterIn(t1, t2)|;
    var longest := Max(|t1|, |t2|);
    FilterInEmptyIffDisjoint(t1, t2);
    if longest == 0 then NaN
    else
      RatioPercentBounds(overlap as real, longest as real);
      PositiveShare(overlap, longest);
      Fin(overlap as real / longest as real * 100.0)
  }

  /** `calculateLifestyleCompatibility`: five factors averaged. */
  function LifestyleScore(u1: UserProfile, u2: UserProfile): (r: Num)
    ensures r.NaN? <==> u1.lifestyle.preferredMeetingTimes == [] && u2.lifestyle.preferredMeetingTimes == []
    ensures r.Fin? ==> 40.0 <= r.v <= 100.0
  {
    var s1, s2 := u1.lifestyle, u2.lifestyle;
    var work := if s1.workStatus == s2.workStatus then 100.0
                else WorkStatusCompatibility(WorkStatusName(s1.workStatus), WorkStatusName(s2.workStatus));
    var family := if s1.familyStatus == s2.familyStatus then 100.0 else 60.0;
    var children := if s1.hasChildren == s2.hasChildren then 100.0 else 70.0;
    var availability := AvailabilityCompatibility(s1.availability, s2.availability);
    var time := MeetingTimeScore(s1.preferredMeetingTimes, s2.preferredMeetingTimes);
    if time.NaN? then NaN
    else Fin((work + family + children + availability + time.v) / 5.0)
  }

  // ---- Weighting ------------------------------------------------------------------

  /** `preferences.softPreferences.sameCity || 0.3`: a zero weight falls back
      to 0.3 in the numerator. */
  function CityWeight(s: SoftPreferences): real {
    if s.sameCity == 0.0 then 0.3 else s.sameCity
  }

  /** The denominator: 0.5 plus the five soft weights as given (a zero city
      weight stays 0 here). */
  function TotalWeight(s: SoftPreferences): real {
    0.5 + s.similarInterests + s.similarAge + s.sameCity + s.similarPracticeLevel + s.similarLifestyle
  }

  const ZeroBreakdown: Breakdown :=
    Breakdown(Fin(0.0), Fin(0.0), Fin(0.0), Fin(0.0), Fin(0.0), Fin(0.0), Fin(0.0))

  /** The weighted sub-scores; language has the fixed weight 0.2 and the
      social-graph bonus enters unweighted. */
  function WeightedScores(env: Env, u1: UserProfile, u2: UserProfile, p: MatchingPreferences, socialBonus: real): (b: Breakdown)
    ensures b.socialGraphBonus == Fin(socialBonus)
    ensures b.languageMatch == Fin(LanguageScore(u1, u2) * 0.2)
    ensures b.locationProximity == Scale(LocationScore(env, u1, u2, p.maxDistance), CityWeight(p.softPreferences))
  {
    var s := p.softPreferences;
    Breakdown(
      Fin(InterestScore(u1, u2) * s.similarInterests),
      Scale(LocationScore(env, u1, u2, p.maxDistance), CityWeight(s)),
      Fin(Scoring.AgeCompatibility(Age(u1), Age(u2), p.ageRange.min, p.ageRange.max) * s.similarAge),
      Fin(LanguageScore(u1, u2) * 0.2),
      Fin(IslamicScore(u1, u2) * s.similarPracticeLevel),
      Scale(LifestyleScore(u1, u2), s.similarLifestyle),
      Fin(socialBonus))
  }

  /** The sum of the seven breakdown entries. */
  function BreakdownSum(b: Breakdown): Num {
    Add(Add(Add(Add(Add(Add(b.interestCompatibility, b.locationProximity), b.ageCompatibility),
      b.languageMatch), b.islamicCompatibility), b.lifestyleCompatibility), b.socialGraphBonus)
  }

  // ---- Reasons and special features -----------------------------------------------

  /** The reasons a match can give, in the order they are considered. */
  datatype Reason =
    | SharedInterests | SimilarPractice | SameCity | CloseBy
    | SimilarAge | SameLanguages | CompatibleLifestyles | MutualConnections

  function ReasonText(r: Reason): string {
    match r
    case SharedInterests => "You share many common interests"
    case SimilarPractice => "You have similar Islamic practice levels"
    case SameCity => "You live in the same city"
    case CloseBy => "You live relatively close to each other"
    case SimilarAge => "You are in similar age groups"
    case SameLanguages => "You speak the same languages"
    case CompatibleLifestyles => "You have compatible lifestyles"
    case MutualConnections => "You have mutual connections"
  }

  /** The thresholds, read off the weighted scores; "close by" is the
      `else` branch of "same city". */
  predicate Applies(b: Breakdown, r: Reason) {
    match r
    case SharedInterests => Gt(b.interestCompatibility, 70.0)
    case SimilarPractice => Gt(b.islamicCompatibility, 80.0)
    case SameCity => Gt(b.locationProximity, 90.0)
    case CloseBy => !Gt(b.locationProximity, 90.0) && Gt(b.locationProximity, 70.0)
    case SimilarAge => Gt(b.ageCompatibility, 80.0)
    case SameLanguages => Gt(b.languageMatch, 80.0)
    case CompatibleLifestyles => Gt(b.lifestyleCompatibility, 75.0)
    case MutualConnections => Gt(b.socialGraphBonus, 0.0)
  }

  function AllReasons(): seq<Reason> {
    [SharedInterests, SimilarPractice, SameCity, CloseBy, SimilarAge, SameLanguages,
     CompatibleLifestyles, MutualConnections]
  }

  lemma AllReasonsListed(x: Reason)
    ensures x in AllReasons()
  {
  }

  /** `generateMatchReasons`: every reason whose threshold the weighted
      scores pass, in a fixed order; "same city" and "close by" exclude
      each other, so at most seven. */
  function MatchReasons(b: Breakdown): (r: seq<Reason>)
    ensures forall x :: x in r <==> Applies(b, x)
    ensures !(SameCity in r && CloseBy in r)
    ensures |r| <= 7
  {
    var f := x => Applies(b, x);
    var r := Filter(AllReasons(), f);
    forall x
      ensures x in r <==> Applies(b, x)
    {
      AllReasonsListed(x);
    }
    var i := if Applies(b, SameCity) then 3 else 2;
    assert AllReasons()[i] == (if i == 3 then CloseBy else SameCity);
    assert !f(AllReasons()[i]);
    FilterDropsSome(AllReasons(), f, i);
    r
  }

  /** One special feature of a match, with the topics its text lists. */
  datatype Feature =
    | StudyBuddyFor(topics: seq<string>)
    | MentorFor
    | MentorOpportunity
    | NetworkingOn(topics: seq<string>)

  function FeatureText(f: Feature): string {
    match f
    case StudyBuddyFor(t) => "Study buddy for: " + Join(t, ", ")
    case MentorFor => "Potential mentor for Islamic guidance"
    case MentorOpportunity => "Opportunity to mentor a new Muslim sister"
    case NetworkingOn(t) => "Professional networking: " + Join(t, ", ")
  }

  /** Whether a candidate feature is offered for this pair. */
  predicate Offered(u1: UserProfile, u2: UserProfile, p: MatchingPreferences, f: Feature) {
    var n1, n2 := u1.islamicProfile.isNewMuslim, u2.islamicProfile.isNewMuslim;
    match f
    case StudyBuddyFor(t) => p.specialFeatures.studyBuddy && |t| > 0
    case MentorFor => p.specialFeatures.mentorship && n1 && !n2
    case MentorOpportunity => p.specialFeatures.mentorship && !n1 && n2
    case NetworkingOn(t) => p.specialFeatures.professionalNetworking && |t| > 0
  }

  function StudyOverlap(u1: UserProfile, u2: UserProfile): seq<string> {
    FilterIn(u1.interests.studyInterests, u2.interests.studyInterests)
  }

  function ProfessionalOverlap(u1: UserProfile, u2: UserProfile): seq<string> {
    FilterIn(u1.interests.professionalInterests, u2.interests.professionalInterests)
  }

  /** `identifySpecialFeatures`: study and professional overlaps, and the
      mentorship pairing when exactly one party is a new Muslim. Event
      companionship adds nothing here. */
  function SpecialFeatureList(u1: UserProfile, u2: UserProfile, p: MatchingPreferences): (r: seq<Feature>)
    ensures |r| <= 3
    ensures MentorFor in r <==> p.specialFeatures.mentorship && u1.islamicProfile.isNewMuslim && !u2.islamicProfile.isNewMuslim
    ensures MentorOpportunity in r <==> p.specialFeatures.mentorship && !u1.islamicProfile.isNewMuslim && u2.islamicProfile.isNewMuslim
  {
    var all := AllFeatures(u1, u2);
    var offered := f => Offered(u1, u2, p, f);
    var r := Filter(all, offered);
    FilterDropsSome(all, offered, if Offered(u1, u2, p, MentorFor) then 2 else 1);
    r
  }

  /** Every feature that could be offered, in the order they are listed. */
  function AllFeatures(u1: UserProfile, u2: UserProfile): seq<Feature> {
    [StudyBuddyFor(StudyOverlap(u1, u2)), MentorFor, MentorOpportunity, NetworkingOn(ProfessionalOverlap(u1, u2))]
  }

  /** The study and networking features are offered exactly when the
      preference is on and the two lists share an entry, and they carry
      the shared entries. */
  lemma OverlapFeatures(u1: UserProfile, u2: UserProfile, p: MatchingPreferences)
    ensures StudyBuddyFor(StudyOverlap(u1, u2)) in SpecialFeatureList(u1, u2, p) <==>
      p.specialFeatures.studyBuddy && Overlaps(u1.interests.studyInterests, u2.interests.studyInterests)
    ensures NetworkingOn(ProfessionalOverlap(u1, u2)) in SpecialFeatureList(u1, u2, p) <==>
      p.specialFeatures.professionalNetworking
      && Overlaps(u1.interests.professionalInterests, u2.interests.professionalInterests)
    ensures forall t :: StudyBuddyFor(t) in SpecialFeatureList(u1, u2, p) ==> t == StudyOverlap(u1, u2)
    ensures forall t :: NetworkingOn(t) in SpecialFeatureList(u1, u2, p) ==> t == ProfessionalOverlap(u1, u2)
  {
    FilterInEmptyIffDisjoint(u1.interests.studyInterests, u2.interests.studyInterests);
    FilterInEmptyIffDisjoint(u1.interests.professionalInterests, u2.interests.professionalInterests);
  }

  /** A mentorship feature always pairs a new Muslim with an established one. */
  lemma MentorshipNeedsExactlyOneNewMuslim(u1: UserProfile, u2: UserProfile, p: MatchingPreferences)
    requires MentorFor in SpecialFeatureList(u1, u2, p) || MentorOpportunity in SpecialFeatureList(u1, u2, p)
    ensures u1.islamicProfile.isNewMuslim != u2.islamicProfile.isNewMuslim
    ensures !(MentorFor in SpecialFeatureList(u1, u2, p) && MentorOpportunity in SpecialFeatureList(u1, u2, p))
  {
  }

  // ---- The whole score ------------------------------------------------------------

  /** `calculateCompatibility`. A failed deal-breaker gives a zero score
      whose reasons are the deal-breaker messages; otherwise the total is
      the breakdown sum over `TotalWeight`, clamped to [0, 100]. */
  function CalculateCompatibility(env: Env, u1: UserProfile, u2: UserProfile, p: MatchingPreferences, socialBonus: real): (r: MatchScore)
    ensures r.userId == Id(u2) && r.percentileRank == None
    ensures r.totalScore.Fin? ==> 0.0 <= r.totalScore.v <= 100.0
    ensures !PassesDealBreakers(env, u1, u2, p) ==>
      && r.totalScore == Fin(0.0)
      && r.breakdown == ZeroBreakdown
      && r.specialFeatures == []
      && r.reasons == Map(CheckDealBreakers(env, u1, u2, p), d => DealBreakerMessage(env, d))
      && |r.reasons| > 0
    ensures PassesDealBreakers(env, u1, u2, p) ==>
      && r.breakdown == WeightedScores(env, u1, u2, p, socialBonus)
      && r.breakdown.socialGraphBonus == Fin(socialBonus)
      && r.totalScore == ClampedQuotient(BreakdownSum(r.breakdown), TotalWeight(p.softPreferences))
      && r.reasons == Map(MatchReasons(r.breakdown), ReasonText)
      && r.specialFeatures == Map(SpecialFeatureList(u1, u2, p), FeatureText)
  {
    var broken := CheckDealBreakers(env, u1, u2, p);
    if |broken| > 0 then
      MatchScore(Id(u2), Fin(0.0), ZeroBreakdown, Map(broken, d => DealBreakerMessage(env, d)), [], None)
    else
      var b := WeightedScores(env, u1, u2, p, socialBonus);
      MatchScore(Id(u2), ClampedQuotient(BreakdownSum(b), TotalWeight(p.softPreferences)),
        b, Map(MatchReasons(b), ReasonText), Map(SpecialFeatureList(u1, u2, p), FeatureText), None)
  }

  /** A larger social-graph bonus never lowers a passing match's total when
      the weights sum to something positive. */
  lemma SocialBonusMonotone(env: Env, u1: UserProfile, u2: UserProfile, p: MatchingPreferences, b1: real, b2: real)
    requires PassesDealBreakers(env, u1, u2, p)
    requires TotalWeight(p.softPreferences) > 0.0 && b1 <= b2
    ensures CalculateCompatibility(env, u1, u2, p, b1).totalScore.NaN?
        <==> CalculateCompatibility(env, u1, u2, p, b2).totalScore.NaN?
    ensures CalculateCompatibility(env, u1, u2, p, b1).totalScore.Fin? ==>
      CalculateCompatibility(env, u1, u2, p, b1).totalScore.v <= CalculateCompatibility(env, u1, u2, p, b2).totalScore.v
  {
    var s1 := BreakdownSum(WeightedScores(env, u1, u2, p, b1));
    var s2 := BreakdownSum(WeightedScores(env, u1, u2, p, b2));
    var w := TotalWeight(p.softPreferences);
    if s1.Fin? {
      assert s2.Fin? && s1.v <= s2.v;
      Scoring.DivMono(s1.v, s2.v, w);
    }
  }

  /** The deal-breaker message for age, worked out for a 27-year-old
      against the range 30-40. */
  lemma AgeDealBreakerExample(env: Env, u1: UserProfile, u2: UserProfile, p: MatchingPreferences, bonus: real)
    requires Age(u2) == 27 && p.ageRange == AgeRange(30, 40)
    ensures CalculateCompatibility(env, u1, u2, p, bonus).totalScore == Fin(0.0)
    ensures "Age 27 is outside preferred range 30-40" in CalculateCompatibility(env, u1, u2, p, bonus).reasons
  {
    var broken := CheckDealBreakers(env, u1, u2, p);
    assert AgeOutOfRange(u2, p);
    var r := CalculateCompatibility(env, u1, u2, p, bonus);
    assert r.reasons[0] == DealBreakerMessage(env, AgeOutside(27, 30, 40));
    AgeMessageText();
  }

  lemma AgeMessageText()
    ensures "Age " + IntToString(27) + " is outside preferred range " + IntToString(30) + "-" + IntToString(40)
      == "Age 27 is outside preferred range 30-40"
  {
    NumberTexts();
    AgeMessageHead();
    AgeMessageTail();
  }

  lemma AgeMessageHead()
    ensures "Age " + "27" + " is outside preferred range " == "Age 27 is outside preferred range "
  {
    assert "Age " + "27" == "Age 27";
  }

  lemma AgeMessageTail()
    ensures "Age 27 is outside preferred range " + "30" + "-" + "40" == "Age 27 is outside preferred range 30-40"
  {
    assert "Age 27 is outside preferred range " + "30" == "Age 27 is outside preferred range 30";
    assert "Age 27 is outside preferred range 30" + "-" == "Age 27 is outside preferred range 30-";
  }

  lemma NumberTexts()
    ensures IntToString(27) == "27" && IntToString(30) == "30" && IntToString(40) == "40"
  {
    assert NatToString(27) == NatToString(2) + [DigitChar(7)];
    assert NatToString(30) == NatToString(3) + [DigitChar(0)];
    assert NatToString(40) == NatToString(4) + [DigitChar(0)];
    assert DigitChar(0) == '0' && DigitChar(2) == '2' && DigitChar(3) == '3';
    assert DigitChar(4) == '4' && DigitChar(7) == '7';
  }



}

=== FILE: jsnumber.dfy ===
/** JavaScript numbers as far as the matching code needs them. Scores are
    exact reals; the one non-finite value that can survive into a result is
    NaN (a 0/0 in a ratio), so a score is either `Fin(v)` or `NaN`. The
    infinities that a division by zero produces are resolved where they
    arise, because every such quotient is immediately clamped. */
module JsNumber {

  datatype Num = Fin(v: real) | NaN

  function MinR(a: real, b: real): real { if a <= b then a else b }
  function MaxR(a: real, b: real): real { if a >= b then a else b }
  function AbsR(a: real): real { if a < 0.0 then -a else a }
  function AbsI(a: int): nat { if a < 0 then -a else a }

  /** `Math.floor` and `Math.ceil` */
  function Floor(x: real): int { x.Floor }
  function Ceil(x: real): (r: int)
    ensures x <= r as real < x + 1.0
  {
    -((-x).Floor)
  }

  /** `a + b`: NaN is absorbing. */
  function Add(a: Num, b: Num): (r: Num)
    ensures r.NaN? <==> a.NaN? || b.NaN?
  {
    if a.Fin? && b.Fin? then Fin(a.v + b.v) else NaN
  }

  /** `a * k` for a finite factor `k` (NaN * 0 is still NaN). */
  function Scale(a: Num, k: real): (r: Num)
    ensures r.NaN? <==> a.NaN?
  {
    if a.Fin? then Fin(a.v * k) else NaN
  }

  /** `a > b`: every comparison with NaN is false. */
  predicate Gt(a: Num, b: real) { a.Fin? && a.v > b }

  /** `Math.max(lo, a)`: NaN wins. */
  function MaxN(lo: real, a: Num): (r: Num)
    ensures r.NaN? <==> a.NaN?
    ensures r.Fin? ==> r.v >= lo
  {
    if a.Fin? then Fin(MaxR(lo, a.v)) else NaN
  }

  /** `Math.min(hi, a)`: NaN wins. */
  function MinN(hi: real, a: Num): (r: Num)
    ensures r.NaN? <==> a.NaN?
    ensures r.Fin? ==> r.v <= hi
  {
    if a.Fin? then Fin(MinR(hi, a.v)) else NaN
  }

  /** `Math.min(100, Math.max(0, a))`, the clamp every score goes through. */
  function Clamp100(a: Num): (r: Num)
    ensures r.NaN? <==> a.NaN?
    ensures r.Fin? ==> 0.0 <= r.v <= 100.0
    ensures a.Fin? && 0.0 <= a.v <= 100.0 ==> r == a
  {
    MinN(100.0, MaxN(0.0, a))
  }

  /** `Math.min(100, Math.max(0, n / d))` including d == 0, where JavaScript
      yields +Infinity, -Infinity or NaN before the clamp. */
  function ClampedQuotient(n: Num, d: real): (r: Num)
    ensures r.NaN? <==> n.NaN? || (d == 0.0 && n == Fin(0.0))
    ensures r.Fin? ==> 0.0 <= r.v <= 100.0
    ensures d != 0.0 && n.Fin? ==> r == Clamp100(Fin(n.v / d))
  {
    if n.NaN? then NaN
    else if d != 0.0 then Clamp100(Fin(n.v / d))
    else if n.v > 0.0 then Fin(100.0)
    else if n.v < 0.0 then Fin(0.0)
    else NaN
  }

  // ---- Real-arithmetic facts the score bounds rest on -------------------------

  lemma RatioBounds(a: real, b: real)
    requires 0.0 <= a <= b && b > 0.0
    ensures 0.0 <= a / b <= 1.0
  {
  }

  lemma RatioPercentBounds(a: real, b: real)
    requires 0.0 <= a <= b && b > 0.0
    ensures 0.0 <= a / b * 100.0 <= 100.0
    ensures a / b * 100.0 == 0.0 <==> a == 0.0
    ensures a / b * 100.0 == 100.0 <==> a == b
  {
    RatioBounds(a, b);
    assert a == a / b * b;
  }
}

=== FILE: jsobject.dfy ===
/** A plain JavaScript object used as a counter: `acc[String(x)] =
    (acc[String(x)] || 0) + 1` over a list, then `Object.entries` filtered
    by count. Two engine rules shape the result: own keys are listed with
    array indexes first, in ascending numeric order, and the remaining keys
    in creation order; and a key the object already inherits from
    `Object.prototype` never yields a numeric count. */
module JsObject {
  import opened Seqs
  import opened Strings

  /** The keys every plain object inherits. Counting one of them starts
      from the inherited value, which is truthy: the method plus 1 is a
      string, which never compares `>= n`; for `__proto__` the assignment
      of a string is ignored, so no own key appears at all. */
  const PrototypeKeys: set<string> := {
    "constructor", "__proto__", "__defineGetter__", "__defineSetter__",
    "__lookupGetter__", "__lookupSetter__", "hasOwnProperty", "isPrototypeOf",
    "propertyIsEnumerable", "toString", "toLocaleString", "valueOf"}

  /** An array index: the canonical decimal form of an integer below
      2^32 - 1 (no sign, no leading zero). */
  predicate IsArrayIndex(s: string) {
    && |s| > 0
    && AllDigits(s)
    && (s[0] != '0' || |s| == 1)
    && ParseDigits(s) < 0xFFFF_FFFF
  }

  /** Every other key. */
  predicate IsNamedKey(s: string) {
    !IsArrayIndex(s)
  }

  /** Sorting descending by this rank puts array indexes in ascending
      numeric order. */
  function IndexRank(s: string): real {
    if AllDigits(s) then -(ParseDigits(s) as real) else 0.0
  }

  /** The order `Object.keys` reports own keys created in the order of
      `keys`: array indexes ascending, then the rest as created. */
  function KeyOrder(keys: seq<string>): (r: seq<string>)
    ensures forall x :: x in r <==> x in keys
    ensures forall i, j :: 0 <= i < j < |r| && IsArrayIndex(r[j]) ==>
      IsArrayIndex(r[i]) && ParseDigits(r[i]) <= ParseDigits(r[j])
    ensures Filter(r, IsNamedKey) == Filter(keys, IsNamedKey)
    ensures NoDuplicates(keys) ==> NoDuplicates(r)
  {
    var indexes := SortDesc(Filter(keys, IsArrayIndex), IndexRank);
    var named := Filter(keys, IsNamedKey);
    var r := indexes + named;
    KeyOrderMembers(keys, indexes, named);
    KeyOrderIndexesFirst(indexes, named);
    KeyOrderNamedTail(indexes, named);
    KeyOrderDistinct(keys, indexes, named);
    r
  }

  lemma KeyOrderMembers(keys: seq<string>, indexes: seq<string>, named: seq<string>)
    requires indexes == SortDesc(Filter(keys, IsArrayIndex), IndexRank)
    requires named == Filter(keys, IsNamedKey)
    ensures forall x :: x in indexes <==> x in keys && IsArrayIndex(x)
    ensures forall x :: x in indexes + named <==> x in keys
  {
    forall x
      ensures x in indexes <==> x in keys && IsArrayIndex(x)
    {
      assert x in indexes <==> x in multiset(indexes);
      assert x in Filter(keys, IsArrayIndex) <==> x in multiset(Filter(keys, IsArrayIndex));
    }
  }

  /** Array indexes come first, ascending. */
  lemma KeyOrderIndexesFirst(indexes: seq<string>, named: seq<string>)
    requires forall x :: x in indexes ==> IsArrayIndex(x)
    requires forall x :: x in named ==> IsNamedKey(x)
    requires SortedDesc(indexes, IndexRank)
    ensures forall i, j :: 0 <= i < j < |indexes + named| && IsArrayIndex((indexes + named)[j]) ==>
      IsArrayIndex((indexes + named)[i]) && ParseDigits((indexes + named)[i]) <= ParseDigits((indexes + named)[j])
  {
    var r := indexes + named;
    forall k | |indexes| <= k < |r|
      ensures IsNamedKey(r[k])
    {
      assert r[k] in named;
    }
    forall i, j | 0 <= i < j < |r| && IsArrayIndex(r[j])
      ensures IsArrayIndex(r[i]) && ParseDigits(r[i]) <= ParseDigits(r[j])
    {
      assert r[i] == indexes[i] && r[j] == indexes[j];
      assert indexes[i] in indexes;
      assert IndexRank(indexes[i]) >= IndexRank(indexes[j]);
    }
  }

  /** The named keys keep their creation order. */
  lemma KeyOrderNamedTail(indexes: seq<string>, named: seq<string>)
    requires forall x :: x in indexes ==> IsArrayIndex(x)
    requires forall x :: x in named ==> IsNamedKey(x)
    ensures Filter(indexes + named, IsNamedKey) == named
  {
    FilterAppend(indexes, named, IsNamedKey);
    FilterDropsAll(indexes, IsNamedKey);
    FilterKeepsAll(named, IsNamedKey);
  }

  lemma KeyOrderDistinct(keys: seq<string>, indexes: seq<string>, named: seq<string>)
    requires indexes == SortDesc(Filter(keys, IsArrayIndex), IndexRank)
    requires named == Filter(keys, IsNamedKey)
    requires forall x :: x in indexes ==> IsArrayIndex(x)
    ensures NoDuplicates(keys) ==> NoDuplicates(indexes + named)
  {
    if !NoDuplicates(keys) {
      return;
    }
    var same := (x: string) => x;
    FilterKeepsDistinct(keys, IsArrayIndex);
    FilterKeepsDistinct(keys, IsNamedKey);
    SortDescDistinct(Filter(keys, IsArrayIndex), IndexRank, same);
    var r := indexes + named;
    forall i, j | 0 <= i < j < |r|
      ensures r[i] != r[j]
    {
      if j < |indexes| {
        assert same(indexes[i]) != same(indexes[j]);
      } else if i >= |indexes| {
        assert r[i] == named[i - |indexes|] && r[j] == named[j - |indexes|];
      } else {
        assert r[i] in indexes && r[j] in named;
      }
    }
  }

  /** Whether a counted key is reported by `.filter(([_, c]) => c >= n)`. */
  function Reported(xs: seq<string>, n: nat): string -> bool {
    x => multiset(xs)[x] >= n && x !in PrototypeKeys
  }

  /** `Object.entries(countOccurrences(xs)).filter(([_, c]) => c >= n)`,
      keys only: each value counted at least `n` times, once, in key order.
      Filtering before or after arranging gives the same list, since the
      arrangement is a stable sort on a total order. */
  function CountedAtLeast(xs: seq<string>, n: nat): (r: seq<string>)
    requires n >= 1
    ensures forall x :: x in r <==> multiset(xs)[x] >= n && x !in PrototypeKeys
    ensures NoDuplicates(r)
    ensures forall i, j :: 0 <= i < j < |r| && IsArrayIndex(r[j]) ==>
      IsArrayIndex(r[i]) && ParseDigits(r[i]) <= ParseDigits(r[j])
    ensures IsSubsequence(Filter(r, IsNamedKey), Dedup(xs))
  {
    var distinct := Dedup(xs);
    var kept := Filter(distinct, Reported(xs, n));
    FilterKeepsDistinct(distinct, Reported(xs, n));
    CountedMembers(xs, n, kept);
    var r := KeyOrder(kept);
    FilterSubsequence(kept, IsNamedKey);
    FilterSubsequence(distinct, Reported(xs, n));
    SubsequenceTransitive(Filter(kept, IsNamedKey), kept, distinct);
    r
  }

  lemma CountedMembers(xs: seq<string>, n: nat, kept: seq<string>)
    requires n >= 1
    requires kept == Filter(Dedup(xs), Reported(xs, n))
    ensures forall x :: x in kept <==> multiset(xs)[x] >= n && x !in PrototypeKeys
  {
    forall x | multiset(xs)[x] >= n
      ensures x in xs
    {
      assert x in multiset(xs);
    }
  }

  /** A list with no array index and no inherited key keeps each value
      met at least `n` times in first-occurrence order. */
  lemma CountedNamedOnly(xs: seq<string>, n: nat)
    requires n >= 1
    requires forall x :: x in xs ==> IsNamedKey(x) && x !in PrototypeKeys
    ensures CountedAtLeast(xs, n) == Filter(Dedup(xs), Reported(xs, n))
  {
    var kept := Filter(Dedup(xs), Reported(xs, n));
    FilterDropsAll(kept, IsArrayIndex);
    FilterKeepsAll(kept, IsNamedKey);
  }
}

=== FILE: location.dfy ===
/** The location predicates of src/utils/location.ts. The great-circle
    distance itself is `Types.Env.distance`. */
module Locations {
  import opened Strings
  import opened JsNumber
  import opened Types

  /** `isSameCity`: city and country compared after lower-casing. */
  predicate IsSameCity(l1: Location, l2: Location) {
    ToLower(l1.city) == ToLower(l2.city) && ToLower(l1.country) == ToLower(l2.country)
  }

  lemma SameCityIsEquivalence(l1: Location, l2: Location, l3: Location)
    ensures IsSameCity(l1, l1)
    ensures IsSameCity(l1, l2) == IsSameCity(l2, l1)
    ensures IsSameCity(l1, l2) && IsSameCity(l2, l3) ==> IsSameCity(l1, l3)
  {
  }

  /** Writing a location's city and country in capitals does not change
      which locations it shares a city with. */
  lemma SameCityIgnoresCase(l1: Location, l2: Location)
    ensures IsSameCity(l1.(city := ToUpper(l1.city), country := ToUpper(l1.country)), l2)
        == IsSameCity(l1, l2)
  {
    LowerOfUpper(l1.city);
    LowerOfUpper(l1.country);
  }

  /** Exact string equality is enough for the same city. */
  lemma SameStringsSameCity(l1: Location, l2: Location)
    requires l1.city == l2.city && l1.country == l2.country
    ensures IsSameCity(l1, l2)
  {
  }

  /** `isSameTimezone`: the identifiers are equal as strings. */
  predicate IsSameTimezone(l1: Location, l2: Location) {
    l1.timezone == l2.timezone
  }

  /** Unlike the same-city test, the timezone test folds no case and knows
      no aliases: it is an equivalence on the raw identifier, and two
      distinct identifiers with the same offset are different zones. */
  lemma SameTimezoneIsExact(l1: Location, l2: Location, l3: Location)
    ensures IsSameTimezone(l1, l1)
    ensures IsSameTimezone(l1, l2) ==> IsSameTimezone(l2, l1)
    ensures IsSameTimezone(l1, l2) && IsSameTimezone(l2, l3) ==> IsSameTimezone(l1, l3)
    ensures !IsSameTimezone(l1.(timezone := "UTC"), l1.(timezone := "utc"))
    ensures !IsSameTimezone(l1.(timezone := "UTC"), l1.(timezone := "Europe/London"))
    ensures TimezoneOffset(l1.(timezone := "UTC"), l1.(timezone := "Europe/London")) == 0
  {
    assert "UTC"[0] != "utc"[0];
  }

  /** The fixed table of UTC offsets in hours; a zone outside it (and the two
      zones listed with offset 0) read as 0 through `|| 0`. */
  function OffsetOf(tz: string): (h: int)
    ensures -8 <= h <= 10
  {
    if tz == "UTC" then 0
    else if tz == "America/New_York" then -5
    else if tz == "America/Chicago" then -6
    else if tz == "America/Denver" then -7
    else if tz == "America/Los_Angeles" then -8
    else if tz == "Europe/London" then 0
    else if tz == "Europe/Paris" then 1
    else if tz == "Europe/Istanbul" then 3
    else if tz == "Asia/Dubai" then 4
    else if tz == "Asia/Karachi" then 5
    else if tz == "Asia/Dhaka" then 6
    else if tz == "Asia/Jakarta" then 7
    else if tz == "Asia/Tokyo" then 9
    else if tz == "Australia/Sydney" then 10
    else 0
  }

  const KnownZones: seq<string> := [
    "UTC", "America/New_York", "America/Chicago", "America/Denver",
    "America/Los_Angeles", "Europe/London", "Europe/Paris", "Europe/Istanbul",
    "Asia/Dubai", "Asia/Karachi", "Asia/Dhaka", "Asia/Jakarta", "Asia/Tokyo",
    "Australia/Sydney"]

  /** `getTimezoneOffset`: the absolute difference of the two offsets. */
  function TimezoneOffset(l1: Location, l2: Location): (r: nat)
    ensures r <= 18
    ensures IsSameTimezone(l1, l2) ==> r == 0
  {
    AbsI(OffsetOf(l1.timezone) - OffsetOf(l2.timezone))
  }

  lemma TimezoneOffsetSymmetric(l1: Location, l2: Location)
    ensures TimezoneOffset(l1, l2) == TimezoneOffset(l2, l1)
  {
  }

  /** The offsets form a pseudo-metric: going through a third zone is never
      shorter. */
  lemma TimezoneOffsetTriangle(l1: Location, l2: Location, l3: Location)
    ensures TimezoneOffset(l1, l3) <= TimezoneOffset(l1, l2) + TimezoneOffset(l2, l3)
  {
  }

  /** A zone missing from the table is as far from any zone as UTC is. */
  lemma UnknownZoneActsAsUtc(l1: Location, l2: Location)
    requires l1.timezone !in KnownZones
    ensures TimezoneOffset(l1, l2) == TimezoneOffset(l1.(timezone := "UTC"), l2)
    ensures TimezoneOffset(l1, l1.(timezone := "UTC")) == 0
  {
  }

  /** Concrete readings of the table. */
  lemma TimezoneOffsetExamples(l: Location)
    ensures TimezoneOffset(l.(timezone := "America/New_York"), l.(timezone := "Europe/London")) == 5
    ensures TimezoneOffset(l.(timezone := "America/Los_Angeles"), l.(timezone := "Australia/Sydney")) == 18
    ensures TimezoneOffset(l.(timezone := "Mars/Olympus"), l.(timezone := "UTC")) == 0
  {
  }
}

=== FILE: matching_service.dfy ===
/** The orchestration of src/services/matching-service.ts: the candidate
    pipeline of `findMatches`, ranking, the result cache, the special-feature
    and collaborative recommendations, and the network figures. The two maps
    the service object keeps become a `Cache` value that each operation takes
    and hands back; `Date.now()` and the two calendar computations become a
    `Clock`; `JSON.stringify` of the preferences is the parameter `serialize`. */
module MatchingService {
  import opened Seqs
  import opened Strings
  import opened JsNumber
  import opened Types
  import opened Scoring
  import opened CompatibilityScorer
  import opened PreferenceFilter
  import opened SocialGraph

  /** The instants the service reads: `Date.now()`, the start of the
      thirty-day popularity window, and six months before now (the window of
      recent shared events). */
  datatype Clock = Clock(now: int, thirtyDaysAgo: int, sixMonthsAgo: int)

  /** The graph data passed through `options`, each defaulting to `[]`. */
  datatype Network = Network(
    connections: seq<Connection>,
    communities: seq<IslamicCommunity>,
    events: seq<CommunityEvent>)

  // ---- The cache key ------------------------------------------------------------

  /** A 32-bit pattern, read as an unsigned number. */
  type Word = x: int | 0 <= x < 0x1_0000_0000

  /** One round of `hashString`: `((hash << 5) - hash) + charCode` followed
      by `hash & hash`. Shift and `&` reduce modulo 2^32 and the subtraction
      and addition in between are exact, so the round is `31 * hash + code`
      modulo 2^32. */
  function HashStep(h: Word, c: char): Word {
    (h * 32 - h + c as int) % 0x1_0000_0000
  }

  function Hash(s: string): Word {
    if s == [] then 0 else HashStep(Hash(s[..|s| - 1]), s[|s| - 1])
  }

  /** The signed (two's complement) reading of a 32-bit pattern, which is
      what `&` yields. */
  function Signed(h: Word): (r: int)
    ensures -0x8000_0000 <= r < 0x8000_0000
    ensures r >= 0 <==> h < 0x8000_0000
    ensures (r - h) % 0x1_0000_0000 == 0
  {
    if h < 0x8000_0000 then h else h - 0x1_0000_0000
  }

  /** `hashString`: `Math.abs(hash).toString(16)`. At most eight hex digits
      (so the key's `slice(0, 20)` never cuts) and never an underscore (so
      the key's last underscore is the separator). */
  function HashString(s: string): (r: string)
    ensures 1 <= |r| <= 8
    ensures '_' !in r
  {
    var n := AbsI(Signed(Hash(s)));
    assert Pow16(8) == 0x1_0000_0000;
    HexStringLength(n, 8);
    HexStringNoUnderscore(n);
    HexString(n)
  }

  /** `generateCacheKey`: the user id, an underscore and the first twenty
      characters of the preference hash, which is all of it. */
  function CacheKey(serialize: MatchingPreferences -> string, id: string, p: MatchingPreferences): (k: string)
    ensures k == id + "_" + HashString(serialize(p))
  {
    id + "_" + SliceTo(HashString(serialize(p)), 20)
  }

  /** The part of a key before its last underscore: the user a key made
      by `CacheKey` belongs to. */
  function Owner(k: string): string {
    if k == [] then ""
    else if k[|k| - 1] == '_' then k[..|k| - 1]
    else Owner(k[..|k| - 1])
  }

  lemma {:induction false} OwnerOfSeparated(id: string, h: string)
    requires '_' !in h
    ensures Owner(id + "_" + h) == id
    decreases |h|
  {
    var k := id + "_" + h;
    if h == [] {
      assert k[..|k| - 1] == id;
    } else {
      assert h[|h| - 1] in h;
      assert k[..|k| - 1] == id + "_" + h[..|h| - 1];
      OwnerOfSeparated(id, h[..|h| - 1]);
    }
  }

  /** A key names the user it was made for, so two users never share one. */
  lemma OwnerOfKey(serialize: MatchingPreferences -> string, id: string, p: MatchingPreferences)
    ensures Owner(CacheKey(serialize, id, p)) == id
  {
    OwnerOfSeparated(id, HashString(serialize(p)));
  }

  lemma KeyDeterminesUser(serialize: MatchingPreferences -> string, id1: string, p1: MatchingPreferences,
                          id2: string, p2: MatchingPreferences)
    requires CacheKey(serialize, id1, p1) == CacheKey(serialize, id2, p2)
    ensures id1 == id2
  {
    OwnerOfKey(serialize, id1, p1);
    OwnerOfKey(serialize, id2, p2);
  }

  /** The key of a user contains that user's id, which is what `clearCache`
      searches for. */
  lemma KeyContainsUser(serialize: MatchingPreferences -> string, id: string, p: MatchingPreferences)
    ensures Contains(CacheKey(serialize, id, p), id)
  {
    var k := CacheKey(serialize, id, p);
    assert k[..|id|] == id;
  }

  // ---- The cache ----------------------------------------------------------------

  /** `matchCache` and `cacheExpiry`. */
  datatype Cache = Cache(results: map<string, seq<MatchScore>>, expiry: map<string, int>)

  const EmptyCache: Cache := Cache(map[], map[])

  /** Thirty minutes in milliseconds. */
  const CacheLifetime: int := 30 * 60 * 1000

  /** Both maps hold the same keys. */
  predicate CacheAligned(cache: Cache) {
    cache.results.Keys == cache.expiry.Keys
  }

  /** Whatever is cached under a key scores above zero and never names the
      key's owner. */
  predicate CacheSound(cache: Cache) {
    forall k :: k in cache.results ==>
      forall m :: m in cache.results[k] ==> m.userId != Owner(k) && Gt(m.totalScore, 0.0)
  }

  /** `isCacheValid`: an expiry that is missing or zero (falsy) is invalid;
      otherwise the entry lives while `now` is before it. */
  predicate IsCacheValid(cache: Cache, key: string, now: int) {
    key in cache.expiry && cache.expiry[key] != 0 && now < cache.expiry[key]
  }

  /** `cacheResults`. */
  function CacheResults(cache: Cache, key: string, results: seq<MatchScore>, now: int): (r: Cache)
    ensures CacheAligned(cache) ==> CacheAligned(r)
    ensures r.results.Keys == cache.results.Keys + {key}
    ensures forall k :: k in cache.results && k != key ==> r.results[k] == cache.results[k]
  {
    Cache(cache.results[key := results], cache.expiry[key := now + CacheLifetime])
  }

  /** A stored entry reads back valid for exactly thirty minutes from the
      write (unless the expiry instant happens to be 0, which reads as
      missing). */
  lemma CacheValidWindow(cache: Cache, key: string, results: seq<MatchScore>, written: int, now: int)
    ensures IsCacheValid(CacheResults(cache, key, results, written), key, now)
        <==> written + CacheLifetime != 0 && now < written + CacheLifetime
    ensures CacheResults(cache, key, results, written).results[key] == results
  {
  }

  /** Storing a list for a user that never names the user keeps the cache
      sound. */
  lemma CacheResultsSound(serialize: MatchingPreferences -> string, cache: Cache, id: string,
                          p: MatchingPreferences, results: seq<MatchScore>, now: int)
    requires forall m :: m in results ==> m.userId != id && Gt(m.totalScore, 0.0)
    ensures CacheSound(cache) ==> CacheSound(CacheResults(cache, CacheKey(serialize, id, p), results, now))
  {
    OwnerOfKey(serialize, id, p);
  }

  /** `clearCache(userId)`: with a non-empty id, every key of `matchCache`
      containing it is deleted from both maps; with no id, or the empty
      (falsy) one, both maps are emptied. */
  function ClearCache(cache: Cache, userId: Option<string>): (r: Cache)
    ensures userId.None? || userId.value == "" ==> r == EmptyCache
    ensures userId.Some? && userId.value != "" ==>
      && (forall k :: k in r.results <==> k in cache.results && !Contains(k, userId.value))
      && (forall k :: k in r.expiry <==> k in cache.expiry && !(k in cache.results && Contains(k, userId.value)))
      && (forall k :: k in r.results ==> r.results[k] == cache.results[k])
      && (forall k :: k in r.expiry ==> r.expiry[k] == cache.expiry[k])
    ensures CacheAligned(cache) ==> CacheAligned(r)
  {
    if userId.Some? && userId.value != "" then
      var doomed := set k | k in cache.results && Contains(k, userId.value);
      Cache(cache.results - doomed, cache.expiry - doomed)
    else EmptyCache
  }

  /** Clearing for a user leaves none of that user's entries valid. */
  lemma ClearCacheForgetsUser(serialize: MatchingPreferences -> string, cache: Cache, id: string,
                              p: MatchingPreferences, now: int)
    requires CacheAligned(cache) && id != ""
    ensures !IsCacheValid(ClearCache(cache, Some(id)), CacheKey(serialize, id, p), now)
    ensures CacheKey(serialize, id, p) !in ClearCache(cache, Some(id)).results
  {
    KeyContainsUser(serialize, id, p);
  }

  /** Clearing only ever deletes, so it keeps the cache sound. */
  lemma ClearCacheSound(cache: Cache, userId: Option<string>)
    requires CacheSound(cache)
    ensures CacheSound(ClearCache(cache, userId))
  {
  }

  /** The substring test over-reaches: clearing user "a" also drops the
      entries of user "ab". */
  lemma ClearCacheOverreaches(serialize: MatchingPreferences -> string, cache: Cache, p: MatchingPreferences)
    ensures CacheKey(serialize, "ab", p) !in ClearCache(cache, Some("a")).results
  {
    var k := CacheKey(serialize, "ab", p);
    assert k[..1] == "a";
  }

  // ---- Popularity and density ---------------------------------------------------

  /** An accepted connection of `id` accepted at or after `since` (a Date
      object is always truthy, so only presence matters). */
  predicate RecentlyAccepted(c: Connection, id: string, since: int) {
    (c.user1Id == id || c.user2Id == id) && c.status == Accepted
    && c.acceptedAt.Some? && c.acceptedAt.value >= since
  }

  /** `calculateUserPopularity`: how many of the user's connections were
      accepted inside the window. */
  function Popularity(id: string, conns: seq<Connection>, since: int): (r: nat)
    ensures r <= |UserConnections(id, conns)|
    ensures r == 0 <==> forall c :: c in conns ==> !RecentlyAccepted(c, id, since)
  {
    if conns == [] then 0
    else
      assert conns == [conns[0]] + conns[1..];
      (if RecentlyAccepted(conns[0], id, since) then 1 else 0) + Popularity(id, conns[1..], since)
  }

  /** A longer window never counts fewer connections. */
  lemma {:induction false} PopularityWindowMonotone(id: string, conns: seq<Connection>, since1: int, since2: int)
    requires since1 <= since2
    ensures Popularity(id, conns, since2) <= Popularity(id, conns, since1)
  {
    if conns != [] {
      PopularityWindowMonotone(id, conns[1..], since1, since2);
    }
  }

  /** `calculateNetworkDensity`: for n accepted connections,
      `min(100, n / (n(n-1)/2) * 100)`, and 0 below two. */
  function NetworkDensity(id: string, conns: seq<Connection>): (r: real)
    ensures 0.0 <= r <= 100.0
    ensures |UserConnections(id, conns)| < 2 <==> r == 0.0
  {
    var n := |UserConnections(id, conns)|;
    if n < 2 then 0.0
    else
      var pairs := (n * (n - 1)) as real / 2.0;
      DensityRatio(n);
      MinR(100.0, (n as real / pairs) * 100.0)
  }

  /** n / (n(n-1)/2) * 100 is 200 / (n-1). */
  lemma DensityRatio(n: int)
    requires n >= 2
    ensures (n as real / ((n * (n - 1)) as real / 2.0)) * 100.0 == 200.0 / (n - 1) as real
    ensures 0.0 < 200.0 / (n - 1) as real <= 200.0
    ensures n >= 3 ==> 200.0 / (n - 1) as real <= 100.0
  {
    var a := n as real;
    var b := (n - 1) as real;
    assert (n * (n - 1)) as real == a * b;
    var pairs := a * b / 2.0;
    assert pairs * (2.0 / b) == a;
    assert a / pairs == 2.0 / b;
    if n >= 3 {
      DivMono(200.0, 200.0, 2.0);
      assert 200.0 / b <= 200.0 / 2.0 by {
        assert b >= 2.0;
        assert 200.0 / b * b == 200.0;
      }
    }
  }

  /** The density simplifies to 200 / (n - 1): full at two or three
      connections and falling after. */
  lemma NetworkDensityValues(id: string, conns: seq<Connection>)
    ensures var n := |UserConnections(id, conns)|;
      (2 <= n <= 3 ==> NetworkDensity(id, conns) == 100.0)
      && (n >= 3 ==> NetworkDensity(id, conns) == 200.0 / (n - 1) as real)
  {
    var n := |UserConnections(id, conns)|;
    if n >= 2 {
      DensityRatio(n);
    }
  }

  /** `getNetworkAnalysis`'s result; `mutualConnections` is always empty. */
  datatype NetworkReport = NetworkReport(
    connectionCount: nat,
    mutualConnections: map<string, int>,
    communityMemberships: nat,
    influenceScore: int,
    networkDensity: real)

  /** `getNetworkAnalysis`. */
  function NetworkAnalysis(u: UserProfile, conns: seq<Connection>, comms: seq<IslamicCommunity>,
                           events: seq<CommunityEvent>): (r: NetworkReport)
    ensures r.connectionCount <= |conns| && r.communityMemberships <= |comms|
    ensures r.communityMemberships == 0 <==> forall c :: c in comms ==> Id(u) !in c.members
    ensures r.connectionCount == 0 <==> forall x :: !Adjacent(conns, Id(u), x)
    ensures r.mutualConnections == map[]
    ensures 0 <= r.influenceScore <= 100 && 0.0 <= r.networkDensity <= 100.0
    ensures r.connectionCount < 2 <==> r.networkDensity == 0.0
  {
    var degree := UserConnections(Id(u), conns);
    assert degree != [] ==> degree[0] in degree;
    var member := Filter(comms, (c: IslamicCommunity) => Id(u) in c.members);
    assert member != [] ==> member[0] in member;
    NetworkReport(|degree|, map[], |member|, InfluenceScore(Id(u), conns, comms, events),
                  NetworkDensity(Id(u), conns))
  }

  // ---- Scoring one candidate ----------------------------------------------------

  /** The body of `findMatches`' loop: the compatibility score with the
      social bonus, decayed by the days since the candidate was last active,
      then reduced by the candidate's recent popularity. */
  function ScoreCandidate(env: Env, clock: Clock, net: Network, u: UserProfile, p: MatchingPreferences,
                          c: UserProfile): (m: MatchScore)
    ensures m.userId == Id(c) && m.percentileRank == None
    ensures m.totalScore.Fin? ==> m.totalScore.v >= 0.0
    ensures Gt(m.totalScore, 0.0) ==> Gt(CalculateCompatibility(env, u, c, p,
      SocialGraphBonus(u, c, net.connections, net.communities, net.events, clock.sixMonthsAgo)).totalScore, 0.0)
  {
    var bonus := SocialGraphBonus(u, c, net.connections, net.communities, net.events, clock.sixMonthsAgo);
    var base := CalculateCompatibility(env, u, c, p, bonus);
    var factor := env.decayFactor(DaysSince(clock.now, c.lastActive));
    var popularity := Popularity(Id(c), net.connections, clock.thirtyDaysAgo);
    base.(totalScore := DecayThenPenalize(base.totalScore, factor, popularity as real))
  }

  /** The decay for inactivity, then the popularity penalty: never
      negative, and positive only if the compatibility was. */
  function DecayThenPenalize(total: Num, factor: Positive, popularity: real): (r: Num)
    requires popularity >= 0.0
    ensures r.Fin? ==> r.v >= 0.0
    ensures Gt(r, 0.0) ==> Gt(total, 0.0)
  {
    var decayed := TimeDecay(total, factor);
    var r := PopularityPenalty(decayed, popularity, DefaultMaxPenalty);
    assert Gt(r, 0.0) ==> Gt(decayed, 0.0) by {
      if decayed.Fin? && decayed.v <= 0.0 {
        assert MinR(1.0, popularity / 100.0) * DefaultMaxPenalty >= 0.0;
      }
    }
    r
  }

  /** The loop of both finders: score every candidate and keep the scores
      above zero, in candidate order. */
  function KeepPositive(cs: seq<UserProfile>, score: UserProfile -> MatchScore): (r: seq<MatchScore>)
    ensures |r| <= |cs|
    ensures forall m :: m in r ==> Gt(m.totalScore, 0.0) && exists c :: c in cs && m == score(c)
    ensures forall c :: c in cs && Gt(score(c).totalScore, 0.0) ==> score(c) in r
  {
    if cs == [] then []
    else
      var m := score(cs[0]);
      var rest := KeepPositive(cs[1..], score);
      assert cs == [cs[0]] + cs[1..];
      if Gt(m.totalScore, 0.0) then [m] + rest else rest
  }

  // ---- Ranking ------------------------------------------------------------------

  function BreakdownValues(b: Breakdown): seq<Num> {
    [b.interestCompatibility, b.locationProximity, b.ageCompatibility, b.languageMatch,
     b.islamicCompatibility, b.lifestyleCompatibility, b.socialGraphBonus]
  }

  function SumNums(xs: seq<Num>): (r: Num)
    ensures r.NaN? <==> exists i :: 0 <= i < |xs| && xs[i].NaN?
  {
    if xs == [] then Fin(0.0) else Add(xs[0], SumNums(xs[1..]))
  }

  function SquaredDeviation(xs: seq<Num>, mean: real): (r: real)
    ensures r >= 0.0
  {
    if xs == [] then 0.0
    else
      var d := (if xs[0].Fin? then xs[0].v else 0.0) - mean;
      SquarePositive(d);
      d * d + SquaredDeviation(xs[1..], mean)
  }

  /** `calculateScoreVariety`: 100 minus the standard deviation of the
      seven breakdown entries; NaN when any entry is. */
  function Variety(b: Breakdown, sqrt: real -> NonNeg): (r: Num)
    ensures r.NaN? <==> exists i :: 0 <= i < 7 && BreakdownValues(b)[i].NaN?
    ensures r.Fin? ==> r.v <= 100.0
  {
    var xs := BreakdownValues(b);
    var sum := SumNums(xs);
    if sum.NaN? then NaN
    else Fin(100.0 - sqrt(SquaredDeviation(xs, sum.v / 7.0) / 7.0))
  }

  /** A perfectly balanced breakdown has the largest variety the square
      root allows: its deviation is zero. */
  lemma BalancedVariety(x: real, sqrt: real -> NonNeg)
    ensures Variety(Breakdown(Fin(x), Fin(x), Fin(x), Fin(x), Fin(x), Fin(x), Fin(x)), sqrt) == Fin(100.0 - sqrt(0.0))
  {
    var b := Breakdown(Fin(x), Fin(x), Fin(x), Fin(x), Fin(x), Fin(x), Fin(x));
    var xs := BreakdownValues(b);
    SumNumsConstant(xs, x);
    assert 7.0 * x / 7.0 == x;
    DeviationFromConstant(xs, x);
  }

  lemma {:induction false} SumNumsConstant(xs: seq<Num>, x: real)
    requires forall i :: 0 <= i < |xs| ==> xs[i] == Fin(x)
    ensures SumNums(xs) == Fin(|xs| as real * x)
  {
    if xs != [] {
      SumNumsConstant(xs[1..], x);
    }
  }

  lemma {:induction false} DeviationFromConstant(xs: seq<Num>, x: real)
    requires forall i :: 0 <= i < |xs| ==> xs[i] == Fin(x)
    ensures SquaredDeviation(xs, x) == 0.0
  {
    if xs != [] {
      DeviationFromConstant(xs[1..], x);
    }
  }

  /** `b - a` on two possibly-NaN numbers. */
  function Difference(b: Num, a: Num): (r: Num)
    ensures r.NaN? <==> a.NaN? || b.NaN?
  {
    if a.Fin? && b.Fin? then Fin(b.v - a.v) else NaN
  }

  /** `rankMatches`' comparator: by total score when the two differ by more
      than five points, otherwise the more balanced breakdown first. */
  function RankCompare(a: MatchScore, b: MatchScore, sqrt: real -> NonNeg): Num {
    if a.totalScore.Fin? && b.totalScore.Fin? && AbsR(a.totalScore.v - b.totalScore.v) > 5.0
    then Fin(b.totalScore.v - a.totalScore.v)
    else Difference(Variety(b.breakdown, sqrt), Variety(a.breakdown, sqrt))
  }

  /** The comparator puts `a` after `b` (a positive result; NaN is not). */
  function RankAfter(sqrt: real -> NonNeg): (MatchScore, MatchScore) -> bool {
    (a, b) => Gt(RankCompare(a, b, sqrt), 0.0)
  }

  /** The comparator is antisymmetric, NaN included. */
  lemma RankCompareAntisymmetric(a: MatchScore, b: MatchScore, sqrt: real -> NonNeg)
    ensures RankCompare(a, b, sqrt).NaN? <==> RankCompare(b, a, sqrt).NaN?
    ensures RankCompare(a, b, sqrt).Fin? ==> RankCompare(a, b, sqrt).v == -RankCompare(b, a, sqrt).v
    ensures !(RankAfter(sqrt)(a, b) && RankAfter(sqrt)(b, a))
  {
  }

  /** Totals more than five points apart order by total alone, higher first. */
  lemma RankCompareByScore(a: MatchScore, b: MatchScore, sqrt: real -> NonNeg)
    requires a.totalScore.Fin? && b.totalScore.Fin?
    requires AbsR(a.totalScore.v - b.totalScore.v) > 5.0
    ensures RankAfter(sqrt)(a, b) <==> a.totalScore.v < b.totalScore.v
  {
  }

  function TotalOf(m: MatchScore): real {
    if m.totalScore.Fin? then m.totalScore.v else 0.0
  }

  function Totals(ms: seq<MatchScore>): (r: seq<real>)
    ensures |r| == |ms|
  {
    Map(ms, TotalOf)
  }

  /** The percentile decoration `rankMatches` adds before sorting. */
  function Decorate(m: MatchScore, scores: seq<real>): MatchScore {
    m.(percentileRank := Some(PercentileRank(TotalOf(m), scores)))
  }

  function DecorateAll(ms: seq<MatchScore>): (r: seq<MatchScore>)
    ensures |r| == |ms|
    ensures forall i :: 0 <= i < |ms| ==> r[i] == Decorate(ms[i], Totals(ms))
  {
    Map(ms, m => Decorate(m, Totals(ms)))
  }

  /** `rankMatches`: every match decorated with its percentile among all the
      totals, then sorted by the comparator. Only finite totals reach it. */
  function RankMatches(ms: seq<MatchScore>, sqrt: real -> NonNeg): (r: seq<MatchScore>)
    requires forall m :: m in ms ==> m.totalScore.Fin?
    ensures |r| == |ms|
    ensures multiset(r) == multiset(DecorateAll(ms))
    ensures forall x :: x in r ==> exists m :: m in ms && x == Decorate(m, Totals(ms))
  {
    var decorated := DecorateAll(ms);
    var r := SortBy(decorated, RankAfter(sqrt));
    forall x | x in r
      ensures exists m :: m in ms && x == Decorate(m, Totals(ms))
    {
      assert x in multiset(decorated);
      var i :| 0 <= i < |decorated| && decorated[i] == x;
      assert ms[i] in ms;
    }
    r
  }

  /** Every ranked entry is the match it came from with a percentile in
      [0, 100] added: nothing else about it changes. */
  lemma RankMatchesDecorates(ms: seq<MatchScore>, sqrt: real -> NonNeg, x: MatchScore)
    requires forall m :: m in ms ==> m.totalScore.Fin?
    requires x in RankMatches(ms, sqrt)
    ensures x.percentileRank.Some? && 0.0 <= x.percentileRank.value <= 100.0
    ensures x.(percentileRank := None) in Map(ms, (m: MatchScore) => m.(percentileRank := None))
  {
    var m :| m in ms && x == Decorate(m, Totals(ms));
    var i :| 0 <= i < |ms| && ms[i] == m;
    assert Map(ms, (m: MatchScore) => m.(percentileRank := None))[i] == x.(percentileRank := None);
  }

  /** On two matches whose totals are equal with equal breakdowns, or more
      than five apart, the comparator is the descending one on totals,
      whatever their percentile decorations. */
  lemma SeparatedPair(a: MatchScore, b: MatchScore, pa: Option<real>, pb: Option<real>, sqrt: real -> NonNeg)
    requires a.totalScore.Fin? && b.totalScore.Fin?
    requires a.totalScore != b.totalScore ==> AbsR(a.totalScore.v - b.totalScore.v) > 5.0
    requires a.totalScore == b.totalScore ==> a.breakdown == b.breakdown
    ensures RankAfter(sqrt)(a.(percentileRank := pa), b.(percentileRank := pb)) == (TotalOf(b) - TotalOf(a) > 0.0)
  {
    var y, z := a.(percentileRank := pa), b.(percentileRank := pb);
    if a.totalScore == b.totalScore {
      assert !Gt(Difference(Variety(z.breakdown, sqrt), Variety(y.breakdown, sqrt)), 0.0);
    }
  }

  /** A decorated entry is a match of the list with only its percentile
      changed. */
  lemma DecoratedFrom(ms: seq<MatchScore>, y: MatchScore)
    requires y in DecorateAll(ms)
    ensures exists m :: m in ms && y == m.(percentileRank := y.percentileRank)
  {
    var i :| 0 <= i < |DecorateAll(ms)| && DecorateAll(ms)[i] == y;
    assert ms[i] in ms;
  }

  lemma DecoratedAgree(ms: seq<MatchScore>, sqrt: real -> NonNeg)
    requires forall m :: m in ms ==> m.totalScore.Fin?
    requires forall a, b :: a in ms && b in ms && a.totalScore != b.totalScore ==>
      AbsR(a.totalScore.v - b.totalScore.v) > 5.0
    requires forall a, b :: a in ms && b in ms && a.totalScore == b.totalScore ==> a.breakdown == b.breakdown
    ensures forall y, z :: y in DecorateAll(ms) && z in DecorateAll(ms) ==>
      RankAfter(sqrt)(y, z) == (TotalOf(z) - TotalOf(y) > 0.0)
  {
    forall y, z | y in DecorateAll(ms) && z in DecorateAll(ms)
      ensures RankAfter(sqrt)(y, z) == (TotalOf(z) - TotalOf(y) > 0.0)
    {
      DecoratedFrom(ms, y);
      DecoratedFrom(ms, z);
      var a :| a in ms && y == a.(percentileRank := y.percentileRank);
      var b :| b in ms && z == b.(percentileRank := z.percentileRank);
      SeparatedPair(a, b, y.percentileRank, z.percentileRank, sqrt);
    }
  }

  /** When all distinct matches are more than five points apart, ranking is
      a plain descending sort by total. */
  lemma RankMatchesSeparated(ms: seq<MatchScore>, sqrt: real -> NonNeg)
    requires forall m :: m in ms ==> m.totalScore.Fin?
    requires forall a, b :: a in ms && b in ms && a.totalScore != b.totalScore ==>
      AbsR(a.totalScore.v - b.totalScore.v) > 5.0
    requires forall a, b :: a in ms && b in ms && a.totalScore == b.totalScore ==> a.breakdown == b.breakdown
    ensures SortedDesc(RankMatches(ms, sqrt), TotalOf)
  {
    var decorated := DecorateAll(ms);
    DecoratedAgree(ms, sqrt);
    SortByActsAsDesc(decorated, RankAfter(sqrt), TotalOf);
  }

  // ---- findMatches --------------------------------------------------------------

  /** `findMatches`' options: graph data, the optional behaviour record, the
      limit (20 by default) and whether to use the cache (by default yes). */
  datatype FindOptions = FindOptions(network: Network, behavior: Option<UserBehavior>, limit: int, useCache: bool)

  const DefaultFindOptions: FindOptions := FindOptions(Network([], [], []), None, 20, true)

  /** The outcome of one call: the matches and the cache after it. */
  datatype Found = Found(matches: seq<MatchScore>, cache: Cache)

  /** The candidates that survive: not the user, and through every filter. */
  function Candidates(env: Env, clock: Clock, u: UserProfile, users: seq<UserProfile>, p: MatchingPreferences,
                      behavior: Option<UserBehavior>): (r: seq<UserProfile>)
    ensures forall c :: c in r <==>
      c in users && Id(c) != Id(u) && HardRules(env, u, c, p) && BehaviorStage(behavior, c)
      && PrivacyRules(u, c, clock.now)
  {
    var others := Filter(users, (c: UserProfile) => Id(c) != Id(u));
    FilterCandidates(env, u, others, p, behavior, clock.now)
  }

  /** The uncached path: score the survivors, drop those at zero, rank. */
  function FreshMatches(env: Env, clock: Clock, u: UserProfile, users: seq<UserProfile>, p: MatchingPreferences,
                        opts: FindOptions): (r: seq<MatchScore>)
    ensures forall m :: m in r ==> Gt(m.totalScore, 0.0) && m.userId != Id(u) && m.percentileRank.Some?
  {
    var cs := Candidates(env, clock, u, users, p, opts.behavior);
    var score := (c: UserProfile) => ScoreCandidate(env, clock, opts.network, u, p, c);
    var scored := KeepPositive(cs, score);
    var r := RankMatches(scored, env.sqrt);
    forall x | x in r
      ensures Gt(x.totalScore, 0.0) && x.userId != Id(u) && x.percentileRank.Some?
    {
      var m :| m in scored && x == Decorate(m, Totals(scored));
    }
    r
  }

  /** Every fresh match names a candidate that passed every filter. */
  lemma FreshMatchesAreCandidates(env: Env, clock: Clock, u: UserProfile, users: seq<UserProfile>,
                                  p: MatchingPreferences, opts: FindOptions)
    ensures forall m :: m in FreshMatches(env, clock, u, users, p, opts) ==>
      exists c :: c in Candidates(env, clock, u, users, p, opts.behavior) && m.userId == Id(c)
  {
    var cs := Candidates(env, clock, u, users, p, opts.behavior);
    var score := (c: UserProfile) => ScoreCandidate(env, clock, opts.network, u, p, c);
    var scored := KeepPositive(cs, score);
    forall x | x in FreshMatches(env, clock, u, users, p, opts)
      ensures exists c :: c in cs && x.userId == Id(c)
    {
      var m :| m in scored && x == Decorate(m, Totals(scored));
      var c :| c in cs && m == score(c);
    }
  }

  /** The end of the miss path: cache the full ranking under the key when
      caching is on, answer with its first `limit` entries. */
  function StoreAndSlice(serialize: MatchingPreferences -> string, cache: Cache, now: int, id: string,
                         p: MatchingPreferences, ranked: seq<MatchScore>, opts: FindOptions): (r: Found)
    ensures opts.limit >= 0 ==> |r.matches| <= opts.limit
    ensures r.matches <= ranked
    ensures forall m :: m in r.matches ==> m in ranked
    ensures !opts.useCache ==> r.cache == cache
    ensures CacheAligned(cache) ==> CacheAligned(r.cache)
    ensures (forall m :: m in ranked ==> m.userId != id && Gt(m.totalScore, 0.0)) ==>
      (CacheSound(cache) ==> CacheSound(r.cache))
    ensures opts.useCache ==>
      var key := CacheKey(serialize, id, p);
      && key in r.cache.results && key in r.cache.expiry
      && r.cache.results[key] == ranked
      && r.cache.expiry[key] == now + CacheLifetime
  {
    var key := CacheKey(serialize, id, p);
    var out := SliceTo(ranked, opts.limit);
    assert forall m :: m in out ==> m in ranked;
    if opts.useCache then
      var next := CacheResults(cache, key, ranked, now);
      assert (forall m :: m in ranked ==> m.userId != id && Gt(m.totalScore, 0.0)) ==>
        (CacheSound(cache) ==> CacheSound(next)) by {
        if forall m :: m in ranked ==> m.userId != id && Gt(m.totalScore, 0.0) {
          CacheResultsSound(serialize, cache, id, p, ranked, now);
        }
      }
      Found(out, next)
    else Found(out, cache)
  }

  /** The hit path: the first `limit` entries cached under the key. */
  function ServeCached(serialize: MatchingPreferences -> string, cache: Cache, id: string, p: MatchingPreferences,
                       limit: int): (r: seq<MatchScore>)
    requires CacheKey(serialize, id, p) in cache.results
    ensures limit >= 0 ==> |r| <= limit
    ensures r <= cache.results[CacheKey(serialize, id, p)]
    ensures CacheSound(cache) ==> forall m :: m in r ==> m.userId != id && Gt(m.totalScore, 0.0)
  {
    var cached := cache.results[CacheKey(serialize, id, p)];
    var r := SliceTo(cached, limit);
    assert forall m :: m in r ==> m in cached;
    OwnerOfKey(serialize, id, p);
    r
  }

  /** The miss path of `findMatches`: rank afresh, cache, slice. */
  function FindFresh(serialize: MatchingPreferences -> string, cache: Cache, clock: Clock,
                     u: UserProfile, p: MatchingPreferences, opts: FindOptions, ranked: seq<MatchScore>): (r: Found)
    requires forall m :: m in ranked ==> m.userId != Id(u) && Gt(m.totalScore, 0.0)
    ensures opts.limit >= 0 ==> |r.matches| <= opts.limit
    ensures !opts.useCache ==> r.cache == cache
    ensures CacheAligned(cache) ==> CacheAligned(r.cache)
    ensures CacheSound(cache) ==>
      && CacheSound(r.cache)
      && forall m :: m in r.matches ==> m.userId != Id(u) && Gt(m.totalScore, 0.0)
    ensures r.matches <= ranked
    ensures var key := CacheKey(serialize, Id(u), p);
      opts.useCache ==> key in r.cache.results && r.cache.results[key] == ranked
                        && key in r.cache.expiry && r.cache.expiry[key] == clock.now + CacheLifetime
  {
    var r := StoreAndSlice(serialize, cache, clock.now, Id(u), p, ranked, opts);
    assert forall m :: m in r.matches ==> m in ranked;
    r
  }

  /** `findMatches`: a valid cached list for the key answers the call with
      its first `limit` entries and leaves the cache alone; otherwise the
      fresh ranking is cached (when caching is on) and its first `limit`
      entries returned. A sound cache stays sound, and then no answer ever
      names the user or carries a total at or below zero. */
  function FindMatches(env: Env, serialize: MatchingPreferences -> string, cache: Cache, clock: Clock,
                       u: UserProfile, users: seq<UserProfile>, p: MatchingPreferences, opts: FindOptions): (r: Found)
    ensures opts.limit >= 0 ==> |r.matches| <= opts.limit
    ensures !opts.useCache ==> r.cache == cache
    ensures CacheAligned(cache) ==> CacheAligned(r.cache)
    ensures CacheSound(cache) ==>
      && CacheSound(r.cache)
      && forall m :: m in r.matches ==> m.userId != Id(u) && Gt(m.totalScore, 0.0)
    ensures var key := CacheKey(serialize, Id(u), p);
      opts.useCache && IsCacheValid(cache, key, clock.now) && key in cache.results ==>
        r.cache == cache && r.matches <= cache.results[key]
    ensures var key := CacheKey(serialize, Id(u), p);
      !(opts.useCache && IsCacheValid(cache, key, clock.now) && key in cache.results) ==>
        && r.matches <= FreshMatches(env, clock, u, users, p, opts)
        && (opts.useCache ==> key in r.cache.results && r.cache.results[key] == FreshMatches(env, clock, u, users, p, opts)
                              && key in r.cache.expiry && r.cache.expiry[key] == clock.now + CacheLifetime)
  {
    var key := CacheKey(serialize, Id(u), p);
    if opts.useCache && IsCacheValid(cache, key, clock.now) && key in cache.results then
      Found(ServeCached(serialize, cache, Id(u), p, opts.limit), cache)
    else
      FindFresh(serialize, cache, clock, u, p, opts, FreshMatches(env, clock, u, users, p, opts))
  }

  // ---- findSpecialFeatureMatches ------------------------------------------------

  /** `getFeatureSpecificBonus`. */
  function FeatureBonus(u1: UserProfile, u2: UserProfile, ft: FeatureType): (r: real)
    ensures r >= 0.0
    ensures ft == StudyBuddy ==>
      && r == 5.0 * |FilterIn(u1.interests.studyInterests, u2.interests.studyInterests)| as real
      && (r == 0.0 <==> !Overlaps(u1.interests.studyInterests, u2.interests.studyInterests))
    ensures ft == Mentorship ==>
      (r == 15.0 <==> u1.islamicProfile.isNewMuslim != u2.islamicProfile.isNewMuslim) && (r == 0.0 || r == 15.0)
    ensures ft == EventCompanion ==> (r == 10.0 <==> City(u1) == City(u2)) && (r == 0.0 || r == 10.0)
    ensures ft == ProfessionalNetworking ==>
      && r == 3.0 * |FilterIn(u1.interests.professionalInterests, u2.interests.professionalInterests)| as real
      && (r == 0.0 <==> !Overlaps(u1.interests.professionalInterests, u2.interests.professionalInterests))
  {
    FilterInEmptyIffDisjoint(u1.interests.studyInterests, u2.interests.studyInterests);
    FilterInEmptyIffDisjoint(u1.interests.professionalInterests, u2.interests.professionalInterests);
    match ft
    case StudyBuddy => 5.0 * |FilterIn(u1.interests.studyInterests, u2.interests.studyInterests)| as real
    case Mentorship => if u1.islamicProfile.isNewMuslim != u2.islamicProfile.isNewMuslim then 15.0 else 0.0
    case EventCompanion => if City(u1) == City(u2) then 10.0 else 0.0
    case ProfessionalNetworking =>
      3.0 * |FilterIn(u1.interests.professionalInterests, u2.interests.professionalInterests)| as real
  }

  /** The mentorship and event bonuses do not depend on who asks. */
  lemma FeatureBonusSymmetric(u1: UserProfile, u2: UserProfile, ft: FeatureType)
    requires ft == Mentorship || ft == EventCompanion
    ensures FeatureBonus(u1, u2, ft) == FeatureBonus(u2, u1, ft)
  {
  }

  /** The compatibility score plus the feature bonus, not clamped again. */
  function ScoreSpecial(env: Env, clock: Clock, net: Network, u: UserProfile, p: MatchingPreferences,
                        ft: FeatureType, c: UserProfile): (m: MatchScore)
    ensures m.userId == Id(c)
    ensures m.totalScore.Fin? ==> 0.0 <= m.totalScore.v <= 100.0 + FeatureBonus(u, c, ft)
  {
    var bonus := SocialGraphBonus(u, c, net.connections, net.communities, net.events, clock.sixMonthsAgo);
    var base := CalculateCompatibility(env, u, c, p, bonus);
    var extra := FeatureBonus(u, c, ft);
    var total := Add(base.totalScore, Fin(extra));
    assert total.Fin? ==> 0.0 <= base.totalScore.v <= 100.0 && total.v == base.totalScore.v + extra;
    base.(totalScore := total)
  }

  /** The scored candidates of `findSpecialFeatureMatches`, before ranking. */
  function SpecialScored(env: Env, clock: Clock, u: UserProfile, users: seq<UserProfile>,
                         ft: FeatureType, p: MatchingPreferences, net: Network): (scored: seq<MatchScore>)
    ensures forall m :: m in scored ==>
      && Gt(m.totalScore, 0.0) && m.userId != Id(u)
      && exists c :: c in users && SpecialMatch(ft, u, c) && Id(c) == m.userId
           && m.totalScore.v <= 100.0 + FeatureBonus(u, c, ft)
    ensures forall c :: c in users && SpecialMatch(ft, u, c) && Id(c) != Id(u)
                        && Gt(ScoreSpecial(env, clock, net, u, p, ft, c).totalScore, 0.0) ==>
      ScoreSpecial(env, clock, net, u, p, ft, c) in scored
  {
    var featured := SpecialFeatureFilter(u, users, ft);
    var cs := Filter(featured, (c: UserProfile) => Id(c) != Id(u));
    var score := (c: UserProfile) => ScoreSpecial(env, clock, net, u, p, ft, c);
    var scored := KeepPositive(cs, score);
    forall c | c in users && SpecialMatch(ft, u, c) && Id(c) != Id(u)
               && Gt(ScoreSpecial(env, clock, net, u, p, ft, c).totalScore, 0.0)
      ensures ScoreSpecial(env, clock, net, u, p, ft, c) in scored
    {
      assert c in cs;
      assert score(c) == ScoreSpecial(env, clock, net, u, p, ft, c);
    }
    scored
  }

  /** Highest total first: the `limit` best of `scored`, or all of them
      when there are fewer. */
  function RankTop(scored: seq<MatchScore>, limit: int): (r: seq<MatchScore>)
    ensures limit >= 0 ==> |r| == Min(limit, |scored|)
    ensures SortedDesc(r, TotalOf)
    ensures KeepsTop(r, scored, TotalOf)
    ensures 0 <= |scored| <= limit ==> multiset(r) == multiset(scored)
    ensures forall m :: m in r ==> m in scored
  {
    var sorted := SortDesc(scored, TotalOf);
    var r := SliceTo(sorted, limit);
    TopOfSorted(scored, TotalOf, limit);
    PrefixKeepsOrder(sorted, |r|, TotalOf, TotalOf);
    forall m | m in r
      ensures m in scored
    {
      assert m in multiset(r);
    }
    r
  }

  /** `findSpecialFeatureMatches`: the candidates passing the feature's
      filter, minus the user, scored with the feature bonus, kept above
      zero, highest first, the `limit` best of them. A total may exceed 100
      by the feature bonus. Every qualifying candidate is either returned or
      totals no more than each one returned. */
  function FindSpecialFeatureMatches(env: Env, clock: Clock, u: UserProfile, users: seq<UserProfile>,
                                     ft: FeatureType, p: MatchingPreferences, net: Network, limit: int): (r: seq<MatchScore>)
    ensures limit >= 0 ==> |r| == Min(limit, |SpecialScored(env, clock, u, users, ft, p, net)|)
    ensures KeepsTop(r, SpecialScored(env, clock, u, users, ft, p, net), TotalOf)
    ensures forall m :: m in SpecialScored(env, clock, u, users, ft, p, net) && m !in r ==>
      forall x :: x in r ==> TotalOf(m) <= TotalOf(x)
    ensures SortedDesc(r, TotalOf)
    ensures forall m :: m in r ==>
      && Gt(m.totalScore, 0.0) && m.userId != Id(u)
      && exists c :: c in users && SpecialMatch(ft, u, c) && Id(c) == m.userId
           && m.totalScore.v <= 100.0 + FeatureBonus(u, c, ft)
  {
    var scored := SpecialScored(env, clock, u, users, ft, p, net);
    var r := RankTop(scored, limit);
    OutrankedIfDropped(r, scored, TotalOf);
    r
  }

  // ---- getCollaborativeRecommendations ------------------------------------------

  /** `findSimilarUsers`' entries. */
  datatype SimilarUser = SimilarUser(userId: string, similarityScore: int)

  /** The similarity `findSimilarUsers` adds up: up to 20 for closeness in
      age, 15 for the same city string, 10 for the same practice level, 2
      per hobby of the user the other shares. */
  function Similarity(u: UserProfile, v: UserProfile): (r: int)
    ensures 0 <= r <= 45 + 2 * |u.interests.hobbies|
    ensures Age(u) == Age(v) && City(u) == City(v) && u.islamicProfile.practiceLevel == v.islamicProfile.practiceLevel ==> r >= 45
  {
    Max(0, 20 - AbsI(Age(u) - Age(v)))
    + (if City(u) == City(v) then 15 else 0)
    + (if u.islamicProfile.practiceLevel == v.islamicProfile.practiceLevel then 10 else 0)
    + 2 * |FilterIn(u.interests.hobbies, v.interests.hobbies)|
  }

  /** Only the hobby term depends on who asks: it counts the asker's
      hobbies the other shares, repeats included. When neither list repeats
      a hobby, the similarity is symmetric. */
  lemma SimilarityHobbyAsymmetry(u: UserProfile, v: UserProfile)
    ensures Similarity(u, v) - 2 * |FilterIn(u.interests.hobbies, v.interests.hobbies)|
         == Similarity(v, u) - 2 * |FilterIn(v.interests.hobbies, u.interests.hobbies)|
    ensures NoDuplicates(u.interests.hobbies) && NoDuplicates(v.interests.hobbies) ==>
      Similarity(u, v) == Similarity(v, u)
  {
    if NoDuplicates(u.interests.hobbies) && NoDuplicates(v.interests.hobbies) {
      FilterInSymmetricCount(u.interests.hobbies, v.interests.hobbies);
    }
  }

  function SimilarityOf(s: SimilarUser): real { s.similarityScore as real }

  function CollectSimilar(u: UserProfile, users: seq<UserProfile>): (r: seq<SimilarUser>)
    ensures forall s :: s in r <==> exists v :: (v in users && Id(v) != Id(u) && Similarity(u, v) > 20
      && s == SimilarUser(Id(v), Similarity(u, v)))
  {
    if users == [] then []
    else
      var v := users[0];
      var rest := CollectSimilar(u, users[1..]);
      assert users == [v] + users[1..];
      if Id(v) != Id(u) && Similarity(u, v) > 20 then [SimilarUser(Id(v), Similarity(u, v))] + rest else rest
  }

  /** `findSimilarUsers`: everyone but the user with similarity above 20,
      most similar first. */
  function SimilarUsers(u: UserProfile, users: seq<UserProfile>): (r: seq<SimilarUser>)
    ensures SortedDesc(r, SimilarityOf)
    ensures forall s :: s in r <==> exists v :: (v in users && Id(v) != Id(u) && Similarity(u, v) > 20
      && s == SimilarUser(Id(v), Similarity(u, v)))
  {
    var found := CollectSimilar(u, users);
    var r := SortDesc(found, SimilarityOf);
    forall s
      ensures s in r <==> s in found
    {
      assert s in r <==> s in multiset(r);
      assert s in found <==> s in multiset(found);
    }
    r
  }

  datatype Recommendation = Recommendation(userId: string, score: real, reason: string)

  const CollaborativeReason: string := "Sisters like you also connected with this person"

  function RecId(x: Recommendation): string { x.userId }
  function RecScore(x: Recommendation): real { x.score }

  /** The user has already accepted, declined, liked or disliked `id`. */
  predicate Interacted(b: UserBehavior, id: string) {
    id in b.acceptedConnections || id in b.declinedConnections
    || id in b.likedProfiles || id in b.dislikedProfiles
  }

  /** What a similar user credits per connection: 0.3 times the similarity. */
  function Share(s: SimilarUser): real { s.similarityScore as real * 0.3 }

  /** Every entry: a positive score, the fixed reason. */
  ghost predicate WellFormed(recs: seq<Recommendation>) {
    DistinctBy(recs, RecId)
    && forall x :: x in recs ==> x.score > 0.0 && x.reason == CollaborativeReason
  }

  function SumScores(recs: seq<Recommendation>): real {
    if recs == [] then 0.0 else recs[0].score + SumScores(recs[1..])
  }

  /** Credits `amount` to the entry for `id`, appending one when there is
      none: the `find` / `push` step. */
  function Credit(recs: seq<Recommendation>, id: string, amount: real): (r: seq<Recommendation>)
    ensures forall x :: x in r ==> x in recs || x.userId == id
    ensures exists x :: x in r && x.userId == id
    ensures forall x :: x in recs && x.userId != id ==> x in r
  {
    if recs == [] then [Recommendation(id, amount, CollaborativeReason)]
    else if recs[0].userId == id then
      assert recs == [recs[0]] + recs[1..];
      [recs[0].(score := recs[0].score + amount)] + recs[1..]
    else
      assert recs == [recs[0]] + recs[1..];
      [recs[0]] + Credit(recs[1..], id, amount)
  }

  /** Crediting adds exactly `amount` to the total. */
  lemma {:induction false} CreditAddsAmount(recs: seq<Recommendation>, id: string, amount: real)
    ensures SumScores(Credit(recs, id, amount)) == SumScores(recs) + amount
  {
    if recs != [] && recs[0].userId != id {
      CreditAddsAmount(recs[1..], id, amount);
    }
  }

  /** Dropping the head keeps a list well formed. */
  lemma TailWellFormed(recs: seq<Recommendation>)
    requires recs != [] && WellFormed(recs)
    ensures WellFormed(recs[1..])
    ensures forall x :: x in recs[1..] ==> x.userId != recs[0].userId
  {
    var tail := recs[1..];
    forall i, j | 0 <= i < j < |tail|
      ensures tail[i].userId != tail[j].userId
    {
      assert tail[i] == recs[i + 1] && tail[j] == recs[j + 1];
    }
    forall x | x in tail
      ensures x.userId != recs[0].userId
    {
      var k :| 0 <= k < |tail| && tail[k] == x;
      assert recs[k + 1] == x;
    }
  }

  /** A well-formed entry in front of a well-formed list with other ids. */
  lemma ConsWellFormed(head: Recommendation, rest: seq<Recommendation>)
    requires WellFormed(rest) && head.score > 0.0 && head.reason == CollaborativeReason
    requires forall x :: x in rest ==> x.userId != head.userId
    ensures WellFormed([head] + rest)
  {
    var r := [head] + rest;
    forall i, j | 0 <= i < j < |r|
      ensures r[i].userId != r[j].userId
    {
      assert r[j] == rest[j - 1];
      if i > 0 {
        assert r[i] == rest[i - 1];
      }
    }
  }

  /** A positive credit keeps the list well formed: still one entry per id. */
  lemma {:induction false} CreditWellFormed(recs: seq<Recommendation>, id: string, amount: real)
    requires WellFormed(recs) && amount > 0.0
    ensures WellFormed(Credit(recs, id, amount))
  {
    if recs != [] {
      TailWellFormed(recs);
      var tail := recs[1..];
      if recs[0].userId != id {
        CreditWellFormed(tail, id, amount);
        var rest := Credit(tail, id, amount);
        assert forall x :: x in rest ==> x in tail || x.userId == id;
        ConsWellFormed(recs[0], rest);
      } else {
        assert recs[0] in recs;
        ConsWellFormed(recs[0].(score := recs[0].score + amount), tail);
      }
    }
  }

  /** `other` is reached from `id` by an accepted connection in `conns`. */
  ghost predicate Endorses(conns: seq<Connection>, id: string, other: string) {
    exists c :: c in conns && Links(c, id, other)
  }

  /** The other party of `c` seen from `id`, when `c` is an accepted
      connection of `id`. */
  function FarEnd(c: Connection, id: string): (r: Option<string>)
    ensures forall other :: r == Some(other) <==> Links(c, id, other)
  {
    if (c.user1Id == id || c.user2Id == id) && c.status == Accepted then
      Some(if c.user1Id == id then c.user2Id else c.user1Id)
    else None
  }

  /** One step of the inner loop: credit the far end of `c`, unless the
      user already interacted with that person. */
  function CreditOne(recs: seq<Recommendation>, c: Connection, s: SimilarUser, b: UserBehavior): (r: seq<Recommendation>)
    ensures forall x :: x in r ==> x in recs || (!Interacted(b, x.userId) && Links(c, s.userId, x.userId))
    ensures WellFormed(recs) && s.similarityScore > 0 ==> WellFormed(r)
  {
    match FarEnd(c, s.userId)
    case None => recs
    case Some(other) =>
      if Interacted(b, other) then recs
      else
        var amount := Share(s);
        assert WellFormed(recs) && s.similarityScore > 0 ==> WellFormed(Credit(recs, other, amount)) by {
          if WellFormed(recs) && s.similarityScore > 0 {
            CreditWellFormed(recs, other, amount);
          }
        }
        Credit(recs, other, amount)
  }

  /** The inner loop: credit the far end of each accepted connection of the
      similar user, skipping anyone the user already interacted with. */
  function CreditConnections(recs: seq<Recommendation>, conns: seq<Connection>, s: SimilarUser,
                             b: UserBehavior): (r: seq<Recommendation>)
    decreases |conns|
    ensures forall x :: x in r ==> x in recs || (!Interacted(b, x.userId) && Endorses(conns, s.userId, x.userId))
    ensures WellFormed(recs) && s.similarityScore > 0 ==> WellFormed(r)
  {
    if conns == [] then recs
    else
      var r := CreditConnections(CreditOne(recs, conns[0], s, b), conns[1..], s, b);
      assert conns[0] in conns;
      assert forall x :: x in conns[1..] ==> x in conns;
      r
  }

  function CreditAll(recs: seq<Recommendation>, sims: seq<SimilarUser>, conns: seq<Connection>,
                     b: UserBehavior): (r: seq<Recommendation>)
    decreases |sims|
    ensures forall x :: x in r ==>
      (x in recs || (!Interacted(b, x.userId) && exists s :: s in sims && Endorses(conns, s.userId, x.userId)))
    ensures WellFormed(recs) && (forall s :: s in sims ==> s.similarityScore > 0) ==> WellFormed(r)
  {
    if sims == [] then recs
    else
      var next := CreditConnections(recs, conns, sims[0], b);
      assert sims[0] in sims;
      assert forall s :: s in sims[1..] ==> s in sims;
      CreditAll(next, sims[1..], conns, b)
  }

  // ---- The scores as sums ---------------------------------------------------------

  /** The score recorded for `id`: its first entry's, 0 when there is none. */
  function ScoreOf(recs: seq<Recommendation>, id: string): real {
    if recs == [] then 0.0
    else if recs[0].userId == id then recs[0].score
    else ScoreOf(recs[1..], id)
  }

  /** What one similar user adds to `id`'s score: 0.3 times the similarity
      for every accepted connection of theirs whose other party is `id`,
      nothing at all when the user already interacted with `id`. */
  function Contribution(conns: seq<Connection>, s: SimilarUser, b: UserBehavior, id: string): real
    decreases |conns|
  {
    if conns == [] then 0.0
    else
      (if FarEnd(conns[0], s.userId) == Some(id) && !Interacted(b, id) then Share(s) else 0.0)
      + Contribution(conns[1..], s, b, id)
  }

  /** The summed contributions of all the similar users to `id`. */
  function Endorsement(sims: seq<SimilarUser>, conns: seq<Connection>, b: UserBehavior, id: string): real
    decreases |sims|
  {
    if sims == [] then 0.0
    else Contribution(conns, sims[0], b, id) + Endorsement(sims[1..], conns, b, id)
  }

  /** Crediting `id` raises its recorded score by `amount` and no other. */
  lemma {:induction false} ScoreOfCredit(recs: seq<Recommendation>, id: string, amount: real, k: string)
    ensures ScoreOf(Credit(recs, id, amount), k) == ScoreOf(recs, k) + (if k == id then amount else 0.0)
  {
    if recs != [] && recs[0].userId != id {
      ScoreOfCredit(recs[1..], id, amount, k);
    }
  }

  /** One step adds the similar user's credit for that connection. */
  lemma CreditOneScore(recs: seq<Recommendation>, c: Connection, s: SimilarUser, b: UserBehavior, k: string)
    ensures ScoreOf(CreditOne(recs, c, s, b), k) == ScoreOf(recs, k)
      + (if FarEnd(c, s.userId) == Some(k) && !Interacted(b, k) then Share(s) else 0.0)
  {
    var far := FarEnd(c, s.userId);
    if far.Some? && !Interacted(b, far.value) {
      ScoreOfCredit(recs, far.value, Share(s), k);
    }
  }

  /** The inner loop adds exactly the similar user's contribution. */
  lemma {:induction false} CreditConnectionsScore(recs: seq<Recommendation>, conns: seq<Connection>,
                                                  s: SimilarUser, b: UserBehavior, k: string)
    decreases |conns|
    ensures ScoreOf(CreditConnections(recs, conns, s, b), k) == ScoreOf(recs, k) + Contribution(conns, s, b, k)
  {
    if conns != [] {
      var next := CreditOne(recs, conns[0], s, b);
      CreditConnectionsScore(next, conns[1..], s, b, k);
      CreditOneScore(recs, conns[0], s, b, k);
    }
  }

  /** The outer loop adds exactly the summed contributions. */
  lemma {:induction false} CreditAllScore(recs: seq<Recommendation>, sims: seq<SimilarUser>,
                                          conns: seq<Connection>, b: UserBehavior, k: string)
    decreases |sims|
    ensures ScoreOf(CreditAll(recs, sims, conns, b), k) == ScoreOf(recs, k) + Endorsement(sims, conns, b, k)
  {
    if sims != [] {
      var next := CreditConnections(recs, conns, sims[0], b);
      CreditConnectionsScore(recs, conns, sims[0], b, k);
      CreditAllScore(next, sims[1..], conns, b, k);
    }
  }

  /** In a well-formed list an entry's score is the one recorded for its id. */
  lemma {:induction false} ScoreOfMember(recs: seq<Recommendation>, x: Recommendation)
    requires WellFormed(recs) && x in recs
    ensures ScoreOf(recs, x.userId) == x.score
  {
    if recs[0] != x {
      TailWellFormed(recs);
      ScoreOfMember(recs[1..], x);
    }
  }

  /** No entry for `k`, nothing recorded for it. */
  lemma {:induction false} ScoreOfAbsent(recs: seq<Recommendation>, k: string)
    requires forall x :: x in recs ==> x.userId != k
    ensures ScoreOf(recs, k) == 0.0
  {
    if recs != [] {
      assert recs[0] in recs;
      assert forall x :: x in recs[1..] ==> x in recs;
      ScoreOfAbsent(recs[1..], k);
    }
  }

  /** A similar user contributes something to `id` exactly when the user
      has not interacted with `id` and one of their accepted connections
      leads to `id`. */
  lemma {:induction false} ContributionPositive(conns: seq<Connection>, s: SimilarUser, b: UserBehavior, id: string)
    requires s.similarityScore > 0
    decreases |conns|
    ensures Contribution(conns, s, b, id) >= 0.0
    ensures Contribution(conns, s, b, id) > 0.0 <==> !Interacted(b, id) && Endorses(conns, s.userId, id)
  {
    if conns != [] {
      ContributionPositive(conns[1..], s, b, id);
      assert conns[0] in conns;
      if Endorses(conns, s.userId, id) && FarEnd(conns[0], s.userId) != Some(id) {
        var c :| c in conns && Links(c, s.userId, id);
        assert c in conns[1..];
      }
      if Endorses(conns[1..], s.userId, id) {
        var c :| c in conns[1..] && Links(c, s.userId, id);
        assert c in conns;
      }
    }
  }

  /** The summed contributions are positive exactly when some similar user
      endorses `id` and the user has not interacted with `id`. */
  lemma {:induction false} EndorsementPositive(sims: seq<SimilarUser>, conns: seq<Connection>, b: UserBehavior, id: string)
    requires forall s :: s in sims ==> s.similarityScore > 0
    decreases |sims|
    ensures Endorsement(sims, conns, b, id) >= 0.0
    ensures Endorsement(sims, conns, b, id) > 0.0 <==>
      !Interacted(b, id) && exists s :: s in sims && Endorses(conns, s.userId, id)
  {
    if sims != [] {
      assert sims[0] in sims;
      assert forall s :: s in sims[1..] ==> s in sims;
      ContributionPositive(conns, sims[0], b, id);
      EndorsementPositive(sims[1..], conns, b, id);
      if exists s :: s in sims && Endorses(conns, s.userId, id) {
        var s :| s in sims && Endorses(conns, s.userId, id);
        if s != sims[0] {
          assert s in sims[1..];
        }
      }
    }
  }

  // ---- The five most similar, the ranking ----------------------------------------

  /** The five most similar users, most similar first: anyone similar
      enough who is left out is no more similar than each one kept. */
  function TopSimilar(u: UserProfile, users: seq<UserProfile>): (top: seq<SimilarUser>)
    ensures |top| == Min(5, |CollectSimilar(u, users)|)
    ensures SortedDesc(top, SimilarityOf)
    ensures KeepsTop(top, CollectSimilar(u, users), SimilarityOf)
    ensures forall v :: v in users && Id(v) != Id(u) && Similarity(u, v) > 20 ==>
      || SimilarUser(Id(v), Similarity(u, v)) in top
      || forall s :: s in top ==> Similarity(u, v) <= s.similarityScore
    ensures forall s :: s in top ==> (
      && s.similarityScore > 20
      && exists v :: v in users && Id(v) != Id(u) && Similarity(u, v) > 20 && Id(v) == s.userId)
  {
    var found := CollectSimilar(u, users);
    var sims := SortDesc(found, SimilarityOf);
    var top := SliceTo(sims, 5);
    TopOfSorted(found, SimilarityOf, 5);
    PrefixKeepsOrder(sims, |top|, SimilarityOf, SimilarityOf);
    SimilarSelection(u, users, top);
    SimilarBacked(u, users, top);
    top
  }

  /** Anyone similar enough who is left out of a top selection of
      `findSimilarUsers`' entries is no more similar than each one kept. */
  lemma SimilarSelection(u: UserProfile, users: seq<UserProfile>, top: seq<SimilarUser>)
    requires KeepsTop(top, CollectSimilar(u, users), SimilarityOf)
    ensures forall v :: v in users && Id(v) != Id(u) && Similarity(u, v) > 20 ==>
      || SimilarUser(Id(v), Similarity(u, v)) in top
      || forall s :: s in top ==> Similarity(u, v) <= s.similarityScore
  {
    var found := CollectSimilar(u, users);
    OutrankedIfDropped(top, found, SimilarityOf);
    forall v | v in users && Id(v) != Id(u) && Similarity(u, v) > 20
      ensures SimilarUser(Id(v), Similarity(u, v)) in found
    {
    }
  }

  /** Each entry of a selection of `findSimilarUsers`' entries is backed by
      a profile other than the user's, similar enough. */
  lemma SimilarBacked(u: UserProfile, users: seq<UserProfile>, top: seq<SimilarUser>)
    requires multiset(top) <= multiset(CollectSimilar(u, users))
    ensures forall s :: s in top ==> (
      && s.similarityScore > 20
      && exists v :: v in users && Id(v) != Id(u) && Similarity(u, v) > 20 && Id(v) == s.userId)
  {
    var found := CollectSimilar(u, users);
    forall s | s in top
      ensures s.similarityScore > 20
      ensures exists v :: v in users && Id(v) != Id(u) && Similarity(u, v) > 20 && Id(v) == s.userId
    {
      assert s in multiset(top);
      assert s in found;
      var v :| v in users && Id(v) != Id(u) && Similarity(u, v) > 20 && s == SimilarUser(Id(v), Similarity(u, v));
    }
  }

  /** Best first: the `limit` highest scores, or all when there are fewer. */
  function RankRecommendations(recs: seq<Recommendation>, limit: int): (r: seq<Recommendation>)
    requires DistinctBy(recs, RecId)
    ensures limit >= 0 ==> |r| == Min(limit, |recs|)
    ensures SortedDesc(r, RecScore)
    ensures KeepsTop(r, recs, RecScore)
    ensures DistinctBy(r, RecId)
    ensures forall x :: x in r ==> x in recs
  {
    var sorted := SortDesc(recs, RecScore);
    SortDescDistinct(recs, RecScore, RecId);
    var r := SliceTo(sorted, limit);
    TopOfSorted(recs, RecScore, limit);
    PrefixKeepsOrder(sorted, |r|, RecScore, RecId);
    forall x | x in r
      ensures x in recs
    {
      assert x in multiset(r);
    }
    r
  }

  /** Everyone the similar users endorse and the user has not interacted
      with, once each, scored with the summed endorsements. */
  function RecommendationPool(top: seq<SimilarUser>, conns: seq<Connection>, b: UserBehavior): (recs: seq<Recommendation>)
    requires forall s :: s in top ==> s.similarityScore > 0
    ensures WellFormed(recs)
    ensures forall x :: x in recs ==> x.score == Endorsement(top, conns, b, x.userId)
    ensures forall id :: (exists x :: x in recs && x.userId == id) <==>
      !Interacted(b, id) && exists s :: s in top && Endorses(conns, s.userId, id)
  {
    var recs := CreditAll([], top, conns, b);
    assert WellFormed(recs);
    forall x | x in recs
      ensures x.score == Endorsement(top, conns, b, x.userId)
    {
      ScoreOfMember(recs, x);
      CreditAllScore([], top, conns, b, x.userId);
    }
    forall id
      ensures (exists x :: x in recs && x.userId == id) <==>
        !Interacted(b, id) && exists s :: s in top && Endorses(conns, s.userId, id)
    {
      EndorsementPositive(top, conns, b, id);
      CreditAllScore([], top, conns, b, id);
      if !exists x :: x in recs && x.userId == id {
        ScoreOfAbsent(recs, id);
      } else {
        var x :| x in recs && x.userId == id;
        ScoreOfMember(recs, x);
      }
    }
    recs
  }

  /** A person in the pool but missing from a top selection of it is
      endorsed no more strongly than anyone kept. */
  lemma DroppedOutranked(r: seq<Recommendation>, recs: seq<Recommendation>, top: seq<SimilarUser>,
                         conns: seq<Connection>, b: UserBehavior)
    requires KeepsTop(r, recs, RecScore)
    requires forall x :: x in recs ==> x.score == Endorsement(top, conns, b, x.userId)
    ensures forall id :: (exists y :: y in recs && y.userId == id) ==>
      || (exists x :: x in r && x.userId == id)
      || forall x :: x in r ==> Endorsement(top, conns, b, id) <= x.score
  {
    OutrankedIfDropped(r, recs, RecScore);
    forall id | (exists y :: y in recs && y.userId == id) && !exists x :: x in r && x.userId == id
      ensures forall x :: x in r ==> Endorsement(top, conns, b, id) <= x.score
    {
      var y :| y in recs && y.userId == id;
      assert y !in r;
    }
  }

  /** `getCollaborativeRecommendations`: the people the five most similar
      users are connected with, minus anyone the user already interacted
      with, each credited 0.3 times the similarity of every similar user
      connected to them, best first, the `limit` best of them. */
  function CollaborativeRecommendations(u: UserProfile, users: seq<UserProfile>, conns: seq<Connection>,
                                        b: UserBehavior, limit: int): (r: seq<Recommendation>)
    ensures limit >= 0 ==> |r| == Min(limit, |RecommendationPool(TopSimilar(u, users), conns, b)|)
    ensures SortedDesc(r, RecScore)
    ensures KeepsTop(r, RecommendationPool(TopSimilar(u, users), conns, b), RecScore)
    ensures forall id :: !Interacted(b, id) && (exists s :: s in TopSimilar(u, users) && Endorses(conns, s.userId, id)) ==>
      || (exists x :: x in r && x.userId == id)
      || forall x :: x in r ==> Endorsement(TopSimilar(u, users), conns, b, id) <= x.score
    ensures DistinctBy(r, RecId)
    ensures forall x :: x in r ==>
      && x.score == Endorsement(TopSimilar(u, users), conns, b, x.userId)
      && x.score > 0.0 && x.reason == CollaborativeReason && !Interacted(b, x.userId)
      && exists v :: v in users && Id(v) != Id(u) && Similarity(u, v) > 20 && Endorses(conns, Id(v), x.userId)
  {
    var top := TopSimilar(u, users);
    var recs := RecommendationPool(top, conns, b);
    var r := RankRecommendations(recs, limit);
    DroppedOutranked(r, recs, top, conns, b);
    forall x | x in r
      ensures exists v :: v in users && Id(v) != Id(u) && Similarity(u, v) > 20 && Endorses(conns, Id(v), x.userId)
    {
      assert exists y :: y in recs && y.userId == x.userId;
      var s :| s in top && Endorses(conns, s.userId, x.userId);
      var v :| v in users && Id(v) != Id(u) && Similarity(u, v) > 20 && Id(v) == s.userId;
    }
    r
  }
}

=== FILE: preference_filter.dfy ===
/** `PreferenceFilter` of src/matching/filters/preference-filter.ts: the
    three filter stages a candidate list passes through, the four
    special-feature filters, preference learning from liked profiles, and
    the conversation starters. The clock enters as `now`. */
module PreferenceFilter {
  import opened Seqs
  import opened JsNumber
  import opened Types

  // ---- Filter stages -----------------------------------------------------------

  /** The hard rules of `applyHardFilters`: age range, distance, a required
      language when any is required, and each enabled deal-breaker. */
  predicate HardRules(env: Env, u: UserProfile, c: UserProfile, p: MatchingPreferences) {
    p.ageRange.min <= Age(c) <= p.ageRange.max
    && env.distance(u.personalInfo.location, c.personalInfo.location) <= p.maxDistance
    && (|p.requiredLanguages| > 0 ==> exists l :: l in p.requiredLanguages && l in AllLanguages(c))
    && (p.dealBreakers.differentPracticeLevel ==> u.islamicProfile.practiceLevel == c.islamicProfile.practiceLevel)
    && (p.dealBreakers.noHijab ==> c.islamicProfile.hijabWearing)
    && (p.dealBreakers.differentFamilyStatus ==> u.lifestyle.familyStatus == c.lifestyle.familyStatus)
  }

  /** `applyBehaviorFilters`: never a disliked, reported or declined id. */
  predicate BehaviorRules(b: UserBehavior, c: UserProfile) {
    Id(c) !in b.dislikedProfiles && Id(c) !in b.reportedUsers && Id(c) !in b.declinedConnections
  }

  /** `applyPrivacyFilters`: not the requester, verified, and active within
      the last 30 whole days. */
  predicate PrivacyRules(u: UserProfile, c: UserProfile, now: int) {
    Id(c) != Id(u) && c.verified && DaysSince(now, c.lastActive) <= 30
  }

  /** The behaviour stage runs only when a behaviour record is supplied. */
  predicate BehaviorStage(behavior: Option<UserBehavior>, c: UserProfile) {
    behavior.Some? ==> BehaviorRules(behavior.value, c)
  }

  /** `filterCandidates`: hard, then behaviour, then privacy filtering. */
  function FilterCandidates(env: Env, u: UserProfile, cs: seq<UserProfile>, p: MatchingPreferences,
                            behavior: Option<UserBehavior>, now: int): (r: seq<UserProfile>)
    ensures |r| <= |cs|
    ensures forall c :: c in r <==>
      c in cs && HardRules(env, u, c, p) && BehaviorStage(behavior, c) && PrivacyRules(u, c, now)
  {
    var hard := Filter(cs, (c: UserProfile) => HardRules(env, u, c, p));
    var behaved := Filter(hard, (c: UserProfile) => BehaviorStage(behavior, c));
    Filter(behaved, (c: UserProfile) => PrivacyRules(u, c, now))
  }

  /** The survivors keep their relative order: filtering only deletes. */
  lemma FilterCandidatesSubsequence(env: Env, u: UserProfile, cs: seq<UserProfile>, p: MatchingPreferences,
                                    behavior: Option<UserBehavior>, now: int)
    ensures IsSubsequence(FilterCandidates(env, u, cs, p, behavior, now), cs)
  {
    var hardP := (c: UserProfile) => HardRules(env, u, c, p);
    var behaviorP := (c: UserProfile) => BehaviorStage(behavior, c);
    var privacyP := (c: UserProfile) => PrivacyRules(u, c, now);
    var hard := Filter(cs, hardP);
    var behaved := Filter(hard, behaviorP);
    FilterSubsequence(cs, hardP);
    FilterSubsequence(hard, behaviorP);
    FilterSubsequence(behaved, privacyP);
    SubsequenceTransitive(behaved, hard, cs);
    SubsequenceTransitive(Filter(behaved, privacyP), behaved, cs);
  }

  /** Filtering twice changes nothing: every survivor already passes. */
  lemma FilterCandidatesIdempotent(env: Env, u: UserProfile, cs: seq<UserProfile>, p: MatchingPreferences,
                                   behavior: Option<UserBehavior>, now: int)
    ensures var r := FilterCandidates(env, u, cs, p, behavior, now);
      FilterCandidates(env, u, r, p, behavior, now) == r
  {
    var r := FilterCandidates(env, u, cs, p, behavior, now);
    var hardP := (c: UserProfile) => HardRules(env, u, c, p);
    var behaviorP := (c: UserProfile) => BehaviorStage(behavior, c);
    var privacyP := (c: UserProfile) => PrivacyRules(u, c, now);
    FilterKeepsAll(r, hardP);
    FilterKeepsAll(r, behaviorP);
    FilterKeepsAll(r, privacyP);
  }

  // ---- Special-feature filters ------------------------------------------------------

  /** `filterForStudyBuddy`: a shared study or Islamic interest. */
  predicate StudyBuddyMatch(u: UserProfile, c: UserProfile) {
    |FilterIn(u.interests.studyInterests, c.interests.studyInterests)| > 0
    || |FilterIn(u.interests.islamicInterests, c.interests.islamicInterests)| > 0
  }

  /** `filterForMentorship`: exactly one new Muslim, or an age gap of five
      years or more. */
  predicate MentorshipMatch(u: UserProfile, c: UserProfile) {
    (u.islamicProfile.isNewMuslim && !c.islamicProfile.isNewMuslim)
    || (!u.islamicProfile.isNewMuslim && c.islamicProfile.isNewMuslim)
    || AbsI(Age(u) - Age(c)) >= 5
  }

  /** `filterForEventCompanion`: the same city string and a shared meeting time. */
  predicate EventCompanionMatch(u: UserProfile, c: UserProfile) {
    City(u) == City(c)
    && |FilterIn(u.lifestyle.preferredMeetingTimes, c.lifestyle.preferredMeetingTimes)| > 0
  }

  /** `isWorkingOrStudying`: working, or any study status but "not studying". */
  predicate WorkingOrStudying(u: UserProfile) {
    u.lifestyle.workStatus == Working || u.lifestyle.studyStatus != NotStudying
  }

  /** `filterForProfessionalNetworking`: a shared professional interest, both
      parties working or studying. */
  predicate NetworkingMatch(u: UserProfile, c: UserProfile) {
    |FilterIn(u.interests.professionalInterests, c.interests.professionalInterests)| > 0
    && WorkingOrStudying(u) && WorkingOrStudying(c)
  }

  predicate SpecialMatch(ft: FeatureType, u: UserProfile, c: UserProfile) {
    match ft
    case StudyBuddy => StudyBuddyMatch(u, c)
    case Mentorship => MentorshipMatch(u, c)
    case EventCompanion => EventCompanionMatch(u, c)
    case ProfessionalNetworking => NetworkingMatch(u, c)
  }

  /** `applySpecialFeatureFilters`: the candidates satisfying the chosen
      feature's test, in order; stated through the overlaps themselves. */
  function SpecialFeatureFilter(u: UserProfile, cs: seq<UserProfile>, ft: FeatureType): (r: seq<UserProfile>)
    ensures |r| <= |cs|
    ensures forall c :: c in r <==> c in cs && SpecialMatch(ft, u, c)
    ensures ft == StudyBuddy ==> forall c :: c in r <==>
      (c in cs
       && (Overlaps(u.interests.studyInterests, c.interests.studyInterests)
           || Overlaps(u.interests.islamicInterests, c.interests.islamicInterests)))
    ensures ft == EventCompanion ==> forall c :: c in r <==>
      (c in cs && City(u) == City(c)
       && Overlaps(u.lifestyle.preferredMeetingTimes, c.lifestyle.preferredMeetingTimes))
    ensures ft == ProfessionalNetworking ==> forall c :: c in r <==>
      (c in cs
       && Overlaps(u.interests.professionalInterests, c.interests.professionalInterests)
       && WorkingOrStudying(u) && WorkingOrStudying(c))
    ensures ft == Mentorship ==> forall c :: c in r <==>
      (c in cs
       && (u.islamicProfile.isNewMuslim != c.islamicProfile.isNewMuslim || AbsI(Age(u) - Age(c)) >= 5))
  {
    var r := Filter(cs, (c: UserProfile) => SpecialMatch(ft, u, c));
    forall c | c in cs
      ensures SpecialMatch(ft, u, c) <==> match ft
        case StudyBuddy => Overlaps(u.interests.studyInterests, c.interests.studyInterests)
          || Overlaps(u.interests.islamicInterests, c.interests.islamicInterests)
        case Mentorship => u.islamicProfile.isNewMuslim != c.islamicProfile.isNewMuslim || AbsI(Age(u) - Age(c)) >= 5
        case EventCompanion => City(u) == City(c) && Overlaps(u.lifestyle.preferredMeetingTimes, c.lifestyle.preferredMeetingTimes)
        case ProfessionalNetworking =>
          Overlaps(u.interests.professionalInterests, c.interests.professionalInterests)
          && WorkingOrStudying(u) && WorkingOrStudying(c)
    {
      FilterInEmptyIffDisjoint(u.interests.studyInterests, c.interests.studyInterests);
      FilterInEmptyIffDisjoint(u.interests.islamicInterests, c.interests.islamicInterests);
      FilterInEmptyIffDisjoint(u.lifestyle.preferredMeetingTimes, c.lifestyle.preferredMeetingTimes);
      FilterInEmptyIffDisjoint(u.interests.professionalInterests, c.interests.professionalInterests);
    }
    r
  }

  /** Each feature test is symmetric: swapping requester and candidate keeps
      the verdict. */
  lemma SpecialMatchSymmetric(ft: FeatureType, u: UserProfile, c: UserProfile)
    ensures SpecialMatch(ft, u, c) <==> SpecialMatch(ft, c, u)
  {
    FilterInEmptyIffDisjoint(u.interests.studyInterests, c.interests.studyInterests);
    FilterInEmptyIffDisjoint(c.interests.studyInterests, u.interests.studyInterests);
    FilterInEmptyIffDisjoint(u.interests.islamicInterests, c.interests.islamicInterests);
    FilterInEmptyIffDisjoint(c.interests.islamicInterests, u.interests.islamicInterests);
    FilterInEmptyIffDisjoint(u.lifestyle.preferredMeetingTimes, c.lifestyle.preferredMeetingTimes);
    FilterInEmptyIffDisjoint(c.lifestyle.preferredMeetingTimes, u.lifestyle.preferredMeetingTimes);
    FilterInEmptyIffDisjoint(u.interests.professionalInterests, c.interests.professionalInterests);
    FilterInEmptyIffDisjoint(c.interests.professionalInterests, u.interests.professionalInterests);
    assert AbsI(Age(u) - Age(c)) == AbsI(Age(c) - Age(u));
  }

  // ---- Learning from behaviour ---------------------------------------------------

  /** `getLikedUserAges`: the ages of the liked ids that resolve to a user. */
  function LikedAges(b: UserBehavior, users: seq<UserProfile>): (r: seq<int>)
    ensures |r| <= |b.likedProfiles|
    ensures |r| == |Filter(b.likedProfiles, Resolves(users))|
    ensures forall i :: 0 <= i < |r| ==>
      Some(r[i]) == OptionAge(FindUser(Filter(b.likedProfiles, Resolves(users))[i], users))
    ensures forall u :: Id(u) in b.likedProfiles && FindUser(Id(u), users) == Some(u) ==> Age(u) in r
  {
    var liked := UsersFromIds(b.likedProfiles, users);
    var r := Map(liked, Age);
    AgesOfResolved(b.likedProfiles, users, liked, r);
    r
  }

  lemma AgesOfResolved(ids: seq<string>, users: seq<UserProfile>, liked: seq<UserProfile>, r: seq<int>)
    requires liked == UsersFromIds(ids, users) && r == Map(liked, Age)
    ensures |r| == |Filter(ids, Resolves(users))|
    ensures forall i :: 0 <= i < |r| ==> Some(r[i]) == OptionAge(FindUser(Filter(ids, Resolves(users))[i], users))
    ensures forall u :: Id(u) in ids && FindUser(Id(u), users) == Some(u) ==> Age(u) in r
  {
    forall u | u in liked
      ensures Age(u) in r
    {
      var i :| 0 <= i < |liked| && liked[i] == u;
      assert r[i] == Age(u);
    }
  }

  /** The age of a found user. */
  function OptionAge(o: Option<UserProfile>): (r: Option<int>)
    ensures r.Some? <==> o.Some?
  {
    match o
    case Some(u) => Some(Age(u))
    case None => None
  }

  function SumInts(xs: seq<int>): int {
    if xs == [] then 0 else xs[0] + SumInts(xs[1..])
  }

  function SumSquaredDeviation(xs: seq<int>, mean: real): (r: real)
    ensures r >= 0.0
  {
    if xs == [] then 0.0
    else
      var d := xs[0] as real - mean;
      assert d * d >= 0.0;
      d * d + SumSquaredDeviation(xs[1..], mean)
  }

  /** The age range learned from at least three liked ages: the mean widened
      by one and a half standard deviations each way, rounded outwards and
      held within 18 to 80. */
  function LearnedAgeRange(ages: seq<int>, sqrt: real -> NonNeg): (r: AgeRange)
    requires |ages| >= 3
    ensures r.min >= 18 && r.max <= 80
    ensures var mean := SumInts(ages) as real / |ages| as real;
      18.0 <= mean <= 80.0 ==> r.min as real <= mean <= r.max as real
  {
    var n := |ages| as real;
    var mean := SumInts(ages) as real / n;
    var deviation := sqrt(SumSquaredDeviation(ages, mean) / n);
    var spread := deviation * 1.5;
    AgeRange(Max(18, Floor(mean - spread)), Min(80, Ceil(mean + spread)))
  }

  /** `getLikedUserDistances` is a stub that always returns the empty list. */
  function LikedDistances(b: UserBehavior, users: seq<UserProfile>): seq<real> {
    []
  }

  /** `updatePreferencesFromBehavior`: the age range is relearned from three
      or more resolvable liked ages; the distance rule never fires because its
      input is always empty; `updateSoftPreferences` returns its input. */
  function UpdatePreferencesFromBehavior(p: MatchingPreferences, b: UserBehavior, users: seq<UserProfile>,
                                         sqrt: real -> NonNeg): (r: MatchingPreferences)
    ensures |LikedAges(b, users)| < 3 ==> r.ageRange == p.ageRange
    ensures |LikedAges(b, users)| >= 3 ==> r.ageRange.min >= 18 && r.ageRange.max <= 80
    ensures |LikedAges(b, users)| >= 3 ==> r.ageRange == LearnedAgeRange(LikedAges(b, users), sqrt)
    ensures var ages := LikedAges(b, users);
      |ages| >= 3 && 18.0 <= SumInts(ages) as real / |ages| as real <= 80.0 ==>
        r.ageRange.min as real <= SumInts(ages) as real / |ages| as real <= r.ageRange.max as real
    ensures r.maxDistance >= p.maxDistance
    ensures r.softPreferences == p.softPreferences
    ensures r == p.(ageRange := r.ageRange)
  {
    var ages := LikedAges(b, users);
    var withAges := if |ages| >= 3 then p.(ageRange := LearnedAgeRange(ages, sqrt)) else p;
    DistanceRule(withAges, LikedDistances(b, users))
  }

  /** With three or more liked distances, `maxDistance` becomes at least the
      mean distance plus 20 %, rounded up; it never shrinks. */
  function DistanceRule(p: MatchingPreferences, distances: seq<real>): (r: MatchingPreferences)
    ensures r == p.(maxDistance := r.maxDistance)
    ensures r.maxDistance >= p.maxDistance
    ensures |distances| < 3 ==> r == p
    ensures |distances| >= 3 ==>
      r.maxDistance as real >= SumReals(distances) / |distances| as real * 1.2
  {
    if |distances| >= 3 then
      var mean := SumReals(distances) / |distances| as real;
      p.(maxDistance := MaxR(p.maxDistance, Ceil(mean * 1.2) as real))
    else p
  }

  function SumReals(xs: seq<real>): real {
    if xs == [] then 0.0 else xs[0] + SumReals(xs[1..])
  }

  /** Relearning is stable once fewer than three liked users resolve: then
      the preferences come back unchanged. */
  lemma UpdateWithoutLikesIsIdentity(p: MatchingPreferences, b: UserBehavior, users: seq<UserProfile>,
                                     sqrt: real -> NonNeg)
    requires |b.likedProfiles| < 3
    ensures UpdatePreferencesFromBehavior(p, b, users, sqrt) == p
  {
  }

  // ---- Conversation starters -------------------------------------------------------

  datatype Starter =
    | QuranStudy
    | IslamicHistory
    | SharedHobby(hobby: string)
    | SharedProfession(field: string)
    | FellowCity(city: string)
    | NewMuslimWelcome
    | Greeting

  function StarterText(s: Starter): string {
    match s
    case QuranStudy =>
      "As-salamu alaykum sister! I noticed you're interested in Quran study. Do you have a favorite surah?"
    case IslamicHistory =>
      "I see we both love Islamic history! Have you read any good books on the topic recently?"
    case SharedHobby(h) => "I noticed we both enjoy " + h + "! How did you get started with it?"
    case SharedProfession(f) =>
      "Great to meet someone else interested in " + f + "! Are you working in this field?"
    case FellowCity(c) =>
      "Nice to meet a fellow sister from " + c + "! Do you know any good halal restaurants here?"
    case NewMuslimWelcome =>
      "Welcome to Islam, sister! How has your journey been so far? I'd love to support you in any way I can."
    case Greeting =>
      "As-salamu alaykum sister! I'd love to get to know you better. How are you doing today?"
  }

  /** The first element of `u1`'s list that `u2`'s list also holds, or "" when
      there is none. */
  function FirstShared(a: seq<string>, b: seq<string>): string {
    var common := FilterIn(a, b);
    if |common| > 0 then common[0] else ""
  }

  /** The situation in which each starter is offered. */
  predicate Triggered(u1: UserProfile, u2: UserProfile, s: Starter) {
    match s
    case QuranStudy => "Quran study" in u1.interests.islamicInterests && "Quran study" in u2.interests.islamicInterests
    case IslamicHistory =>
      "Islamic history" in u1.interests.islamicInterests && "Islamic history" in u2.interests.islamicInterests
    case SharedHobby(h) =>
      |FilterIn(u1.interests.hobbies, u2.interests.hobbies)| > 0 && h == FirstShared(u1.interests.hobbies, u2.interests.hobbies)
    case SharedProfession(f) =>
      |FilterIn(u1.interests.professionalInterests, u2.interests.professionalInterests)| > 0
      && f == FirstShared(u1.interests.professionalInterests, u2.interests.professionalInterests)
    case FellowCity(c) => City(u1) == City(u2) && c == City(u1)
    case NewMuslimWelcome => u2.islamicProfile.isNewMuslim
    case Greeting => false
  }

  function Candidates(u1: UserProfile, u2: UserProfile): seq<Starter> {
    [QuranStudy, IslamicHistory,
     SharedHobby(FirstShared(u1.interests.hobbies, u2.interests.hobbies)),
     SharedProfession(FirstShared(u1.interests.professionalInterests, u2.interests.professionalInterests)),
     FellowCity(City(u1)), NewMuslimWelcome]
  }

  function Fires(u1: UserProfile, u2: UserProfile): Starter -> bool {
    s => Triggered(u1, u2, s)
  }

  /** The starters `generateConversationStarters` chooses, before rendering:
      the first three triggered ones in fixed order (all of them when fewer
      are triggered), or the greeting alone when nothing is triggered. */
  function StarterList(u1: UserProfile, u2: UserProfile): (r: seq<Starter>)
    ensures 1 <= |r| <= 3
    ensures r == [Greeting] <==> forall s :: !Triggered(u1, u2, s)
    ensures forall s :: s in r ==> s == Greeting || Triggered(u1, u2, s)
    ensures r != [Greeting] ==>
      && |r| == Min(3, |Filter(Candidates(u1, u2), Fires(u1, u2))|)
      && IsSubsequence(r, Candidates(u1, u2))
    ensures r != [Greeting] ==> r == Filter(Candidates(u1, u2), Fires(u1, u2))[..|r|]
    ensures |r| < 3 ==> forall s :: Triggered(u1, u2, s) ==> s in r
    ensures Triggered(u1, u2, QuranStudy) ==> r[0] == QuranStudy
  {
    var all := Candidates(u1, u2);
    var fired := Filter(all, Fires(u1, u2));
    TriggeredFire(u1, u2);
    if |fired| == 0 then
      [Greeting]
    else
      var r := SliceTo(fired, 3);
      assert fired[0] in fired && r[0] == fired[0];
      FilterSubsequence(all, Fires(u1, u2));
      PrefixSubsequence(fired, |r|);
      SubsequenceTransitive(r, fired, all);
      r
  }

  /** The triggered starters are exactly the candidates that fire. */
  lemma TriggeredFire(u1: UserProfile, u2: UserProfile)
    ensures forall s :: s in Filter(Candidates(u1, u2), Fires(u1, u2)) <==> Triggered(u1, u2, s)
  {
    forall s | Triggered(u1, u2, s)
      ensures s in Candidates(u1, u2)
    {
      TriggeredIsCandidate(u1, u2, s);
    }
  }

  lemma TriggeredIsCandidate(u1: UserProfile, u2: UserProfile, s: Starter)
    requires Triggered(u1, u2, s)
    ensures s in Candidates(u1, u2)
  {
    var all := Candidates(u1, u2);
    match s
    case QuranStudy => assert all[0] == s;
    case IslamicHistory => assert all[1] == s;
    case SharedHobby(_) => assert all[2] == s;
    case SharedProfession(_) => assert all[3] == s;
    case FellowCity(_) => assert all[4] == s;
    case NewMuslimWelcome => assert all[5] == s;
  }

  /** `generateConversationStarters` */
  function ConversationStarters(u1: UserProfile, u2: UserProfile): (r: seq<string>)
    ensures 1 <= |r| <= 3
  {
    Map(StarterList(u1, u2), StarterText)
  }
}

=== FILE: scoring.dfy ===
/** The shared scoring primitives of src/utils/scoring.ts. `applyTimeDecay`
    multiplies by `exp(-0.02 * days)`; the exponential is a parameter of the
    callers (see `Types.Env`), so only the product is modelled here. */
module Scoring {
  import opened Seqs
  import opened JsNumber

  // ---- Age ------------------------------------------------------------------------

  /** `calculateAgeCompatibility(age1, age2, {min, max})`. When the range is a
      single age and the gap exceeds 10, JavaScript computes
      `Math.max(20, 100 - Infinity)`, which is 20. */
  function AgeCompatibility(age1: int, age2: int, min: int, max: int): (r: real)
    ensures age2 < min || age2 > max <==> r == 0.0
    ensures min <= age2 <= max ==> 20.0 <= r <= 100.0
    ensures min <= age2 <= max ==>
      (AbsI(age1 - age2) == 0 ==> r == 100.0) &&
      (0 < AbsI(age1 - age2) <= 2 ==> r == 95.0) &&
      (2 < AbsI(age1 - age2) <= 5 ==> r == 80.0) &&
      (5 < AbsI(age1 - age2) <= 10 ==> r == 60.0)
  {
    if age2 < min || age2 > max then 0.0
    else
      var diff := AbsI(age1 - age2);
      if diff == 0 then 100.0
      else if diff <= 2 then 95.0
      else if diff <= 5 then 80.0
      else if diff <= 10 then 60.0
      else
        var rangeSize := max - min;
        if rangeSize == 0 then 20.0
        else
          var scaled := diff as real / rangeSize as real * 80.0;
          assert scaled > 0.0;
          MaxR(20.0, 100.0 - scaled)
  }

  /** Within each regime a closer age never scores lower: the steps up to a
      gap of 10, and the linear slope beyond it. Across the boundary the
      score can rise again: with the range 18-80 a gap of 10 scores 60 while
      a gap of 11 scores about 85.8. */
  lemma AgeCompatibilityMonotone(a: int, b: int, age2: int, min: int, max: int)
    requires AbsI(a - age2) <= AbsI(b - age2)
    requires AbsI(b - age2) <= 10 || AbsI(a - age2) > 10
    ensures AgeCompatibility(a, age2, min, max) >= AgeCompatibility(b, age2, min, max)
  {
    var da, db := AbsI(a - age2), AbsI(b - age2);
    if min <= age2 <= max && da > 10 && max - min != 0 {
      var size := (max - min) as real;
      DivMono(da as real, db as real, size);
      MulMono(da as real / size, db as real / size, 80.0);
    }
  }

  lemma AgeCompatibilityGapElevenInWideRange()
    ensures AgeCompatibility(25, 35, 18, 80) == 60.0
    ensures AgeCompatibility(25, 36, 18, 80) > 85.0
  {
  }

  // ---- Real-arithmetic steps ------------------------------------------------------

  lemma MulMono(a: real, b: real, w: real)
    requires a <= b && w >= 0.0
    ensures a * w <= b * w
  {
  }

  lemma ScaleFacts(x: real, f: real)
    requires f > 0.0
    ensures x * f > 0.0 <==> x > 0.0
    ensures x > 0.0 && f <= 1.0 ==> x * f <= x
  {
    if x > 0.0 {
      if f <= 1.0 {
        MulMono(f, 1.0, x);
      }
      assert x * f > 0.0;
    } else {
      MulMono(x, 0.0, f);
    }
  }

  lemma MulDivCancel(a: real, t: real)
    requires t != 0.0
    ensures a * t / t == a
  {
  }

  lemma DivMono(a: real, b: real, d: real)
    requires a <= b && d > 0.0
    ensures a / d <= b / d
  {
    MulMono(a, b, 1.0 / d);
  }

  // ---- Clamping -----------------------------------------------------------------

  /** `normalizeScore(score, min = 0, max = 100)`: `Math.min(max, Math.max(min, score))`. */
  function NormalizeScore(score: real, min: real, max: real): (r: real)
    ensures min <= max ==> min <= r <= max
    ensures min <= score <= max ==> r == score
    ensures score < min ==> r == MinR(max, min)
    ensures score > max ==> r == max
  {
    MinR(max, MaxR(min, score))
  }

  lemma NormalizeIdempotent(score: real, min: real, max: real)
    requires min <= max
    ensures NormalizeScore(NormalizeScore(score, min, max), min, max) == NormalizeScore(score, min, max)
  {
  }

  // ---- Weighted average -----------------------------------------------------------

  datatype Weighted = Weighted(score: real, weight: real)

  function SumWeights(xs: seq<Weighted>): real {
    if xs == [] then 0.0 else xs[0].weight + SumWeights(xs[1..])
  }

  function SumProducts(xs: seq<Weighted>): real {
    if xs == [] then 0.0 else xs[0].score * xs[0].weight + SumProducts(xs[1..])
  }

  /** `calculateWeightedAverage(scores)`: 0 for a zero total weight (the
      empty list included), otherwise the weighted mean. */
  function WeightedAverage(xs: seq<Weighted>): (r: real)
    ensures SumWeights(xs) == 0.0 ==> r == 0.0
    ensures SumWeights(xs) != 0.0 ==> r * SumWeights(xs) == SumProducts(xs)
  {
    var total := SumWeights(xs);
    if total == 0.0 then 0.0 else SumProducts(xs) / total
  }

  lemma {:induction false} SumsBounded(xs: seq<Weighted>, lo: real, hi: real)
    requires forall i :: 0 <= i < |xs| ==> xs[i].weight >= 0.0 && lo <= xs[i].score <= hi
    ensures lo * SumWeights(xs) <= SumProducts(xs) <= hi * SumWeights(xs)
  {
    if xs != [] {
      SumsBounded(xs[1..], lo, hi);
      var w, rest := xs[0].weight, SumWeights(xs[1..]);
      MulMono(lo, xs[0].score, w);
      MulMono(xs[0].score, hi, w);
      assert lo * (w + rest) == lo * w + lo * rest;
      assert hi * (w + rest) == hi * w + hi * rest;
    }
  }

  /** With non-negative weights the average lies between the smallest and the
      largest score. */
  lemma WeightedAverageBounds(xs: seq<Weighted>, lo: real, hi: real)
    requires forall i :: 0 <= i < |xs| ==> xs[i].weight >= 0.0 && lo <= xs[i].score <= hi
    requires SumWeights(xs) != 0.0
    ensures lo <= WeightedAverage(xs) <= hi
  {
    SumsBounded(xs, lo, hi);
    SumWeightsNonNeg(xs);
    var t := SumWeights(xs);
    var p := SumProducts(xs);
    assert t > 0.0;
    DivMono(lo * t, p, t);
    DivMono(p, hi * t, t);
    MulDivCancel(lo, t);
    MulDivCancel(hi, t);
    assert WeightedAverage(xs) == p / t;
  }

  lemma {:induction false} SumWeightsNonNeg(xs: seq<Weighted>)
    requires forall i :: 0 <= i < |xs| ==> xs[i].weight >= 0.0
    ensures SumWeights(xs) >= 0.0
  {
    if xs != [] {
      SumWeightsNonNeg(xs[1..]);
    }
  }

  /** Averaging equal scores gives that score back. */
  lemma WeightedAverageConstant(xs: seq<Weighted>, c: real)
    requires forall i :: 0 <= i < |xs| ==> xs[i].score == c
    requires SumWeights(xs) != 0.0
    ensures WeightedAverage(xs) == c
  {
    SumProductsConstant(xs, c);
  }

  lemma {:induction false} SumProductsConstant(xs: seq<Weighted>, c: real)
    requires forall i :: 0 <= i < |xs| ==> xs[i].score == c
    ensures SumProducts(xs) == c * SumWeights(xs)
  {
    if xs != [] {
      SumProductsConstant(xs[1..], c);
    }
  }

  // ---- Jaccard ----------------------------------------------------------------

  function ToSet<T>(xs: seq<T>): set<T> {
    set x | x in xs
  }

  lemma {:induction false} SubsetCard<T>(a: set<T>, b: set<T>)
    requires a <= b
    ensures |a| <= |b|
    ensures a != b ==> |a| < |b|
    decreases |b|
  {
    if a != b {
      var x :| x in b && x !in a;
      var b' := b - {x};
      SubsetCard(a, b');
    }
  }

  /** A sequence has as many distinct values as entries exactly when it has
      no repeats. */
  lemma {:induction false} DistinctCount<T>(xs: seq<T>)
    ensures |ToSet(xs)| <= |xs|
    ensures |ToSet(xs)| == |xs| <==> NoDuplicates(xs)
  {
    if xs != [] {
      var t := xs[1..];
      DistinctCount(t);
      assert ToSet(xs) == ToSet(t) + {xs[0]};
      assert NoDuplicates(xs) <==> xs[0] !in t && NoDuplicates(t) by {
        if NoDuplicates(xs) {
          forall i, j | 0 <= i < j < |t|
            ensures t[i] != t[j]
          {
            assert t[i] == xs[i + 1] && t[j] == xs[j + 1];
          }
        }
        if xs[0] !in t && NoDuplicates(t) {
          forall i, j | 0 <= i < j < |xs|
            ensures xs[i] != xs[j]
          {
            assert xs[j] == t[j - 1];
            if i > 0 {
              assert xs[i] == t[i - 1];
            }
          }
        }
      }
    }
  }

  /** Without repeats on either side, the shared values counted from `a`
      and from `b` agree. */
  lemma FilterInSymmetricCount<T(!new)>(a: seq<T>, b: seq<T>)
    requires NoDuplicates(a) && NoDuplicates(b)
    ensures |FilterIn(a, b)| == |FilterIn(b, a)|
  {
    FilterKeepsDistinct(a, x => x in b);
    FilterKeepsDistinct(b, x => x in a);
    DistinctCount(FilterIn(a, b));
    DistinctCount(FilterIn(b, a));
    assert ToSet(FilterIn(a, b)) == ToSet(FilterIn(b, a));
  }

  /** A list holds at least as many entries as any duplicate-free list of
      its members. */
  lemma DistinctIncluded<T>(xs: seq<T>, r: seq<T>)
    requires NoDuplicates(xs)
    ensures (forall x :: x in xs ==> x in r) ==> |xs| <= |r|
  {
    DistinctCount(xs);
    DistinctCount(r);
    if forall x :: x in xs ==> x in r {
      SubsetCard(ToSet(xs), ToSet(r));
    }
  }

  /** `calculateJaccardSimilarity(set1, set2)`: |A ∩ B| / |A ∪ B| * 100, and
      0 when both are empty. */
  function Jaccard<T(==)>(s1: seq<T>, s2: seq<T>): (r: real)
    ensures 0.0 <= r <= 100.0
    ensures r == 0.0 <==> ToSet(s1) * ToSet(s2) == {}
    ensures r == 100.0 <==> ToSet(s1) == ToSet(s2) != {}
  {
    var a, b := ToSet(s1), ToSet(s2);
    var inter, union := a * b, a + b;
    if |union| == 0 then
      assert inter == {};
      0.0
    else
      SubsetCard(inter, union);
      assert inter == union <==> a == b;
      assert |inter| == |union| <==> inter == union;
      assert |inter| == 0 <==> inter == {};
      RatioPercentBounds(|inter| as real, |union| as real);
      (|inter| as real / |union| as real) * 100.0
  }

  lemma JaccardSymmetric<T>(s1: seq<T>, s2: seq<T>)
    ensures Jaccard(s1, s2) == Jaccard(s2, s1)
  {
    assert ToSet(s1) * ToSet(s2) == ToSet(s2) * ToSet(s1);
    assert ToSet(s1) + ToSet(s2) == ToSet(s2) + ToSet(s1);
  }

  // ---- Cosine -----------------------------------------------------------------

  datatype Outcome<T> = Ok(value: T) | Error(message: string)

  function Dot(a: seq<real>, b: seq<real>): real
    requires |a| == |b|
  {
    if a == [] then 0.0 else a[0] * b[0] + Dot(a[1..], b[1..])
  }

  lemma {:induction false} DotSymmetric(a: seq<real>, b: seq<real>)
    requires |a| == |b|
    ensures Dot(a, b) == Dot(b, a)
  {
    if a != [] {
      DotSymmetric(a[1..], b[1..]);
    }
  }

  lemma SquarePositive(x: real)
    ensures x * x >= 0.0
  {
    if x < 0.0 {
      assert x * x == (-x) * (-x);
    }
  }

  lemma ZeroSquare(x: real)
    requires x * x == 0.0
    ensures x == 0.0
  {
    if x != 0.0 {
      MulDivCancel(x, x);
    }
  }

  lemma {:induction false} NormZeroIff(a: seq<real>)
    ensures Dot(a, a) >= 0.0
    ensures Dot(a, a) == 0.0 <==> forall i :: 0 <= i < |a| ==> a[i] == 0.0
  {
    if a != [] {
      var t := a[1..];
      NormZeroIff(t);
      assert Dot(a, a) == a[0] * a[0] + Dot(t, t);
      SquarePositive(a[0]);
      if forall i :: 0 <= i < |a| ==> a[i] == 0.0 {
        assert forall i :: 0 <= i < |t| ==> t[i] == a[i + 1];
      }
      if Dot(a, a) == 0.0 {
        ZeroSquare(a[0]);
        forall i | 0 <= i < |a|
          ensures a[i] == 0.0
        {
          if i > 0 {
            assert a[i] == t[i - 1];
          }
        }
      }
    }
  }

  /** `calculateCosineSimilarity(v1, v2)`: an error for vectors of different
      lengths, 0 when either vector is all zeros, otherwise the cosine in
      percent with `sqrt` left abstract. */
  function Cosine(v1: seq<real>, v2: seq<real>, sqrt: real -> real): (r: Outcome<real>)
    ensures r.Error? <==> |v1| != |v2|
    ensures r.Error? ==> r.message == "Vectors must have the same length"
    ensures r.Ok? && (forall i :: 0 <= i < |v1| ==> v1[i] == 0.0) ==> r.value == 0.0
    ensures r.Ok? && (forall i :: 0 <= i < |v2| ==> v2[i] == 0.0) ==> r.value == 0.0
  {
    if |v1| != |v2| then Error("Vectors must have the same length")
    else
      var dot, n1, n2 := Dot(v1, v2), Dot(v1, v1), Dot(v2, v2);
      NormZeroIff(v1);
      NormZeroIff(v2);
      if n1 == 0.0 || n2 == 0.0 then Ok(0.0)
      else
        var d := sqrt(n1) * sqrt(n2);
        if d == 0.0 then Ok(0.0)   // only an abstract `sqrt` vanishing at a positive norm reaches this
        else Ok(dot / d * 100.0)
  }

  lemma CosineSymmetric(v1: seq<real>, v2: seq<real>, sqrt: real -> real)
    requires |v1| == |v2|
    ensures Cosine(v1, v2, sqrt) == Cosine(v2, v1, sqrt)
  {
    DotSymmetric(v1, v2);
  }

  // ---- Time decay and popularity --------------------------------------------------

  /** `applyTimeDecay(base, days)` given the factor `exp(-0.02 * days)`. */
  function TimeDecay(base: Num, factor: real): (r: Num)
    requires factor > 0.0
    ensures r.NaN? <==> base.NaN?
    ensures Gt(r, 0.0) <==> Gt(base, 0.0)
    ensures factor <= 1.0 && Gt(base, 0.0) ==> r.v <= base.v
  {
    if base.Fin? then ScaleFacts(base.v, factor); Scale(base, factor) else NaN
  }

  /** `applyPopularityPenalty(base, popularity, maxPenalty)`:
      `Math.max(0, base - Math.min(1, popularity / 100) * maxPenalty)`. */
  function PopularityPenalty(base: Num, popularity: real, maxPenalty: real): (r: Num)
    ensures r.NaN? <==> base.NaN?
    ensures r.Fin? ==> r.v >= 0.0
    ensures r.Fin? && popularity >= 0.0 && maxPenalty >= 0.0 && base.v >= 0.0 ==> r.v <= base.v
    ensures r.Fin? && popularity >= 0.0 && maxPenalty >= 0.0 ==> r.v >= base.v - maxPenalty
  {
    var normalized := MinR(1.0, popularity / 100.0);
    assert popularity >= 0.0 && maxPenalty >= 0.0 ==> 0.0 <= normalized * maxPenalty <= maxPenalty;
    MaxN(0.0, Add(base, Fin(-(normalized * maxPenalty))))
  }

  /** The default penalty of 15 points. */
  const DefaultMaxPenalty: real := 15.0

  // ---- Percentile rank ------------------------------------------------------------

  /** `allScores.sort((a, b) => a - b)`: the comparator is `key(b) - key(a)`
      for the key `x => -x`, so this is the stable descending sort by `-x`. */
  function SortAscending(xs: seq<real>): (r: seq<real>)
    ensures multiset(r) == multiset(xs)
    ensures forall i, j :: 0 <= i < j < |r| ==> r[i] <= r[j]
  {
    var r := SortDesc(xs, x => -x);
    assert forall i, j :: 0 <= i < j < |r| ==> -r[i] >= -r[j];
    r
  }

  /** `findIndex(s => s >= score)`, with -1 for no such entry. */
  function FirstAtLeast(s: seq<real>, score: real): (k: int)
    ensures -1 <= k < |s|
    ensures k == -1 <==> forall i :: 0 <= i < |s| ==> s[i] < score
    ensures k >= 0 ==> s[k] >= score && forall i :: 0 <= i < k ==> s[i] < score
  {
    if s == [] then -1
    else if s[0] >= score then 0
    else
      var k := FirstAtLeast(s[1..], score);
      if k == -1 then -1 else k + 1
  }

  lemma SameElements<T>(a: seq<T>, b: seq<T>)
    requires multiset(a) == multiset(b)
    ensures |a| == |b|
    ensures forall x :: x in a <==> x in b
  {
    assert |multiset(a)| == |multiset(b)|;
    assert forall x :: x in a <==> x in multiset(a);
    assert forall x :: x in b <==> x in multiset(b);
  }

  lemma AllBelowIff(a: seq<real>, b: seq<real>, score: real)
    requires forall x :: x in a <==> x in b
    ensures (forall x :: x in a ==> x < score) <==> (forall i :: 0 <= i < |b| ==> b[i] < score)
  {
    if forall i :: 0 <= i < |b| ==> b[i] < score {
      forall x | x in a
        ensures x < score
      {
        var i :| 0 <= i < |b| && b[i] == x;
      }
    } else {
      var i :| 0 <= i < |b| && b[i] >= score;
      assert b[i] in b;
    }
  }

  lemma RatioBelowOne(a: real, b: real)
    requires 0.0 <= a < b
    ensures 0.0 <= a / b * 100.0 < 100.0
  {
    DivMono(0.0, a, b);
    assert a / b < b / b;
  }

  /** `calculatePercentileRank(score, allScores)`. */
  function PercentileRank(score: real, all: seq<real>): (r: real)
    ensures r == 100.0 <==> forall x :: x in all ==> x < score
    ensures 0.0 <= r <= 100.0
  {
    var sorted := SortAscending(all);
    var k := FirstAtLeast(sorted, score);
    SameElements(all, sorted);
    AllBelowIff(all, sorted, score);
    if k == -1 then 100.0
    else
      RatioBelowOne(k as real, |sorted| as real);
      (k as real / |sorted| as real) * 100.0
  }

  /** The number of entries strictly below `score`. */
  function CountBelow(s: seq<real>, score: real): nat {
    if s == [] then 0 else (if s[0] < score then 1 else 0) + CountBelow(s[1..], score)
  }

  lemma {:induction false} CountBelowAppend(a: seq<real>, b: seq<real>, score: real)
    ensures CountBelow(a + b, score) == CountBelow(a, score) + CountBelow(b, score)
  {
    if a == [] {
      assert a + b == b;
    } else {
      assert (a + b)[0] == a[0];
      assert (a + b)[1..] == a[1..] + b;
      CountBelowAppend(a[1..], b, score);
    }
  }

  lemma {:induction false} CountBelowPermutation(a: seq<real>, b: seq<real>, score: real)
    requires multiset(a) == multiset(b)
    ensures CountBelow(a, score) == CountBelow(b, score)
    decreases |a|
  {
    if a != [] {
      var x := a[0];
      assert x in multiset(b);
      var j :| 0 <= j < |b| && b[j] == x;
      var b' := b[..j] + b[j + 1..];
      assert b == b[..j] + [x] + b[j + 1..];
      assert a == [x] + a[1..];
      RemoveOne(b, j);
      assert multiset(a[1..]) == multiset(a) - multiset{x};
      CountBelowPermutation(a[1..], b', score);
      CountBelowAppend(b[..j] + [x], b[j + 1..], score);
      CountBelowAppend(b[..j], [x], score);
      CountBelowAppend(b[..j], b[j + 1..], score);
    }
  }

  /** Dropping the element at `j` removes one copy of it. */
  lemma RemoveOne(b: seq<real>, j: int)
    requires 0 <= j < |b|
    ensures multiset(b[..j] + b[j + 1..]) == multiset(b) - multiset{b[j]}
  {
    assert b == b[..j] + [b[j]] + b[j + 1..];
    assert multiset(b) == multiset(b[..j]) + multiset{b[j]} + multiset(b[j + 1..]);
  }

  lemma {:induction false} CountBelowSortedPrefix(s: seq<real>, score: real, k: int)
    requires 0 <= k <= |s|
    requires forall i :: 0 <= i < k ==> s[i] < score
    requires forall i :: k <= i < |s| ==> s[i] >= score
    ensures CountBelow(s, score) == k
  {
    if s != [] {
      CountBelowSortedPrefix(s[1..], score, if k == 0 then 0 else k - 1);
    }
  }

  /** Independent reading of the rank: when some entry reaches `score`, the
      rank is the share of entries strictly below it. */
  lemma PercentileRankCountsBelow(score: real, all: seq<real>)
    requires exists x :: x in all && x >= score
    ensures PercentileRank(score, all) == CountBelow(all, score) as real / |all| as real * 100.0
  {
    var sorted := SortAscending(all);
    var k := FirstAtLeast(sorted, score);
    SameElements(all, sorted);
    assert k != -1;
    CountBelowSortedPrefix(sorted, score, k);
    CountBelowPermutation(sorted, all, score);
  }

  // ---- Diversity ------------------------------------------------------------------

  /** `calculateDiversityBonus(candidate, already, maxBonus)`: nothing without
      earlier recommendations; otherwise the share of novel features times
      `maxBonus`, which is 0/0 (NaN) for a featureless candidate. */
  function DiversityBonus(candidate: seq<string>, already: seq<seq<string>>, maxBonus: real): (r: Num)
    ensures already == [] ==> r == Fin(0.0)
    ensures already != [] && candidate == [] ==> r.NaN?
    ensures already != [] && candidate != [] && maxBonus >= 0.0 ==> r.Fin? && 0.0 <= r.v <= maxBonus
    ensures already != [] && candidate != [] && maxBonus > 0.0 ==>
      (r.v == 0.0 <==> forall f :: f in candidate ==> exists i :: 0 <= i < |already| && f in already[i])
  {
    if already == [] then Fin(0.0)
    else
      var seen := Flatten(already);
      var novel := Filter(candidate, (f: string) => f !in seen);
      if candidate == [] then NaN
      else
        assert |novel| == 0 <==> forall f :: f in candidate ==> f in seen by {
          if |novel| > 0 {
            assert novel[0] in novel;
          }
          if |novel| == 0 {
            forall f | f in candidate
              ensures f in seen
            {
              assert f !in novel;
            }
          }
        }
        ScaledShare(|novel|, |candidate|, maxBonus);
        Fin(|novel| as real / |candidate| as real * maxBonus)
  }

  /** The share `k / n` of a budget `m`: within the budget, and nothing
      exactly when the count is zero. */
  lemma ScaledShare(k: nat, n: nat, m: real)
    requires k <= n && n > 0
    ensures m >= 0.0 ==> 0.0 <= k as real / n as real * m <= m
    ensures m > 0.0 ==> (k as real / n as real * m == 0.0 <==> k == 0)
  {
    var ratio := k as real / n as real;
    RatioBounds(k as real, n as real);
    if m >= 0.0 {
      MulMono(ratio, 1.0, m);
      MulMono(0.0, ratio, m);
    }
    if m > 0.0 {
      ScaleFacts(ratio, m);
    }
  }

}

=== FILE: seqs.dfy ===
/** Sequence helpers standing for the JavaScript array idioms the matching
    code leans on: `filter`, `includes`, `slice(0, n)`, `[...new Set(xs)]`
    (de-duplication in first-occurrence order), `find`, and the stable
    `Array.prototype.sort`. */
module Seqs {

  /** `a` can be obtained from `b` by deleting elements. */
  ghost predicate IsSubsequence<T>(a: seq<T>, b: seq<T>)
    decreases |b|
  {
    if a == [] then true
    else if b == [] then false
    else (a[0] == b[0] && IsSubsequence(a[1..], b[1..])) || IsSubsequence(a, b[1..])
  }

  /** A subsequence is never longer, and is shorter unless it is the whole. */
  lemma {:induction false} SubsequenceShorter<T>(a: seq<T>, b: seq<T>)
    requires IsSubsequence(a, b)
    ensures |a| <= |b|
    ensures a != b ==> |a| < |b|
    decreases |b|
  {
    if a != [] {
      if a[0] == b[0] && IsSubsequence(a[1..], b[1..]) {
        SubsequenceShorter(a[1..], b[1..]);
        if a[1..] == b[1..] {
          assert a == [a[0]] + a[1..] && b == [b[0]] + b[1..];
        }
      } else {
        SubsequenceShorter(a, b[1..]);
      }
    }
  }

  lemma {:induction false} SubsequenceTransitive<T>(a: seq<T>, b: seq<T>, c: seq<T>)
    requires IsSubsequence(a, b) && IsSubsequence(b, c)
    ensures IsSubsequence(a, c)
    decreases |c|
  {
    if a != [] {
      if IsSubsequence(b, c[1..]) {
        SubsequenceTransitive(a, b, c[1..]);
      } else if a[0] == b[0] && IsSubsequence(a[1..], b[1..]) {
        SubsequenceTransitive(a[1..], b[1..], c[1..]);
      } else {
        SubsequenceTransitive(a, b[1..], c[1..]);
      }
    }
  }

  /** A prefix is a subsequence. */
  lemma {:induction false} PrefixSubsequence<T>(xs: seq<T>, n: nat)
    requires n <= |xs|
    ensures IsSubsequence(xs[..n], xs)
    decreases |xs|
  {
    if n > 0 {
      PrefixSubsequence(xs[1..], n - 1);
      assert xs[..n][1..] == xs[1..][..n - 1];
    }
  }

  ghost predicate NoDuplicates<T>(s: seq<T>) {
    forall i, j :: 0 <= i < j < |s| ==> s[i] != s[j]
  }

  function Min(a: int, b: int): int { if a <= b then a else b }
  function Max(a: int, b: int): int { if a >= b then a else b }

  /** `xs.filter(p)`: the elements satisfying `p`, in their original order. */
  function Filter<T(!new)>(xs: seq<T>, p: T -> bool): (r: seq<T>)
    ensures |r| <= |xs|
    ensures forall x :: x in r <==> x in xs && p(x)
  {
    if xs == [] then []
    else
      var rest := Filter(xs[1..], p);
      assert xs == [xs[0]] + xs[1..];
      if p(xs[0]) then [xs[0]] + rest else rest
  }

  /** The filtered elements keep their relative order, and the first one
      is kept when it passes. */
  lemma {:induction false} FilterSubsequence<T(!new)>(xs: seq<T>, p: T -> bool)
    ensures IsSubsequence(Filter(xs, p), xs)
    ensures |xs| > 0 && p(xs[0]) ==> Filter(xs, p)[0] == xs[0]
  {
    if xs != [] {
      FilterSubsequence(xs[1..], p);
      if p(xs[0]) {
        var r := Filter(xs, p);
        assert r[1..] == Filter(xs[1..], p);
      }
    }
  }

  /** A filter that rejects something is shorter than its input. */
  lemma {:induction false} FilterDropsSome<T(!new)>(xs: seq<T>, p: T -> bool, i: int)
    requires 0 <= i < |xs| && !p(xs[i])
    ensures |Filter(xs, p)| < |xs|
  {
    if i > 0 {
      FilterDropsSome(xs[1..], p, i - 1);
    }
  }

  /** Every element of a filter result passes. */
  lemma FilterAllPass<T(!new)>(xs: seq<T>, p: T -> bool)
    ensures forall i :: 0 <= i < |Filter(xs, p)| ==> p(Filter(xs, p)[i])
  {
    var r := Filter(xs, p);
    forall i | 0 <= i < |r|
      ensures p(r[i])
    {
      assert r[i] in r;
    }
  }

  /** A filter that rejects nothing is the identity. */
  lemma {:induction false} FilterKeepsAll<T(!new)>(xs: seq<T>, p: T -> bool)
    requires forall x :: x in xs ==> p(x)
    ensures Filter(xs, p) == xs
  {
    if xs != [] {
      assert forall x :: x in xs[1..] ==> x in xs;
      FilterKeepsAll(xs[1..], p);
      assert xs == [xs[0]] + xs[1..];
    }
  }

  /** A filter that rejects everything leaves nothing. */
  lemma {:induction false} FilterDropsAll<T(!new)>(xs: seq<T>, p: T -> bool)
    requires forall x :: x in xs ==> !p(x)
    ensures Filter(xs, p) == []
  {
    if xs != [] {
      assert forall x :: x in xs[1..] ==> x in xs;
      FilterDropsAll(xs[1..], p);
    }
  }

  /** Filtering twice is filtering once by the conjunction. */
  lemma {:induction false} FilterFilter<T(!new)>(xs: seq<T>, p: T -> bool, q: T -> bool)
    ensures Filter(Filter(xs, p), q) == Filter(xs, x => p(x) && q(x))
  {
    if xs != [] {
      FilterFilter(xs[1..], p, q);
    }
  }

  /** Filtering never introduces a repeat. */
  lemma {:induction false} FilterKeepsDistinct<T(!new)>(xs: seq<T>, p: T -> bool)
    requires NoDuplicates(xs)
    ensures NoDuplicates(Filter(xs, p))
  {
    if xs != [] {
      var t := xs[1..];
      assert NoDuplicates(t) by {
        forall i, j | 0 <= i < j < |t|
          ensures t[i] != t[j]
        {
          assert t[i] == xs[i + 1] && t[j] == xs[j + 1];
        }
      }
      FilterKeepsDistinct(t, p);
      if p(xs[0]) {
        var r := [xs[0]] + Filter(t, p);
        forall i, j | 0 <= i < j < |r|
          ensures r[i] != r[j]
        {
          if i == 0 {
            assert r[j] in Filter(t, p);
          }
        }
      }
    }
  }

  /** `a.filter(x => b.includes(x))`: keeps duplicates of `a`. */
  function FilterIn<T(==,!new)>(a: seq<T>, b: seq<T>): (r: seq<T>)
    ensures |r| <= |a|
    ensures forall x :: x in r <==> x in a && x in b
  {
    Filter(a, x => x in b)
  }

  /** `a.some(x => b.includes(x))` */
  predicate Overlaps<T(==,!new)>(a: seq<T>, b: seq<T>) {
    exists x :: x in a && x in b
  }

  lemma FilterInEmptyIffDisjoint<T(!new)>(a: seq<T>, b: seq<T>)
    ensures |FilterIn(a, b)| > 0 <==> Overlaps(a, b)
  {
    var r := FilterIn(a, b);
    if Overlaps(a, b) {
      var x :| x in a && x in b;
      assert x in r;
    }
    if |r| > 0 {
      assert r[0] in r;
    }
  }

  /** `[...new Set(xs)]`: each value once, at its first occurrence. */
  function Dedup<T(==,!new)>(xs: seq<T>): (r: seq<T>)
    ensures forall x :: x in r <==> x in xs
    ensures NoDuplicates(r)
    ensures |r| <= |xs|
  {
    if xs == [] then []
    else
      var init := Dedup(xs[..|xs| - 1]);
      var last := xs[|xs| - 1];
      assert xs == xs[..|xs| - 1] + [last];
      if last in init then init else init + [last]
  }

  /** Prefix of `xs` kept by `xs.slice(0, end)`; a negative `end` counts
      from the back, as in JavaScript. */
  function SliceTo<T>(xs: seq<T>, end: int): (r: seq<T>)
    ensures end >= 0 ==> |r| == Min(end, |xs|)
    ensures end < 0 ==> |r| == Max(0, |xs| + end)
    ensures r == xs[..|r|]
  {
    var e := if end < 0 then Max(0, |xs| + end) else Min(end, |xs|);
    xs[..e]
  }

  /** `xs.find(p)` */
  function Find<T>(xs: seq<T>, p: T -> bool): (r: Option<T>)
    ensures r.None? <==> forall x :: x in xs ==> !p(x)
    ensures r.Some? ==> r.value in xs && p(r.value)
  {
    if xs == [] then None
    else if p(xs[0]) then Some(xs[0])
    else Find(xs[1..], p)
  }

  datatype Option<T> = None | Some(value: T)

  /** `xs.map(f)` */
  function Map<T, U>(xs: seq<T>, f: T -> U): (r: seq<U>)
    ensures |r| == |xs|
    ensures forall i :: 0 <= i < |xs| ==> r[i] == f(xs[i])
  {
    if xs == [] then [] else [f(xs[0])] + Map(xs[1..], f)
  }

  /** `xs.flat()` for an array of arrays. */
  function Flatten<T(!new)>(xss: seq<seq<T>>): (r: seq<T>)
    ensures forall x :: x in r <==> exists i :: 0 <= i < |xss| && x in xss[i]
  {
    if xss == [] then []
    else
      var rest := Flatten(xss[1..]);
      assert forall i :: 0 <= i < |xss| - 1 ==> xss[1..][i] == xss[i + 1];
      xss[0] + rest
  }

  // ---- Stable sorting -------------------------------------------------------

  /** Inserts `x` behind every element it must not precede: `after(a, b)`
      holds when the comparator puts `a` after `b` (a positive result). */
  function Insert<T>(x: T, s: seq<T>, after: (T, T) -> bool): (r: seq<T>)
    ensures multiset(r) == multiset(s) + multiset{x}
    ensures |r| == |s| + 1
  {
    if s == [] then [x]
    else if after(s[|s| - 1], x) then
      var init := s[..|s| - 1];
      assert s == init + [s[|s| - 1]];
      Insert(x, init, after) + [s[|s| - 1]]
    else s + [x]
  }

  /** `xs.sort(cmp)` for a stable sort: the elements are inserted one by
      one, so for a consistent comparator the order is the unique stable
      sorted order. */
  function SortBy<T>(xs: seq<T>, after: (T, T) -> bool): (r: seq<T>)
    ensures multiset(r) == multiset(xs)
    ensures |r| == |xs|
  {
    if xs == [] then []
    else
      var init := xs[..|xs| - 1];
      assert xs == init + [xs[|xs| - 1]];
      Insert(xs[|xs| - 1], SortBy(init, after), after)
  }

  ghost predicate SortedDesc<T>(s: seq<T>, key: T -> real) {
    forall i, j :: 0 <= i < j < |s| ==> key(s[i]) >= key(s[j])
  }

  /** `xs.sort((a, b) => key(b) - key(a))`: descending by `key`, stable. */
  function SortDesc<T>(xs: seq<T>, key: T -> real): (r: seq<T>)
    ensures multiset(r) == multiset(xs)
    ensures SortedDesc(r, key)
  {
    var r := SortBy(xs, (a, b) => key(b) - key(a) > 0.0);
    SortByKeySorted(xs, key);
    r
  }

  /** Inserting keeps a lower bound every element already meets. */
  lemma InsertAboveBound<T>(x: T, s: seq<T>, after: (T, T) -> bool, key: T -> real, bound: real)
    requires forall k :: 0 <= k < |s| ==> key(s[k]) >= bound
    requires key(x) >= bound
    ensures forall i :: 0 <= i < |Insert(x, s, after)| ==> key(Insert(x, s, after)[i]) >= bound
  {
    var r := Insert(x, s, after);
    forall i | 0 <= i < |r|
      ensures key(r[i]) >= bound
    {
      var y := r[i];
      assert y in multiset(r);
      assert y in multiset(s) + multiset{x};
      if y != x {
        assert y in s;
      }
    }
  }

  lemma {:induction false} InsertKeySorted<T>(x: T, s: seq<T>, key: T -> real)
    requires SortedDesc(s, key)
    ensures SortedDesc(Insert(x, s, (a, b) => key(b) - key(a) > 0.0), key)
    decreases |s|
  {
    var after := (a, b) => key(b) - key(a) > 0.0;
    if s != [] && after(s[|s| - 1], x) {
      var init := s[..|s| - 1];
      var last := s[|s| - 1];
      InsertKeySorted(x, init, key);
      var ins := Insert(x, init, after);
      InsertAboveBound(x, init, after, key, key(last));
      var r := ins + [last];
      assert r == Insert(x, s, after);
      forall i, j | 0 <= i < j < |r|
        ensures key(r[i]) >= key(r[j])
      {
        assert r[i] == ins[i];
        if j < |r| - 1 {
          assert r[j] == ins[j];
        }
      }
    }
  }

  lemma {:induction false} SortByKeySorted<T>(xs: seq<T>, key: T -> real)
    ensures SortedDesc(SortBy(xs, (a, b) => key(b) - key(a) > 0.0), key)
  {
    if xs != [] {
      var init := xs[..|xs| - 1];
      SortByKeySorted(init, key);
      InsertKeySorted(xs[|xs| - 1], SortBy(init, (a, b) => key(b) - key(a) > 0.0), key);
    }
  }

  // ---- Sorting facts: distinct keys and agreeing comparators ---------------

  /** No two entries share a `key`. */
  ghost predicate DistinctBy<T, K>(s: seq<T>, key: T -> K) {
    forall i, j :: 0 <= i < j < |s| ==> key(s[i]) != key(s[j])
  }

  lemma {:induction false} InsertDistinct<T, K>(x: T, s: seq<T>, after: (T, T) -> bool, key: T -> K)
    requires DistinctBy(s, key)
    requires forall y :: y in s ==> key(y) != key(x)
    ensures DistinctBy(Insert(x, s, after), key)
    decreases |s|
  {
    if s != [] && after(s[|s| - 1], x) {
      var init := s[..|s| - 1];
      var last := s[|s| - 1];
      InsertDistinct(x, init, after, key);
      var ins := Insert(x, init, after);
      var r := ins + [last];
      assert r == Insert(x, s, after);
      forall i, j | 0 <= i < j < |r|
        ensures key(r[i]) != key(r[j])
      {
        if j == |r| - 1 {
          assert r[i] == ins[i];
          assert ins[i] in multiset(init) + multiset{x};
          if ins[i] != x {
            assert ins[i] in init;
            var k :| 0 <= k < |init| && init[k] == ins[i];
            assert s[k] == init[k];
          }
        }
      }
    }
  }

  /** Sorting never makes two entries share a key. */
  lemma {:induction false} SortByDistinct<T, K>(xs: seq<T>, after: (T, T) -> bool, key: T -> K)
    requires DistinctBy(xs, key)
    ensures DistinctBy(SortBy(xs, after), key)
  {
    if xs != [] {
      var init := xs[..|xs| - 1];
      var last := xs[|xs| - 1];
      SortByDistinct(init, after, key);
      var s := SortBy(init, after);
      forall y | y in s
        ensures key(y) != key(last)
      {
        assert y in multiset(init);
        var k :| 0 <= k < |init| && init[k] == y;
        assert xs[k] == y;
      }
      InsertDistinct(last, s, after, key);
    }
  }

  lemma SortDescDistinct<T, K>(xs: seq<T>, rank: T -> real, key: T -> K)
    requires DistinctBy(xs, key)
    ensures DistinctBy(SortDesc(xs, rank), key)
  {
    SortByDistinct(xs, (a, b) => rank(b) - rank(a) > 0.0, key);
  }

  lemma {:induction false} InsertAgree<T>(x: T, s: seq<T>, a1: (T, T) -> bool, a2: (T, T) -> bool)
    requires forall y :: y in s ==> a1(y, x) == a2(y, x)
    ensures Insert(x, s, a1) == Insert(x, s, a2)
    decreases |s|
  {
    if s != [] {
      var init := s[..|s| - 1];
      assert forall y :: y in init ==> y in s;
      InsertAgree(x, init, a1, a2);
    }
  }

  /** Two comparators that agree on every pair of elements sort alike. */
  lemma {:induction false} SortByAgree<T>(xs: seq<T>, a1: (T, T) -> bool, a2: (T, T) -> bool)
    requires forall y, z :: y in xs && z in xs ==> a1(y, z) == a2(y, z)
    ensures SortBy(xs, a1) == SortBy(xs, a2)
  {
    if xs != [] {
      var init := xs[..|xs| - 1];
      var last := xs[|xs| - 1];
      assert forall y :: y in init ==> y in xs;
      SortByAgree(init, a1, a2);
      var s := SortBy(init, a1);
      forall y | y in s
        ensures a1(y, last) == a2(y, last)
      {
        assert y in multiset(init);
      }
      InsertAgree(last, s, a1, a2);
    }
  }

  /** A comparator that, on the elements at hand, says exactly what the
      descending comparator on `key` says sorts them descending by `key`. */
  lemma SortByActsAsDesc<T>(xs: seq<T>, after: (T, T) -> bool, key: T -> real)
    requires forall y, z :: y in xs && z in xs ==> after(y, z) == (key(z) - key(y) > 0.0)
    ensures SortBy(xs, after) == SortDesc(xs, key)
    ensures SortedDesc(SortBy(xs, after), key)
  {
    SortByAgree(xs, after, (a, b) => key(b) - key(a) > 0.0);
  }

  /** A prefix of a descending list with distinct keys is both again. */
  lemma PrefixKeepsOrder<T, K>(s: seq<T>, n: nat, rank: T -> real, key: T -> K)
    requires n <= |s|
    ensures SortedDesc(s, rank) ==> SortedDesc(s[..n], rank)
    ensures DistinctBy(s, key) ==> DistinctBy(s[..n], key)
    ensures forall x :: x in s[..n] ==> x in s
  {
  }

  /** `r` is drawn from `xs` (counting repeats) and nothing of `xs` left
      out of `r` ranks above anything kept in it. */
  ghost predicate KeepsTop<T>(r: seq<T>, xs: seq<T>, key: T -> real) {
    && multiset(r) <= multiset(xs)
    && forall y, x :: y in multiset(xs) - multiset(r) && x in r ==> key(y) <= key(x)
  }

  /** `xs.sort(desc by key).slice(0, n)` keeps `n` of the highest entries,
      or all of them when there are fewer. */
  lemma TopOfSorted<T>(xs: seq<T>, key: T -> real, n: int)
    ensures n >= 0 ==> |SliceTo(SortDesc(xs, key), n)| == Min(n, |xs|)
    ensures KeepsTop(SliceTo(SortDesc(xs, key), n), xs, key)
    ensures 0 <= |xs| <= n ==> multiset(SliceTo(SortDesc(xs, key), n)) == multiset(xs)
  {
    var s := SortDesc(xs, key);
    var r := SliceTo(s, n);
    assert |s| == |xs| by { assert |multiset(s)| == |multiset(xs)|; }
    if 0 <= |xs| <= n {
      assert r == s;
    }
    assert s == r + s[|r|..];
    assert multiset(s) == multiset(r) + multiset(s[|r|..]);
    forall y, x | y in multiset(xs) - multiset(r) && x in r
      ensures key(y) <= key(x)
    {
      assert y in s[|r|..];
      var i :| |r| <= i < |s| && s[i] == y;
      var j :| 0 <= j < |r| && r[j] == x;
      assert s[j] == x;
    }
  }

  /** `s.slice(0, n)` of a list already sorted descending keeps `n` of its
      highest entries, still in order. */
  lemma TopOfSortedList<T>(s: seq<T>, key: T -> real, n: int)
    requires SortedDesc(s, key)
    ensures SortedDesc(SliceTo(s, n), key)
    ensures KeepsTop(SliceTo(s, n), s, key)
  {
    var r := SliceTo(s, n);
    assert s == r + s[|r|..];
    assert multiset(s) == multiset(r) + multiset(s[|r|..]);
    forall y, x | y in multiset(s) - multiset(r) && x in r
      ensures key(y) <= key(x)
    {
      assert y in s[|r|..];
      var i :| |r| <= i < |s| && s[i] == y;
      var j :| 0 <= j < |r| && r[j] == x;
      assert s[j] == x;
    }
  }

  /** An entry of `xs` missing from a top selection ranks no higher than
      anything the selection kept. */
  lemma OutrankedIfDropped<T>(r: seq<T>, xs: seq<T>, key: T -> real)
    requires KeepsTop(r, xs, key)
    ensures forall y, x :: y in xs && y !in r && x in r ==> key(y) <= key(x)
  {
    forall y, x | y in xs && y !in r && x in r
      ensures key(y) <= key(x)
    {
      assert y in multiset(xs) - multiset(r);
    }
  }

  /** A list is without repeats when its head is not in its tail and its
      tail is without repeats. */
  lemma DistinctCons<T>(s: seq<T>)
    requires s != []
    ensures NoDuplicates(s) <==> s[0] !in s[1..] && NoDuplicates(s[1..])
  {
    var t := s[1..];
    if NoDuplicates(s) {
      forall i, j | 0 <= i < j < |t|
        ensures t[i] != t[j]
      {
        assert t[i] == s[i + 1] && t[j] == s[j + 1];
      }
      forall k | 0 <= k < |t|
        ensures t[k] != s[0]
      {
        assert t[k] == s[k + 1];
      }
    }
    if s[0] !in t && NoDuplicates(t) {
      forall i, j | 0 <= i < j < |s|
        ensures s[i] != s[j]
      {
        assert s[j] == t[j - 1];
        if i > 0 {
          assert s[i] == t[i - 1];
        }
      }
    }
  }

  /** De-duplicating a list without repeats changes nothing. */
  lemma {:induction false} DedupOfDistinct<T(!new)>(xs: seq<T>)
    requires NoDuplicates(xs)
    ensures Dedup(xs) == xs
  {
    if xs != [] {
      var init := xs[..|xs| - 1];
      assert NoDuplicates(init) by {
        forall i, j | 0 <= i < j < |init|
          ensures init[i] != init[j]
        {
          assert init[i] == xs[i] && init[j] == xs[j];
        }
      }
      DedupOfDistinct(init);
      assert xs[|xs| - 1] !in init by {
        forall i | 0 <= i < |init|
          ensures init[i] != xs[|xs| - 1]
        {
          assert init[i] == xs[i];
        }
      }
      assert xs == init + [xs[|xs| - 1]];
    }
  }

  /** What `[...new Set(a)]` keeps is still the front of `[...new Set(a + b)]`. */
  lemma {:induction false} DedupAppendPrefix<T(!new)>(a: seq<T>, b: seq<T>)
    ensures Dedup(a) <= Dedup(a + b)
    decreases |b|
  {
    if b == [] {
      assert a + b == a;
    } else {
      var init := b[..|b| - 1];
      DedupAppendPrefix(a, init);
      assert (a + b)[..|a + b| - 1] == a + init;
    }
  }

  /** Filtering distributes over concatenation. */
  lemma {:induction false} FilterAppend<T(!new)>(xs: seq<T>, ys: seq<T>, p: T -> bool)
    ensures Filter(xs + ys, p) == Filter(xs, p) + Filter(ys, p)
  {
    if xs != [] {
      FilterAppend(xs[1..], ys, p);
      assert (xs + ys)[1..] == xs[1..] + ys;
    } else {
      assert xs + ys == ys;
    }
  }

  /** One element more of a prefix. */
  lemma TakeOneMore<T>(xs: seq<T>, i: int)
    requires 0 <= i < |xs|
    ensures xs[..i + 1] == xs[..i] + [xs[i]]
  {
  }

  lemma AppendAssoc<T>(a: seq<T>, b: seq<T>, c: seq<T>)
    ensures (a + b) + c == a + (b + c)
  {
  }

  /** The test `t => !a.includes(t)`. */
  function Outside<T(==)>(a: seq<T>): T -> bool {
    t => t !in a
  }

  /** De-duplication after one more value: the value joins unless seen. */
  lemma DedupSnoc<T(!new)>(xs: seq<T>, x: T)
    ensures Dedup(xs + [x]) == if x in Dedup(xs) then Dedup(xs) else Dedup(xs) + [x]
  {
    assert (xs + [x])[..|xs + [x]| - 1] == xs;
  }

  /** After a list without repeats, de-duplication keeps the list and
      then the other values of `b`, once each, in first-occurrence order. */
  lemma {:induction false} DedupAfterDistinct<T(!new)>(a: seq<T>, b: seq<T>, p: T -> bool)
    requires NoDuplicates(a)
    requires forall t :: p(t) <==> t !in a
    ensures Dedup(a + b) == a + Dedup(Filter(b, p))
    decreases |b|
  {
    if b == [] {
      DedupOfDistinct(a);
      assert a + b == a;
    } else {
      var init, x := b[..|b| - 1], b[|b| - 1];
      var f := Filter(init, p);
      DedupAfterDistinct(a, init, p);
      assert a + b == (a + init) + [x] by { assert b == init + [x]; }
      DedupSnoc(a + init, x);
      FilterAppend(init, [x], p);
      assert b == init + [x];
      var d := Dedup(f);
      assert x in Dedup(a + init) <==> x in a || x in d;
      if x in a {
        assert Filter([x], p) == [];
        assert Filter(b, p) == f;
        assert Dedup(a + b) == a + d;
      } else {
        assert Filter([x], p) == [x];
        assert Filter(b, p) == f + [x];
        DedupSnoc(f, x);
        if x in d {
          assert Dedup(a + b) == a + d;
        } else {
          assert Dedup(a + b) == (a + d) + [x];
          AppendAssoc(a, d, [x]);
        }
      }
    }
  }

  /** Keeping a prefix of a list without duplicates keeps it without duplicates. */
  lemma SliceKeepsDistinct<T>(xs: seq<T>, n: nat)
    requires NoDuplicates(xs)
    ensures NoDuplicates(SliceTo(xs, n))
  {
    var r := SliceTo(xs, n);
    forall i, j | 0 <= i < j < |r|
      ensures r[i] != r[j]
    {
      assert r[i] == xs[i] && r[j] == xs[j];
    }
  }

  /** A prefix short enough survives the cut. */
  lemma SliceKeepsPrefix<T>(a: seq<T>, xs: seq<T>, n: nat)
    requires a <= xs && |a| <= n
    ensures a <= SliceTo(xs, n)
  {
    var r := SliceTo(xs, n);
    assert a == xs[..|a|] == r[..|a|];
  }

  /** `[...new Set([...a, ...b])].slice(0, n)` when `a` is already distinct
      and fits: all of `a` first, then what room is left for `b`. */
  function MergeDistinct<T(==,!new)>(a: seq<T>, b: seq<T>, n: nat): (r: seq<T>)
    requires NoDuplicates(a) && |a| <= n
    ensures |r| <= n
    ensures NoDuplicates(r)
    ensures a <= r
    ensures forall t :: t in r ==> t in a || t in b
    ensures |r| < n ==> forall t :: t in b ==> t in r
    ensures r == SliceTo(a + Dedup(Filter(b, Outside(a))), n)
  {
    var distinct := Dedup(a + b);
    DedupAfterDistinct(a, b, Outside(a));
    DedupOfDistinct(a);
    DedupAppendPrefix(a, b);
    SliceKeepsDistinct(distinct, n);
    SliceKeepsPrefix(a, distinct, n);
    var r := SliceTo(distinct, n);
    assert forall t :: t in r ==> t in distinct;
    assert |r| < n ==> r == distinct;
    assert forall t :: t in b ==> t in a + b;
    r
  }
}

=== FILE: social_graph.dfy ===
/** `SocialGraphAlgorithm` of src/matching/algorithms/social-graph.ts: the
    social bonus a match earns from mutual friends, shared communities,
    shared events and the density of the pair's combined network, plus the
    friends-of-friends, trust-path and influence queries. The clock enters
    as `now` and as the six-months-ago instant `recentSince`. */
module SocialGraph {
  import opened Seqs
  import opened JsNumber
  import opened Types
  import Scoring

  // ---- Neighbourhoods -------------------------------------------------------

  /** `c` is an accepted connection with `a` on one end and `b` on the other. */
  predicate Links(c: Connection, a: string, b: string) {
    c.status == Accepted
    && ((c.user1Id == a && c.user2Id == b) || (c.user2Id == a && c.user1Id == b))
  }

  ghost predicate Adjacent(conns: seq<Connection>, a: string, b: string) {
    exists c :: c in conns && Links(c, a, b)
  }

  lemma AdjacentSymmetric(conns: seq<Connection>, a: string, b: string)
    ensures Adjacent(conns, a, b) <==> Adjacent(conns, b, a)
  {
    if Adjacent(conns, a, b) {
      var c :| c in conns && Links(c, a, b);
      assert Links(c, b, a);
    }
    if Adjacent(conns, b, a) {
      var c :| c in conns && Links(c, b, a);
      assert Links(c, a, b);
    }
  }

  /** `getUserConnections`: the far end of every accepted connection that
      involves `id`, in connection order (one entry per connection). */
  function UserConnections(id: string, conns: seq<Connection>): (r: seq<string>)
    ensures |r| <= |conns|
    ensures forall x :: x in r <==> Adjacent(conns, id, x)
  {
    if conns == [] then []
    else
      var c := conns[0];
      var rest := UserConnections(id, conns[1..]);
      assert conns == [c] + conns[1..];
      if c.status == Accepted && (c.user1Id == id || c.user2Id == id) then
        var other := if c.user1Id == id then c.user2Id else c.user1Id;
        assert Links(c, id, other);
        [other] + rest
      else
        rest
  }

  /** Every id reached through an accepted connection appears among its
      endpoints; the breadth-first search below draws its nodes from here. */
  function Endpoints(conns: seq<Connection>): set<string> {
    (set c | c in conns :: c.user1Id) + (set c | c in conns :: c.user2Id)
  }

  lemma AdjacentInEndpoints(conns: seq<Connection>, a: string, b: string)
    requires Adjacent(conns, a, b)
    ensures b in Endpoints(conns)
  {
    var c :| c in conns && Links(c, a, b);
    assert c.user1Id in Endpoints(conns) && c.user2Id in Endpoints(conns);
  }

  /** `findMutualConnections` */
  function MutualConnections(id1: string, id2: string, conns: seq<Connection>): (r: seq<string>)
    ensures forall x :: x in r <==> Adjacent(conns, id1, x) && Adjacent(conns, id2, x)
  {
    FilterIn(UserConnections(id1, conns), UserConnections(id2, conns))
  }

  /** The members of every group, group by group, duplicates kept. */
  function MembersOf<G>(groups: seq<G>, members: G -> seq<string>): (r: seq<string>)
    ensures forall x :: x in r <==> exists g :: g in groups && x in members(g)
  {
    if groups == [] then []
    else
      assert groups == [groups[0]] + groups[1..];
      members(groups[0]) + MembersOf(groups[1..], members)
  }

  /** `findFriendsOfFriends`: the accepted neighbours of `id`'s accepted
      neighbours, without `id` itself and without its direct neighbours,
      each once, in the order the set first received them. */
  function FriendsOfFriends(id: string, conns: seq<Connection>): (r: seq<string>)
    ensures NoDuplicates(r)
    ensures forall x :: x in r ==> x != id && !Adjacent(conns, id, x)
    ensures forall x :: x in r <==>
      x != id && !Adjacent(conns, id, x)
      && exists f :: Adjacent(conns, id, f) && Adjacent(conns, f, x)
  {
    var direct := UserConnections(id, conns);
    var reached := MembersOf(direct, f => UserConnections(f, conns));
    Dedup(Filter(reached, x => x != id && x !in direct))
  }

  /** The members of every group `id` belongs to, other than `id`, each
      once, in first-occurrence order: `findCommunityMembers` and
      `findEventAttendees` differ only in the list they read. */
  function CoMembers<G(!new)>(id: string, groups: seq<G>, members: G -> seq<string>): (r: seq<string>)
    ensures NoDuplicates(r)
    ensures forall x :: x in r <==> x != id && exists g :: g in groups && id in members(g) && x in members(g)
  {
    var mine := Filter(groups, g => id in members(g));
    Dedup(Filter(MembersOf(mine, members), x => x != id))
  }

  /** `findCommunityMembers` */
  function CommunityMembers(u: UserProfile, comms: seq<IslamicCommunity>): (r: seq<string>)
    ensures NoDuplicates(r)
    ensures forall x :: x in r <==>
      x != Id(u) && exists c :: c in comms && Id(u) in c.members && x in c.members
  {
    CoMembers(Id(u), comms, (c: IslamicCommunity) => c.members)
  }

  /** `findEventAttendees` */
  function EventAttendees(u: UserProfile, events: seq<CommunityEvent>): (r: seq<string>)
    ensures NoDuplicates(r)
    ensures forall x :: x in r <==>
      x != Id(u) && exists e :: e in events && Id(u) in e.attendees && x in e.attendees
  {
    CoMembers(Id(u), events, (e: CommunityEvent) => e.attendees)
  }

  // ---- Bonus components ----------------------------------------------------------

  /** Five points per mutual connection, at most 25. */
  function MutualBonusFor(n: nat): (r: real)
    ensures 0.0 <= r <= 25.0
    ensures n <= 5 ==> r == 5.0 * n as real
    ensures n >= 5 ==> r == 25.0
  {
    MinR(25.0, 5.0 * n as real)
  }

  lemma MutualBonusMonotone(m: nat, n: nat)
    requires m <= n
    ensures MutualBonusFor(m) <= MutualBonusFor(n)
  {
  }

  /** `calculateMutualConnectionsBonus` */
  function MutualConnectionsBonus(id1: string, id2: string, conns: seq<Connection>): (r: real)
    ensures 0.0 <= r <= 25.0
    ensures r == 0.0 <==> forall x :: Adjacent(conns, id1, x) ==> !Adjacent(conns, id2, x)
  {
    var mutual := MutualConnections(id1, id2, conns);
    assert |mutual| > 0 <==> exists x :: Adjacent(conns, id1, x) && Adjacent(conns, id2, x) by {
      if |mutual| > 0 {
        assert mutual[0] in mutual;
      }
    }
    MutualBonusFor(|mutual|)
  }

  /** `user2Communities.some(c => c.id === id)` */
  predicate HasCommunityId(cs: seq<IslamicCommunity>, id: string) {
    exists d :: d in cs && d.id == id
  }

  /** The `samemosque` test: a shared community with a non-empty
      affiliation that some community of the first user also names. */
  predicate SameMosque(shared: seq<IslamicCommunity>, mine: seq<IslamicCommunity>) {
    exists c :: c in shared && c.mosqueAffiliation.Some? && c.mosqueAffiliation.value != ""
      && exists d :: d in mine && d.mosqueAffiliation == c.mosqueAffiliation
  }

  function CommunitiesOf(id: string, comms: seq<IslamicCommunity>): (r: seq<IslamicCommunity>)
    ensures forall c :: c in r <==> c in comms && id in c.members
  {
    Filter(comms, (c: IslamicCommunity) => id in c.members)
  }

  /** The communities of the first user whose id also names a community of
      the second. */
  function SharedCommunities(id1: string, id2: string, comms: seq<IslamicCommunity>): (r: seq<IslamicCommunity>)
    ensures forall c :: c in r <==>
      c in comms && id1 in c.members && exists d :: d in comms && id2 in d.members && d.id == c.id
  {
    var mine := CommunitiesOf(id1, comms);
    var theirs := CommunitiesOf(id2, comms);
    Filter(mine, (c: IslamicCommunity) => HasCommunityId(theirs, c.id))
  }

  /** `calculateCommunityBonus`: 8 per shared community, 5 more for each of
      at most 20 members, 10 for a shared mosque, capped at 20. */
  function CommunityBonus(u1: UserProfile, u2: UserProfile, comms: seq<IslamicCommunity>): (r: real)
    ensures 0.0 <= r <= 20.0
    ensures r == 0.0 <==> SharedCommunities(Id(u1), Id(u2), comms) == []
  {
    var mine := CommunitiesOf(Id(u1), comms);
    var shared := SharedCommunities(Id(u1), Id(u2), comms);
    var small := Filter(shared, (c: IslamicCommunity) => |c.members| <= 20);
    var bonus := (|shared| * 8 + |small| * 5) as real + if SameMosque(shared, mine) then 10.0 else 0.0;
    MinR(20.0, bonus)
  }

  /** The affiliation test never needs the first user's other communities:
      the shared community itself is one of them. */
  lemma SameMosqueIsSharedAffiliation(u1: UserProfile, u2: UserProfile, comms: seq<IslamicCommunity>)
    ensures SameMosque(SharedCommunities(Id(u1), Id(u2), comms), CommunitiesOf(Id(u1), comms))
      <==> exists c :: c in SharedCommunities(Id(u1), Id(u2), comms)
             && c.mosqueAffiliation.Some? && c.mosqueAffiliation.value != ""
  {
    var shared := SharedCommunities(Id(u1), Id(u2), comms);
    var mine := CommunitiesOf(Id(u1), comms);
    if exists c :: c in shared && c.mosqueAffiliation.Some? && c.mosqueAffiliation.value != "" {
      var c :| c in shared && c.mosqueAffiliation.Some? && c.mosqueAffiliation.value != "";
      assert c in mine;
    }
  }

  /** `user2Events.some(e => e.id === id)` */
  predicate HasEventId(es: seq<CommunityEvent>, id: string) {
    exists e :: e in es && e.id == id
  }

  function EventsOf(id: string, events: seq<CommunityEvent>): (r: seq<CommunityEvent>)
    ensures forall e :: e in r <==> e in events && id in e.attendees
  {
    Filter(events, (e: CommunityEvent) => id in e.attendees)
  }

  function SharedEvents(id1: string, id2: string, events: seq<CommunityEvent>): (r: seq<CommunityEvent>)
    ensures forall e :: e in r <==>
      e in events && id1 in e.attendees && exists d :: d in events && id2 in d.attendees && d.id == e.id
  {
    var theirs := EventsOf(id2, events);
    Filter(EventsOf(id1, events), (e: CommunityEvent) => HasEventId(theirs, e.id))
  }

  /** `calculateEventBonus`: 3 per shared event, 2 more for each starting
      at or after `recentSince` (six months before now), capped at 15. */
  function EventBonus(u1: UserProfile, u2: UserProfile, events: seq<CommunityEvent>, recentSince: int): (r: real)
    ensures 0.0 <= r <= 15.0
    ensures r == 0.0 <==> SharedEvents(Id(u1), Id(u2), events) == []
  {
    var shared := SharedEvents(Id(u1), Id(u2), events);
    var recent := Filter(shared, (e: CommunityEvent) => e.startDate >= recentSince);
    MinR(15.0, (|shared| * 3 + |recent| * 2) as real)
  }

  /** `new Set([...user1Connections, ...user2Connections])` */
  function CombinedNetwork(id1: string, id2: string, conns: seq<Connection>): (r: seq<string>)
    ensures NoDuplicates(r)
    ensures forall x :: x in r <==> Adjacent(conns, id1, x) || Adjacent(conns, id2, x)
  {
    Dedup(UserConnections(id1, conns) + UserConnections(id2, conns))
  }

  /** For each member of `members`, the number of its accepted connections
      that lead back into `network`, summed; a link inside the network is
      counted from both ends. */
  function Interconnections(members: seq<string>, network: seq<string>, conns: seq<Connection>): (r: nat)
    ensures r == 0 <==> forall m, x :: m in members && Adjacent(conns, m, x) ==> x !in network
  {
    if members == [] then 0
    else
      var inside := Filter(UserConnections(members[0], conns), y => y in network);
      assert |inside| > 0 <==> exists x :: Adjacent(conns, members[0], x) && x in network by {
        if |inside| > 0 {
          assert inside[0] in inside;
        }
      }
      assert forall m :: m in members <==> m == members[0] || m in members[1..];
      |inside| + Interconnections(members[1..], network, conns)
  }

  /** `calculateNetworkDensityBonus`: the interconnections over the number of
      possible pairs, times 50, capped at 10; nothing for a combined network
      of fewer than two people. */
  function NetworkDensityBonus(id1: string, id2: string, conns: seq<Connection>): (r: real)
    ensures 0.0 <= r <= 10.0
    ensures |CombinedNetwork(id1, id2, conns)| < 2 ==> r == 0.0
    ensures r == 0.0 <==>
      (|CombinedNetwork(id1, id2, conns)| < 2
       || Interconnections(CombinedNetwork(id1, id2, conns), CombinedNetwork(id1, id2, conns), conns) == 0)
  {
    var network := CombinedNetwork(id1, id2, conns);
    if |network| < 2 then 0.0 else Density(Interconnections(network, network, conns), |network|)
  }

  /** `links` over the `size * (size - 1) / 2` possible pairs, times 50,
      capped at 10. */
  function Density(links: nat, size: nat): (r: real)
    requires size >= 2
    ensures 0.0 <= r <= 10.0
    ensures r == 0.0 <==> links == 0
  {
    var pairs := (size * (size - 1)) as real / 2.0;
    assert pairs > 0.0 by {
      assert size * (size - 1) >= 2 * 1;
    }
    PositiveQuotient(links as real, pairs);
    MinR(10.0, links as real / pairs * 50.0)
  }

  lemma PositiveQuotient(a: real, b: real)
    requires a >= 0.0 && b > 0.0
    ensures a / b >= 0.0
    ensures a / b > 0.0 <==> a > 0.0
    ensures a / b * 50.0 > 0.0 <==> a > 0.0
  {
    if a > 0.0 {
      assert a / b * b == a;
    }
  }

  /** `calculateSocialGraphBonus`: the four components, capped at 50. */
  function SocialGraphBonus(u1: UserProfile, u2: UserProfile, conns: seq<Connection>,
                            comms: seq<IslamicCommunity>, events: seq<CommunityEvent>, recentSince: int): (r: real)
    ensures 0.0 <= r <= 50.0
  {
    MinR(50.0, MutualConnectionsBonus(Id(u1), Id(u2), conns) + CommunityBonus(u1, u2, comms)
      + EventBonus(u1, u2, events, recentSince) + NetworkDensityBonus(Id(u1), Id(u2), conns))
  }

  /** No bonus at all exactly when the pair has no mutual connection, no
      shared community, no shared event, and a combined network without
      internal links. */
  lemma SocialGraphBonusZeroIff(u1: UserProfile, u2: UserProfile, conns: seq<Connection>,
                                comms: seq<IslamicCommunity>, events: seq<CommunityEvent>, recentSince: int)
    ensures SocialGraphBonus(u1, u2, conns, comms, events, recentSince) == 0.0 <==>
      (forall x :: Adjacent(conns, Id(u1), x) ==> !Adjacent(conns, Id(u2), x))
      && SharedCommunities(Id(u1), Id(u2), comms) == []
      && SharedEvents(Id(u1), Id(u2), events) == []
      && (|CombinedNetwork(Id(u1), Id(u2), conns)| < 2
          || Interconnections(CombinedNetwork(Id(u1), Id(u2), conns), CombinedNetwork(Id(u1), Id(u2), conns), conns) == 0)
  {
  }

  // ---- Clustering --------------------------------------------------------------

  /** The estimated clustering of a community of `n` members: three links
      per member out of the n(n-1)/2 possible ones, as a percentage. */
  function ClusteringScore(n: nat): (r: real)
    ensures 0.0 <= r <= 100.0
    ensures n < 2 ==> r == 0.0
  {
    if n < 2 then 0.0
    else
      var m := n as real;
      var possible := m * (m - 1.0) / 2.0;
      var estimated := MinR(possible, m * 3.0);
      assert possible > 0.0 by {
        PairsPositive(m);
      }
      RatioPercentBounds(estimated, possible);
      estimated / possible * 100.0
  }

  /** Up to seven members the estimate saturates at every possible link;
      beyond that the score falls as 600 / (n - 1). */
  lemma ClusteringScoreValues(n: nat)
    requires n >= 2
    ensures n <= 7 ==> ClusteringScore(n) == 100.0
    ensures n >= 7 ==> ClusteringScore(n) == 600.0 / (n - 1) as real
  {
    var m := n as real;
    if n <= 7 {
      SaturatedShare(m);
    }
    if n >= 7 {
      assert (n - 1) as real == m - 1.0;
      SparseShare(m);
    }
  }

  /** At least two members have at least one possible link between them. */
  lemma PairsPositive(m: real)
    requires m >= 2.0
    ensures m * (m - 1.0) >= 2.0
  {
    Scoring.MulMono(2.0, m, m - 1.0);
  }

  /** Seven members or fewer can all be linked by three links each. */
  lemma SaturatedShare(m: real)
    requires 2.0 <= m <= 7.0
    ensures MinR(m * (m - 1.0) / 2.0, m * 3.0) / (m * (m - 1.0) / 2.0) * 100.0 == 100.0
  {
    var p := m * (m - 1.0) / 2.0;
    PairsPositive(m);
    Scoring.MulMono(m - 1.0, 6.0, m);
    assert MinR(p, m * 3.0) == p;
  }

  /** From seven members on, three links each are fewer than the possible ones. */
  lemma SparseShare(m: real)
    requires m >= 7.0
    ensures MinR(m * (m - 1.0) / 2.0, m * 3.0) / (m * (m - 1.0) / 2.0) * 100.0 == 600.0 / (m - 1.0)
  {
    Scoring.MulMono(6.0, m - 1.0, m);
    assert MinR(m * (m - 1.0) / 2.0, m * 3.0) == m * 3.0;
    ThreeLinksEach(m);
  }

  /** Three links for each of `m` members out of the m(m-1)/2 possible,
      as a percentage. */
  lemma ThreeLinksEach(m: real)
    requires m >= 2.0
    ensures m * 3.0 / (m * (m - 1.0) / 2.0) * 100.0 == 600.0 / (m - 1.0)
  {
    var p := m * (m - 1.0) / 2.0;
    assert p > 0.0 by {
      assert m * (m - 1.0) >= 2.0 * 1.0;
    }
    assert m * 3.0 == 6.0 / (m - 1.0) * p;
  }

  /** `calculateCommunityClusteringScore`: one entry per community id; a
      later community with the same id overwrites an earlier one. */
  function CommunityClustering(comms: seq<IslamicCommunity>): (r: map<string, real>)
    ensures r.Keys == set c | c in comms :: c.id
    ensures forall k :: k in r ==> 0.0 <= r[k] <= 100.0
  {
    if comms == [] then map[]
    else
      var init := comms[..|comms| - 1];
      var last := comms[|comms| - 1];
      assert comms == init + [last];
      CommunityClustering(init)[last.id := ClusteringScore(|last.members|)]
  }

  /** The score recorded under an id is that of the last community bearing it. */
  lemma {:induction false} ClusteringLastWins(comms: seq<IslamicCommunity>, i: int)
    requires 0 <= i < |comms|
    requires forall j :: i < j < |comms| ==> comms[j].id != comms[i].id
    ensures comms[i].id in CommunityClustering(comms)
    ensures CommunityClustering(comms)[comms[i].id] == ClusteringScore(|comms[i].members|)
  {
    if i < |comms| - 1 {
      var init := comms[..|comms| - 1];
      ClusteringLastWins(init, i);
    }
  }

  // ---- Trust paths ---------------------------------------------------------------

  /** A non-empty path whose consecutive ids are joined by accepted connections. */
  ghost predicate Walk(conns: seq<Connection>, path: seq<string>) {
    |path| > 0 && forall i :: 0 <= i < |path| - 1 ==> Adjacent(conns, path[i], path[i + 1])
  }

  /** Some walk of at most `maxDistance` ids leads from `start` to `target`. */
  ghost predicate Reachable(conns: seq<Connection>, start: string, target: string, maxDistance: int) {
    exists w :: Walk(conns, w) && w[0] == start && w[|w| - 1] == target && |w| <= maxDistance
  }

  function Last(q: seq<string>): string
    requires q != []
  {
    q[|q| - 1]
  }

  // The breadth-first search's bookkeeping, piece by piece. `lvl` records
  // the length of the path with which each visited id was queued.

  /** Every queued path is a walk from `start`. */
  ghost predicate WalksFrom(conns: seq<Connection>, start: string, queue: seq<seq<string>>) {
    forall q :: q in queue ==> Walk(conns, q) && q[0] == start
  }

  /** Every queued path ends in a visited id recorded at the path's length. */
  ghost predicate Levels(queue: seq<seq<string>>, visited: set<string>, lvl: map<string, int>) {
    visited <= lvl.Keys
    && forall q :: q in queue ==> q != [] && Last(q) in visited && lvl[Last(q)] == |q|
  }

  /** The queue is ordered by path length. */
  ghost predicate ByLength(queue: seq<seq<string>>) {
    forall i, j :: 0 <= i < j < |queue| ==> |queue[i]| <= |queue[j]|
  }

  ghost predicate Within(queue: seq<seq<string>>, lo: int, hi: int) {
    forall q :: q in queue ==> lo <= |q| <= hi
  }

  /** No visited id lies deeper than `hi`. */
  ghost predicate Shallow(visited: set<string>, lvl: map<string, int>, hi: int) {
    visited <= lvl.Keys && forall v :: v in visited ==> lvl[v] <= hi
  }

  /** Every visited id is done with or still queued. */
  ghost predicate Covered(visited: set<string>, done: set<string>, queue: seq<seq<string>>) {
    forall v :: v in visited ==> v in done || exists q :: q in queue && q != [] && Last(q) == v
  }

  /** Every id taken off the queue within reach had its neighbours visited,
      at most one level deeper. */
  ghost predicate Expanded(conns: seq<Connection>, maxDistance: int, closed: set<string>,
                           visited: set<string>, lvl: map<string, int>) {
    closed <= visited <= lvl.Keys
    && forall c :: c in closed && lvl[c] <= maxDistance ==>
         forall n :: Adjacent(conns, c, n) ==> n in visited && lvl[n] <= lvl[c] + 1
  }

  /** The queued paths, the visited ids and their levels, with every level
      at most `top` and the queue spanning two lengths at most. */
  ghost predicate Frontier(conns: seq<Connection>, start: string, queue: seq<seq<string>>,
                           visited: set<string>, lvl: map<string, int>, top: int) {
    && start in visited && visited <= lvl.Keys && lvl[start] == 1
    && WalksFrom(conns, start, queue) && Levels(queue, visited, lvl) && ByLength(queue)
    && Shallow(visited, lvl, top)
    && (queue != [] ==> top <= |queue[0]| + 1)
  }

  /** The ids taken off the queue: expanded when within reach, none deeper
      than the queue's head, the target not among those within reach. */
  ghost predicate Settled(conns: seq<Connection>, target: string, maxDistance: int, queue: seq<seq<string>>,
                          visited: set<string>, closed: set<string>, lvl: map<string, int>) {
    && Expanded(conns, maxDistance, closed, visited, lvl)
    && Covered(visited, closed, queue)
    && (queue != [] ==> forall c :: c in closed ==> c in lvl && lvl[c] <= |queue[0]|)
    && (target in closed ==> target in lvl && lvl[target] > maxDistance)
  }

  /** With `current` off the queue and its neighbours being queued. */
  ghost predicate Queued(conns: seq<Connection>, start: string, current: seq<string>, closed: set<string>,
                         queue: seq<seq<string>>, visited: set<string>, lvl: map<string, int>) {
    && current != []
    && WalksFrom(conns, start, queue) && Levels(queue, visited, lvl) && ByLength(queue)
    && Within(queue, |current|, |current| + 1)
    && Shallow(visited, lvl, |current| + 1)
    && Covered(visited, closed + {Last(current)}, queue)
  }

  /** The search's loop invariant. */
  ghost predicate Search(conns: seq<Connection>, start: string, target: string, maxDistance: int,
                         universe: set<string>, queue: seq<seq<string>>, visited: set<string>,
                         closed: set<string>, lvl: map<string, int>, top: int) {
    && visited <= universe
    && Frontier(conns, start, queue, visited, lvl, top)
    && Settled(conns, target, maxDistance, queue, visited, closed, lvl)
  }

  /** `findShortestTrustPath`: breadth-first search from `start`, each id
      enqueued at most once, dropping paths longer than `maxDistance`; the
      queue holds paths, whose last element is the queued id. It finds a
      path exactly when some walk of at most `maxDistance` ids reaches the
      target. */
  method FindTrustPath(start: string, target: string, conns: seq<Connection>, maxDistance: int)
    returns (path: seq<string>)
    ensures path != [] ==> Walk(conns, path) && path[0] == start && path[|path| - 1] == target
    ensures path != [] ==> |path| <= maxDistance
    ensures path == [] <==> !Reachable(conns, start, target, maxDistance)
    ensures start == target && maxDistance >= 1 ==> path == [start]
  {
    var universe := Endpoints(conns) + {start};
    var queue: seq<seq<string>> := [[start]];
    var visited: set<string> := {start};
    ghost var closed: set<string> := {};
    ghost var lvl: map<string, int> := map[start := 1];
    ghost var top := 1;
    SearchStarts(conns, start, target, maxDistance, universe);
    while queue != []
      invariant Search(conns, start, target, maxDistance, universe, queue, visited, closed, lvl, top)
      invariant start == target && maxDistance >= 1 ==> queue == [[start]]
      decreases |universe - visited|, |queue|
    {
      var current := queue[0];
      HeadWalk(conns, start, queue, visited, lvl, top);
      if |current| <= maxDistance && current[|current| - 1] == target {
        assert Walk(conns, current) && current[0] == start && current[|current| - 1] == target;
        return current;
      }
      queue, visited, closed, lvl, top :=
        Advance(conns, start, target, maxDistance, universe, queue, visited, closed, lvl, top);
    }
    NotReachable(conns, start, target, maxDistance, visited, closed, lvl);
    return [];
  }

  /** The search starts from the one-id path `[start]`. */
  lemma SearchStarts(conns: seq<Connection>, start: string, target: string, maxDistance: int, universe: set<string>)
    requires start in universe
    ensures Search(conns, start, target, maxDistance, universe, [[start]], {start}, {}, map[start := 1], 1)
  {
    assert Walk(conns, [start]);
  }

  /** The queue's head is a walk from `start`. */
  lemma HeadWalk(conns: seq<Connection>, start: string, queue: seq<seq<string>>,
                 visited: set<string>, lvl: map<string, int>, top: int)
    requires queue != [] && Frontier(conns, start, queue, visited, lvl, top)
    ensures queue[0] != [] && Walk(conns, queue[0]) && queue[0][0] == start
  {
    assert queue[0] in queue;
  }

  /** One round of the search: take the head off the queue and either drop
      it, when it is too long, or queue its last id's unvisited neighbours. */
  method Advance(conns: seq<Connection>, start: string, target: string, maxDistance: int,
                 universe: set<string>, queue0: seq<seq<string>>, visited0: set<string>,
                 ghost closed0: set<string>, ghost lvl0: map<string, int>, ghost top0: int)
    returns (queue: seq<seq<string>>, visited: set<string>,
             ghost closed: set<string>, ghost lvl: map<string, int>, ghost top: int)
    requires universe == Endpoints(conns) + {start}
    requires queue0 != [] && queue0[0] != []
    requires !(|queue0[0]| <= maxDistance && Last(queue0[0]) == target)
    requires Search(conns, start, target, maxDistance, universe, queue0, visited0, closed0, lvl0, top0)
    ensures Search(conns, start, target, maxDistance, universe, queue, visited, closed, lvl, top)
    ensures |universe - visited| < |universe - visited0|
         || (|universe - visited| == |universe - visited0| && |queue| < |queue0|)
  {
    var current := queue0[0];
    queue := queue0[1..];
    DequeueStep(conns, start, target, maxDistance, queue0, visited0, closed0, lvl0, top0);
    var here := current[|current| - 1];
    if |current| > maxDistance {
      SkipStep(conns, start, target, maxDistance, queue0, visited0, closed0, lvl0, top0);
      visited, closed, lvl, top := visited0, closed0 + {here}, lvl0, top0;
    } else {
      var rest := queue;
      queue, visited, lvl := ExpandPath(conns, start, target, maxDistance, universe, current, queue0, rest, visited0, closed0, lvl0);
      closed := closed0 + {here};
      top := |current| + 1;
    }
  }

  /** Expanding a path within reach that has not met the target: its last
      id's neighbours are queued and that id is settled. */
  method ExpandPath(conns: seq<Connection>, start: string, target: string, maxDistance: int,
                    universe: set<string>, current: seq<string>, ghost all: seq<seq<string>>,
                    queue0: seq<seq<string>>, visited0: set<string>,
                    ghost closed: set<string>, ghost lvl0: map<string, int>)
    returns (queue: seq<seq<string>>, visited: set<string>, ghost lvl: map<string, int>)
    requires universe == Endpoints(conns) + {start}
    requires all != [] && all[0] == current && current != []
    requires Walk(conns, current) && current[0] == start
    requires |current| <= maxDistance && Last(current) != target
    requires visited0 <= universe && start in visited0 && start in lvl0 && lvl0[start] == 1
    requires Settled(conns, target, maxDistance, all, visited0, closed, lvl0)
    requires Last(current) in visited0 && lvl0[Last(current)] == |current|
    requires Queued(conns, start, current, closed, queue0, visited0, lvl0)
    ensures visited0 <= visited <= universe
    ensures |universe - visited| + (|queue| - |queue0|) == |universe - visited0|
    ensures |queue| >= |queue0|
    ensures Frontier(conns, start, queue, visited, lvl, |current| + 1)
    ensures Settled(conns, target, maxDistance, queue, visited, closed + {Last(current)}, lvl)
  {
    var next := UserConnections(current[|current| - 1], conns);
    queue, visited, lvl := EnqueueNeighbours(conns, start, universe, current, next, queue0, visited0, closed, lvl0);
    ExpandFrontier(conns, start, current, closed, queue, visited, lvl);
    ExpandSettled(conns, start, target, maxDistance, current, next, all, queue, visited0, visited, closed, lvl0, lvl);
  }

  /** Taking the head off the queue: the head is a walk recorded at its
      length, and the rest is queued behind it. */
  lemma DequeueStep(conns: seq<Connection>, start: string, target: string, maxDistance: int,
                    all: seq<seq<string>>, visited: set<string>, closed: set<string>, lvl: map<string, int>, top: int)
    requires all != []
    requires Frontier(conns, start, all, visited, lvl, top)
    requires Settled(conns, target, maxDistance, all, visited, closed, lvl)
    ensures all[0] != [] && Walk(conns, all[0]) && all[0][0] == start
    ensures Last(all[0]) in visited && lvl[Last(all[0])] == |all[0]|
    ensures Queued(conns, start, all[0], closed, all[1..], visited, lvl)
    ensures top <= |all[0]| + 1
  {
    assert all[0] in all;
    DequeueWalks(conns, start, all, visited, lvl);
    DequeueOrder(all, visited, lvl, top);
    DequeueCovered(all, visited, closed);
  }

  lemma DequeueWalks(conns: seq<Connection>, start: string, all: seq<seq<string>>,
                     visited: set<string>, lvl: map<string, int>)
    requires all != []
    requires WalksFrom(conns, start, all) && Levels(all, visited, lvl)
    ensures WalksFrom(conns, start, all[1..]) && Levels(all[1..], visited, lvl)
  {
    assert forall q :: q in all[1..] ==> q in all;
  }

  lemma DequeueOrder(all: seq<seq<string>>, visited: set<string>, lvl: map<string, int>, top: int)
    requires all != []
    requires Levels(all, visited, lvl) && ByLength(all) && Shallow(visited, lvl, top) && top <= |all[0]| + 1
    ensures ByLength(all[1..]) && Within(all[1..], |all[0]|, |all[0]| + 1)
  {
    var queue := all[1..];
    forall i, j | 0 <= i < j < |queue|
      ensures |queue[i]| <= |queue[j]|
    {
      assert queue[i] == all[i + 1] && queue[j] == all[j + 1];
    }
    forall q | q in queue
      ensures |all[0]| <= |q| <= |all[0]| + 1
    {
      var i :| 0 <= i < |queue| && queue[i] == q;
      assert all[i + 1] == q;
      assert q in all;
    }
  }

  lemma DequeueCovered(all: seq<seq<string>>, visited: set<string>, closed: set<string>)
    requires all != [] && all[0] != []
    requires Covered(visited, closed, all)
    ensures Covered(visited, closed + {Last(all[0])}, all[1..])
  {
    forall v | v in visited && v !in closed && v != Last(all[0])
      ensures exists q :: q in all[1..] && q != [] && Last(q) == v
    {
      var q :| q in all && q != [] && Last(q) == v;
      var i :| 0 <= i < |all| && all[i] == q;
      assert i != 0;
      assert all[1..][i - 1] == q;
    }
  }

  /** Dropping a path that is too long keeps the bookkeeping. */
  lemma SkipStep(conns: seq<Connection>, start: string, target: string, maxDistance: int,
                 all: seq<seq<string>>, visited: set<string>, closed: set<string>, lvl: map<string, int>, top: int)
    requires all != [] && all[0] != [] && |all[0]| > maxDistance
    requires Frontier(conns, start, all, visited, lvl, top)
    requires Settled(conns, target, maxDistance, all, visited, closed, lvl)
    requires Last(all[0]) in visited && lvl[Last(all[0])] == |all[0]|
    requires Queued(conns, start, all[0], closed, all[1..], visited, lvl)
    requires top <= |all[0]| + 1
    ensures Frontier(conns, start, all[1..], visited, lvl, top)
    ensures Settled(conns, target, maxDistance, all[1..], visited, closed + {Last(all[0])}, lvl)
  {
    var queue := all[1..];
    if queue != [] {
      assert queue[0] in queue;
    }
  }

  /** Queuing one unvisited neighbour, one level deeper, keeps it queued. */
  lemma PushOne(conns: seq<Connection>, start: string, current: seq<string>, closed: set<string>,
                queue: seq<seq<string>>, visited: set<string>, lvl: map<string, int>, n: string)
    requires Queued(conns, start, current, closed, queue, visited, lvl)
    requires Walk(conns, current) && current[0] == start
    requires Adjacent(conns, Last(current), n) && n !in visited
    ensures Queued(conns, start, current, closed, queue + [current + [n]], visited + {n}, lvl[n := |current| + 1])
  {
    var path := current + [n];
    ExtendWalk(conns, current, n);
    assert Last(path) == n && |path| == |current| + 1;
    PushWalks(conns, start, queue, visited, lvl, path);
    PushOrder(queue, visited, lvl, path, |current|);
    PushCovered(visited, closed + {Last(current)}, queue, path);
  }

  lemma PushWalks(conns: seq<Connection>, start: string, queue: seq<seq<string>>, visited: set<string>,
                  lvl: map<string, int>, path: seq<string>)
    requires WalksFrom(conns, start, queue) && Levels(queue, visited, lvl)
    requires Walk(conns, path) && path[0] == start && Last(path) !in visited
    ensures WalksFrom(conns, start, queue + [path])
    ensures Levels(queue + [path], visited + {Last(path)}, lvl[Last(path) := |path|])
  {
    forall q | q in queue + [path]
      ensures q == path || q in queue
    {
    }
  }

  lemma PushOrder(queue: seq<seq<string>>, visited: set<string>, lvl: map<string, int>, path: seq<string>, level: int)
    requires path != [] && |path| == level + 1 && Last(path) !in visited
    requires ByLength(queue) && Within(queue, level, level + 1) && Shallow(visited, lvl, level + 1)
    ensures ByLength(queue + [path]) && Within(queue + [path], level, level + 1)
    ensures Shallow(visited + {Last(path)}, lvl[Last(path) := |path|], level + 1)
  {
    var q' := queue + [path];
    forall i, j | 0 <= i < j < |q'|
      ensures |q'[i]| <= |q'[j]|
    {
      assert q'[i] == queue[i];
      assert queue[i] in queue;
      if j < |queue| {
        assert q'[j] == queue[j];
      }
    }
    forall q | q in q'
      ensures q == path || q in queue
    {
    }
  }

  lemma PushCovered(visited: set<string>, done: set<string>, queue: seq<seq<string>>, path: seq<string>)
    requires path != []
    requires Covered(visited, done, queue)
    ensures Covered(visited + {Last(path)}, done, queue + [path])
  {
    var q' := queue + [path];
    forall v | v in visited + {Last(path)} && v !in done
      ensures exists q :: q in q' && q != [] && Last(q) == v
    {
      if v == Last(path) {
        assert path in q';
      } else {
        var q :| q in queue && q != [] && Last(q) == v;
        assert q in q';
      }
    }
  }

  /** The inner loop of the search: queue each neighbour of the path's last
      id not yet visited, one level deeper. */
  method EnqueueNeighbours(conns: seq<Connection>, start: string, universe: set<string>, current: seq<string>,
                           next: seq<string>, queue0: seq<seq<string>>, visited0: set<string>,
                           ghost closed: set<string>, ghost lvl0: map<string, int>)
    returns (queue: seq<seq<string>>, visited: set<string>, ghost lvl: map<string, int>)
    requires universe == Endpoints(conns) + {start}
    requires Walk(conns, current) && current[0] == start
    requires forall x :: x in next ==> Adjacent(conns, Last(current), x)
    requires visited0 <= universe
    requires Queued(conns, start, current, closed, queue0, visited0, lvl0)
    ensures visited0 <= visited <= universe
    ensures |universe - visited| + (|queue| - |queue0|) == |universe - visited0|
    ensures |queue| >= |queue0|
    ensures Queued(conns, start, current, closed, queue, visited, lvl)
    ensures forall v :: v in visited0 ==> v in lvl && lvl[v] == lvl0[v]
    ensures forall j :: 0 <= j < |next| ==> next[j] in visited && lvl[next[j]] <= |current| + 1
  {
    queue, visited, lvl := queue0, visited0, lvl0;
    var k := 0;
    while k < |next|
      invariant 0 <= k <= |next|
      invariant visited0 <= visited <= universe
      invariant |universe - visited| + (|queue| - |queue0|) == |universe - visited0|
      invariant |queue| >= |queue0|
      invariant Queued(conns, start, current, closed, queue, visited, lvl)
      invariant forall v :: v in visited0 ==> v in lvl && lvl[v] == lvl0[v]
      invariant forall j :: 0 <= j < k ==> next[j] in visited && lvl[next[j]] <= |current| + 1
    {
      assert next[k] in next;
      ghost var (visited1, lvl1) := (visited, lvl);
      queue, visited, lvl := EnqueueOne(conns, start, universe, current, next[k], queue, visited, closed, lvl);
      Agreement(visited0, lvl0, visited1, lvl1, lvl);
      StillReached(next, k, |current| + 1, visited1, lvl1, visited, lvl);
      k := k + 1;
    }
  }

  lemma Agreement(visited0: set<string>, lvl0: map<string, int>, visited1: set<string>,
                  lvl1: map<string, int>, lvl: map<string, int>)
    requires visited0 <= visited1 && visited0 <= lvl0.Keys
    requires forall v :: v in visited0 ==> v in lvl1 && lvl1[v] == lvl0[v]
    requires forall v :: v in visited1 ==> v in lvl && v in lvl1 && lvl[v] == lvl1[v]
    ensures forall v :: v in visited0 ==> v in lvl && lvl[v] == lvl0[v]
  {
  }

  lemma StillReached(next: seq<string>, k: int, bound: int, visited1: set<string>, lvl1: map<string, int>,
                     visited: set<string>, lvl: map<string, int>)
    requires 0 <= k < |next|
    requires forall j :: 0 <= j < k ==> next[j] in visited1 && next[j] in lvl1 && lvl1[next[j]] <= bound
    requires visited1 <= visited
    requires forall v :: v in visited1 ==> v in lvl && v in lvl1 && lvl[v] == lvl1[v]
    requires next[k] in visited && next[k] in lvl && lvl[next[k]] <= bound
    ensures forall j :: 0 <= j < k + 1 ==> next[j] in visited && lvl[next[j]] <= bound
  {
  }

  /** One step of the inner loop: queue `n` unless it was visited. */
  method EnqueueOne(conns: seq<Connection>, start: string, universe: set<string>, current: seq<string>,
                    n: string, queue0: seq<seq<string>>, visited0: set<string>,
                    ghost closed: set<string>, ghost lvl0: map<string, int>)
    returns (queue: seq<seq<string>>, visited: set<string>, ghost lvl: map<string, int>)
    requires universe == Endpoints(conns) + {start}
    requires Walk(conns, current) && current[0] == start
    requires Adjacent(conns, Last(current), n)
    requires visited0 <= universe
    requires Queued(conns, start, current, closed, queue0, visited0, lvl0)
    ensures visited0 <= visited <= universe
    ensures |universe - visited| + (|queue| - |queue0|) == |universe - visited0|
    ensures |queue| >= |queue0|
    ensures Queued(conns, start, current, closed, queue, visited, lvl)
    ensures forall v :: v in visited0 ==> v in lvl && lvl[v] == lvl0[v]
    ensures n in visited && lvl[n] <= |current| + 1
  {
    queue, visited, lvl := queue0, visited0, lvl0;
    if n !in visited {
      AdjacentInEndpoints(conns, current[|current| - 1], n);
      PushOne(conns, start, current, closed, queue, visited, lvl, n);
      assert universe - visited == (universe - (visited + {n})) + {n};
      visited := visited + {n};
      lvl := lvl[n := |current| + 1];
      queue := queue + [current + [n]];
    } else {
      assert Shallow(visited, lvl, |current| + 1);
    }
  }

  /** Once the neighbours are queued, the frontier holds again, one level
      below `current`. */
  lemma ExpandFrontier(conns: seq<Connection>, start: string, current: seq<string>, closed: set<string>,
                       queue: seq<seq<string>>, visited: set<string>, lvl: map<string, int>)
    requires Queued(conns, start, current, closed, queue, visited, lvl)
    requires start in visited && start in lvl && lvl[start] == 1
    ensures Frontier(conns, start, queue, visited, lvl, |current| + 1)
  {
    if queue != [] {
      assert queue[0] in queue;
    }
  }

  /** Once the neighbours are queued, `current`'s last id is settled. */
  lemma ExpandSettled(conns: seq<Connection>, start: string, target: string, maxDistance: int, current: seq<string>,
                      next: seq<string>, all: seq<seq<string>>, queue: seq<seq<string>>,
                      visited0: set<string>, visited: set<string>, closed: set<string>,
                      lvl0: map<string, int>, lvl: map<string, int>)
    requires all != [] && all[0] == current && current != []
    requires |current| <= maxDistance && Last(current) != target
    requires Settled(conns, target, maxDistance, all, visited0, closed, lvl0)
    requires Last(current) in visited0 && lvl0[Last(current)] == |current|
    requires Queued(conns, start, current, closed, queue, visited, lvl)
    requires forall v :: v in visited0 ==> v in lvl && lvl[v] == lvl0[v]
    requires visited0 <= visited
    requires forall x :: x in next <==> Adjacent(conns, Last(current), x)
    requires forall j :: 0 <= j < |next| ==> next[j] in visited && lvl[next[j]] <= |current| + 1
    ensures Settled(conns, target, maxDistance, queue, visited, closed + {Last(current)}, lvl)
  {
    var here := Last(current);
    forall n | Adjacent(conns, here, n)
      ensures n in visited && lvl[n] <= |current| + 1
    {
      var j :| 0 <= j < |next| && next[j] == n;
    }
    if queue != [] {
      assert queue[0] in queue;
    }
  }

  /** When the queue runs dry, every id within reach has been taken off it. */
  lemma {:induction false} ReachedWithin(conns: seq<Connection>, w: seq<string>, maxDistance: int,
                                         closed: set<string>, lvl: map<string, int>, i: int)
    requires Walk(conns, w) && |w| <= maxDistance
    requires closed <= lvl.Keys && w[0] in closed && lvl[w[0]] == 1
    requires forall c :: c in closed && lvl[c] <= maxDistance ==>
      forall n :: Adjacent(conns, c, n) ==> n in closed && lvl[n] <= lvl[c] + 1
    requires 0 <= i < |w|
    ensures w[i] in closed && lvl[w[i]] <= i + 1
  {
    if i > 0 {
      ReachedWithin(conns, w, maxDistance, closed, lvl, i - 1);
      assert Adjacent(conns, w[i - 1], w[i]);
    }
  }

  lemma NotReachable(conns: seq<Connection>, start: string, target: string, maxDistance: int,
                     visited: set<string>, closed: set<string>, lvl: map<string, int>)
    requires start in visited && visited <= lvl.Keys && lvl[start] == 1
    requires Settled(conns, target, maxDistance, [], visited, closed, lvl)
    ensures !Reachable(conns, start, target, maxDistance)
  {
    if Reachable(conns, start, target, maxDistance) {
      var w :| Walk(conns, w) && w[0] == start && w[|w| - 1] == target && |w| <= maxDistance;
      ReachedWithin(conns, w, maxDistance, closed, lvl, |w| - 1);
    }
  }

  lemma ExtendWalk(conns: seq<Connection>, path: seq<string>, n: string)
    requires Walk(conns, path) && Adjacent(conns, path[|path| - 1], n)
    ensures Walk(conns, path + [n]) && (path + [n])[0] == path[0]
  {
    var p := path + [n];
    forall i | 0 <= i < |p| - 1
      ensures Adjacent(conns, p[i], p[i + 1])
    {
      if i < |path| - 1 {
        assert p[i] == path[i] && p[i + 1] == path[i + 1];
      }
    }
  }

  /** `1 + (ageInDays / 365) * 0.2`, at most 1.2: older connections carry
      more trust, up to 20 % per step. */
  function Stability(c: Connection, now: int): real {
    MinR(1.2, 1.0 + (DaysSince(now, c.createdAt) as real / 365.0) * 0.2)
  }

  /** The first connection between `a` and `b` in either direction and of
      any status. */
  function EdgeBetween(conns: seq<Connection>, a: string, b: string): Option<Connection> {
    Find(conns, (c: Connection) => (c.user1Id == a && c.user2Id == b) || (c.user1Id == b && c.user2Id == a))
  }

  function EdgeFactor(path: seq<string>, conns: seq<Connection>, now: int, i: nat): real
    requires i + 1 < |path|
  {
    match EdgeBetween(conns, path[i], path[i + 1])
    case Some(c) => Stability(c, now)
    case None => 1.0
  }

  /** The factors of the first `k` steps of the path multiplied: each step
      decays by 0.7 and scales by its connection's stability. The source
      applies all decays before all stabilities; over exact reals the
      regrouping gives the same product. */
  function StepProduct(path: seq<string>, conns: seq<Connection>, now: int, k: nat): real
    requires k < |path|
  {
    if k == 0 then 1.0 else Decayed(StepProduct(path, conns, now, k - 1), EdgeFactor(path, conns, now, k - 1))
  }

  /** One step's decay by 0.7 and scaling by the connection factor `f`. */
  function Decayed(a: real, f: real): real {
    a * (0.7 * f)
  }

  function Pow(b: real, k: nat): real {
    if k == 0 then 1.0 else Pow(b, k - 1) * b
  }

  /** `calculateTrustScore`: 100 decayed by 0.7 per step, scaled by the
      stability of each step's connection, capped at 100; a path of at most
      one id earns nothing. */
  function TrustScore(path: seq<string>, conns: seq<Connection>, now: int): (r: real)
    ensures r <= 100.0
    ensures |path| <= 1 ==> r == 0.0
  {
    if |path| <= 1 then 0.0
    else MinR(100.0, 100.0 * StepProduct(path, conns, now, |path| - 1))
  }

  /** A connection created no later than `now` has stability in [1, 1.2]. */
  lemma StabilityRange(c: Connection, now: int)
    requires c.createdAt <= now
    ensures 1.0 <= Stability(c, now) <= 1.2
  {
    assert DaysSince(now, c.createdAt) >= 0;
  }

  lemma {:induction false} ProductBounds(path: seq<string>, conns: seq<Connection>, now: int, k: nat)
    requires k < |path|
    requires forall c :: c in conns ==> c.createdAt <= now
    ensures 0.0 < StepProduct(path, conns, now, k) <= Pow(0.84, k)
  {
    if k > 0 {
      ProductBounds(path, conns, now, k - 1);
      EdgeFactorRange(path, conns, now, k - 1);
      StepBound(StepProduct(path, conns, now, k - 1), EdgeFactor(path, conns, now, k - 1), Pow(0.84, k - 1));
      assert Pow(0.84, k) == Pow(0.84, k - 1) * 0.84;
    }
  }

  lemma EdgeFactorRange(path: seq<string>, conns: seq<Connection>, now: int, i: nat)
    requires i + 1 < |path|
    requires forall c :: c in conns ==> c.createdAt <= now
    ensures 1.0 <= EdgeFactor(path, conns, now, i) <= 1.2
  {
    var edge := EdgeBetween(conns, path[i], path[i + 1]);
    if edge.Some? {
      StabilityRange(edge.value, now);
    }
  }

  /** One more step of a path keeps the running product positive and below
      the running power of 0.84. */
  lemma StepBound(a: real, f: real, p: real)
    requires 0.0 < a <= p
    requires 1.0 <= f <= 1.2
    ensures 0.0 < Decayed(a, f) <= p * 0.84
  {
    var g := 0.7 * f;
    assert 0.0 < g <= 0.84;
    assert a * g <= p * g;
    assert p * g <= p * 0.84;
  }

  lemma {:induction false} PowPositive(b: real, k: nat)
    requires 0.0 < b <= 1.0
    ensures 0.0 < Pow(b, k) <= 1.0
  {
    if k > 0 {
      PowPositive(b, k - 1);
      assert Pow(b, k - 1) * b <= Pow(b, k - 1) * 1.0;
    }
  }

  /** With no connection dated in the future, every step loses at least 16 %
      of the trust, so a path of two or more ids earns a positive score of
      at most 84. */
  lemma TrustScoreSettled(path: seq<string>, conns: seq<Connection>, now: int)
    requires |path| >= 2
    requires forall c :: c in conns ==> c.createdAt <= now
    ensures 0.0 < TrustScore(path, conns, now) <= 84.0
  {
    var k := |path| - 1;
    var t := StepProduct(path, conns, now, k);
    ProductBounds(path, conns, now, k);
    PowPositive(0.84, k - 1);
    assert Pow(0.84, k) == Pow(0.84, k - 1) * 0.84;
    assert Pow(0.84, k - 1) * 0.84 <= 0.84;
    assert 0.0 < t <= 0.84;
    assert 0.0 < 100.0 * t <= 84.0;
  }

  datatype TrustRecommendation = TrustRecommendation(userId: string, trustScore: real, path: seq<string>)

  function TrustId(t: TrustRecommendation): string { t.userId }

  /** A recommendation backed by a walk from `id` of at most `maxDistance`
      ids, scored by `calculateTrustScore`. */
  ghost predicate TrustBacked(t: TrustRecommendation, id: string, conns: seq<Connection>, now: int, maxDistance: int) {
    && Walk(conns, t.path) && t.path[0] == id && t.path[|t.path| - 1] == t.userId
    && 3 <= |t.path| <= maxDistance
    && t.trustScore == TrustScore(t.path, conns, now)
  }

  /** `getRecommendationsByTrustPath`: every friend of a friend reachable
      within `maxDistance` ids, once, with its trust score and path,
      strongest trust first. */
  method RecommendationsByTrustPath(id: string, conns: seq<Connection>, now: int, maxDistance: int)
    returns (r: seq<TrustRecommendation>)
    ensures SortedDesc(r, (t: TrustRecommendation) => t.trustScore)
    ensures |r| <= |FriendsOfFriends(id, conns)|
    ensures DistinctBy(r, TrustId)
    ensures forall t :: t in r ==> t.userId in FriendsOfFriends(id, conns) && TrustBacked(t, id, conns, now, maxDistance)
    ensures forall x :: (exists t :: t in r && t.userId == x) <==>
      x in FriendsOfFriends(id, conns) && Reachable(conns, id, x, maxDistance)
  {
    var candidates := FriendsOfFriends(id, conns);
    var found := CollectTrusted(id, conns, now, maxDistance, candidates);
    assert forall t :: t in found ==> t.userId in candidates && TrustBacked(t, id, conns, now, maxDistance);
    r := SortDesc(found, (t: TrustRecommendation) => t.trustScore);
    SortDescDistinct(found, (t: TrustRecommendation) => t.trustScore, TrustId);
    assert |r| == |found| by {
      assert |multiset(r)| == |multiset(found)|;
    }
    forall t | t in r
      ensures t in found
    {
      assert t in multiset(r);
    }
    forall x | x in candidates && Reachable(conns, id, x, maxDistance)
      ensures exists t :: t in r && t.userId == x
    {
      var t :| t in found && t.userId == x;
      assert t in multiset(found);
    }
    forall t | t in r
      ensures Reachable(conns, id, t.userId, maxDistance)
    {
      assert t in found;
      assert Walk(conns, t.path) && t.path[0] == id && t.path[|t.path| - 1] == t.userId && |t.path| <= maxDistance;
    }
  }

  /** The loop of `getRecommendationsByTrustPath`: a recommendation for
      each candidate the trust-path search reaches, in candidate order. */
  method CollectTrusted(id: string, conns: seq<Connection>, now: int, maxDistance: int, candidates: seq<string>)
    returns (found: seq<TrustRecommendation>)
    requires candidates == FriendsOfFriends(id, conns)
    ensures |found| <= |candidates|
    ensures Collected(found, id, conns, now, maxDistance, candidates)
  {
    found := [];
    var i := 0;
    while i < |candidates|
      invariant 0 <= i <= |candidates|
      invariant |found| <= i
      invariant Collected(found, id, conns, now, maxDistance, candidates[..i])
    {
      found := CollectOne(id, conns, now, maxDistance, candidates, i, found);
      i := i + 1;
    }
    assert candidates[..i] == candidates;
  }

  /** `found` holds one backed recommendation for each of `seen` within
      reach, and nothing else. */
  ghost predicate Collected(found: seq<TrustRecommendation>, id: string, conns: seq<Connection>, now: int,
                            maxDistance: int, seen: seq<string>) {
    && DistinctBy(found, TrustId)
    && (forall t :: t in found ==> t.userId in seen && TrustBacked(t, id, conns, now, maxDistance))
    && (forall x :: x in seen && Reachable(conns, id, x, maxDistance) ==> exists t :: t in found && t.userId == x)
  }

  /** One round of the loop: search a trust path to the `i`-th candidate. */
  method CollectOne(id: string, conns: seq<Connection>, now: int, maxDistance: int, candidates: seq<string>,
                    i: int, found0: seq<TrustRecommendation>)
    returns (found: seq<TrustRecommendation>)
    requires candidates == FriendsOfFriends(id, conns)
    requires 0 <= i < |candidates|
    requires Collected(found0, id, conns, now, maxDistance, candidates[..i])
    ensures |found| <= |found0| + 1
    ensures Collected(found, id, conns, now, maxDistance, candidates[..i + 1])
  {
    var candidate := candidates[i];
    var path := FindTrustPath(id, candidate, conns, maxDistance);
    TakeOneMore(candidates, i);
    found := found0;
    if 0 < |path| <= maxDistance {
      assert candidate in candidates;
      FriendOfFriendPathLength(id, conns, candidate, path);
      var t := TrustRecommendation(candidate, TrustScore(path, conns, now), path);
      DistinctAt(candidates, i);
      AppendDistinct(found0, t, candidates, i);
      CollectedAdd(found0, t, id, conns, now, maxDistance, candidates[..i]);
      found := found0 + [t];
    } else {
      CollectedSkip(found0, id, conns, now, maxDistance, candidates[..i], candidate);
    }
  }

  /** A walk from `id` to one of its friends of friends has at least three ids. */
  lemma FriendOfFriendPathLength(id: string, conns: seq<Connection>, x: string, path: seq<string>)
    requires x != id && !Adjacent(conns, id, x)
    requires Walk(conns, path) && path[0] == id && path[|path| - 1] == x
    ensures |path| >= 3
  {
    assert |path| >= 2 ==> Adjacent(conns, path[0], path[1]);
  }

  lemma CollectedAdd(found: seq<TrustRecommendation>, t: TrustRecommendation, id: string, conns: seq<Connection>,
                     now: int, maxDistance: int, seen: seq<string>)
    requires Collected(found, id, conns, now, maxDistance, seen)
    requires DistinctBy(found + [t], TrustId) && TrustBacked(t, id, conns, now, maxDistance)
    ensures Collected(found + [t], id, conns, now, maxDistance, seen + [t.userId])
  {
    var found' := found + [t];
    forall x | x in seen + [t.userId] && Reachable(conns, id, x, maxDistance)
      ensures exists u :: u in found' && u.userId == x
    {
      if x == t.userId {
        assert t in found';
      } else {
        var u :| u in found && u.userId == x;
        assert u in found';
      }
    }
  }

  lemma CollectedSkip(found: seq<TrustRecommendation>, id: string, conns: seq<Connection>,
                      now: int, maxDistance: int, seen: seq<string>, x: string)
    requires Collected(found, id, conns, now, maxDistance, seen)
    requires !Reachable(conns, id, x, maxDistance)
    ensures Collected(found, id, conns, now, maxDistance, seen + [x])
  {
  }

  /** The `i`-th of a list without duplicates is not among those before it. */
  lemma DistinctAt(s: seq<string>, i: int)
    requires NoDuplicates(s) && 0 <= i < |s|
    ensures s[i] !in s[..i]
  {
    forall x | x in s[..i]
      ensures x != s[i]
    {
      var j :| 0 <= j < i && s[..i][j] == x;
      assert s[j] == x;
    }
  }

  /** Adding the recommendation for a candidate not seen before keeps the
      ids distinct. */
  lemma AppendDistinct(found: seq<TrustRecommendation>, t: TrustRecommendation, candidates: seq<string>, i: int)
    requires 0 <= i < |candidates| && t.userId == candidates[i] && candidates[i] !in candidates[..i]
    requires DistinctBy(found, TrustId)
    requires forall u :: u in found ==> u.userId in candidates[..i]
    ensures DistinctBy(found + [t], TrustId)
  {
    assert forall k :: 0 <= k < |found| ==> found[k] in found;
  }

  // ---- Influence -------------------------------------------------------------------

  /** `calculateInfluenceScore`: two points per connection (at most 50), 15
      per community the user leads (listed first), 10 per organised event,
      5 per community joined (at most 20), capped at 100. */
  function InfluenceScore(id: string, conns: seq<Connection>, comms: seq<IslamicCommunity>,
                          events: seq<CommunityEvent>): (r: int)
    ensures 0 <= r <= 100
    ensures r == 0 <==>
      (forall x :: !Adjacent(conns, id, x))
      && (forall c :: c in comms ==> id !in c.members)
      && (forall e :: e in events ==> e.organizer != id)
  {
    var degree := |UserConnections(id, conns)|;
    var led := Filter(comms, (c: IslamicCommunity) => |c.members| > 0 && c.members[0] == id);
    var organized := Filter(events, (e: CommunityEvent) => e.organizer == id);
    var joined := CommunitiesOf(id, comms);
    assert degree == 0 <==> forall x :: !Adjacent(conns, id, x) by {
      if degree > 0 {
        assert UserConnections(id, conns)[0] in UserConnections(id, conns);
      }
    }
    assert |joined| == 0 <==> forall c :: c in comms ==> id !in c.members by {
      if |joined| > 0 {
        assert joined[0] in joined;
      }
    }
    assert |organized| == 0 <==> forall e :: e in events ==> e.organizer != id by {
      if |organized| > 0 {
        assert organized[0] in organized;
      }
    }
    assert |joined| == 0 ==> |led| == 0 by {
      if |led| > 0 {
        assert led[0] in led;
        assert led[0].members[0] == id;
      }
    }
    Min(100, Min(50, degree * 2) + |led| * 15 + |organized| * 10 + Min(20, |joined| * 5))
  }
}

=== FILE: strings.dfy ===
/** String helpers standing for the JavaScript string built-ins the code
    uses: `toLowerCase` (on ASCII letters), `includes`, `join`, `trim`,
    number-to-decimal and number-to-hex conversion. */
module Strings {

  predicate IsAsciiUpper(c: char) { 'A' <= c <= 'Z' }
  predicate IsAsciiLower(c: char) { 'a' <= c <= 'z' }
  predicate IsDigit(c: char) { '0' <= c <= '9' }

  function LowerChar(c: char): (r: char)
    ensures !IsAsciiUpper(r)
    ensures !IsAsciiUpper(c) ==> r == c
  {
    if IsAsciiUpper(c) then (c as int - 'A' as int + 'a' as int) as char else c
  }

  function UpperChar(c: char): (r: char)
    ensures !IsAsciiLower(r)
    ensures !IsAsciiLower(c) ==> r == c
  {
    if IsAsciiLower(c) then (c as int - 'a' as int + 'A' as int) as char else c
  }

  /** `s.toLowerCase()` restricted to the ASCII letters. */
  function ToLower(s: string): (r: string)
    ensures |r| == |s|
    ensures forall i :: 0 <= i < |s| ==> r[i] == LowerChar(s[i])
  {
    if s == [] then [] else [LowerChar(s[0])] + ToLower(s[1..])
  }

  /** `s.toUpperCase()` restricted to the ASCII letters. */
  function ToUpper(s: string): (r: string)
    ensures |r| == |s|
    ensures forall i :: 0 <= i < |s| ==> r[i] == UpperChar(s[i])
  {
    if s == [] then [] else [UpperChar(s[0])] + ToUpper(s[1..])
  }

  /** Lower-casing forgets the case a string was written in. */
  lemma LowerOfUpper(s: string)
    ensures ToLower(ToUpper(s)) == ToLower(s)
  {
    assert forall i :: 0 <= i < |s| ==> LowerChar(UpperChar(s[i])) == LowerChar(s[i]);
  }

  lemma LowerIdempotent(s: string)
    ensures ToLower(ToLower(s)) == ToLower(s)
  {
  }

  /** `sub` occurs in `s` at position `i`. */
  ghost predicate OccursAt(s: string, sub: string, i: int) {
    0 <= i && i + |sub| <= |s| && s[i..i + |sub|] == sub
  }

  /** `s.includes(sub)` */
  predicate Contains(s: string, sub: string)
    decreases |s|
  {
    |sub| <= |s| && (s[..|sub|] == sub || (|s| > 0 && Contains(s[1..], sub)))
  }

  lemma {:induction false} ContainsIff(s: string, sub: string)
    ensures Contains(s, sub) <==> exists i :: OccursAt(s, sub, i)
    decreases |s|
  {
    if |sub| <= |s| && s[..|sub|] != sub && |s| > 0 {
      ContainsIff(s[1..], sub);
      if Contains(s[1..], sub) {
        var i :| OccursAt(s[1..], sub, i);
        assert s[i + 1..i + 1 + |sub|] == s[1..][i..i + |sub|];
        assert OccursAt(s, sub, i + 1);
      } else if exists i :: OccursAt(s, sub, i) {
        var i :| OccursAt(s, sub, i);
        assert i != 0;
        assert s[1..][i - 1..i - 1 + |sub|] == s[i..i + |sub|];
        assert OccursAt(s[1..], sub, i - 1);
        assert false;
      }
    } else if |sub| <= |s| && s[..|sub|] == sub {
      assert OccursAt(s, sub, 0);
    }
  }

  /** Every string contains itself and the empty string. */
  lemma ContainsSelf(s: string)
    ensures Contains(s, s) && Contains(s, "")
  {
  }

  /** Text found in either part is found in the whole. */
  lemma ContainsAppend(a: string, b: string, sub: string)
    ensures Contains(a, sub) ==> Contains(a + b, sub)
    ensures Contains(b, sub) ==> Contains(a + b, sub)
  {
    ContainsIff(a, sub);
    ContainsIff(b, sub);
    ContainsIff(a + b, sub);
    if Contains(a, sub) {
      var i :| OccursAt(a, sub, i);
      assert (a + b)[i..i + |sub|] == a[i..i + |sub|];
      assert OccursAt(a + b, sub, i);
    }
    if Contains(b, sub) {
      var i :| OccursAt(b, sub, i);
      assert (a + b)[|a| + i..|a| + i + |sub|] == b[i..i + |sub|];
      assert OccursAt(a + b, sub, |a| + i);
    }
  }

  /** Containment is transitive. */
  lemma ContainsTransitive(a: string, b: string, c: string)
    requires Contains(a, b) && Contains(b, c)
    ensures Contains(a, c)
  {
    ContainsIff(a, b);
    ContainsIff(b, c);
    ContainsIff(a, c);
    var i :| OccursAt(a, b, i);
    var j :| OccursAt(b, c, j);
    forall k | 0 <= k < |c|
      ensures a[i + j..i + j + |c|][k] == c[k]
    {
      assert c[k] == b[j + k] == a[i + j + k];
    }
    assert OccursAt(a, c, i + j);
  }

  /** Lower-casing works character by character, so it distributes over
      concatenation. */
  lemma LowerAppend(a: string, b: string)
    ensures ToLower(a + b) == ToLower(a) + ToLower(b)
  {
    assert forall i :: 0 <= i < |a + b| ==> ToLower(a + b)[i] == (ToLower(a) + ToLower(b))[i];
  }

  /** `xs.join(sep)` */
  function Join(xs: seq<string>, sep: string): (r: string)
    ensures xs == [] ==> r == ""
    ensures |xs| == 1 ==> r == xs[0]
  {
    if xs == [] then ""
    else if |xs| == 1 then xs[0]
    else xs[0] + sep + Join(xs[1..], sep)
  }

  // ---- Numbers as text --------------------------------------------------------

  function DigitChar(d: int): (c: char)
    requires 0 <= d < 10
    ensures IsDigit(c)
  {
    ('0' as int + d) as char
  }

  function DigitValue(c: char): (d: int)
    requires IsDigit(c)
    ensures 0 <= d < 10
  {
    c as int - '0' as int
  }

  /** `String(n)` for a non-negative integer: decimal, no leading zeros. */
  function NatToString(n: nat): (r: string)
    ensures |r| >= 1
    ensures forall i :: 0 <= i < |r| ==> IsDigit(r[i])
    ensures |r| > 1 ==> r[0] != '0'
  {
    if n < 10 then [DigitChar(n)] else NatToString(n / 10) + [DigitChar(n % 10)]
  }

  /** `String(i)` for an integer. */
  function IntToString(i: int): string {
    if i < 0 then "-" + NatToString(-i) else NatToString(i)
  }

  predicate AllDigits(s: string) {
    forall i :: 0 <= i < |s| ==> IsDigit(s[i])
  }

  /** The value of a string of decimal digits. */
  function ParseDigits(s: string): nat
    requires AllDigits(s)
  {
    if s == [] then 0 else ParseDigits(s[..|s| - 1]) * 10 + DigitValue(s[|s| - 1])
  }

  lemma {:induction false} ParseNatToString(n: nat)
    ensures ParseDigits(NatToString(n)) == n
  {
    if n >= 10 {
      ParseNatToString(n / 10);
      var r := NatToString(n);
      assert r[..|r| - 1] == NatToString(n / 10);
    }
  }

  function HexChar(d: int): (c: char)
    requires 0 <= d < 16
  {
    if d < 10 then ('0' as int + d) as char else ('a' as int + d - 10) as char
  }

  /** `n.toString(16)` for a non-negative integer. */
  function HexString(n: nat): (r: string)
    ensures |r| >= 1
  {
    if n < 16 then [HexChar(n)] else HexString(n / 16) + [HexChar(n % 16)]
  }

  function Pow16(k: nat): nat {
    if k == 0 then 1 else 16 * Pow16(k - 1)
  }

  /** A value below 16^k has at most k hex digits. */
  lemma {:induction false} HexStringLength(n: nat, k: nat)
    requires k >= 1 && n < Pow16(k)
    ensures |HexString(n)| <= k
  {
    if n >= 16 {
      HexStringLength(n / 16, k - 1);
    }
  }

  lemma HexCharNotUnderscore(d: int)
    requires 0 <= d < 16
    ensures HexChar(d) != '_'
  {
  }

  lemma {:induction false} HexStringNoUnderscore(n: nat)
    ensures '_' !in HexString(n)
  {
    if n >= 16 {
      HexStringNoUnderscore(n / 16);
    }
  }

  // ---- Whitespace and trim ----------------------------------------------------

  /** The characters JavaScript's `trim` removes and its regular-expression
      class `\s` matches: WhiteSpace and LineTerminator of ECMAScript. */
  predicate IsJsWhitespace(c: char) {
    || c == '\t' || c == '\n' || c == '\U{000B}' || c == '\U{000C}' || c == '\r' || c == ' '
    || c == '\U{00A0}' || c == '\U{1680}' || ('\U{2000}' <= c <= '\U{200A}')
    || c == '\U{2028}' || c == '\U{2029}' || c == '\U{202F}' || c == '\U{205F}'
    || c == '\U{3000}' || c == '\U{FEFF}'
  }

  function TrimStart(s: string): (r: string)
    ensures |r| <= |s|
    ensures r == s[|s| - |r|..]
    ensures r == [] || !IsJsWhitespace(r[0])
    ensures forall i :: 0 <= i < |s| - |r| ==> IsJsWhitespace(s[i])
  {
    if s != [] && IsJsWhitespace(s[0]) then TrimStart(s[1..]) else s
  }

  function TrimEnd(s: string): (r: string)
    ensures |r| <= |s|
    ensures r == s[..|r|]
    ensures r == [] || !IsJsWhitespace(r[|r| - 1])
    ensures forall i :: |r| <= i < |s| ==> IsJsWhitespace(s[i])
  {
    if s != [] && IsJsWhitespace(s[|s| - 1]) then TrimEnd(s[..|s| - 1]) else s
  }

  /** `s.trim()` */
  function Trim(s: string): string {
    TrimEnd(TrimStart(s))
  }

  /** Trimming leaves nothing exactly when every character is whitespace. */
  lemma TrimEmptyIff(s: string)
    ensures Trim(s) == [] <==> forall i :: 0 <= i < |s| ==> IsJsWhitespace(s[i])
  {
  }
}

=== FILE: types.dfy ===
/** The record shapes of the matching core (src/types/user.ts). The string
    unions become enumerations; optional fields become `Option`; dates are
    millisecond timestamps; scores are `Num` (finite or NaN). */
module Types {
  import opened Seqs
  import opened JsNumber

  datatype Location = Location(
    latitude: real,
    longitude: real,
    city: string,
    country: string,
    timezone: string)

  datatype PracticeLevel = Beginner | Intermediate | Advanced | Scholar
  datatype PrayerFrequency = Rarely | Sometimes | Regularly | Always
  datatype MosqueAttendance = Never | Occasionally | Weekly | Daily

  datatype IslamicProfile = IslamicProfile(
    practiceLevel: PracticeLevel,
    prayerFrequency: PrayerFrequency,
    hijabWearing: bool,
    mosqueAttendance: MosqueAttendance,
    quranStudyInterest: bool,
    islamicHistoryInterest: bool,
    arabicLearningInterest: bool,
    isNewMuslim: bool,
    yearsInIslam: Option<int>)

  datatype PersonalInfo = PersonalInfo(
    id: string,
    firstName: string,
    age: int,
    location: Location,
    languages: seq<string>,
    secondaryLanguages: Option<seq<string>>)

  datatype Interests = Interests(
    hobbies: seq<string>,
    activities: seq<string>,
    islamicInterests: seq<string>,
    studyInterests: seq<string>,
    professionalInterests: seq<string>)

  datatype WorkStatus = Student | Working | Homemaker | Retired | Unemployed
  datatype StudyStatus = NotStudying | PartTime | FullTime
  datatype FamilyStatus = Single | Married | MarriedWithChildren | Widowed
  datatype Availability = VeryLimited | Limited | Moderate | Flexible | VeryFlexible
  datatype MeetingTime = Morning | Afternoon | Evening | Weekend

  datatype Lifestyle = Lifestyle(
    workStatus: WorkStatus,
    studyStatus: StudyStatus,
    familyStatus: FamilyStatus,
    hasChildren: bool,
    numberOfChildren: Option<int>,
    availability: Availability,
    preferredMeetingTimes: seq<MeetingTime>)

  datatype UserProfile = UserProfile(
    personalInfo: PersonalInfo,
    islamicProfile: IslamicProfile,
    interests: Interests,
    lifestyle: Lifestyle,
    createdAt: int,
    lastActive: int,
    verified: bool)

  datatype AgeRange = AgeRange(min: int, max: int)

  /** The optional deal-breaker flags; an absent flag reads as false. */
  datatype DealBreakers = DealBreakers(
    differentPracticeLevel: bool,
    noHijab: bool,
    differentFamilyStatus: bool,
    tooFarDistance: bool)

  /** Weights, conventionally in [0, 1] but never checked. */
  datatype SoftPreferences = SoftPreferences(
    similarInterests: real,
    similarAge: real,
    sameCity: real,
    similarPracticeLevel: real,
    similarLifestyle: real)

  datatype SpecialFeatures = SpecialFeatures(
    studyBuddy: bool,
    mentorship: bool,
    eventCompanion: bool,
    professionalNetworking: bool)

  datatype MatchingPreferences = MatchingPreferences(
    ageRange: AgeRange,
    maxDistance: real,
    requiredLanguages: seq<string>,
    dealBreakers: DealBreakers,
    softPreferences: SoftPreferences,
    specialFeatures: SpecialFeatures)

  /** One entry per scoring factor, holding the weighted sub-score. */
  datatype Breakdown = Breakdown(
    interestCompatibility: Num,
    locationProximity: Num,
    ageCompatibility: Num,
    languageMatch: Num,
    islamicCompatibility: Num,
    lifestyleCompatibility: Num,
    socialGraphBonus: Num)

  /** `percentileRank` is the decoration ranking adds to each entry. */
  datatype MatchScore = MatchScore(
    userId: string,
    totalScore: Num,
    breakdown: Breakdown,
    reasons: seq<string>,
    specialFeatures: seq<string>,
    percentileRank: Option<real>)

  datatype ConnectionStatus = Pending | Accepted | Declined | Blocked

  datatype Connection = Connection(
    id: string,
    user1Id: string,
    user2Id: string,
    initiatedBy: string,
    status: ConnectionStatus,
    matchScore: real,
    createdAt: int,
    acceptedAt: Option<int>,
    lastInteraction: Option<int>,
    conversationStarters: Option<seq<string>>)

  datatype InteractionPatterns = InteractionPatterns(
    responseTime: real,
    messageFrequency: real,
    activeHours: seq<int>)

  datatype UserBehavior = UserBehavior(
    userId: string,
    likedProfiles: seq<string>,
    dislikedProfiles: seq<string>,
    acceptedConnections: seq<string>,
    declinedConnections: seq<string>,
    reportedUsers: seq<string>,
    preferredAgeRanges: seq<real>,
    preferredDistances: seq<real>,
    interactionPatterns: InteractionPatterns)

  datatype EventCategory = Religious | Educational | Social | Professional | Charity

  datatype CommunityEvent = CommunityEvent(
    id: string,
    title: string,
    description: string,
    category: EventCategory,
    location: Location,
    startDate: int,
    endDate: int,
    attendees: seq<string>,
    organizer: string)

  datatype IslamicCommunity = IslamicCommunity(
    id: string,
    name: string,
    location: Location,
    members: seq<string>,
    mosqueAffiliation: Option<string>,
    activities: seq<string>,
    establishedYear: Option<int>)

  /** The four special-feature query modes. */
  datatype FeatureType = StudyBuddy | Mentorship | EventCompanion | ProfessionalNetworking

  // ---- Defaults (src/index.ts, createDefaultPreferences) ------------------------

  const DefaultPreferences: MatchingPreferences := MatchingPreferences(
    AgeRange(18, 65),
    50.0,
    [],
    DealBreakers(false, false, false, true),
    SoftPreferences(0.8, 0.6, 0.4, 0.9, 0.7),
    SpecialFeatures(true, true, true, false))

  // ---- What the model leaves abstract -----------------------------------------

  type NonNeg = x: real | x >= 0.0
  type Positive = x: real | x > 0.0 witness 1.0

  /** The floating-point and formatting functions the code calls but the
      model does not compute: the great-circle distance of
      `calculateDistance`, `Number.prototype.toFixed(1)`, the decimal
      rendering of an arbitrary number, `Math.exp(-0.02 * days)` of
      `applyTimeDecay`, and `Math.sqrt`. */
  datatype Env = Env(
    distance: (Location, Location) -> NonNeg,
    toFixed1: real -> string,
    numberText: real -> string,
    decayFactor: int -> Positive,
    sqrt: real -> NonNeg)

  // ---- Shared profile projections ---------------------------------------------

  function Id(u: UserProfile): string { u.personalInfo.id }
  function Age(u: UserProfile): int { u.personalInfo.age }
  function City(u: UserProfile): string { u.personalInfo.location.city }

  /** `[...languages, ...(secondaryLanguages || [])]` */
  function AllLanguages(u: UserProfile): seq<string> {
    u.personalInfo.languages
    + match u.personalInfo.secondaryLanguages
      case Some(s) => s
      case None => []
  }

  /** The five interest lists concatenated in declaration order. */
  function AllInterests(u: UserProfile): seq<string> {
    u.interests.hobbies + u.interests.activities + u.interests.islamicInterests
    + u.interests.studyInterests + u.interests.professionalInterests
  }

  /** `allUsers.find(user => user.personalInfo.id === id)` */
  function FindUser(id: string, users: seq<UserProfile>): Option<UserProfile> {
    Find(users, (u: UserProfile) => Id(u) == id)
  }

  /** Whether an id names a known user. */
  function Resolves(users: seq<UserProfile>): string -> bool {
    id => FindUser(id, users).Some?
  }

  /** `ids.map(find).filter(defined)`: the profiles of the ids that resolve,
      in id order. */
  function UsersFromIds(ids: seq<string>, users: seq<UserProfile>): (r: seq<UserProfile>)
    ensures |r| == |Filter(ids, Resolves(users))|
    ensures forall i :: 0 <= i < |r| ==> FindUser(Filter(ids, Resolves(users))[i], users) == Some(r[i])
    ensures forall u :: u in r <==> Id(u) in ids && FindUser(Id(u), users) == Some(u)
    ensures |r| <= |ids|
    ensures forall u :: u in r ==> u in users && Id(u) in ids
  {
    if ids == [] then []
    else
      var rest := UsersFromIds(ids[1..], users);
      var r := match FindUser(ids[0], users)
        case Some(u) => [u] + rest
        case None => rest;
      ResolvedStep(ids, users, rest, r);
      ResolvedMembers(ids, users, r);
      r
  }

  /** Resolving one more id in front: the pairing of resolving ids with
      profiles extends by that id's profile, if it has one. */
  lemma ResolvedStep(ids: seq<string>, users: seq<UserProfile>, rest: seq<UserProfile>, r: seq<UserProfile>)
    requires ids != []
    requires |rest| == |Filter(ids[1..], Resolves(users))|
    requires forall i :: 0 <= i < |rest| ==> FindUser(Filter(ids[1..], Resolves(users))[i], users) == Some(rest[i])
    requires FindUser(ids[0], users).Some? ==> r == [FindUser(ids[0], users).value] + rest
    requires FindUser(ids[0], users).None? ==> r == rest
    ensures |r| == |Filter(ids, Resolves(users))|
    ensures forall i :: 0 <= i < |r| ==> FindUser(Filter(ids, Resolves(users))[i], users) == Some(r[i])
  {
    var f, fr := Filter(ids, Resolves(users)), Filter(ids[1..], Resolves(users));
    if FindUser(ids[0], users).Some? {
      assert f == [ids[0]] + fr;
      forall i | 1 <= i < |r|
        ensures FindUser(f[i], users) == Some(r[i])
      {
        assert f[i] == fr[i - 1] && r[i] == rest[i - 1];
      }
    } else {
      assert f == fr;
    }
  }

  /** A list pairing each resolving id with its profile holds exactly the
      profiles that their own id resolves to. */
  lemma ResolvedMembers(ids: seq<string>, users: seq<UserProfile>, r: seq<UserProfile>)
    requires |r| == |Filter(ids, Resolves(users))|
    requires forall i :: 0 <= i < |r| ==> FindUser(Filter(ids, Resolves(users))[i], users) == Some(r[i])
    ensures forall u :: u in r <==> Id(u) in ids && FindUser(Id(u), users) == Some(u)
    ensures forall u :: u in r ==> u in users
  {
    var f := Filter(ids, Resolves(users));
    forall u
      ensures u in r <==> Id(u) in ids && FindUser(Id(u), users) == Some(u)
      ensures u in r ==> u in users
    {
      if u in r {
        var i :| 0 <= i < |r| && r[i] == u;
        assert f[i] in f;
      }
      if Id(u) in ids && FindUser(Id(u), users) == Some(u) {
        assert Resolves(users)(Id(u));
        assert Id(u) in f;
        var i :| 0 <= i < |f| && f[i] == Id(u);
        assert r[i] == u;
      }
    }
  }

  function PracticeLevelName(p: PracticeLevel): string {
    match p
    case Beginner => "beginner"
    case Intermediate => "intermediate"
    case Advanced => "advanced"
    case Scholar => "scholar"
  }

  function WorkStatusName(w: WorkStatus): string {
    match w
    case Student => "student"
    case Working => "working"
    case Homemaker => "homemaker"
    case Retired => "retired"
    case Unemployed => "unemployed"
  }

  const MillisPerDay: int := 1000 * 60 * 60 * 24

  /** `Math.floor((now - t) / (1000 * 60 * 60 * 24))`: whole days elapsed.
      Dafny's division by a positive divisor already rounds down. */
  function DaysSince(now: int, t: int): int {
    (now - t) / MillisPerDay
  }
}

=== FILE: validation.dfy ===
/** The sign-up form checks of src/utils/validation.ts. Each returns the
    first failing check's message, or `None` for JavaScript's `null`. */
module Validation {
  import opened Seqs
  import opened Strings

  // ---- Email ------------------------------------------------------------------------------

  const EmailRequired: string := "Email is required"
  const EmailInvalid: string := "Please enter a valid email address"

  /** A character of the class `[^\s@]`. */
  predicate Plain(c: char) {
    !IsJsWhitespace(c) && c != '@'
  }

  predicate AllPlain(s: string) {
    forall i :: 0 <= i < |s| ==> Plain(s[i])
  }

  /** The language of `^[^\s@]+@[^\s@]+\.[^\s@]+$`: a local part, an '@', a
      host part, a '.', and a last part, none of them empty and none holding
      whitespace or '@'. */
  ghost predicate EmailPattern(s: string) {
    exists k, j :: (0 < k && k + 1 < j < |s| - 1 && s[k] == '@' && s[j] == '.'
      && AllPlain(s[..k]) && AllPlain(s[k + 1..j]) && AllPlain(s[j + 1..]))
  }

  /** The position of the first `c`, or -1. */
  function IndexOf(s: string, c: char): (r: int)
    ensures -1 <= r < |s|
    ensures r == -1 <==> c !in s
    ensures r >= 0 ==> s[r] == c && c !in s[..r]
  {
    if s == [] then -1
    else if s[0] == c then 0
    else
      var k := IndexOf(s[1..], c);
      assert s == [s[0]] + s[1..];
      if k == -1 then -1
      else
        assert s[..k + 1] == [s[0]] + s[1..][..k];
        k + 1
  }

  /** The domain after the '@': no whitespace or '@', and a '.' that is
      neither its first nor its last character. */
  predicate DottedDomain(d: string) {
    |d| >= 3 && '.' in d[1..|d| - 1] && AllPlain(d)
  }

  /** The scan the check performs: split at the first '@'. */
  predicate EmailShape(s: string) {
    var at := IndexOf(s, '@');
    at > 0 && AllPlain(s[..at]) && DottedDomain(s[at + 1..])
  }

  /** The scan accepts exactly the language of the pattern. */
  lemma EmailShapeIff(s: string)
    ensures EmailShape(s) <==> EmailPattern(s)
  {
    if EmailShape(s) {
      ShapeGivesPattern(s);
    }
    if EmailPattern(s) {
      var k, j :| (0 < k && k + 1 < j < |s| - 1 && s[k] == '@' && s[j] == '.'
        && AllPlain(s[..k]) && AllPlain(s[k + 1..j]) && AllPlain(s[j + 1..]));
      PatternGivesShape(s, k, j);
    }
  }

  lemma ShapeGivesPattern(s: string)
    requires EmailShape(s)
    ensures EmailPattern(s)
  {
    var k := IndexOf(s, '@');
    var d := s[k + 1..];
    var i :| 0 <= i < |d[1..|d| - 1]| && d[1..|d| - 1][i] == '.';
    var j := k + 2 + i;
    assert s[j] == '.';
    assert s[k + 1..j] == d[..i + 1];
    assert s[j + 1..] == d[i + 2..];
    assert AllPlain(s[k + 1..j]) && AllPlain(s[j + 1..]);
  }

  lemma PatternGivesShape(s: string, k: int, j: int)
    requires 0 < k && k + 1 < j < |s| - 1 && s[k] == '@' && s[j] == '.'
    requires AllPlain(s[..k]) && AllPlain(s[k + 1..j]) && AllPlain(s[j + 1..])
    ensures EmailShape(s)
  {
    assert '@' !in s[..k];
    IndexOfFirst(s, '@', k);
    var d := s[k + 1..];
    assert d[1..|d| - 1][j - k - 2] == '.';
    forall m | 0 <= m < |d|
      ensures Plain(d[m])
    {
      if m < j - k - 1 {
        assert d[m] == s[k + 1..j][m];
      } else if m > j - k - 1 {
        assert d[m] == s[j + 1..][m - (j - k)];
      }
    }
  }

  /** The first occurrence of `c` is the position before which `c` does not
      occur. */
  lemma IndexOfFirst(s: string, c: char, k: int)
    requires 0 <= k < |s| && s[k] == c && c !in s[..k]
    ensures IndexOf(s, c) == k
  {
  }

  /** `validateEmail` */
  function ValidateEmail(email: string): (r: Option<string>)
    ensures email == [] <==> r == Some(EmailRequired)
    ensures email != [] && !EmailPattern(email) <==> r == Some(EmailInvalid)
    ensures r.None? <==> EmailPattern(email)
  {
    if email == [] then Some(EmailRequired)
    else if !EmailShape(email) then
      EmailShapeIff(email);
      Some(EmailInvalid)
    else
      EmailShapeIff(email);
      None
  }

  /** The readings the validation tests expect. */
  lemma ValidateEmailAcceptsExample()
    ensures ValidateEmail("test@example.com").None?
  {
    var s := "test@example.com";
    assert AllPlain(s[..4]) && AllPlain(s[5..12]) && AllPlain(s[13..]);
    PatternGivesShape(s, 4, 12);
    EmailShapeIff(s);
  }

  lemma ValidateEmailRejectsExamples()
    ensures ValidateEmail("invalid-email") == Some(EmailInvalid)
    ensures ValidateEmail("test@") == Some(EmailInvalid)
  {
    assert '@' !in "invalid-email";
    assert "test@"[0] != '@' && "test@"[1] != '@';
  }

  /** A second '@' anywhere makes an address invalid. */
  lemma TwoAtSignsInvalid(email: string, a: int, b: int)
    requires 0 <= a < b < |email| && email[a] == '@' && email[b] == '@'
    ensures ValidateEmail(email) == Some(EmailInvalid)
  {
    EmailShapeIff(email);
  }

  // ---- Password ---------------------------------------------------------------------------

  const PasswordRequired: string := "Password is required"
  const PasswordTooShort: string := "Password must be at least 6 characters"
  const PasswordTooWeak: string :=
    "Password must contain at least one uppercase letter, one lowercase letter, and one number"

  /** The minimum length, counted in characters. */
  const MinPasswordLength: int := 6

  predicate HasUpper(s: string) { exists i :: 0 <= i < |s| && 'A' <= s[i] <= 'Z' }
  predicate HasLower(s: string) { exists i :: 0 <= i < |s| && 'a' <= s[i] <= 'z' }
  predicate HasDigit(s: string) { exists i :: 0 <= i < |s| && '0' <= s[i] <= '9' }

  /** `validatePassword`: empty, then too short, then missing one of an
      ASCII capital, an ASCII small letter and an ASCII digit. */
  function ValidatePassword(password: string): (r: Option<string>)
    ensures r == Some(PasswordRequired) <==> password == []
    ensures r == Some(PasswordTooShort) <==> 0 < |password| < MinPasswordLength
    ensures r == Some(PasswordTooWeak) <==> (|password| >= MinPasswordLength
      && !(HasUpper(password) && HasLower(password) && HasDigit(password)))
    ensures r.None? <==> (|password| >= MinPasswordLength
      && HasUpper(password) && HasLower(password) && HasDigit(password))
  {
    if password == [] then Some(PasswordRequired)
    else if |password| < MinPasswordLength then Some(PasswordTooShort)
    else if !HasUpper(password) || !HasLower(password) || !HasDigit(password) then Some(PasswordTooWeak)
    else None
  }

  lemma ValidatePasswordExamples()
    ensures ValidatePassword("Password123").None?
    ensures ValidatePassword("Test123").None?
    ensures ValidatePassword("123") == Some(PasswordTooShort)
    ensures ValidatePassword("password") == Some(PasswordTooWeak)
    ensures ValidatePassword("PASSWORD123") == Some(PasswordTooWeak)
  {
    assert "Password123"[0] == 'P' && "Password123"[1] == 'a' && "Password123"[8] == '1';
    assert "Test123"[0] == 'T' && "Test123"[1] == 'e' && "Test123"[4] == '1';
    assert !HasUpper("password");
    assert !HasLower("PASSWORD123");
  }

  // ---- Confirmation -----------------------------------------------------------------------

  const ConfirmRequired: string := "Please confirm your password"
  const ConfirmMismatch: string := "Passwords do not match"

  /** `validateConfirmPassword`: an empty confirmation is reported before a
      mismatch. */
  function ValidateConfirmPassword(password: string, confirm: string): (r: Option<string>)
    ensures r == Some(ConfirmRequired) <==> confirm == []
    ensures r == Some(ConfirmMismatch) <==> confirm != [] && password != confirm
    ensures r.None? <==> confirm != [] && password == confirm
  {
    if confirm == [] then Some(ConfirmRequired)
    else if password != confirm then Some(ConfirmMismatch)
    else None
  }

  /** A password that passes its own check confirms itself; an empty
      password can never be confirmed. */
  lemma ConfirmOwnPassword(password: string)
    ensures ValidatePassword(password).None? ==> ValidateConfirmPassword(password, password).None?
    ensures ValidateConfirmPassword([], password).Some?
  {
  }

  // ---- Name -------------------------------------------------------------------------------

  const NameRequired: string := "Name is required"
  const NameTooShort: string := "Name must be at least 2 characters"

  /** `validateName`: required, then at least two characters once
      surrounding whitespace is trimmed. */
  function ValidateName(name: string): (r: Option<string>)
    ensures r == Some(NameRequired) <==> name == []
    ensures r == Some(NameTooShort) <==> name != [] && |Trim(name)| < 2
    ensures r.None? <==> |Trim(name)| >= 2
  {
    if name == [] then Some(NameRequired)
    else if |Trim(name)| < 2 then Some(NameTooShort)
    else None
  }

  /** Input made only of whitespace gets the length message. */
  lemma BlankNameTooShort(name: string)
    requires name != [] && forall i :: 0 <= i < |name| ==> IsJsWhitespace(name[i])
    ensures ValidateName(name) == Some(NameTooShort)
  {
    TrimEmptyIff(name);
  }

  /** Whitespace around a name does not change the verdict on a non-empty
      name. */
  lemma NamePaddingIgnored(name: string)
    requires name != []
    ensures ValidateName(" " + name + " ") == ValidateName(name)
  {
    TrimPadding(name);
  }

  lemma TrimPadding(s: string)
    ensures Trim(" " + s + " ") == Trim(s)
  {
    assert TrimStart(" " + s + " ") == TrimStart(s + " ") by {
      assert (" " + s + " ")[1..] == s + " ";
    }
    TrimStartAppend(s, " ");
    TrimEndSpace(TrimStart(s));
  }

  /** Trimming the front of `s + t` trims into `t` only when `s` is blank. */
  lemma {:induction false} TrimStartAppend(s: string, t: string)
    ensures TrimStart(s + t) == (if TrimStart(s) == [] then TrimStart(t) else TrimStart(s) + t)
  {
    if s == [] {
      assert s + t == t;
    } else {
      assert (s + t)[0] == s[0];
      assert (s + t)[1..] == s[1..] + t;
      TrimStartAppend(s[1..], t);
    }
  }

  lemma TrimEndSpace(s: string)
    ensures TrimEnd(s + " ") == TrimEnd(s)
  {
    assert (s + " ")[..|s|] == s;
  }

  /** A name of two or more characters that neither starts nor ends with
      whitespace is accepted. */
  lemma UnpaddedNameAccepted(name: string)
    requires |name| >= 2 && !IsJsWhitespace(name[0]) && !IsJsWhitespace(name[|name| - 1])
    ensures ValidateName(name).None?
  {
    TrimUnpadded(name);
  }

  lemma ValidateNameAcceptsExamples()
    ensures ValidateName("John Doe").None?
    ensures ValidateName("Test").None?
  {
    var john, test := "John Doe", "Test";
    assert john[0] == 'J' && john[7] == 'e';
    assert test[0] == 'T' && test[3] == 't';
    UnpaddedNameAccepted(john);
    UnpaddedNameAccepted(test);
  }

  lemma ValidateNameRejectsExamples()
    ensures ValidateName("A") == Some(NameTooShort)
    ensures ValidateName("  ") == Some(NameTooShort)
  {
    var blank := "  ";
    assert IsJsWhitespace(blank[0]) && IsJsWhitespace(blank[1]);
    BlankNameTooShort(blank);
  }

  /** Text that neither starts nor ends with whitespace trims to itself. */
  lemma TrimUnpadded(s: string)
    requires s != [] && !IsJsWhitespace(s[0]) && !IsJsWhitespace(s[|s| - 1])
    ensures Trim(s) == s
  {
  }
}

=== FILE: video_utils.dfy ===
/** The clock-free helpers of the video feature in utils.ts: duration
    formatting, the category table, the two keyword checks, hashtag
    suggestion and the engagement score. */
module VideoUtils {
  import opened Seqs
  import opened Strings
  import opened Scoring

  /** The counters of a video (`VideoStats` in types.ts). */
  datatype VideoStats = VideoStats(likes: real, comments: real, shares: real, views: real)

  /** The fields of `VideoData` these helpers read; the category is the raw
      string, so a value outside the ten known names can be expressed. */
  datatype Video = Video(title: string, description: string, category: string, stats: VideoStats)

  // ---- Duration -----------------------------------------------------------------------

  /** `s.padStart(n, c)` for a one-character pad. */
  function PadStart(s: string, n: nat, c: char): (r: string)
    ensures |s| >= n ==> r == s
    ensures |s| < n ==> |r| == n
    ensures |r| >= |s| && r[|r| - |s|..] == s
    ensures forall i :: 0 <= i < |r| - |s| ==> r[i] == c
  {
    if |s| >= n then s else seq(n - |s|, _ => c) + s
  }

  /** `formatDuration(seconds)` for a whole, non-negative number of
      seconds: minutes, a colon, and the remaining seconds on two digits. */
  function FormatDuration(seconds: nat): (r: string)
    ensures |r| >= 4 && r[|r| - 3] == ':'
    ensures r[..|r| - 3] == NatToString(seconds / 60)
    ensures IsDigit(r[|r| - 2]) && IsDigit(r[|r| - 1])
  {
    var secs := NatToString(seconds % 60);
    assert |secs| <= 2 by {
      if seconds % 60 >= 10 {
        assert secs == NatToString(seconds % 60 / 10) + [DigitChar(seconds % 60 % 10)];
      }
    }
    var padded := PadStart(secs, 2, '0');
    assert |padded| == 2;
    NatToString(seconds / 60) + ":" + padded
  }

  /** Reads `m:ss` back: digits, a colon, two digits. */
  function ParseDuration(t: string): (r: Option<nat>)
    ensures r.Some? ==> |t| >= 4
  {
    if |t| >= 4 && t[|t| - 3] == ':' && AllDigits(t[..|t| - 3]) && AllDigits(t[|t| - 2..]) then
      Some(ParseDigits(t[..|t| - 3]) * 60 + ParseDigits(t[|t| - 2..]))
    else None
  }

  /** A number below 100 is written with at most two digits. */
  lemma ShortNatToString(x: nat)
    requires x < 100
    ensures |NatToString(x)| <= 2
  {
    if x >= 10 {
      assert NatToString(x) == NatToString(x / 10) + [DigitChar(x % 10)];
    }
  }

  /** Padding one or two digits to two with zeros keeps their value. */
  lemma PadTwoDigits(s: string)
    requires 1 <= |s| <= 2 && AllDigits(s)
    ensures |PadStart(s, 2, '0')| == 2 && AllDigits(PadStart(s, 2, '0'))
    ensures ParseDigits(PadStart(s, 2, '0')) == ParseDigits(s)
  {
    var p := PadStart(s, 2, '0');
    if |s| == 1 {
      assert p == ['0'] + s;
      assert p[..1] == ['0'] && s[..0] == [];
      assert ParseDigits(p[..1]) == 0 by {
        assert p[..1][..0] == [];
      }
    }
  }

  /** The seconds field reads back as the remainder it was written from. */
  lemma PaddedSeconds(x: nat)
    requires x < 60
    ensures |PadStart(NatToString(x), 2, '0')| == 2
    ensures AllDigits(PadStart(NatToString(x), 2, '0'))
    ensures ParseDigits(PadStart(NatToString(x), 2, '0')) == x
  {
    ShortNatToString(x);
    ParseNatToString(x);
    PadTwoDigits(NatToString(x));
  }

  /** Digits, a colon and two digits read back as minutes and seconds. */
  lemma ParseJoined(minutes: string, secs: string, m: nat, s: nat)
    requires |minutes| >= 1 && AllDigits(minutes) && ParseDigits(minutes) == m
    requires |secs| == 2 && AllDigits(secs) && ParseDigits(secs) == s
    ensures ParseDuration(minutes + ":" + secs) == Some(m * 60 + s)
  {
    var t := minutes + ":" + secs;
    assert t[..|t| - 3] == minutes;
    assert t[|t| - 2..] == secs;
  }

  /** The two fields read back as the numbers they were written from. */
  lemma FieldsRoundTrip(q: nat, x: nat)
    requires x < 60
    ensures ParseDuration(NatToString(q) + ":" + PadStart(NatToString(x), 2, '0')) == Some(q * 60 + x)
  {
    PaddedSeconds(x);
    ParseNatToString(q);
    ParseJoined(NatToString(q), PadStart(NatToString(x), 2, '0'), q, x);
  }

  /** Formatting loses nothing: the text reads back as the same number of
      seconds. */
  lemma FormatDurationRoundTrip(seconds: nat)
    ensures ParseDuration(FormatDuration(seconds)) == Some(seconds)
  {
    var q, x := seconds / 60, seconds % 60;
    assert FormatDuration(seconds) == NatToString(q) + ":" + PadStart(NatToString(x), 2, '0');
    FieldsRoundTrip(q, x);
  }

  // ---- Categories ---------------------------------------------------------------------

  datatype CategoryInfo = CategoryInfo(name: string, icon: string, color: string, description: string)

  /** `ISLAMIC_CATEGORIES` of types.ts. The icons are the characters that
      file holds: each intended emoji's UTF-8 bytes read as Mac Roman (the
      quran icon, meant as U+1F4D6, is U+F8FF U+00FC U+00EC U+00F1). */
  const IslamicCategories: map<string, CategoryInfo> := map[
    "quran" := CategoryInfo("Quran Recitation", "\U{F8FF}\U{00FC}\U{00EC}\U{00F1}", "#2D5016",
      "Beautiful Quranic recitations and explanations"),
    "reminder" := CategoryInfo("Islamic Reminders", "\U{F8FF}\U{00FC}\U{00ED}\U{00B4}", "#8B4513",
      "Daily hadith, Islamic quotes, and spiritual motivation"),
    "friendship" := CategoryInfo("Sisterhood", "\U{F8FF}\U{00FC}\U{00ED}\U{00EF}", "#E91E63",
      "Sisters sharing halal activities and bonding moments"),
    "learning" := CategoryInfo("Islamic Learning", "\U{F8FF}\U{00FC}\U{00E9}\U{00EC}", "#673AB7",
      "Arabic lessons, Islamic history, and fiqh explanations"),
    "community" := CategoryInfo("Community Events", "\U{F8FF}\U{00FC}\U{00EF}\U{00E5}", "#2196F3",
      "Mosque activities, Islamic conferences, and gatherings"),
    "hijab" := CategoryInfo("Modest Fashion", "\U{F8FF}\U{00FC}\U{00EB}\U{00F3}", "#9C27B0",
      "Hijab tutorials and modest fashion inspiration"),
    "cooking" := CategoryInfo("Halal Cooking", "\U{F8FF}\U{00FC}\U{00E7}\U{03A9}\U{00D4}\U{220F}\U{00E8}", "#FF9800",
      "Halal recipes and traditional Islamic foods"),
    "nasheed" := CategoryInfo("Islamic Music", "\U{F8FF}\U{00FC}\U{00E9}\U{00B5}", "#4CAF50",
      "Beautiful nasheeds and Islamic songs"),
    "dua" := CategoryInfo("Duas & Supplications", "\U{F8FF}\U{00FC}\U{00A7}\U{2264}", "#795548",
      "Daily duas and their meanings"),
    "hadith" := CategoryInfo("Hadith Wisdom", "\U{F8FF}\U{00FC}\U{00EC}\U{00FA}", "#607D8B",
      "Prophetic teachings and their applications")]

  /** The record for a category outside the table. */
  const DefaultCategory: CategoryInfo :=
    CategoryInfo("Islamic Content", "\U{2728}", "#2D5016", "Islamic content for sisters")

  /** `getCategoryData(category)`: the table entry, or the default record. */
  function CategoryData(category: string): (r: CategoryInfo)
    ensures category in IslamicCategories ==> r == IslamicCategories[category]
    ensures r == DefaultCategory <==> category !in IslamicCategories
  {
    if category in IslamicCategories then
      assert IslamicCategories[category].name != DefaultCategory.name;
      IslamicCategories[category]
    else DefaultCategory
  }

  // ---- Keyword checks -------------------------------------------------------------------

  /** `${title} ${description}`.toLowerCase() */
  function VideoText(title: string, description: string): string {
    ToLower(title + " " + description)
  }

  const InappropriateKeywords: seq<string> := ["dating", "boyfriend", "girlfriend", "alcohol", "gambling"]

  /** The first keyword found in `text`, scanning `keywords` in order. */
  function FirstFound(text: string, keywords: seq<string>): (r: Option<string>)
    ensures r.None? <==> forall k :: k in keywords ==> !Contains(text, k)
    ensures r.Some? ==> r.value in keywords && Contains(text, r.value)
  {
    if keywords == [] then None
    else if Contains(text, keywords[0]) then
      assert keywords[0] in keywords;
      Some(keywords[0])
    else
      assert forall k :: k in keywords <==> k == keywords[0] || k in keywords[1..];
      FirstFound(text, keywords[1..])
  }

  /** `isContentAppropriate`: the loop returns false at the first listed
      keyword the lower-cased text contains. */
  function IsContentAppropriate(v: Video): (r: bool)
    ensures r <==> forall k :: k in InappropriateKeywords ==> !Contains(VideoText(v.title, v.description), k)
  {
    FirstFound(VideoText(v.title, v.description), InappropriateKeywords).None?
  }

  /** A keyword in the title alone is enough to reject. */
  lemma KeywordInTitleRejects(v: Video, k: string)
    requires k in InappropriateKeywords && Contains(ToLower(v.title), k)
    ensures !IsContentAppropriate(v)
  {
    LowerAppend(v.title, " " + v.description);
    assert v.title + " " + v.description == v.title + (" " + v.description);
    ContainsAppend(ToLower(v.title), ToLower(" " + v.description), k);
  }

  /** Writing the title and description in capitals changes nothing. */
  lemma ContentCheckIgnoresCase(v: Video)
    ensures IsContentAppropriate(v.(title := ToUpper(v.title), description := ToUpper(v.description)))
         == IsContentAppropriate(v)
  {
    LowerAppend(ToUpper(v.title), " " + ToUpper(v.description));
    LowerAppend(v.title, " " + v.description);
    LowerAppend(" ", ToUpper(v.description));
    LowerAppend(" ", v.description);
    LowerOfUpper(v.title);
    LowerOfUpper(v.description);
    assert ToUpper(v.title) + " " + ToUpper(v.description) == ToUpper(v.title) + (" " + ToUpper(v.description));
    assert v.title + " " + v.description == v.title + (" " + v.description);
  }

  /** The check matches inside words: a title containing "updating" is
      rejected for "dating". */
  lemma UpdatingIsRejected(v: Video)
    requires Contains(ToLower(v.title), "updating")
    ensures !IsContentAppropriate(v)
  {
    var w := "updating";
    assert w[2..8] == "dating";
    assert OccursAt(w, "dating", 2);
    ContainsIff(w, "dating");
    ContainsTransitive(ToLower(v.title), w, "dating");
    KeywordInTitleRejects(v, "dating");
  }

  const InappropriateTerms: seq<string> := ["haram", "dating", "boyfriend", "alcohol"]
  const IslamicTerms: seq<string> := ["allah", "islam", "muslim", "quran", "prophet", "hadith", "dua"]

  const TermIssuePrefix: string := "Content may contain inappropriate term: "
  const ThemesIssue: string := "Content should include Islamic themes or references"

  /** Texts longer than this must mention an Islamic term. */
  const ThemeCheckLength: int := 50

  function TermIssue(term: string): (m: string)
    ensures |m| == |TermIssuePrefix| + |term|
    ensures m[..|TermIssuePrefix|] == TermIssuePrefix && m[|TermIssuePrefix|..] == term
    ensures m != ThemesIssue
  {
    var m := TermIssuePrefix + term;
    assert m[8] != ThemesIssue[8];
    m
  }

  datatype ContentReview = ContentReview(isValid: bool, issues: seq<string>)

  /** One issue per listed term the text contains, in list order. */
  function TermIssues(lower: string, terms: seq<string>): (r: seq<string>)
    ensures |r| <= |terms|
    ensures forall m :: m in r <==> exists t :: t in terms && Contains(lower, t) && m == TermIssue(t)
  {
    if terms == [] then []
    else
      var rest := TermIssues(lower, terms[1..]);
      assert terms == [terms[0]] + terms[1..];
      if Contains(lower, terms[0]) then [TermIssue(terms[0])] + rest else rest
  }

  /** The issues for the inappropriate terms: one per term the text holds. */
  function TermFindings(lower: string): (found: seq<string>)
    ensures forall t :: t in InappropriateTerms ==> (TermIssue(t) in found <==> Contains(lower, t))
    ensures ThemesIssue !in found
    ensures found == [] <==> forall t :: t in InappropriateTerms ==> !Contains(lower, t)
  {
    var found := TermIssues(lower, InappropriateTerms);
    forall t | t in InappropriateTerms
      ensures TermIssue(t) in found <==> Contains(lower, t)
    {
      if TermIssue(t) in found {
        var t' :| t' in InappropriateTerms && Contains(lower, t') && TermIssue(t) == TermIssue(t');
        assert t == TermIssue(t)[|TermIssuePrefix|..] == t';
      }
    }
    assert found != [] ==> found[0] in found;
    found
  }

  /** `validateIslamicContent(text)` */
  function ValidateIslamicContent(text: string): (r: ContentReview)
    ensures r.isValid <==> r.issues == []
    ensures forall t :: t in InappropriateTerms ==> (TermIssue(t) in r.issues <==> Contains(ToLower(text), t))
    ensures ThemesIssue in r.issues <==> (|text| > ThemeCheckLength
      && forall t :: t in IslamicTerms ==> !Contains(ToLower(text), t))
    ensures r.isValid <==> (
      && (forall t :: t in InappropriateTerms ==> !Contains(ToLower(text), t))
      && (|text| <= ThemeCheckLength || exists t :: t in IslamicTerms && Contains(ToLower(text), t)))
  {
    var lower := ToLower(text);
    var found := TermFindings(lower);
    var hasIslamic := FirstFound(lower, IslamicTerms).Some?;
    var issues := found + (if !hasIslamic && |text| > ThemeCheckLength then [ThemesIssue] else []);
    ContentReview(|issues| == 0, issues)
  }

  /** Short texts never get the themes issue. */
  lemma ShortTextNeedsNoThemes(text: string)
    requires |text| <= ThemeCheckLength
    ensures ThemesIssue !in ValidateIslamicContent(text).issues
  {
  }

  /** "individual" contains "dua", so any text using it counts as
      mentioning an Islamic term. */
  lemma IndividualCountsAsIslamic(text: string)
    requires Contains(ToLower(text), "individual")
    ensures ThemesIssue !in ValidateIslamicContent(text).issues
  {
    var w := "individual";
    assert w[6..9] == "dua";
    assert OccursAt(w, "dua", 6);
    ContainsIff(w, "dua");
    ContainsTransitive(ToLower(text), w, "dua");
  }

  // ---- Hashtags -------------------------------------------------------------------------

  /** The category-based tags of the `switch`. */
  function CategoryTags(category: string): (r: seq<string>)
    ensures 2 <= |r| <= 3
    ensures NoDuplicates(r)
  {
    if category == "quran" then ["#QuranDaily", "#IslamicReminder", "#Recitation"]
    else if category == "friendship" then ["#SisterhoodGoals", "#MuslimSisters", "#IslamicFriendship"]
    else if category == "hijab" then ["#HijabStyle", "#ModestFashion", "#IslamicFashion"]
    else if category == "cooking" then ["#HalalFood", "#IslamicCooking", "#MuslimKitchen"]
    else if category == "learning" then ["#IslamicLearning", "#IslamicEducation", "#IslamicKnowledge"]
    else ["#IslamicContent", "#MuslimCommunity"]
  }

  datatype TagRule = TagRule(keyword: string, tag: string)

  /** The content-based tags, in the order the code tests them. */
  const ContentRules: seq<TagRule> := [
    TagRule("ramadan", "#Ramadan"), TagRule("eid", "#Eid"), TagRule("dua", "#Dua"),
    TagRule("hadith", "#Hadith"), TagRule("mosque", "#Mosque"), TagRule("prayer", "#Prayer")]

  function RuleTag(t: TagRule): string { t.tag }

  /** The tags whose keyword the content contains, in rule order. */
  function ContentTags(content: string, rules: seq<TagRule>): (r: seq<string>)
    ensures |r| <= |rules|
    ensures forall t :: t in r <==> exists i :: 0 <= i < |rules| && rules[i].tag == t && Contains(content, rules[i].keyword)
    ensures IsSubsequence(r, Map(rules, RuleTag))
  {
    if rules == [] then []
    else
      var rest := ContentTags(content, rules[1..]);
      assert forall i :: 0 <= i < |rules[1..]| ==> rules[1..][i] == rules[i + 1];
      assert Map(rules, RuleTag)[1..] == Map(rules[1..], RuleTag);
      if Contains(content, rules[0].keyword) then
        var r := [rules[0].tag] + rest;
        assert r[1..] == rest;
        r
      else
        rest
  }

  /** Rules with distinct tags yield each tag at most once. */
  lemma {:induction false} ContentTagsDistinct(content: string, rules: seq<TagRule>)
    requires NoDuplicates(Map(rules, RuleTag))
    ensures NoDuplicates(ContentTags(content, rules))
  {
    if rules != [] {
      var rest := ContentTags(content, rules[1..]);
      var tags := Map(rules, RuleTag);
      assert tags[1..] == Map(rules[1..], RuleTag);
      DistinctCons(tags);
      ContentTagsDistinct(content, rules[1..]);
      if Contains(content, rules[0].keyword) {
        var r := [rules[0].tag] + rest;
        assert r[1..] == rest;
        forall t | t in rest
          ensures t in tags[1..]
        {
          var k :| 0 <= k < |rules[1..]| && rules[1..][k].tag == t && Contains(content, rules[1..][k].keyword);
          assert tags[1..][k] == t;
        }
        DistinctCons(r);
      }
    }
  }

  /** The cap on suggestions. */
  const MaxSuggestions: int := 5

  /** `suggestHashtags`: category tags, then content tags, each once, at
      most five. */
  function SuggestHashtags(title: string, description: string, category: string): (r: seq<string>)
    ensures |r| <= MaxSuggestions
    ensures NoDuplicates(r)
    ensures CategoryTags(category) <= r
    ensures forall t :: t in r ==> t in CategoryTags(category) || t in ContentTags(VideoText(title, description), ContentRules)
    ensures |r| < MaxSuggestions ==> forall t :: t in ContentTags(VideoText(title, description), ContentRules) ==> t in r
    ensures r == SliceTo(CategoryTags(category)
                         + Filter(ContentTags(VideoText(title, description), ContentRules), Outside(CategoryTags(category))),
                         MaxSuggestions)
  {
    var cats := CategoryTags(category);
    var content := ContentTags(VideoText(title, description), ContentRules);
    ContentRuleTagsDistinct();
    ContentTagsDistinct(VideoText(title, description), ContentRules);
    FilterKeepsDistinct(content, Outside(cats));
    DedupOfDistinct(Filter(content, Outside(cats)));
    MergeDistinct(cats, content, MaxSuggestions)
  }

  /** No two content rules share a tag. */
  lemma ContentRuleTagsDistinct()
    ensures NoDuplicates(Map(ContentRules, RuleTag))
  {
    var tags := Map(ContentRules, RuleTag);
    assert tags == ["#Ramadan", "#Eid", "#Dua", "#Hadith", "#Mosque", "#Prayer"];
  }

  /** A text naming Ramadan, Eid and prayer earns those three tags. */
  lemma SeasonalTags(text: string)
    requires Contains(text, "ramadan") && Contains(text, "eid") && Contains(text, "prayer")
    ensures "#Ramadan" in ContentTags(text, ContentRules)
    ensures "#Eid" in ContentTags(text, ContentRules)
    ensures "#Prayer" in ContentTags(text, ContentRules)
  {
    assert ContentRules[0].tag == "#Ramadan" && ContentRules[1].tag == "#Eid" && ContentRules[5].tag == "#Prayer";
  }

  /** The Quran category's tags and the three seasonal tags are six
      different tags. */
  lemma QuranAndSeasonalDistinct()
    ensures NoDuplicates(CategoryTags("quran") + ["#Ramadan", "#Eid", "#Prayer"])
  {
    assert CategoryTags("quran") + ["#Ramadan", "#Eid", "#Prayer"]
        == ["#QuranDaily", "#IslamicReminder", "#Recitation", "#Ramadan", "#Eid", "#Prayer"];
  }

  /** The cap can bite: a Quran video about Ramadan, Eid and prayer keeps
      only two of its three content tags. */
  lemma SuggestionsCanBeCut(title: string, description: string)
    requires Contains(VideoText(title, description), "ramadan")
    requires Contains(VideoText(title, description), "eid")
    requires Contains(VideoText(title, description), "prayer")
    ensures |SuggestHashtags(title, description, "quran")| == MaxSuggestions
  {
    SeasonalTags(VideoText(title, description));
    QuranAndSeasonalDistinct();
    FullWhenMany(SuggestHashtags(title, description, "quran"), CategoryTags("quran"), ["#Ramadan", "#Eid", "#Prayer"], MaxSuggestions);
  }

  /** A duplicate-free list that begins with `first`, and holds all of
      `extra` unless it has reached its cap `n`, has reached the cap when
      `first` and `extra` together are more than `n` different items. */
  lemma FullWhenMany(r: seq<string>, first: seq<string>, extra: seq<string>, n: int)
    requires NoDuplicates(first + extra) && n < |first + extra| && |r| <= n
    requires first <= r
    requires |r| < n ==> forall x :: x in extra ==> x in r
    ensures |r| == n
  {
    var all := first + extra;
    if |r| < n {
      forall x | x in all
        ensures x in r
      {
        var i :| 0 <= i < |all| && all[i] == x;
        if i < |first| {
          assert r[i] == first[i];
        } else {
          assert extra[i - |first|] == x;
        }
      }
    }
    DistinctIncluded(all, r);
  }

  // ---- Engagement -----------------------------------------------------------------------

  /** `calculateEngagementScore`: 40% likes, 30% comments and 30% shares per
      view, in percent, capped at 100; 0 without views. */
  function EngagementScore(stats: VideoStats): (r: real)
    ensures stats.views == 0.0 ==> r == 0.0
    ensures r <= 100.0
    ensures stats.likes >= 0.0 && stats.comments >= 0.0 && stats.shares >= 0.0 && stats.views >= 0.0 ==> r >= 0.0
  {
    if stats.views == 0.0 then 0.0
    else
      var v := stats.views;
      var score := stats.likes / v * 0.4 + stats.comments / v * 0.3 + stats.shares / v * 0.3;
      assert stats.likes >= 0.0 && stats.comments >= 0.0 && stats.shares >= 0.0 && v > 0.0 ==> score >= 0.0 by {
        if stats.likes >= 0.0 && stats.comments >= 0.0 && stats.shares >= 0.0 && v > 0.0 {
          DivNonNeg(stats.likes, v);
          DivNonNeg(stats.comments, v);
          DivNonNeg(stats.shares, v);
        }
      }
      if score * 100.0 <= 100.0 then score * 100.0 else 100.0
  }

  lemma DivNonNeg(a: real, v: real)
    requires a >= 0.0 && v > 0.0
    ensures a / v >= 0.0
  {
  }

  /** The weighted interactions per view, as one quotient. */
  lemma EngagementQuotient(stats: VideoStats)
    requires stats.views > 0.0
    ensures EngagementScore(stats) == (if (0.4 * stats.likes + 0.3 * stats.comments + 0.3 * stats.shares) / stats.views >= 1.0
      then 100.0
      else (0.4 * stats.likes + 0.3 * stats.comments + 0.3 * stats.shares) / stats.views * 100.0)
  {
    var v := stats.views;
    assert stats.likes / v * 0.4 + stats.comments / v * 0.3 + stats.shares / v * 0.3
        == (0.4 * stats.likes + 0.3 * stats.comments + 0.3 * stats.shares) / v;
  }

  /** The score reaches the cap exactly when the weighted interactions
      reach the number of views. */
  lemma EngagementCapIff(stats: VideoStats)
    requires stats.views > 0.0
    ensures EngagementScore(stats) == 100.0 <==> 0.4 * stats.likes + 0.3 * stats.comments + 0.3 * stats.shares >= stats.views
  {
    EngagementQuotient(stats);
    var w := 0.4 * stats.likes + 0.3 * stats.comments + 0.3 * stats.shares;
    QuotientAtLeastOne(w, stats.views);
  }

  lemma QuotientAtLeastOne(w: real, v: real)
    requires v > 0.0
    ensures w / v >= 1.0 <==> w >= v
    ensures w / v * 100.0 == 100.0 <==> w == v
  {
    assert w == w / v * v;
  }

  /** More likes never lower the score. */
  lemma EngagementMonotoneInLikes(stats: VideoStats, more: real)
    requires stats.views > 0.0 && more >= stats.likes
    ensures EngagementScore(stats.(likes := more)) >= EngagementScore(stats)
  {
    EngagementQuotient(stats);
    EngagementQuotient(stats.(likes := more));
    var v := stats.views;
    var w := 0.4 * stats.likes + 0.3 * stats.comments + 0.3 * stats.shares;
    var w' := 0.4 * more + 0.3 * stats.comments + 0.3 * stats.shares;
    QuotientMono(w, w', v);
  }

  lemma QuotientMono(w: real, w': real, v: real)
    requires w <= w' && v > 0.0
    ensures w / v <= w' / v
  {
    assert w' / v - w / v == (w' - w) / v;
    DivNonNeg(w' - w, v);
  }
}
